=== FILE: README.md ===
# Ekos session analyzer — a Dafny model

This project models the core of the Ekos session analyzer, a tool that reads the
`.analyze` logs written by the KStars/Ekos astrophotography suite. The logs are
comma-separated lines of the form `Command,offset,fields…`. The model covers:

- **the streaming decoder** (`realtime_parser.dfy`). It turns log lines into events
  (captures, autofocus, guiding, mount, scheduler, alignment and meridian flips) and runs
  the guide-alert state machine: lost-guide, recovered and frequent-reacquire alerts.
- **the batch parser** (`batch_parser.dfy`). It turns one log into a session record.
  A field that fails to convert ends the parse and keeps what was read.
- **the log finder** (`analyze_files.dfy`). It selects the logs whose file-name time is
  at or after a cutoff, sorted.
- **the aggregator** (`aggregator.dfy`). It merges sessions into capture groups keyed by
  object and filter, with temperature, autofocus, guide and alignment statistics, target
  objects, the session duration and the issues. Each capture gets the object name of its
  session.
- **the real-time monitor** (`monitor.dfy`). It keeps per-session counters and handles
  the inactivity timeout, switching to a newer log and incremental reading of a log.
- **the advanced metrics** (`metrics.dfy`). These are the seeing and trend thresholds,
  the quality score, thermal stability, success rate and productivity, efficiency and
  the performance alerts.
- **the report decisions** (`formatter.dfy`, `filter_blocks.dfy`). These are the duration
  text, the no-data guard, the conditions and mount-tracking lines, the guide vote, the
  failure attribution by filter, and the grouping, ordering and packing of the
  per-object blocks into messages the program aims to keep within 1900 characters (see
  "## Findings"; `FilterBlocks.SplitCorrected` guarantees it for messages of more than
  one block).

Support modules:

- `options.dfy`: `Option`.
- `text.dfy`: Python's `strip` and `split`.
- `numbers.dfy`: decimal `int()`/`float()` and number printing.
- `sorting.dfy`: stable sorts.
- `stats.dfy`: sums, minimum, maximum and mean.
- `events.dfy`: the decoder's event records.

Every operation is a pure function over immutable data.

- Each stateful object of the program is a datatype: the decoder, the monitor and the
  file watcher.
- A method that mutates state becomes a function returning the next state together with
  what the method emits.
- What the program reads from outside the model is a parameter:
  - the wall clock (`now`);
  - `strptime` of a session start (`clock`);
  - square roots and numpy's standard deviation and regression slope (`root`, `slope`);
  - file contents and sizes (`files`, `size`);
  - the listing of the log directory (`paths`, `latest`);
  - the rendering of the full report (`render`).

Where the program would raise, the model says so explicitly: `Option` or `Stop` for
parse failures, `Section.Raises` for a report section that would raise, and the
`raised` flag of `Monitor.ProcessEvents` for an alignment event, whose notifier method
does not exist (see "## Findings").

Some behaviours of the code are worth stating plainly, since a reader might expect
otherwise:

- **No sub-sessions.** `ekos_analyzer.py` builds no sub-sessions: it does not split
  captures at idle gaps or expand guide windows. The per-filter analysis that the report
  blocks consume is therefore an input of `FilterBlocks`.
- **No HFR backfill.** `ekos_analyzer.py` does not fill in missing HFR values from
  autofocus runs.
- **One object per session.** Every capture of a session gets one object name: that of
  the session's latest started job, or else a name derived from the file name
  (`Aggregator.SessionObjectName`).
- **Partial lines.** A line caught half-written is returned as it stands, and the rest
  comes with the next read (`Monitor.PartialLineSplit`).

Three facts the model exposes about the code as written:

- The quality score's clamp to [0, 100] never changes it: the sum always lies in
  [20, 100] (`Metrics.QualityScore`).
- The thermal stability score is not monotone: it rises from 0.6 to 0.75 as the
  temperature range reaches 5 degrees (`Metrics.ThermalScoreJumpAtFive`).
- The temperature analysis never runs in the program: the report passes the aggregate,
  which has no `temperature_readings` key, so the readings are always empty there
  (`Metrics.MetricsOfAggregate`). `Metrics.AllMetrics` still takes the readings as a
  parameter, as the calculator itself does.

## Model

| member | source | states |
|---|---|---|
| RealtimeParser.Reset | realtime_parser.py:36-71 | a reset parser has no pending capture, autofocus, lost-guide episode, reacquire history, alignment, parking or job |
| RealtimeParser.HandleSessionStart | realtime_parser.py:155-165 | a session start emits one event with the start time and time zone and records both, changing nothing else |
| RealtimeParser.HandleCaptureStarting | realtime_parser.py:167-174 | a capture start emits nothing, records its offset and touches only the three pending-capture fields |
| RealtimeParser.HandleCaptureComplete | realtime_parser.py:176-208 | a completion line yields an event exactly when its exposure, HFR and optional star, detection and eccentricity fields all parse, and each of those reads back from its field; the filter and file name are the stripped fourth and sixth fields; the object is the one named by the file path, or the current job when the path names none; the duration runs from a truthy pending start, else it is the exposure; an unparsable line changes nothing; the pending start is cleared |
| RealtimeParser.HandleCaptureAborted | realtime_parser.py:210-225 | an abort yields an event exactly when its exposure parses, carrying the pending filter and current job, and clears the pending start; otherwise nothing changes |
| RealtimeParser.HandleAfStarting | realtime_parser.py:227-234 | an autofocus start emits nothing and records its offset and stripped filter, touching only the autofocus fields |
| RealtimeParser.SolutionInfo | realtime_parser.py:250-263 | no `Solution:` in the line gives three empty fields; the position is empty exactly when the solution text is, the position is part of that text and the text part of the line; an R² value implies a position |
| RealtimeParser.SolutionInfoFields | realtime_parser.py:250-263 | with `Solution:` in the line, the solution text is the stripped text after its last occurrence, the position is that text's first whitespace-separated token, R² is the stripped text after the last `R²=` in it (empty without one), and all three are empty when that text is blank |
| RealtimeParser.SolutionFields | realtime_parser.py:254-261 | of a solution text: the position is its first token, R² the stripped text after its last `R²=`, and nothing is found in a blank text |
| RealtimeParser.HandleAfComplete | realtime_parser.py:236-282 | without a pending start nothing happens; otherwise one event whose duration is measured from the start, whose filter is the start's, whose temperature is the parsed field or else the start's temperature, whose position, R² and solution text are those read from the joined line, and the start is consumed |
| RealtimeParser.HandleAfAborted | realtime_parser.py:284-297 | an autofocus abort always emits one event, with zero duration unless a truthy start is pending, and clears the start |
| RealtimeParser.KeepAfter | realtime_parser.py:326-328 | the reacquire history keeps the times after the cutoff, each as often as it occurs, and no other |
| RealtimeParser.KeepAfterAppend | realtime_parser.py:326-328 | pruning two histories is pruning each in turn, so the kept times stay in order |
| RealtimeParser.OnGuiding | realtime_parser.py:307-322 | `Guiding` marks guiding active and clears the lost episode; it reports a recovery exactly when an alerted lost episode was open, with the time since the loss |
| RealtimeParser.OnReacquiring | realtime_parser.py:324-342 | `Reacquiring` keeps exactly the recorded times, this one appended, that are inside the window, in order (this one included when the window is positive), and alerts exactly when at least the configured count remain and the last alert is older than the window, recording the alert time |
| RealtimeParser.OnStopped | realtime_parser.py:344-363 | `Aborted` or `Idle` opens a lost episode only when guiding was active and none was open, and alerts exactly once per episode, when the loss has lasted at least the threshold |
| RealtimeParser.HandleGuideState | realtime_parser.py:299-371 | the guide-state handler records the state and time, touches only guide fields, keeps the guide invariant, emits at most one event, and each kind of event comes only from its own state word; unknown words change nothing else |
| RealtimeParser.HandleMountState | realtime_parser.py:375-405 | `Parking` sets the parking flag and anything else clears it; a parking event is emitted exactly on entering `Parking`, a parked event exactly on `Parked` after parking |
| RealtimeParser.HandleSchedulerStart | realtime_parser.py:407-414 | a job start emits its event and makes the job current |
| RealtimeParser.HandleSchedulerEnd | realtime_parser.py:416-426 | a job end emits its event with the reason and clears the current job |
| RealtimeParser.HandleAlignState | realtime_parser.py:428-463 | `In Progress` starts an alignment once; an event is emitted exactly when an alignment in progress ends with `Complete`, `Failed` or `Aborted`, complete only for `Complete`, lasting from a truthy start time (0 otherwise), and the alignment is closed; other words change nothing |
| RealtimeParser.HandleMeridianFlip | realtime_parser.py:465-477 | exactly the three flip states yield one flip event with that state |
| RealtimeParser.PicturesIndex | realtime_parser.py:488-491 | finds the first `Pictures` component that has a component after it, or proves there is none |
| RealtimeParser.ObjectTokensBetweenDateAndLight | realtime_parser.py:501-510 | the token loop collects exactly the tokens after the first date-like token and before the next `Light`, and nothing without a date token |
| RealtimeParser.FoundDateTakesUntilLight | realtime_parser.py:501-508 | once a date has been seen the loop takes the tokens up to the first `Light` |
| RealtimeParser.ExtractObjectFromFilename | realtime_parser.py:479-514 | an empty path gives an empty name, and no name holds `_`, `/` or `\` |
| RealtimeParser.ObjectNameRules | realtime_parser.py:483-514 | the name is the path component after the first `Pictures` that has one, with `_` read as a space; without one, it is the base name's tokens between the first date-like token and the next `Light`, joined with spaces, when the base name has more than two tokens and that run is non-empty; otherwise it is empty |
| RealtimeParser.TakeUntilLight | realtime_parser.py:504-509 | the collected tokens are the longest prefix free of `Light` |
| RealtimeParser.DateToLight | realtime_parser.py:499-509 | no collected token is `Light` |
| RealtimeParser.Dispatch | realtime_parser.py:123-151 | a command outside the known set, or with too few fields, changes nothing and emits nothing; every command emits at most one event; every command but a full guide-state line leaves the guide fields alone and emits no guide problem |
| RealtimeParser.Classify | realtime_parser.py:103-121 | blank and comment lines, lines with fewer than two fields and lines other than a three-field session start whose offset does not parse are skipped, and only those; a timed line has at least two fields |
| RealtimeParser.ProcessLine | realtime_parser.py:101-153 | a line yields at most one event; a blank or comment line, a line with fewer than two fields, and a line other than a three-field session start whose offset does not parse all leave the state unchanged and emit nothing |
| RealtimeParser.ProcessLinesAppend | realtime_parser.py:93-99 | feeding lines in two chunks gives the same state and events as feeding them at once |
| RealtimeParser.IgnoredLinesChangeNothing | realtime_parser.py:103-105 | a run of blank and comment lines changes neither state nor events |
| RealtimeParser.ProcessLineGuide | realtime_parser.py:137-138 | a `GuideState` line is exactly the guide-state handler; any other line leaves the guide fields alone and emits no guide problem |
| RealtimeParser.ProcessLineLost | realtime_parser.py:344-363 | one line keeps the guide invariant, and its lost and recovered alerts alternate with the alerted flag |
| RealtimeParser.LostAlertsAlternate | realtime_parser.py:307-363 | over any run of lines, lost and recovered alerts alternate, starting from the alerted flag and ending at it |
| RealtimeParser.ProcessLineReacquire | realtime_parser.py:324-342 | one line's reacquire alerts are more than a window apart and end at the recorded alert time |
| RealtimeParser.GuideStateReacquire | realtime_parser.py:324-342 | the guide-state handler's reacquire alerts are more than a window after the last one and are recorded |
| RealtimeParser.ReacquireAlertsSpaced | realtime_parser.py:330-342 | over any run of lines, successive frequent-reacquire alerts are more than a window apart |
| RealtimeParser.CaptureDurationFromStart | realtime_parser.py:167-208 | a completion after a start at a non-zero offset lasts from that start and clears it |
| RealtimeParser.AutofocusCompleteOnce | realtime_parser.py:236-238 | a second autofocus completion without a new start emits nothing |
| BatchParser.EmptySession | ekos_analyzer.py:58-72 | a fresh session record holds the file path, no records, no start and no version |
| BatchParser.KStarsVersion | ekos_analyzer.py:82-85 | the version is the non-empty run of digits and dots after the first `version ` that is followed by one, and is absent exactly when no `version ` is followed by a digit or dot |
| BatchParser.VersionAt | ekos_analyzer.py:83 | finds the first `version ` followed by a digit or dot, or proves there is none |
| BatchParser.BeforeDot | ekos_analyzer.py:101-102 | the start time is cut at its first dot: the result is a dot-free prefix, the whole text when it has no dot |
| BatchParser.FocusPosition | ekos_analyzer.py:190-193 | a focus position is found exactly when some `Solution: ` is followed by a digit, and it is the decimal value of the whole digit run after the leftmost such occurrence |
| BatchParser.SolutionAt | ekos_analyzer.py:191 | finds the leftmost `Solution: ` followed by a digit at or after the start, and none exactly when there is no such occurrence |
| BatchParser.CaptureCompleteRecord | ekos_analyzer.py:148-158 | a completion record takes its offset, exposure and filter from the line; the HFR is absent exactly for `-1.000` and the star count exactly when the field is missing or `-1`; the record fails (raising in the source) exactly when a field that is read does not parse |
| BatchParser.Append | ekos_analyzer.py:116-240 | appending an entry extends the session by that one record and keeps the start and version |
| BatchParser.EntryOf | ekos_analyzer.py:113-240 | unknown event types add nothing; state, alignment and scheduler lines always add their record with the third field as read; a completion line adds its record or fails when the record does |
| BatchParser.TemperatureLine | ekos_analyzer.py:113-120 | a temperature record exists exactly when the value parses, and holds the line time and that value |
| BatchParser.MountCoordsLine | ekos_analyzer.py:129-138 | a coordinate record exists exactly when RA, Dec, azimuth and altitude all parse, and holds each of them |
| BatchParser.CaptureStartingLine | ekos_analyzer.py:139-147 | a capture-start record exists exactly when the exposure parses, and holds it with the filter and no HFR or star count |
| BatchParser.CaptureAbortedLine | ekos_analyzer.py:160-166 | an abort is recorded unless a given exposure fails to parse; the exposure is present exactly when a third field is given, and then it is that field's value |
| BatchParser.AutofocusStartingLine | ekos_analyzer.py:167-176 | an autofocus start exists exactly when temperature and step parse, and holds them with the filter |
| BatchParser.AutofocusCompleteLine | ekos_analyzer.py:177-196 | an autofocus completion exists exactly when temperature and step parse; it holds them, the filter, the last field as solution when there are more than six, and a focus position exactly when a non-empty solution yields one |
| BatchParser.GuideStatsLine | ekos_analyzer.py:197-211 | a guide record exists exactly when offsets, pulses, distance and the given RMS and SNR parse; each field reads back from its column, and a missing RMS or SNR is 0 |
| BatchParser.AddRecord | ekos_analyzer.py:113-240 | an event type with too few fields adds nothing; otherwise the session is extended by the entry, and the parse stops exactly when a field fails to convert |
| BatchParser.ClassifyLine | ekos_analyzer.py:79-92 | a record line has at least two fields |
| BatchParser.ParseLine | ekos_analyzer.py:78-240 | one line adds at most one record and keeps what was there |
| BatchParser.ParseLines | ekos_analyzer.py:74-243 | the parse only ever extends the session, by at most one record per line |
| BatchParser.ParseAnalyzeFile | ekos_analyzer.py:56-245 | the result carries the file path and at most one record per line |
| BatchParser.ParseLinesAppend | ekos_analyzer.py:78 | parsing in two chunks is parsing the second chunk from where the first ended, unless the first stopped |
| BatchParser.StopKeepsPrefix | ekos_analyzer.py:242-245 | a line that raises ends the parse with everything before it kept and nothing after it read |
| BatchParser.CommentLinesAddNothing | ekos_analyzer.py:80-86 | blank lines and comments other than the version header add nothing |
| BatchParser.UnreadableOffsetSkipped | ekos_analyzer.py:88-111 | a line with fewer than two fields, or whose offset does not parse, is skipped |
| BatchParser.SessionStartTruncated | ekos_analyzer.py:95-104 | a start line records its time cut at the first dot and nothing else |
| BatchParser.CaptureCompleteLine | ekos_analyzer.py:148-158 | a complete capture line appends its record, or stops the parse when the record does not convert |
| AnalyzeFiles.DaysInMonth | ekos_analyzer.py:46 | a month has 28 to 31 days, the calendar `strptime` checks against |
| AnalyzeFiles.Basename | ekos_analyzer.py:35 | the base name is the slash-free suffix after the last `/` |
| AnalyzeFiles.FileTime | ekos_analyzer.py:36-46 | a file time exists only for a name matching `ekos-YYYY-MM-DDTHH-MM-SS.analyze`; its six fields are the name's digit groups, and a matching name yields none only when those digits are not a calendar time |
| AnalyzeFiles.Filter | ekos_analyzer.py:33-49 | keeps exactly the listed paths whose file time is at or after the cutoff, each as often as listed |
| AnalyzeFiles.FindAnalyzeFiles | ekos_analyzer.py:20-54 | the result is sorted and holds exactly the selected paths, each as often as listed |
| AnalyzeFiles.PadDigits | ekos_analyzer.py:37 | a zero-padded field of width `w` reads back as its number |
| AnalyzeFiles.FileTimeOfAnalyzeName | ekos_analyzer.py:36-46 | the name written for a valid time reads back as that time |
| AnalyzeFiles.NameLayout | ekos_analyzer.py:37 | a log name is 32 characters with its fields at fixed positions |
| AnalyzeFiles.LeapDayRule | ekos_analyzer.py:46 | February 29 is a valid date exactly in leap years |
| Aggregator.LatestStart | ekos_analyzer.py:503-506 | picks a started job with the greatest timestamp, the first such on ties, and is absent exactly when no job started |
| Aggregator.ObjectNameFromScheduler | ekos_analyzer.py:497-509 | a name is found exactly when some job started, and it is the latest started job's object |
| Aggregator.ExtractObjectName | ekos_analyzer.py:511-519 | the fallback name is `Unknown` exactly when the base name does not start with `ekos-` and a date, and otherwise `Session_` followed by that date |
| Aggregator.SessionObjectName | ekos_analyzer.py:293 | a session's object is the latest started job's name when that is non-empty, else the name derived from the file path; it is never empty |
| Aggregator.Completed | ekos_analyzer.py:287 | keeps the completed captures in order, each as often as it occurs, and no other |
| Aggregator.CompletedAppend | ekos_analyzer.py:287 | selecting completed captures keeps input order across concatenation |
| Aggregator.FindGroup | ekos_analyzer.py:294-295 | finds the group with the object and filter key, or proves there is none |
| Aggregator.AddToGroup | ekos_analyzer.py:294-295 | filing a capture keeps keys distinct, adds one capture, opens a group only at the end for a new key, and files the capture under its key; every group ends with exactly the capture when it has the capture's key and is otherwise unchanged |
| Aggregator.AddAll | ekos_analyzer.py:291-295 | filing a session's captures adds exactly their number, and every one is filed under the session's object; each group of the session's object gains exactly the captures with its filter, appended in log order, and every other group is unchanged |
| Aggregator.AddAllContents | ekos_analyzer.py:291-295 | filing the first capture and then the rest appends to each group exactly the captures with its key, in order |
| Aggregator.CaptureSummary | ekos_analyzer.py:285-295 | the summary counts every completed capture of every session once, with distinct keys, each capture under its session's object and filter; each group holds exactly the completed captures of the sessions attributed to its object that carry its filter, in session order and log order within a session |
| Aggregator.SummaryContents | ekos_analyzer.py:285-295 | filing the first session and then the rest gives each group the captures of all sessions for its key, in session order |
| Aggregator.TemperatureStatsOf | ekos_analyzer.py:359-367 | temperature statistics exist exactly when there are readings; min and max are attained readings that bound every reading, and avg is their mean |
| Aggregator.ValidTemperatures | ekos_analyzer.py:372 | keeps every autofocus temperature above the Ekos placeholder, each as often as it occurs, and no other; empty exactly when all are placeholders |
| Aggregator.ValidTemperaturesAppend | ekos_analyzer.py:372 | the valid temperatures of two run lists are those of each in turn |
| Aggregator.AutofocusStatsOf | ekos_analyzer.py:369-376 | autofocus statistics exist exactly when there are runs; the average temperature is absent exactly when all temperatures are placeholders and is otherwise the mean of the valid ones |
| Aggregator.GradeDistance | ekos_analyzer.py:465-473 | grades a mean distance Excellent below 1, Good below 2, Average below 3, else Poor, each as an if-and-only-if |
| Aggregator.GradeMonotone | ekos_analyzer.py:465-473 | a larger mean distance never gets a better grade |
| Aggregator.GuideQualityFromDistance | ekos_analyzer.py:458-473 | no distances grade as Unknown; otherwise the grade of their mean |
| Aggregator.GuideQuality | ekos_analyzer.py:475-495 | no statistics give Unknown, no positive distance gives No Data, otherwise the grade of the positive distances' mean |
| Aggregator.Inliers | ekos_analyzer.py:389 | keeps the distances of at most 10, each as often as it occurs, and no other |
| Aggregator.InliersAppend | ekos_analyzer.py:389 | the inliers of two lists are those of each in turn |
| Aggregator.MeanOr0 | ekos_analyzer.py:396-400 | the result is the mean of the list (sum over count), or 0 for an empty list |
| Aggregator.GuideSummaryOf | ekos_analyzer.py:378-402 | guide statistics exist exactly when there are measurements and count them all; the average and maximum distance are the mean and the attained maximum of the inlier distances (0 without inliers); the RMS average is the mean of the positive RMS values; the RA and Dec averages are the means of the absolute offsets; the quality is the grade of the inlier distances |
| Aggregator.PositiveRms | ekos_analyzer.py:390 | keeps the positive RMS values, each as often as it occurs, and no other |
| Aggregator.CountState | ekos_analyzer.py:406-407 | a state count never exceeds the number of states |
| Aggregator.CountStateWords | ekos_analyzer.py:406-407 | the count of a state is its multiplicity among the state words |
| Aggregator.CountStateAppend | ekos_analyzer.py:406-407 | counting over two state lists adds the two counts |
| Aggregator.SuccessShare | ekos_analyzer.py:412 | the rate times max(attempts, 1) is the number of successes; it lies in [0, 1] and is 0 exactly without success |
| Aggregator.StateSet | ekos_analyzer.py:413 | the state set holds exactly the words of the states |
| Aggregator.AlignmentStatsOf | ekos_analyzer.py:404-414 | alignment statistics exist exactly when there are states; successes are the `Successful` states, attempts those plus the `Failed` ones, the rate times max(attempts, 1) is the successes, and the state set is exactly the state words |
| Aggregator.TargetObjects | ekos_analyzer.py:416-422 | the targets are exactly the non-empty job object names |
| Aggregator.SessionTiming | ekos_analyzer.py:321-355 | one session can only move the earliest start earlier and the latest end later; a new start comes from the session's parsed start time, and start ≤ end is kept for non-negative offsets |
| Aggregator.Timings | ekos_analyzer.py:285-355 | over all sessions the earliest start only decreases and the latest end only increases, and start ≤ end is kept |
| Aggregator.DurationOf | ekos_analyzer.py:424-451 | with both a start and an end the duration is their difference in hours; otherwise it is present exactly when there are completed captures and spans their first to last timestamp, counted back from now |
| Aggregator.KeepSessions | ekos_analyzer.py:251-254 | keeps the sessions with captures or autofocus runs in order, each as often as it occurs, and no other; empty exactly when none has any |
| Aggregator.KeepSessionsAppend | ekos_analyzer.py:251-254 | keeping sessions from two lists is keeping from each in turn |
| Aggregator.AllCompleted | ekos_analyzer.py:285-288 | collects exactly as many captures as the sessions have completed: the completed ones among all sessions' captures laid end to end, in order |
| Aggregator.AllCompletedAppend | ekos_analyzer.py:285-288 | collecting over two lists of sessions is collecting over each in turn |
| Aggregator.AllAutofocus | ekos_analyzer.py:301 | the collected runs are the completed runs of the sessions' concatenated autofocus lists, in order |
| Aggregator.CompletedAutofocus | ekos_analyzer.py:301 | keeps the completed autofocus runs, each as often as it occurs, and no other |
| Aggregator.AllAutofocusComplete | ekos_analyzer.py:301 | every completed run of every session is collected |
| Aggregator.AggregateSessions | ekos_analyzer.py:247-456 | aggregation fails exactly when no session has data; it keeps exactly the sessions with data, its total is the number of completed captures and the summary's size, the summary is keyed and complete, the statistics keep their bounds, targets are non-empty names, and the issues are all the sessions' issues; the kept sessions are exactly the files with data in their order, and the summary, the temperature, autofocus, guide and alignment statistics, the targets and the duration are those of the collected records |
| Aggregator.DurationNonNegative | ekos_analyzer.py:346-351 | with non-negative offsets, an aggregated session duration is never negative |
| Monitor.StartSession | realtime_monitor.py:140-148 | a session start activates the session, resets the statistics to hold only the start time, stamps the event time and sends one start notice |
| Monitor.EndSession | realtime_monitor.py:150-158 | ending an inactive session does nothing; ending an active one deactivates it, sends one summary of the statistics it had and resets them |
| Monitor.EndSessionIdempotent | realtime_monitor.py:152-153 | ending a session twice sends a single summary |
| Monitor.AddJob | realtime_monitor.py:186-188 | a job name is appended only when new: the list keeps its order, gains the name and stays free of duplicates |
| Monitor.Inc | realtime_monitor.py:198-202 | a counter missing from the statistics counts from 0 |
| Monitor.ProcessEvent | realtime_monitor.py:162-206 | every event stamps the event time; a session start is the start handler; any other event keeps the session flag and start and bumps exactly its own counter; each event but a parking one or an alignment one (whose notifier call raises) sends one notice: a completed or aborted capture with its new count, any other event as itself |
| Monitor.ProcessEventIntended | realtime_monitor.py:197-203 | as intended, an alignment event updates the same counters and is passed on like the others |
| Monitor.ProcessEvents | realtime_monitor.py:160-206 | an empty batch changes nothing; handling raises exactly when some event is an alignment event |
| Monitor.HandledPrefix | realtime_monitor.py:162-203 | the events handled are a prefix of the batch, all of it when no event is an alignment one, else ending at the first alignment event |
| Monitor.Run | realtime_monitor.py:162-206 | running a handler stops exactly when the batch holds an alignment event |
| Monitor.BatchFacts | realtime_monitor.py:160-206 | a non-empty batch stamps the event time, keeps the job list duplicate-free and sends at most one notice per event |
| Monitor.ProcessEventsIntended | realtime_monitor.py:160-206 | as intended, an empty batch changes nothing |
| Monitor.IntendedNotices | realtime_monitor.py:160-206 | as intended, every event but a parking one sends exactly one notice, the one announcing it, in event order |
| Monitor.IntendedAnnounces | realtime_monitor.py:160-206 | as intended, the notices announce the non-parking events one for one, in order |
| Monitor.HandlesPrefix | realtime_monitor.py:160-206 | the program's handling is the intended handling of the events it gets through, minus the notice of the alignment event it stops at |
| Monitor.AlignDropsRest | realtime_monitor.py:197-203 | an alignment event moves its counter, sends nothing and loses the rest of the batch, where the intended handling announces it and goes on |
| Monitor.AlignHidesCapture | realtime_monitor.py:197-199 | a capture after a plate solve in the same batch is neither counted nor announced, where as intended it is both |
| Monitor.ProcessEventsAppend | realtime_monitor.py:162 | handling two batches in turn is handling them together, unless the first raises, in which case the joined batch ends where the first did |
| Monitor.ProcessEventsIntendedAppend | realtime_monitor.py:162 | as intended, handling two batches in turn is handling them together |
| Monitor.CountersMatchEvents | realtime_monitor.py:169-203 | without a session start among the handled events, each counter, the alignment ones included, grows by exactly the number of handled events of its kind, and the session flag and start are kept |
| Monitor.JobsFirstSeen | realtime_monitor.py:185-189 | without a session start among the handled events, the job list keeps its old entries in front and gains exactly the names of the handled job starts |
| Monitor.SessionStartResets | realtime_monitor.py:140-145 | a session start that is reached forgets everything before it; after an alignment event it is never reached |
| Monitor.CheckSessionTimeout | realtime_monitor.py:131-138 | an active session with a recorded event ends exactly when more than the timeout has passed since that event; otherwise nothing happens |
| Monitor.TimeoutMonotone | realtime_monitor.py:136-138 | a session that has timed out stays timed out later, and none times out exactly at the timeout |
| Monitor.CheckForNewFile | realtime_monitor.py:45-50 | a file is reported exactly when the latest one is non-empty and is not the watched one |
| Monitor.SwitchToFile | realtime_monitor.py:73-87 | switching watches the new file and returns the old one; the position is 0 when reading from the start or when the size is unknown or 0, and the size otherwise |
| Monitor.SwitchedFileNotNew | realtime_monitor.py:45-50 | right after switching to a file, that file is not reported as new |
| Monitor.NonBlankLines | realtime_monitor.py:67 | keeps the lines that are not blank, and only those |
| Monitor.NonBlankLinesCounts | realtime_monitor.py:67 | each non-blank line is kept as often as it occurs, and no blank one |
| Monitor.NonBlankLine | realtime_monitor.py:67 | a single line is kept exactly when it is not blank |
| Monitor.NonBlankLinesAppend | realtime_monitor.py:67 | dropping blank lines commutes with concatenation |
| Monitor.ReadNewLines | realtime_monitor.py:52-71 | without a watched readable file nothing is read; otherwise the position moves to the end of the text, and the lines returned are the non-blank newline-free pieces of the text after the old position |
| Monitor.ReadWithin | realtime_monitor.py:58-67 | a read from inside the text returns the non-blank lines after the position and moves it to the end |
| Monitor.ChunkedReads | realtime_monitor.py:52-67 | reading a file that grew after a complete line gives the same lines in two reads as in one |
| Monitor.PartialLineSplit | realtime_monitor.py:58-67 | a line caught half-written is returned as two lines, `ab` then `c`, where a single read returns `abc` |
| Monitor.Attach | realtime_monitor.py:217-221 | at start-up the monitor attaches to the latest file when there is one and otherwise keeps waiting |
| Monitor.OnNewFile | realtime_monitor.py:240-246 | when a new file appears the monitor ends an active session with one summary, watches the file from its start and resets the parser; otherwise nothing changes |
| Monitor.Poll | realtime_monitor.py:237-256 | one turn handles a new file, reads and parses the new lines and handles their events; the timeout is checked only when handling did not raise, and ends the session with one summary exactly when it has timed out |
| Monitor.PollIntended | realtime_monitor.py:237-256 | as intended, the turn handles every event and always checks the timeout, and agrees with the program's turn whenever no alignment event is read |
| Monitor.NewFileReadFromStart | realtime_monitor.py:240-253 | after a switch, the turn reads the whole new file from a reset parser and leaves the position at its end |
| Metrics.Flatten | advanced_metrics.py:380-388 | flattening yields one entry per grouped capture, each tagged with its group's object and filter |
| Metrics.Tagged | advanced_metrics.py:384-388 | a group's entries are its captures in order, each tagged with the group's object and filter |
| Metrics.FlattenOne | advanced_metrics.py:380-388 | one group flattens to its own tagged captures |
| Metrics.FlattenAppend | advanced_metrics.py:380-388 | flattening two lists of groups is flattening each in turn, so no entry is duplicated or reordered |
| Metrics.ExtractCaptureData | advanced_metrics.py:378-390 | the flattened captures, sorted by timestamp, are a permutation of all grouped captures |
| Metrics.ExtractStable | advanced_metrics.py:390 | captures with equal timestamps keep their group order (the sort is stable) |
| Metrics.SeeingOf | advanced_metrics.py:82-92 | seeing is Excellent below a mean HFR of 2, Good below 3, Average below 4, else Poor, each as an if-and-only-if |
| Metrics.TrendOf | advanced_metrics.py:102 | the trend improves below a slope of -0.01, degrades above 0.01 and is stable in between |
| Metrics.SumSquaredDeviations | advanced_metrics.py:72 | a sum of squared deviations is never negative |
| Metrics.Variance | advanced_metrics.py:72 | the population variance is never negative |
| Metrics.HfrPoints | advanced_metrics.py:413-423 | the HFR contribution is +30, +20, +10 or -10 by the 2, 3, 4 thresholds |
| Metrics.StabilityPoints | advanced_metrics.py:425-432 | the stability contribution is +20 below 0.1, +10 below 0.2, 0 up to 0.5 and -20 above |
| Metrics.QualityScore | advanced_metrics.py:409-434 | the score is 50 plus both contributions and always lies in [20, 100], so the clamp to [0, 100] never changes it |
| Metrics.QualityScoreMonotone | advanced_metrics.py:409-434 | a worse HFR or a worse stability never raises the score |
| Metrics.Median | advanced_metrics.py:71 | the median lies between the minimum and the maximum |
| Metrics.MedianRanks | advanced_metrics.py:71 | the median is an order statistic: at most half the values (rounded down) lie strictly below it and at most half strictly above it |
| Metrics.HfrValues | advanced_metrics.py:62 | keeps the captures' known HFR values, empty exactly when none has one |
| Metrics.HfrValuesCounts | advanced_metrics.py:62 | each known HFR value is kept as often as a capture has it |
| Metrics.HfrValuesAppend | advanced_metrics.py:62 | the HFR values of two capture lists are those of each in turn |
| Metrics.HfrStatsOf | advanced_metrics.py:70-77 | the HFR statistics are the mean, median, attained minimum and maximum of the values, and the range is their difference |
| Metrics.AnalyzeImageQuality | advanced_metrics.py:57-117 | the analysis exists exactly when some capture has an HFR; its statistics are the mean, median, minimum and maximum of the HFR values; the seeing grades that mean; a trend exists exactly with more than three values and follows the slope; a stability index exists exactly for a positive mean; the score uses the index or 1 |
| Metrics.ThermalScore | advanced_metrics.py:135-146 | thermal stability is 1, 0.8 and 0.6 by the 1 and 3 and 5 degree bounds, then falls linearly to a floor of 0.2 |
| Metrics.ThermalScoreJumpAtFive | advanced_metrics.py:141-144 | the score rises from 0.6 to 0.75 as the range reaches 5 degrees, so it is not monotone |
| Metrics.ThermalScoreFalls | advanced_metrics.py:143-144 | from 5 degrees on the score never rises with the range, and it is 0.2 from 16 degrees |
| Metrics.AnalyzeTemperature | advanced_metrics.py:119-146 | the analysis exists exactly when there are readings and captures; min and max are attained readings bounding all of them, the mean is their mean, the range is max - min and the score is the thermal score of the range |
| Metrics.SuccessRate | advanced_metrics.py:172-174 | the rate times max(captures + aborts, 1) is the number of captures; it lies in [0, 1], is 1 exactly with captures and no abort, and 0 exactly without captures |
| Metrics.SuccessRateMonotone | advanced_metrics.py:172-174 | more captures or fewer aborts never lower the success rate |
| Metrics.Productivity | advanced_metrics.py:194-196 | productivity lies in [0, 100]: the success rate in percent from ten captures on, scaled down by the count below that |
| Metrics.TruthyHfr | advanced_metrics.py:184 | keeps only truthy (non-zero) HFR values |
| Metrics.TruthyHfrCounts | advanced_metrics.py:184 | every truthy HFR of the group is kept as often as it occurs, and nothing else |
| Metrics.TruthyHfrAppend | advanced_metrics.py:184 | the truthy HFRs of two capture lists are those of each in turn |
| Metrics.LastWithHfr | advanced_metrics.py:182-190 | finds the last group of a filter with a truthy HFR, or proves there is none |
| Metrics.FilterPerformanceOf | advanced_metrics.py:180-192 | a filter has an entry exactly when one of its groups has a truthy HFR, and the entry is that of its last such group |
| Metrics.AnalyzePerformance | advanced_metrics.py:163-198 | the failures are the aborts, the attempts are captures plus aborts, and the success rate and productivity keep their ranges; productivity is the scaled success rate and the per-filter figures are those of the filters with a truthy HFR |
| Metrics.TotalExposure | advanced_metrics.py:217 | with non-negative exposures the imaging time is non-negative |
| Metrics.SessionEfficiency | advanced_metrics.py:200-230 | efficiency exists exactly with a duration and captures; the efficiency times max(hours, 0.1) is the imaging time, downtime is the rest, and from 0.1 hours efficiency and downtime share add to one; the imaging time is the exposure sum over 3600 and the time per frame is the session's seconds over the frame count |
| Metrics.AlertIf | advanced_metrics.py:339-374 | an alert is raised exactly when its condition holds |
| Metrics.PerformanceAlerts | advanced_metrics.py:332-376 | each alert is raised exactly when its threshold is crossed, missing inputs taking the source's defaults; errors are exactly the low success rate and an HFR of 5 or more |
| Metrics.AllMetrics | advanced_metrics.py:20-55 | metrics exist exactly when there are captures; the success rate is the performance one, and the alerts are computed from the metrics themselves; quality, temperature, performance and efficiency are their own analyses of the flattened captures |
| Metrics.MetricsOfAggregate | ekos_discord_formatter.py:52-54 | on an aggregate, which has no temperature readings, there is no temperature analysis and the swing alert is raised only under a negative threshold, never under the default |
| Formatter.Trunc | ekos_discord_formatter.py:22 | `int()` of a real truncates toward zero |
| Formatter.DurationParts | ekos_discord_formatter.py:19-31 | below an hour the duration is whole minutes, truncated toward zero; up to a day it is 1 to 23 hours and under 60 minutes adding up to the truncated minute count; from a day on it is days ≥ 1 and under 24 hours adding up to the truncated hours |
| Formatter.FormatDuration | ekos_discord_formatter.py:19-31 | the text has a second field, separated by a space, exactly when that field is non-zero, and it ends with the unit of its last field |
| Formatter.FormatDurationReadsBack | ekos_discord_formatter.py:19-31 | the text's space-separated words are the whole minutes, hours and minutes, or days and hours of the duration in order, each number reading back with `int()` and followed by its unit, with a zero second field left out |
| Formatter.WordReadsBack | ekos_discord_formatter.py:23 | a printed number followed by its unit reads back as the number |
| Formatter.IntHasNoSpace | ekos_discord_formatter.py:23-31 | a printed number holds no space, so the only space separates the two fields |
| Formatter.DiscordSummary | ekos_discord_formatter.py:37-40 | without data, or with a zero capture total, the summary is the single no-data notice; otherwise it is the rendered report |
| Formatter.CountCompletedZero | ekos_analyzer.py:287 | the completed-capture count is zero exactly when no session has a completed capture |
| Formatter.NoDataIffNoCompletedCapture | ekos_discord_formatter.py:39-40 | the no-data notice is sent exactly when no parsed log holds a completed capture |
| Formatter.StabilityOf | ekos_discord_formatter.py:466-474 | a temperature spread above 5 is Variable, above 2 Moderate, else Stable, each as an if-and-only-if |
| Formatter.MountStates | ekos_discord_formatter.py:488-495 | no sessions give no mount states |
| Formatter.MountStatesOne | ekos_discord_formatter.py:488-495 | one session gives its own mount states |
| Formatter.MountStatesAppend | ekos_discord_formatter.py:488-495 | the mount states of two session lists are those of each in turn, so all states are gathered in session order |
| Formatter.TrackingGrade | ekos_discord_formatter.py:516-524 | the tracking share is Excellent above 0.8, Good above 0.6, Average above 0.4, and hidden otherwise, each as an if-and-only-if in integer form |
| Formatter.MountTracking | ekos_discord_formatter.py:485-526 | the tracking line raises exactly when there are tracking states and a zero capture total, is shown exactly when tracking is at least half the captures and more than 0.4 of the states, and then carries the grade and the count |
| Formatter.ConditionsSummary | ekos_discord_formatter.py:462-483 | the conditions section raises exactly when the tracking line does, is omitted exactly without temperatures and tracking line, and shows each part exactly when it exists |
| Formatter.ReportConditionsDefined | ekos_discord_formatter.py:509-513 | for any aggregate that passes the no-data guard the conditions section does not raise, and shows the temperature exactly when there are statistics |
| Formatter.SumRepeat | ekos_discord_formatter.py:586-587 | repeating a distance once per measurement adds up to count times distance |
| Formatter.WeightedDistancesFacts | ekos_discord_formatter.py:583-587 | the repeated distances number the measurements of filters with a positive distance and add up to the weighted sum |
| Formatter.TotalMeasurements | ekos_discord_formatter.py:576-583 | the measurement total is zero exactly when no filter has measurements |
| Formatter.Qualities | ekos_discord_formatter.py:588 | the qualities are exactly those of the filters with measurements |
| Formatter.Priority | ekos_discord_formatter.py:603-605 | the four known grades rank from Poor to Excellent and anything else ranks last |
| Formatter.Occurrences | ekos_discord_formatter.py:597-599 | a quality is counted exactly when it occurs |
| Formatter.Vote | ekos_discord_formatter.py:596-608 | the overall quality is Unknown without qualities, otherwise one of them that no other beats on count and then on worse grade, and the first seen among equals |
| Formatter.VoteUnique | ekos_discord_formatter.py:604-606 | the vote is the only quality with those properties, so it is fully determined |
| Formatter.TieGoesToWorse | ekos_discord_formatter.py:602-606 | one Good and one Poor filter give Poor |
| Formatter.WeightedMean | ekos_discord_formatter.py:594 | the average error times the number of weighted measurements is their weighted sum, and 0 when there are none |
| Formatter.GuideFromFilters | ekos_discord_formatter.py:566-626 | the guide summary exists exactly when some filter has measurements; it reports their total, the measurement-weighted mean of the positive distances and the voted quality |
| Formatter.Nearest | ekos_discord_formatter.py:1431-1439 | the nearest capture has the least time distance to the issue, and the first such on ties |
| Formatter.FailureKey | ekos_discord_formatter.py:1425-1445 | a failure is filed under `Unknown_` and the nearest capture's filter, or `Unknown_Unknown` in a session without captures |
| Formatter.FailureKeys | ekos_discord_formatter.py:1420-1446 | every issue of every session gets exactly one key |
| Formatter.Tally | ekos_discord_formatter.py:1446 | the tally has exactly the keys seen, each with its number of occurrences |
| Formatter.ProportionIsQuotient | ekos_discord_formatter.py:1460-1461 | truncating aborts times the exact proportion is the integer quotient of aborts times size by total |
| Formatter.Share | ekos_discord_formatter.py:1460-1461 | a group's share is floor(aborts × size / total), and 0 when the total is 0 |
| Formatter.Shares | ekos_discord_formatter.py:1458-1461 | each group gets its object and filter key and its share |
| Formatter.SharesRemainder | ekos_discord_formatter.py:1456-1461 | the shares add up to the aborts times the capture total, divided by that total, short by less than one per group |
| Formatter.SharesBounded | ekos_discord_formatter.py:1450-1461 | the distributed failures never exceed the aborts, and fall short of them by less than the number of groups |
| Formatter.ToMap | ekos_discord_formatter.py:1458-1461 | the map has exactly the listed keys, each with a value listed for it |
| Formatter.FilterFailures | ekos_discord_formatter.py:1411-1463 | with session issues the result is their tally by key; otherwise, with issues and groups, it is the proportional split; otherwise it is empty |
| Formatter.FailuresOfAggregate | ekos_discord_formatter.py:1416-1450 | on an aggregate every issue is keyed from its session, so the tally covers all issues and the proportional fallback is never taken |
| FilterBlocks.Objects | ekos_discord_formatter.py:643-649 | each filter's object is that of its first sub-session, or `NGC 7380` when there is none or it names none |
| FilterBlocks.Captured | ekos_discord_formatter.py:640-641 | keeps the filters with captures, and only those |
| FilterBlocks.CapturedCounts | ekos_discord_formatter.py:640-641 | each filter with captures is kept as often as it occurs, and no other |
| FilterBlocks.CapturedAppend | ekos_discord_formatter.py:640-641 | the captured filters of two lists are those of each in turn, so input order is kept |
| FilterBlocks.WithObject | ekos_discord_formatter.py:655 | an object's filters are filters of that object |
| FilterBlocks.WithObjectCounts | ekos_discord_formatter.py:655 | every filter of the object is kept as often as it occurs, and no other |
| FilterBlocks.WithObjectAppend | ekos_discord_formatter.py:655 | the object's filters of two lists are those of each in turn, so input order is kept |
| FilterBlocks.WithObjectAbsent | ekos_discord_formatter.py:652-655 | an object no filter names has no filters |
| FilterBlocks.WithObjectPresent | ekos_discord_formatter.py:652-655 | an object some filter names has at least one filter |
| FilterBlocks.GroupIndex | ekos_discord_formatter.py:652 | finds the group of an object, or proves it has none |
| FilterBlocks.AddToExisting | ekos_discord_formatter.py:655 | adding a filter of a known object to its group keeps the grouping exact |
| FilterBlocks.AddNew | ekos_discord_formatter.py:652-655 | a filter of a new object opens a group at the end and keeps the grouping exact |
| FilterBlocks.NewObjectLast | ekos_discord_formatter.py:652-653 | a new object is the last first seen, so the groups stay in first-seen order |
| FilterBlocks.AddFilter | ekos_discord_formatter.py:651-655 | one turn of the grouping loop keeps the groups exact, adding at most one group |
| FilterBlocks.GroupByObject | ekos_discord_formatter.py:639-655 | the groups have distinct names, exactly the objects of the filters in first-seen order, and each holds exactly its object's filters in input order |
| FilterBlocks.SumCapturesPositive | ekos_discord_formatter.py:662-669 | an object with captured filters has a positive total, so none is skipped |
| FilterBlocks.BlockOf | ekos_discord_formatter.py:672-836 | a block carries its object, its filters most captures first, its capture total as priority and its filter count |
| FilterBlocks.BlocksOf | ekos_discord_formatter.py:667-836 | there is one block per object group, in group order |
| FilterBlocks.ObjectGroups | ekos_discord_formatter.py:639-669 | the captured filters are grouped exactly, and every group makes a valid block |
| FilterBlocks.ObjectBlocks | ekos_discord_formatter.py:628-839 | the blocks are a permutation of the objects' blocks ordered by non-increasing capture total, and each holds exactly its object's captured filters |
| FilterBlocks.BlockNamed | ekos_discord_formatter.py:652-669 | every object of a captured filter has a block |
| FilterBlocks.EveryCapturedFilterShown | ekos_discord_formatter.py:639-679 | every filter with captures appears in the block of its object |
| FilterBlocks.WithObjectHas | ekos_discord_formatter.py:655 | each filter is among its object's filters |
| FilterBlocks.BlocksStable | ekos_discord_formatter.py:665 | objects with equal totals keep first-seen order |
| FilterBlocks.FiltersStable | ekos_discord_formatter.py:678-679 | filters with equal capture counts keep their input order |
| FilterBlocks.CountSnoc | ekos_discord_formatter.py:882-886 | adding a block to a message adds the spacing and its length to the running count |
| FilterBlocks.StepPacked | ekos_discord_formatter.py:864-886 | one turn of the packer keeps every block in exactly one message in order, no message empty, the count that of the last message, and the packing greedy |
| FilterBlocks.PackInvariant | ekos_discord_formatter.py:860-886 | after all blocks the packing invariant holds |
| FilterBlocks.RenderLength | ekos_discord_formatter.py:861-875 | with two characters per blank line, the running count is exactly the length of the joined message |
| FilterBlocks.SplitIntelligently | ekos_discord_formatter.py:854-893 | without blocks there is one notice; otherwise one message per packed chunk, each its title, a blank line and its blocks separated by blank lines |
| FilterBlocks.SplitCorrected | ekos_discord_formatter.py:854-893 | the same split with the blank line counted as the two characters it takes |
| FilterBlocks.GreedyFits | ekos_discord_formatter.py:870-886 | a message of several blocks keeps its running count within the limit, up to the spacing shortfall |
| FilterBlocks.CorrectedWithinLimit | ekos_discord_formatter.py:868-886 | with the corrected count, every message holding more than one block is at most 1900 characters |
| FilterBlocks.AsWrittenOvershoots | ekos_discord_formatter.py:880-886 | as written, blocks of 900, 900 and 94 characters under header `H` make one message of 1901 characters |
| Text.Strip | realtime_parser.py:103 | a stripped line is a part of the line with no space at either end, and empty exactly when the line is blank |
| Text.StripTrims | realtime_parser.py:103 | the stripped line is the part left after dropping a blank prefix and a blank suffix |
| Text.JoinSplit | realtime_parser.py:250 | joining the comma-split fields of a line gives the line back |
| Text.Split | realtime_parser.py:107 | splitting gives at least one field, none holding the separator |
| Numbers.ParseIntRoundTrip | ekos_analyzer.py:156 | `int()` reads back any printed integer |
| Numbers.ParseRealOfNat | realtime_parser.py:119 | `float()` reads a printed whole number as that number |
| Sorting.SortStrings | ekos_analyzer.py:54 | `sorted` of paths gives an ordered permutation |
| Sorting.SortBy | advanced_metrics.py:390 | a keyed sort gives a permutation ordered by the key |
| Sorting.SortByStable | advanced_metrics.py:390 | the keyed sort is stable: the items with any one key keep their order |
| Stats.MeanBetweenMinMax | ekos_analyzer.py:363-365 | a mean lies between the minimum and the maximum |

## Left out

- `analyzer.py` (FITS reading with astropy, star extraction with `sep`, an HTTP post): a thin layer over libraries whose behaviour is not visible here.
- `session_plotter.py`: chart drawing and file saving with matplotlib; `_extract_temporal_data` only prepares chart data.
- `realtime_notifier.py`: the alert message texts, the HTTP send and the `time.sleep` throttle are presentation and I/O.
- `nightly_summary.py` and `utils.py`: the command line, YAML loading and logging set-up; `send_discord_message` and `validate_discord_message` are imported by the monitor and the formatter but their definitions are not part of this model.
- Filesystem access (`glob`, modification times, `open`, `seek`, `tell`, `os.path.exists`): a log is an abstract string, its size a parameter, and the newest log in the directory an input.
- The wall clock, `strptime`/`strftime` and the clock-time strings of `_to_clock_time`: times are parameters or abstract values; only the digit layout of log file names is parsed.
- numpy and scipy (`std`, `median` beyond its definition here, `linregress`, `pearsonr`), `** 0.5` and `_interpolate_temperatures`: the slope, the standard deviation and the square root are oracles, so `analyze_autofocus_performance`, `analyze_temporal_patterns` and the temperature correlation are not modelled.
- Python's `float()` and `int()` beyond plain decimal text: exponents, `inf`, `nan`, underscores, non-ASCII digits and non-ASCII whitespace are not accepted by the model's parsers.
- The regular expressions' `\d` on text matches any Unicode decimal digit, not just `0`-`9`: the log-name match (ekos_analyzer.py:36), the version match (:83), the focus-position match (:191) and the date prefix of a session name (:516). `AnalyzeFiles.FileTime`, `BatchParser.VersionAt`, `BatchParser.SolutionAt` and `Aggregator.ExtractObjectName` test ASCII digits only, so the model rejects names and lines whose digits come from other scripts.
- Floating-point rounding: every time, temperature and rate is an exact real, so the proportional failure share is computed exactly before it is truncated.
- Emoji and the text layout of the report lines, the detailed and standard fragment assembly and `_split_object_by_filters` (never called): the text of a report block is an input of the packer, and the whole report is the `render` parameter of `Formatter.DiscordSummary`.
- The legacy `generate_guide_summary`: the report uses the per-filter guide summary instead.
- The monitor loop's sleeping, signal handling, retries and exception logging: the model is one poll step (`Monitor.Poll`).
- Monitor.CheckSessionTimeout: the timeout is a real number of minutes compared against a real "now"; the conversion of `datetime` differences to minutes is not modelled.
- Formatter.FilterFailures: when two failure records produce the same object/filter key, the model keeps the later count, as the dictionary assignment does; the float arithmetic of the share is not modelled.
- FilterBlocks.ObjectBlocks: the guard that skips an object with zero total captures is not modelled, because it can never fire: only filters with captures are grouped (`FilterBlocks.SumCapturesPositive`).
- Text.IsSpace: the non-ASCII whitespace that `str.strip` and `str.split` also remove (U+0085, U+00A0, U+1680, U+2000 to U+200A, U+2028, U+2029, U+202F, U+205F and U+3000) is not modelled, so `Text.Strip` and `Text.FirstToken` keep those characters.
- AnalyzeFiles.FindAnalyzeFiles: the cutoff is a whole-second `DateTime`, whereas `utcnow() - timedelta(hours=…)` carries microseconds, so a file stamped in the cutoff's own second, which the program skips, is selected here.
- Metrics.FilterPerformanceOf: the entry's standard deviation is written with the square-root oracle over the population variance, and float rounding in the mean is not modelled.
- Formatter.DiscordSummary: the no-data notice is modelled without its emoji and the rest of the report is the `render` oracle.

## Findings

| source | as written | input that shows it | evidently intended | confidence | as-written member | corrected member |
|---|---|---|---|---|---|---|
| ekos_discord_formatter.py:880-886 | the running length adds 1 for the blank line between blocks, but blocks are joined with `"\n\n"`, which adds 2 | header `H` and three blocks of 900, 900 and 94 characters: they are packed into one message of 1901 characters | count 2 per separator, so that every message holding more than one block is at most 1900 characters | not executed | FilterBlocks.SplitIntelligently, FilterBlocks.AsWrittenOvershoots | FilterBlocks.SplitCorrected, FilterBlocks.CorrectedWithinLimit |
| realtime_monitor.py:197-203 | the alignment branches call `notify_align_complete` and `notify_align_failed`, which `RealtimeDiscordNotifier` (realtime_notifier.py:14-247) does not define, so the `AttributeError` leaves `_process_events` and the loop's catch-all skips the rest of the batch and that turn's timeout check | the batch `[AlignComplete, CaptureComplete]` on an active session: the capture is neither counted nor announced | each alignment event is announced and the batch goes on | not executed | Monitor.ProcessEvents, Monitor.AlignHidesCapture | Monitor.ProcessEventsIntended, Monitor.IntendedNotices, Monitor.PollIntended |

=== FILE: aggregator.dfy ===
/** The roll-up of parsed session files (`EkosAnalyzer.aggregate_session_data`)
    and its helpers: object-name attribution per session, the capture
    summary grouped by (object, filter), temperature, autofocus, guiding and
    alignment statistics, the target list and the session duration.

    Three values come from outside the model and are parameters: `clock`
    reads a session-start string into seconds (`strptime`, `None` when it
    does not parse), `root` is the square root used for the guide distance,
    and `now` is the current time in seconds for the duration fallback. */
module Aggregator {
  import opened Options
  import opened Text
  import opened Numbers
  import opened Stats
  import opened BatchParser
  import opened Lists
  import AnalyzeFiles

  // --- Object names ---

  /** The index of the latest-starting scheduler job, the first one among
      equal timestamps (Python's `max` with a key); `None` without starts. */
  function LatestStart(jobs: seq<SchedulerRecord>): (r: Option<nat>)
    ensures r.Some? ==> r.value < |jobs| && jobs[r.value].isStart
    ensures r.Some? ==> forall j :: 0 <= j < |jobs| && jobs[j].isStart ==>
                          jobs[j].timestamp <= jobs[r.value].timestamp
    ensures r.Some? ==> forall j :: 0 <= j < r.value && jobs[j].isStart ==>
                          jobs[j].timestamp < jobs[r.value].timestamp
    ensures r.None? <==> forall j :: 0 <= j < |jobs| ==> !jobs[j].isStart
    decreases |jobs|
  {
    if |jobs| == 0 then None
    else
      var rest := LatestStart(jobs[1..]);
      if !jobs[0].isStart then
        (match rest case Some(k) => Some(k + 1) case None => None)
      else match rest
        case None => Some(0)
        case Some(k) => if jobs[k + 1].timestamp > jobs[0].timestamp then Some(k + 1) else Some(0)
  }

  /** `_get_object_name_from_scheduler`: the object of the latest start job. */
  function ObjectNameFromScheduler(jobs: seq<SchedulerRecord>): (r: Option<string>)
    ensures r.Some? <==> exists j :: 0 <= j < |jobs| && jobs[j].isStart
    ensures r.Some? ==> r.value == jobs[LatestStart(jobs).value].objectName
  {
    match LatestStart(jobs)
    case None => None
    case Some(i) => Some(jobs[i].objectName)
  }

  /** `re.match(r'ekos-(\d{4}-\d{2}-\d{2})', name)`. */
  predicate HasDatePrefix(name: string) {
    && |name| >= 15 && name[..5] == "ekos-"
    && AllDigits(name[5..9]) && name[9] == '-' && AllDigits(name[10..12]) && name[12] == '-'
    && AllDigits(name[13..15])
  }

  /** `_extract_object_name`: `Session_<date>` from an `ekos-` log name,
      otherwise `Unknown`. */
  function ExtractObjectName(filepath: string): (r: string)
    ensures r == "Unknown" <==> !HasDatePrefix(AnalyzeFiles.Basename(filepath))
    ensures r != "Unknown" ==>
              var name := AnalyzeFiles.Basename(filepath);
              r == "Session_" + name[5..15] && |r| == 18
  {
    var name := AnalyzeFiles.Basename(filepath);
    if HasDatePrefix(name) then "Session_" + name[5..15] else "Unknown"
  }

  /** The object every completed capture of a session is filed under: the
      latest start job's object when it is non-empty, else the name-based
      fallback. */
  function SessionObjectName(s: SessionData): (r: string)
    ensures r != ""
    ensures (match ObjectNameFromScheduler(s.schedulerJobs)
             case Some(n) => n != "" ==> r == n
             case None => true)
    ensures (ObjectNameFromScheduler(s.schedulerJobs).None? || ObjectNameFromScheduler(s.schedulerJobs) == Some(""))
              ==> r == ExtractObjectName(s.filepath)
  {
    match ObjectNameFromScheduler(s.schedulerJobs)
    case Some(n) => if n != "" then n else ExtractObjectName(s.filepath)
    case None => ExtractObjectName(s.filepath)
  }

  // --- Capture summary ---

  /** A capture whose exposure finished. */
  predicate IsComplete(c: CaptureRecord) {
    c.event == Complete
  }

  /** The completed captures of a session, each as often as it was logged. */
  function Completed(cs: seq<CaptureRecord>): (r: seq<CaptureRecord>)
    ensures |r| <= |cs|
    ensures forall i :: 0 <= i < |r| ==> r[i].event == Complete && r[i] in cs
    ensures forall i :: 0 <= i < |cs| && cs[i].event == Complete ==> cs[i] in r
    ensures forall c :: multiset(r)[c] == if c.event == Complete then multiset(cs)[c] else 0
  {
    KeepCounts(cs, IsComplete);
    Keep(cs, IsComplete)
  }

  /** Completed captures come out in the order they were logged: selecting
      from two stretches of a log is selecting from each in turn. */
  lemma CompletedAppend(a: seq<CaptureRecord>, b: seq<CaptureRecord>)
    ensures Completed(a + b) == Completed(a) + Completed(b)
  {
    KeepAppend(a, b, IsComplete);
  }

  /** One `capture_summary` entry: the captures filed under an
      (object, filter) key, in the order they were added. */
  datatype CaptureGroup = CaptureGroup(objectName: string, filter: string, captures: seq<CaptureRecord>)

  /** The number of captures over all groups. */
  function GroupSizes(gs: seq<CaptureGroup>): (r: nat)
    decreases |gs|
  {
    if |gs| == 0 then 0 else GroupSizes(gs[..|gs| - 1]) + |gs[|gs| - 1].captures|
  }

  /** Replacing one group changes the total by the difference in its size. */
  lemma {:induction false} GroupSizesUpdate(gs: seq<CaptureGroup>, i: nat, g: CaptureGroup)
    requires i < |gs|
    ensures GroupSizes(gs[i := g]) == GroupSizes(gs) - |gs[i].captures| + |g.captures|
    decreases |gs|
  {
    var u := gs[i := g];
    if i < |gs| - 1 {
      assert u[..|u| - 1] == gs[..|gs| - 1][i := g];
      GroupSizesUpdate(gs[..|gs| - 1], i, g);
    } else {
      assert u[..|u| - 1] == gs[..|gs| - 1];
    }
  }

  /** The key of a group. */
  function Key(g: CaptureGroup): (string, string) {
    (g.objectName, g.filter)
  }

  /** Groups are well formed: keys are distinct and every capture in a
      group has the group's filter. */
  predicate GroupsInv(gs: seq<CaptureGroup>) {
    && (forall i, j :: 0 <= i < j < |gs| ==> Key(gs[i]) != Key(gs[j]))
    && (forall i :: 0 <= i < |gs| ==> FilterOf(gs[i]))
  }

  predicate FilterOf(g: CaptureGroup) {
    forall k :: 0 <= k < |g.captures| ==> g.captures[k].filter == g.filter
  }

  /** The position of the group with the given key. */
  function FindGroup(gs: seq<CaptureGroup>, key: (string, string)): (r: Option<nat>)
    ensures r.Some? ==> r.value < |gs| && Key(gs[r.value]) == key
    ensures r.None? ==> forall i :: 0 <= i < |gs| ==> Key(gs[i]) != key
    decreases |gs|
  {
    if |gs| == 0 then None
    else if Key(gs[|gs| - 1]) == key then Some(|gs| - 1)
    else FindGroup(gs[..|gs| - 1], key)
  }

  /** `capture_summary[(obj, c.filter)].append(c)` on an insertion-ordered
      dictionary of lists: the capture joins the group with its key, or a
      new group at the end when there is none. */
  function AddToGroup(gs: seq<CaptureGroup>, obj: string, c: CaptureRecord): (r: seq<CaptureGroup>)
    requires GroupsInv(gs)
    ensures GroupsInv(r)
    ensures GroupSizes(r) == GroupSizes(gs) + 1
    ensures |gs| <= |r| <= |gs| + 1
    ensures forall i :: 0 <= i < |gs| ==> Key(r[i]) == Key(gs[i])
    ensures |r| == |gs| + 1 ==> r[|gs|] == CaptureGroup(obj, c.filter, [c])
    ensures Grows(gs, r)
    ensures Filed(r, obj, c)
    ensures forall i :: 0 <= i < |r| ==> AddedIn(gs, r, i, obj, [c])
  {
    match FindGroup(gs, (obj, c.filter))
    case Some(i) =>
      var r := gs[i := gs[i].(captures := gs[i].captures + [c])];
      JoinedGroup(gs, i, obj, c, r);
      r
    case None =>
      var r := gs + [CaptureGroup(obj, c.filter, [c])];
      OpenedGroup(gs, obj, c, r);
      r
  }

  /** The capture appended to the group with its key. */
  lemma JoinedGroup(gs: seq<CaptureGroup>, i: nat, obj: string, c: CaptureRecord, r: seq<CaptureGroup>)
    requires GroupsInv(gs) && i < |gs| && Key(gs[i]) == (obj, c.filter)
    requires r == gs[i := gs[i].(captures := gs[i].captures + [c])]
    ensures GroupsInv(r) && GroupSizes(r) == GroupSizes(gs) + 1
    ensures |r| == |gs| && Grows(gs, r) && Filed(r, obj, c)
    ensures forall j :: 0 <= j < |r| ==> AddedIn(gs, r, j, obj, [c])
  {
    GroupSizesUpdate(gs, i, r[i]);
    assert c == r[i].captures[|r[i].captures| - 1];
    assert FilterOf(r[i]);
    forall j | 0 <= j < |r| ensures AddedIn(gs, r, j, obj, [c]) {
      WithFilterOne(c, r[j].filter);
      if j != i {
        assert Key(gs[j]) != Key(gs[i]);
      }
    }
  }

  /** A new group for the capture, at the end. */
  lemma OpenedGroup(gs: seq<CaptureGroup>, obj: string, c: CaptureRecord, r: seq<CaptureGroup>)
    requires GroupsInv(gs) && forall i :: 0 <= i < |gs| ==> Key(gs[i]) != (obj, c.filter)
    requires r == gs + [CaptureGroup(obj, c.filter, [c])]
    ensures GroupsInv(r) && GroupSizes(r) == GroupSizes(gs) + 1
    ensures Grows(gs, r) && Filed(r, obj, c)
    ensures forall j :: 0 <= j < |r| ==> AddedIn(gs, r, j, obj, [c])
  {
    assert r[..|r| - 1] == gs;
    assert c == r[|gs|].captures[0];
    forall j | 0 <= j < |r| ensures AddedIn(gs, r, j, obj, [c]) {
      WithFilterOne(c, r[j].filter);
    }
  }

  /** The captures of group `i` of `gs`, none when `gs` has no such group. */
  function Before(gs: seq<CaptureGroup>, i: nat): seq<CaptureRecord> {
    if i < |gs| then gs[i].captures else []
  }

  /** Capture `c` is in the group keyed by `obj` and its own filter. */
  predicate Filed(gs: seq<CaptureGroup>, obj: string, c: CaptureRecord) {
    exists i :: 0 <= i < |gs| && Key(gs[i]) == (obj, c.filter) && c in gs[i].captures
  }

  /** `r` extends `gs`: the same keys in the same places, each group's
      captures extended at the end, possibly new groups after them. */
  predicate Grows(gs: seq<CaptureGroup>, r: seq<CaptureGroup>) {
    |gs| <= |r| && forall i :: 0 <= i < |gs| ==> Key(r[i]) == Key(gs[i]) && gs[i].captures <= r[i].captures
  }

  lemma GrowsTrans(a: seq<CaptureGroup>, b: seq<CaptureGroup>, c: seq<CaptureGroup>)
    requires Grows(a, b) && Grows(b, c)
    ensures Grows(a, c)
  {
    forall i | 0 <= i < |a| ensures Key(c[i]) == Key(a[i]) && a[i].captures <= c[i].captures {
      assert a[i].captures <= b[i].captures <= c[i].captures;
    }
  }

  lemma GrowsKeepsFiled(gs: seq<CaptureGroup>, r: seq<CaptureGroup>, obj: string, c: CaptureRecord)
    requires Grows(gs, r) && Filed(gs, obj, c)
    ensures Filed(r, obj, c)
  {
    var i :| 0 <= i < |gs| && Key(gs[i]) == (obj, c.filter) && c in gs[i].captures;
    var k :| 0 <= k < |gs[i].captures| && gs[i].captures[k] == c;
    assert r[i].captures[k] == c;
  }

  /** Files each capture of `cs` under `(obj, filter)`. */
  function AddAll(gs: seq<CaptureGroup>, obj: string, cs: seq<CaptureRecord>): (r: seq<CaptureGroup>)
    requires GroupsInv(gs)
    ensures GroupsInv(r)
    ensures GroupSizes(r) == GroupSizes(gs) + |cs|
    ensures forall i :: |gs| <= i < |r| ==> r[i].objectName == obj
    ensures Grows(gs, r)
    ensures forall k :: 0 <= k < |cs| ==> Filed(r, obj, cs[k])
    ensures forall i :: 0 <= i < |r| ==> AddedIn(gs, r, i, obj, cs)
    decreases |cs|
  {
    if |cs| == 0 then gs
    else
      var g1 := AddToGroup(gs, obj, cs[0]);
      var r := AddAll(g1, obj, cs[1..]);
      GrowsTrans(gs, g1, r);
      AddAllFiled(g1, r, obj, cs);
      AddAllNames(gs, g1, r, obj);
      AddAllContents(gs, g1, r, obj, cs);
      r
  }

  lemma AddAllFiled(g1: seq<CaptureGroup>, r: seq<CaptureGroup>, obj: string, cs: seq<CaptureRecord>)
    requires |cs| > 0 && Grows(g1, r) && Filed(g1, obj, cs[0])
    requires forall k :: 0 <= k < |cs[1..]| ==> Filed(r, obj, cs[1..][k])
    ensures forall k :: 0 <= k < |cs| ==> Filed(r, obj, cs[k])
  {
    forall k | 0 <= k < |cs| ensures Filed(r, obj, cs[k]) {
      if k == 0 {
        GrowsKeepsFiled(g1, r, obj, cs[0]);
      } else {
        assert cs[k] == cs[1..][k - 1];
      }
    }
  }

  lemma AddAllNames(gs: seq<CaptureGroup>, g1: seq<CaptureGroup>, r: seq<CaptureGroup>, obj: string)
    requires Grows(g1, r) && |gs| <= |g1| <= |gs| + 1
    requires |g1| == |gs| + 1 ==> g1[|gs|].objectName == obj
    requires forall i :: |g1| <= i < |r| ==> r[i].objectName == obj
    ensures forall i :: |gs| <= i < |r| ==> r[i].objectName == obj
  {
    forall i | |gs| <= i < |r| ensures r[i].objectName == obj {
      if i < |g1| {
        assert Key(r[i]) == Key(g1[i]);
      }
    }
  }

  /** The captures of `cs` with filter `f`, in their order. */
  function WithFilter(cs: seq<CaptureRecord>, f: string): (r: seq<CaptureRecord>)
    ensures forall k :: 0 <= k < |r| ==> r[k].filter == f && r[k] in cs
    ensures forall k :: 0 <= k < |cs| && cs[k].filter == f ==> cs[k] in r
    decreases |cs|
  {
    if |cs| == 0 then []
    else (if cs[0].filter == f then [cs[0]] else []) + WithFilter(cs[1..], f)
  }

  /** Group `i` of `r` holds the captures of group `i` of `gs` (none when
      `gs` has fewer groups) followed, when its object is `obj`, by those of
      `cs` with its filter, in their order. */
  predicate AddedIn(gs: seq<CaptureGroup>, r: seq<CaptureGroup>, i: nat, obj: string, cs: seq<CaptureRecord>)
    requires i < |r|
  {
    r[i].captures == Before(gs, i) + (if r[i].objectName == obj then WithFilter(cs, r[i].filter) else [])
  }

  /** One step of `AddAll`: the first capture is filed, then the rest. */
  lemma {:induction false} AddAllContents(gs: seq<CaptureGroup>, g1: seq<CaptureGroup>, r: seq<CaptureGroup>, obj: string, cs: seq<CaptureRecord>)
    requires |cs| > 0 && GroupsInv(r) && Grows(g1, r) && Filed(g1, obj, cs[0]) && |gs| <= |g1|
    requires forall i :: 0 <= i < |g1| ==> AddedIn(gs, g1, i, obj, [cs[0]])
    requires forall i :: |g1| <= i < |r| ==> r[i].objectName == obj
    requires forall i :: 0 <= i < |r| ==> AddedIn(g1, r, i, obj, cs[1..])
    ensures forall i :: 0 <= i < |r| ==> AddedIn(gs, r, i, obj, cs)
  {
    var c := cs[0];
    var j :| 0 <= j < |g1| && Key(g1[j]) == (obj, c.filter) && c in g1[j].captures;
    forall i | 0 <= i < |r| ensures AddedIn(gs, r, i, obj, cs) {
      var g, f := r[i], r[i].filter;
      var p := if g.objectName == obj && c.filter == f then [c] else [];
      var q := if g.objectName == obj then WithFilter(cs[1..], f) else [];
      assert p + q == (if g.objectName == obj then WithFilter(cs, f) else []);
      assert AddedIn(g1, r, i, obj, cs[1..]);
      if i < |g1| {
        assert Key(g1[i]) == Key(g) && AddedIn(gs, g1, i, obj, [c]);
        WithFilterOne(c, f);
      } else {
        assert Key(r[j]) == Key(g1[j]) && i != j;
        assert Before(g1, i) == [] == Before(gs, i) + p;
      }
      Regroup(Before(gs, i), p, q, Before(g1, i), g.captures);
    }
  }

  lemma WithFilterOne(c: CaptureRecord, f: string)
    ensures WithFilter([c], f) == if c.filter == f then [c] else []
  {
    assert [c][1..] == [];
  }

  lemma Regroup(b: seq<CaptureRecord>, p: seq<CaptureRecord>, q: seq<CaptureRecord>, x: seq<CaptureRecord>, y: seq<CaptureRecord>)
    requires x == b + p && y == x + q
    ensures y == b + (p + q)
  {
  }

  /** The capture summary of the kept sessions: every completed capture of a
      session filed under that session's object name and its own filter. */
  function CaptureSummary(gs: seq<CaptureGroup>, sessions: seq<SessionData>): (r: seq<CaptureGroup>)
    requires GroupsInv(gs)
    ensures GroupsInv(r)
    ensures GroupSizes(r) == GroupSizes(gs) + CountCompleted(sessions)
    ensures Grows(gs, r)
    ensures forall i :: |gs| <= i < |r| ==> NamedFor(r[i], sessions)
    ensures forall k :: 0 <= k < |sessions| ==> AllFiled(r, sessions[k])
    ensures forall i :: 0 <= i < |r| ==> SummarisedIn(gs, r, i, sessions)
    decreases |sessions|
  {
    if |sessions| == 0 then gs
    else
      var s := sessions[0];
      var g1 := AddAll(gs, SessionObjectName(s), Completed(s.captures));
      var r := CaptureSummary(g1, sessions[1..]);
      GrowsTrans(gs, g1, r);
      SummaryNames(gs, g1, r, sessions);
      SummaryFiled(g1, r, sessions);
      SummaryContents(gs, g1, r, sessions);
      r
  }

  /** The completed captures the sessions file under `key`, in session
      order: those of every session attributed to the key's object that
      carry the key's filter. */
  function KeyedCaptures(sessions: seq<SessionData>, key: (string, string)): seq<CaptureRecord>
    decreases |sessions|
  {
    if |sessions| == 0 then []
    else
      (if SessionObjectName(sessions[0]) == key.0 then WithFilter(Completed(sessions[0].captures), key.1) else [])
      + KeyedCaptures(sessions[1..], key)
  }

  /** Group `i` of `r` holds the captures of group `i` of `gs` (none when
      `gs` has fewer groups) followed by those the sessions file under its
      key, in session order. */
  predicate SummarisedIn(gs: seq<CaptureGroup>, r: seq<CaptureGroup>, i: nat, sessions: seq<SessionData>)
    requires i < |r|
  {
    r[i].captures == Before(gs, i) + KeyedCaptures(sessions, Key(r[i]))
  }

  /** One step of `CaptureSummary`: the first session is filed, then the rest. */
  lemma {:induction false} SummaryContents(gs: seq<CaptureGroup>, g1: seq<CaptureGroup>, r: seq<CaptureGroup>, sessions: seq<SessionData>)
    requires |sessions| > 0 && GroupsInv(r) && Grows(g1, r) && |gs| <= |g1|
    requires AllFiled(g1, sessions[0])
    requires forall i :: 0 <= i < |g1| ==> AddedIn(gs, g1, i, SessionObjectName(sessions[0]), Completed(sessions[0].captures))
    requires forall i :: 0 <= i < |r| ==> SummarisedIn(g1, r, i, sessions[1..])
    ensures forall i :: 0 <= i < |r| ==> SummarisedIn(gs, r, i, sessions)
  {
    var obj := SessionObjectName(sessions[0]);
    var cs := Completed(sessions[0].captures);
    forall i | 0 <= i < |r| ensures SummarisedIn(gs, r, i, sessions) {
      var g, f := r[i], r[i].filter;
      var p := if g.objectName == obj then WithFilter(cs, f) else [];
      var q := KeyedCaptures(sessions[1..], Key(g));
      assert KeyedCaptures(sessions, Key(g)) == p + q;
      assert SummarisedIn(g1, r, i, sessions[1..]);
      if i < |g1| {
        assert Key(g1[i]) == Key(g) && AddedIn(gs, g1, i, obj, cs);
      } else {
        if g.objectName == obj {
          forall k | 0 <= k < |cs| ensures cs[k].filter != f {
            var j :| 0 <= j < |g1| && Key(g1[j]) == (obj, cs[k].filter) && cs[k] in g1[j].captures;
            assert Key(r[j]) == Key(g1[j]) && i != j;
          }
          WithFilterNone(cs, f);
        }
        assert Before(g1, i) == [] == Before(gs, i) + p;
      }
      Regroup(Before(gs, i), p, q, Before(g1, i), g.captures);
    }
  }

  lemma {:induction false} WithFilterNone(cs: seq<CaptureRecord>, f: string)
    requires forall k :: 0 <= k < |cs| ==> cs[k].filter != f
    ensures WithFilter(cs, f) == []
    decreases |cs|
  {
    if |cs| > 0 {
      assert forall k :: 0 <= k < |cs[1..]| ==> cs[1..][k] == cs[k + 1];
      WithFilterNone(cs[1..], f);
    }
  }

  lemma SummaryNames(gs: seq<CaptureGroup>, g1: seq<CaptureGroup>, r: seq<CaptureGroup>, sessions: seq<SessionData>)
    requires |sessions| > 0 && Grows(gs, g1) && Grows(g1, r)
    requires forall i :: |gs| <= i < |g1| ==> g1[i].objectName == SessionObjectName(sessions[0])
    requires forall i :: |g1| <= i < |r| ==> NamedFor(r[i], sessions[1..])
    ensures forall i :: |gs| <= i < |r| ==> NamedFor(r[i], sessions)
  {
    forall i | |gs| <= i < |r| ensures NamedFor(r[i], sessions) {
      if i < |g1| {
        assert Key(r[i]) == Key(g1[i]);
        assert r[i].objectName == SessionObjectName(sessions[0]);
      } else {
        var k :| 0 <= k < |sessions[1..]| && r[i].objectName == SessionObjectName(sessions[1..][k]);
        assert sessions[1..][k] == sessions[k + 1];
      }
    }
  }

  lemma SummaryFiled(g1: seq<CaptureGroup>, r: seq<CaptureGroup>, sessions: seq<SessionData>)
    requires |sessions| > 0 && Grows(g1, r) && AllFiled(g1, sessions[0])
    requires forall k :: 0 <= k < |sessions[1..]| ==> AllFiled(r, sessions[1..][k])
    ensures forall k :: 0 <= k < |sessions| ==> AllFiled(r, sessions[k])
  {
    forall k | 0 <= k < |sessions| ensures AllFiled(r, sessions[k]) {
      if k == 0 {
        var s := sessions[0];
        var cs := Completed(s.captures);
        forall j | 0 <= j < |cs| ensures Filed(r, SessionObjectName(s), cs[j]) {
          GrowsKeepsFiled(g1, r, SessionObjectName(s), cs[j]);
        }
      } else {
        assert sessions[k] == sessions[1..][k - 1];
      }
    }
  }

  /** The group's object is the object of one of the sessions. */
  predicate NamedFor(g: CaptureGroup, sessions: seq<SessionData>) {
    exists k :: 0 <= k < |sessions| && g.objectName == SessionObjectName(sessions[k])
  }

  /** Every completed capture of `s` is filed under the session's object. */
  predicate AllFiled(gs: seq<CaptureGroup>, s: SessionData) {
    var cs := Completed(s.captures);
    forall j :: 0 <= j < |cs| ==> Filed(gs, SessionObjectName(s), cs[j])
  }

  function CountCompleted(sessions: seq<SessionData>): nat
    decreases |sessions|
  {
    if |sessions| == 0 then 0 else |Completed(sessions[0].captures)| + CountCompleted(sessions[1..])
  }

  // --- Statistics ---

  datatype TemperatureStats = TemperatureStats(min: real, max: real, avg: real, readingsCount: nat)

  function Temperatures(readings: seq<TemperatureReading>): (r: seq<real>)
    ensures |r| == |readings| && forall i :: 0 <= i < |r| ==> r[i] == readings[i].temperature
  {
    seq(|readings|, i requires 0 <= i < |readings| => readings[i].temperature)
  }

  function TemperatureStatsOf(readings: seq<TemperatureReading>): (r: Option<TemperatureStats>)
    ensures r.None? <==> |readings| == 0
    ensures r.Some? ==> r.value.min <= r.value.avg <= r.value.max && r.value.readingsCount == |readings|
    ensures r.Some? ==> forall i :: 0 <= i < |readings| ==>
                          r.value.min <= readings[i].temperature <= r.value.max
    ensures r.Some? ==> IsMin(r.value.min, Temperatures(readings)) && IsMax(r.value.max, Temperatures(readings))
    ensures r.Some? ==> IsMean(r.value.avg, Temperatures(readings))
  {
    if |readings| == 0 then None
    else
      var temps := Temperatures(readings);
      MeanBetweenMinMax(temps);
      MeanTimesCount(temps);
      Some(TemperatureStats(Min(temps), Max(temps), Mean(temps), |temps|))
  }

  /** The sentinel below which Ekos records no real focuser temperature. */
  const InvalidTemperature: real := -999999.0

  datatype AutofocusStats = AutofocusStats(sessionsCount: nat, avgTemperature: Option<real>)

  /** The focuser temperatures of autofocus runs, in order. */
  function AfTemperatures(afs: seq<AutofocusRecord>): (r: seq<real>)
    ensures |r| == |afs| && forall i :: 0 <= i < |afs| ==> r[i] == afs[i].temperature
  {
    seq(|afs|, i requires 0 <= i < |afs| => afs[i].temperature)
  }

  /** A temperature above the sentinel. */
  predicate IsValidTemperature(t: real) {
    t > InvalidTemperature
  }

  /** The temperatures above the sentinel, each as often as a run recorded it. */
  function ValidTemperatures(afs: seq<AutofocusRecord>): (r: seq<real>)
    ensures |r| <= |afs|
    ensures forall i :: 0 <= i < |r| ==> r[i] > InvalidTemperature
    ensures (forall i :: 0 <= i < |afs| ==> afs[i].temperature <= InvalidTemperature) <==> r == []
    ensures forall i :: 0 <= i < |r| ==> exists j :: 0 <= j < |afs| && afs[j].temperature == r[i]
    ensures forall i :: 0 <= i < |afs| && afs[i].temperature > InvalidTemperature ==> afs[i].temperature in r
    ensures forall t :: multiset(r)[t] == if t > InvalidTemperature then multiset(AfTemperatures(afs))[t] else 0
  {
    var ts := AfTemperatures(afs);
    KeepCounts(ts, IsValidTemperature);
    var r := Keep(ts, IsValidTemperature);
    assert forall i :: 0 <= i < |r| ==> exists j :: 0 <= j < |afs| && afs[j].temperature == r[i] by {
      forall i | 0 <= i < |r| ensures exists j :: 0 <= j < |afs| && afs[j].temperature == r[i] {
        assert r[i] in ts;
      }
    }
    r
  }

  /** Valid temperatures come out in the order of the runs. */
  lemma ValidTemperaturesAppend(a: seq<AutofocusRecord>, b: seq<AutofocusRecord>)
    ensures ValidTemperatures(a + b) == ValidTemperatures(a) + ValidTemperatures(b)
  {
    assert AfTemperatures(a + b) == AfTemperatures(a) + AfTemperatures(b);
    KeepAppend(AfTemperatures(a), AfTemperatures(b), IsValidTemperature);
  }

  /** The autofocus roll-up over completed runs: the count, and the mean of
      the temperatures above the sentinel (absent when none is). */
  function AutofocusStatsOf(afs: seq<AutofocusRecord>): (r: Option<AutofocusStats>)
    ensures r.None? <==> |afs| == 0
    ensures r.Some? ==> r.value.sessionsCount == |afs|
    ensures r.Some? ==> (r.value.avgTemperature.None? <==>
                           forall i :: 0 <= i < |afs| ==> afs[i].temperature <= InvalidTemperature)
    ensures r.Some? && r.value.avgTemperature.Some? ==> r.value.avgTemperature.value > InvalidTemperature
    ensures r.Some? && r.value.avgTemperature.Some? ==> IsMean(r.value.avgTemperature.value, ValidTemperatures(afs))
  {
    if |afs| == 0 then None
    else
      var valid := ValidTemperatures(afs);
      if |valid| == 0 then Some(AutofocusStats(|afs|, None))
      else
        MeanBetween(valid, Min(valid), Max(valid));
        MeanTimesCount(valid);
        Some(AutofocusStats(|afs|, Some(Mean(valid))))
  }

  /** The guide-quality grades, best first. */
  datatype Grade = Excellent | Good | Average | Poor | Unknown | NoData

  /** Grading of a mean guide error in arcseconds. */
  function GradeDistance(avg: real): (q: Grade)
    ensures q == Excellent <==> avg < 1.0
    ensures q == Good <==> 1.0 <= avg < 2.0
    ensures q == Average <==> 2.0 <= avg < 3.0
    ensures q == Poor <==> 3.0 <= avg
  {
    if avg < 1.0 then Excellent
    else if avg < 2.0 then Good
    else if avg < 3.0 then Average
    else Poor
  }

  /** The rank of a grade, 0 for the best. */
  function Rank(q: Grade): nat {
    match q
    case Excellent => 0
    case Good => 1
    case Average => 2
    case Poor => 3
    case Unknown => 4
    case NoData => 5
  }

  /** A larger mean error never earns a better grade. */
  lemma GradeMonotone(a: real, b: real)
    requires a <= b
    ensures Rank(GradeDistance(a)) <= Rank(GradeDistance(b))
  {
  }

  /** `_calculate_guide_quality_from_distance`. */
  function GuideQualityFromDistance(distances: seq<real>): (q: Grade)
    ensures q == Unknown <==> |distances| == 0
    ensures |distances| > 0 ==> q == GradeDistance(Mean(distances))
  {
    if |distances| == 0 then Unknown else GradeDistance(Mean(distances))
  }

  function PositiveDistances(stats: seq<GuideStat>): (r: seq<real>)
    ensures forall i :: 0 <= i < |r| ==> r[i] > 0.0
    ensures r == [] <==> forall i :: 0 <= i < |stats| ==> stats[i].distance <= 0.0
    decreases |stats|
  {
    if |stats| == 0 then []
    else if stats[0].distance > 0.0 then [stats[0].distance] + PositiveDistances(stats[1..])
    else PositiveDistances(stats[1..])
  }

  /** `_calculate_guide_quality`, from the recorded distance field. */
  function GuideQuality(stats: seq<GuideStat>): (q: Grade)
    ensures q == Unknown <==> |stats| == 0
    ensures q == NoData <==> |stats| > 0 && forall i :: 0 <= i < |stats| ==> stats[i].distance <= 0.0
    ensures q != Unknown && q != NoData ==> q == GuideQualityFromDistance(PositiveDistances(stats))
  {
    if |stats| == 0 then Unknown
    else
      var ds := PositiveDistances(stats);
      if |ds| == 0 then NoData else GradeDistance(Mean(ds))
  }

  datatype GuideSummary = GuideSummary(totalMeasurements: nat, avgDistance: real, maxDistance: real,
                                       avgRms: real, avgRaError: real, avgDecError: real,
                                       quality: Grade)

  /** A distance of at most 10 arcseconds; larger ones are spurious. */
  predicate IsInlier(d: real) {
    d <= 10.0
  }

  /** The inlier distances, each as often as it was measured. */
  function Inliers(ds: seq<real>): (r: seq<real>)
    ensures |r| <= |ds|
    ensures forall i :: 0 <= i < |r| ==> r[i] <= 10.0 && r[i] in ds
    ensures forall i :: 0 <= i < |ds| && ds[i] <= 10.0 ==> ds[i] in r
    ensures forall d :: multiset(r)[d] == if d <= 10.0 then multiset(ds)[d] else 0
  {
    KeepCounts(ds, IsInlier);
    Keep(ds, IsInlier)
  }

  /** Inliers come out in the order they were measured. */
  lemma InliersAppend(a: seq<real>, b: seq<real>)
    ensures Inliers(a + b) == Inliers(a) + Inliers(b)
  {
    KeepAppend(a, b, IsInlier);
  }

  predicate IsPositive(x: real) {
    x > 0.0
  }

  /** The RMS field of every guide measurement, in order. */
  function RmsValues(stats: seq<GuideStat>): (r: seq<real>)
    ensures |r| == |stats| && forall i :: 0 <= i < |stats| ==> r[i] == stats[i].rms
  {
    seq(|stats|, i requires 0 <= i < |stats| => stats[i].rms)
  }

  /** The positive RMS values, each as often as it was measured. */
  function PositiveRms(stats: seq<GuideStat>): (r: seq<real>)
    ensures forall i :: 0 <= i < |r| ==> r[i] > 0.0
    ensures forall x :: multiset(r)[x] == if x > 0.0 then multiset(RmsValues(stats))[x] else 0
  {
    KeepCounts(RmsValues(stats), IsPositive);
    Keep(RmsValues(stats), IsPositive)
  }

  /** The error distance `sqrt(dx² + dy²)` of one measurement, through `root`. */
  function Distance(g: GuideStat, root: real -> real): real {
    root(g.dx * g.dx + g.dy * g.dy)
  }

  /** The error distance of every measurement, in order. */
  function Distances(stats: seq<GuideStat>, root: real -> real): (r: seq<real>)
    ensures |r| == |stats| && forall i :: 0 <= i < |stats| ==> r[i] == Distance(stats[i], root)
  {
    seq(|stats|, i requires 0 <= i < |stats| => Distance(stats[i], root))
  }

  /** `abs(dx)` of every measurement. */
  function RaErrors(stats: seq<GuideStat>): (r: seq<real>)
    ensures |r| == |stats| && forall i :: 0 <= i < |stats| ==> r[i] == Abs(stats[i].dx)
  {
    seq(|stats|, i requires 0 <= i < |stats| => Abs(stats[i].dx))
  }

  /** `abs(dy)` of every measurement. */
  function DecErrors(stats: seq<GuideStat>): (r: seq<real>)
    ensures |r| == |stats| && forall i :: 0 <= i < |stats| ==> r[i] == Abs(stats[i].dy)
  {
    seq(|stats|, i requires 0 <= i < |stats| => Abs(stats[i].dy))
  }

  function Abs(x: real): real {
    if x < 0.0 then -x else x
  }

  /** The mean, 0 for no values. */
  function MeanOr0(xs: seq<real>): (r: real)
    ensures |xs| == 0 ==> r == 0.0
    ensures |xs| > 0 ==> Min(xs) <= r <= Max(xs)
    ensures IsMeanOr0(r, xs)
  {
    if |xs| == 0 then 0.0 else MeanBetweenMinMax(xs); MeanTimesCount(xs); Mean(xs)
  }

  /** The guide roll-up: error distances from `dx`, `dy` through `root`,
      outliers above 10 arcseconds dropped, and averages of the rest. */
  function GuideSummaryOf(stats: seq<GuideStat>, root: real -> real): (r: Option<GuideSummary>)
    ensures r.None? <==> |stats| == 0
    ensures r.Some? ==> r.value.totalMeasurements == |stats|
    ensures r.Some? ==> r.value.maxDistance <= 10.0
    ensures r.Some? ==> r.value.avgDistance <= 10.0
    ensures r.Some? ==> r.value.avgRaError >= 0.0 && r.value.avgDecError >= 0.0
    ensures r.Some? ==> r.value.avgRms >= 0.0
    ensures r.Some? ==> var kept := Inliers(Distances(stats, root));
              && IsMeanOr0(r.value.avgDistance, kept)
              && (if kept == [] then r.value.maxDistance == 0.0 else IsMax(r.value.maxDistance, kept))
    ensures r.Some? ==> IsMeanOr0(r.value.avgRms, PositiveRms(stats))
    ensures r.Some? ==> IsMean(r.value.avgRaError, RaErrors(stats)) && IsMean(r.value.avgDecError, DecErrors(stats))
    ensures r.Some? ==> r.value.quality == GuideQualityFromDistance(Inliers(Distances(stats, root)))
  {
    if |stats| == 0 then None
    else
      var kept := Inliers(Distances(stats, root));
      var rms := PositiveRms(stats);
      var ra := RaErrors(stats);
      var dec := DecErrors(stats);
      Some(GuideSummary(|stats|, MeanOr0(kept), if |kept| > 0 then Max(kept) else 0.0,
                        MeanOr0(rms), MeanOr0(ra), MeanOr0(dec), GuideQualityFromDistance(kept)))
  }

  datatype AlignmentStats = AlignmentStats(totalAttempts: nat, successful: nat, successRate: real,
                                           states: set<string>)

  /** The state word of every alignment record, in order. */
  function StateWords(states: seq<StateRecord>): (r: seq<string>)
    ensures |r| == |states| && forall i :: 0 <= i < |states| ==> r[i] == states[i].state
  {
    seq(|states|, i requires 0 <= i < |states| => states[i].state)
  }

  /** The number of records in state `s`. */
  function CountState(states: seq<StateRecord>, s: string): (n: nat)
    ensures n <= |states|
    decreases |states|
  {
    if |states| == 0 then 0
    else (if states[0].state == s then 1 else 0) + CountState(states[1..], s)
  }

  /** The count is the multiplicity of the word among the records' states. */
  lemma {:induction false} CountStateWords(states: seq<StateRecord>, s: string)
    ensures CountState(states, s) == multiset(StateWords(states))[s]
    decreases |states|
  {
    if |states| > 0 {
      CountStateWords(states[1..], s);
      assert StateWords(states) == [states[0].state] + StateWords(states[1..]);
    }
  }

  /** Counting over the states of several sessions adds the counts of each. */
  lemma CountStateAppend(a: seq<StateRecord>, b: seq<StateRecord>, s: string)
    ensures CountState(a + b, s) == CountState(a, s) + CountState(b, s)
  {
    CountStateWords(a + b, s);
    CountStateWords(a, s);
    CountStateWords(b, s);
    assert StateWords(a + b) == StateWords(a) + StateWords(b);
  }

  /** The alignment roll-up: successes over attempts that ended in
      `Successful` or `Failed`, with at least one attempt in the divisor. */
  function AlignmentStatsOf(states: seq<StateRecord>): (r: Option<AlignmentStats>)
    ensures r.None? <==> |states| == 0
    ensures r.Some? ==> 0.0 <= r.value.successRate <= 1.0
    ensures r.Some? ==> r.value.successful <= r.value.totalAttempts
    ensures r.Some? ==> (r.value.successRate == 0.0 <==> r.value.successful == 0)
    ensures r.Some? ==> forall i :: 0 <= i < |states| ==> states[i].state in r.value.states
    ensures r.Some? ==> forall w :: w in r.value.states <==> w in StateWords(states)
    ensures r.Some? ==> r.value.successful == CountState(states, "Successful")
    ensures r.Some? ==> r.value.totalAttempts == CountState(states, "Successful") + CountState(states, "Failed")
    ensures r.Some? ==> IsShare(r.value.successRate, r.value.successful, r.value.totalAttempts)
  {
    if |states| == 0 then None
    else
      var ok := CountState(states, "Successful");
      var attempts := ok + CountState(states, "Failed");
      Some(AlignmentStats(attempts, ok, SuccessShare(ok, attempts), StateSet(states)))
  }

  /** `max(n, 1)`. */
  function AtLeastOne(n: nat): (r: nat)
    ensures r >= 1 && r >= n
  {
    if n > 1 then n else 1
  }

  /** `q` is `ok / max(attempts, 1)`: times the divisor it gives `ok` back. */
  predicate IsShare(q: real, ok: nat, attempts: nat) {
    q * AtLeastOne(attempts) as real == ok as real
  }

  /** `ok / max(attempts, 1)`: a share between 0 and 1, zero exactly
      without successes. */
  function SuccessShare(ok: nat, attempts: nat): (q: real)
    requires ok <= attempts
    ensures IsShare(q, ok, attempts)
    ensures 0.0 <= q <= 1.0 && (q == 0.0 <==> ok == 0)
  {
    var divisor := AtLeastOne(attempts);
    DivBetween(ok as real, divisor as real, 0.0, 1.0);
    Ratio(ok as real, divisor as real)
  }

  /** The distinct state words (`set(a['state'] for a in ...)`). */
  function StateSet(states: seq<StateRecord>): (r: set<string>)
    ensures forall i :: 0 <= i < |states| ==> states[i].state in r
    ensures forall w :: w in r <==> w in StateWords(states)
  {
    var words := StateWords(states);
    assert forall i :: 0 <= i < |states| ==> states[i].state == words[i];
    set w | w in words
  }

  /** The non-empty object names of all scheduler jobs. */
  function TargetObjects(jobs: seq<SchedulerRecord>): (r: set<string>)
    ensures forall n :: n in r <==> n != "" && exists i :: 0 <= i < |jobs| && jobs[i].objectName == n
  {
    set i | 0 <= i < |jobs| && jobs[i].objectName != "" :: jobs[i].objectName
  }

  // --- Session duration ---

  /** The earliest parsed session start and the latest estimated end
      (start plus the largest capture offset of that session). */
  datatype Timing = Timing(earliest: Option<real>, latest: Option<real>)

  function Timestamps(cs: seq<CaptureRecord>): (r: seq<real>)
    ensures |r| == |cs| && forall i :: 0 <= i < |cs| ==> r[i] == cs[i].timestamp
  {
    seq(|cs|, i requires 0 <= i < |cs| => cs[i].timestamp)
  }

  function MinOpt(a: Option<real>, b: real): real {
    if a.Some? && a.value <= b then a.value else b
  }

  function MaxOpt(a: Option<real>, b: real): real {
    if a.Some? && a.value >= b then a.value else b
  }

  /** An end is only known together with a start no later than it. */
  predicate Ordered(t: Timing) {
    t.latest.Some? ==> t.earliest.Some? && t.earliest.value <= t.latest.value
  }

  /** No capture of the session is logged before the session start. */
  predicate NonNegativeOffsets(s: SessionData) {
    forall i :: 0 <= i < |s.captures| ==> s.captures[i].timestamp >= 0.0
  }

  /** One session's contribution to the timing: a parsed start lowers the
      earliest start; with captures, start plus the last capture offset
      raises the latest end. */
  function SessionTiming(t: Timing, s: SessionData, clock: string -> Option<real>): (r: Timing)
    ensures t.earliest.Some? ==> r.earliest.Some? && r.earliest.value <= t.earliest.value
    ensures t.latest.Some? ==> r.latest.Some? && r.latest.value >= t.latest.value
    ensures r.latest.Some? && t.latest.None? ==> r.earliest.Some?
    ensures r.earliest.Some? && t.earliest.None? ==>
              s.sessionStart.Some? && clock(s.sessionStart.value) == r.earliest
    ensures Ordered(t) && NonNegativeOffsets(s) ==> Ordered(r)
  {
    if s.sessionStart.None? then t
    else match clock(s.sessionStart.value)
      case None => t
      case Some(start) =>
        var earliest := MinOpt(t.earliest, start);
        if |s.captures| > 0 then
          Timing(Some(earliest), Some(MaxOpt(t.latest, start + Max(Timestamps(s.captures)))))
        else Timing(Some(earliest), t.latest)
  }

  function Timings(t: Timing, sessions: seq<SessionData>, clock: string -> Option<real>): (r: Timing)
    ensures t.earliest.Some? ==> r.earliest.Some? && r.earliest.value <= t.earliest.value
    ensures t.latest.Some? ==> r.latest.Some? && r.latest.value >= t.latest.value
    ensures r.latest.Some? && t.latest.None? ==> r.earliest.Some?
    ensures Ordered(t) && (forall k :: 0 <= k < |sessions| ==> NonNegativeOffsets(sessions[k])) ==> Ordered(r)
    decreases |sessions|
  {
    if |sessions| == 0 then t
    else
      assert forall k :: 0 <= k < |sessions[1..]| ==> sessions[1..][k] == sessions[k + 1];
      Timings(SessionTiming(t, sessions[0], clock), sessions[1..], clock)
  }

  datatype SessionDuration = SessionDuration(start: real, end: real, hours: real)

  /** The session duration: from parsed starts when there are both a start
      and an end, otherwise from the spread of completed-capture offsets,
      placed back from `now`; absent when neither is available. */
  function DurationOf(t: Timing, completed: seq<CaptureRecord>, now: real): (r: Option<SessionDuration>)
    ensures t.earliest.Some? && t.latest.Some? ==>
              r == Some(SessionDuration(t.earliest.value, t.latest.value,
                                        (t.latest.value - t.earliest.value) / 3600.0))
    ensures !(t.earliest.Some? && t.latest.Some?) ==> (r.None? <==> |completed| == 0)
    ensures !(t.earliest.Some? && t.latest.Some?) && |completed| > 0 ==>
              var ts := Timestamps(completed);
              r.value.hours == (Max(ts) - Min(ts)) / 3600.0 && r.value.hours >= 0.0 &&
              r.value.start == now - Max(ts) && r.value.end == now - Min(ts)
  {
    if t.earliest.Some? && t.latest.Some? then
      Some(SessionDuration(t.earliest.value, t.latest.value, (t.latest.value - t.earliest.value) / 3600.0))
    else if |completed| > 0 then
      var ts := Timestamps(completed);
      Some(SessionDuration(now - Max(ts), now - Min(ts), (Max(ts) - Min(ts)) / 3600.0))
    else None
  }

  // --- The aggregate ---

  datatype Aggregate = Aggregate(
    sessions: seq<SessionData>,
    totalCaptures: nat,
    captureSummary: seq<CaptureGroup>,
    temperatureStats: Option<TemperatureStats>,
    autofocusStats: Option<AutofocusStats>,
    guideStats: Option<GuideSummary>,
    alignmentStats: Option<AlignmentStats>,
    targetObjects: set<string>,
    sessionDuration: Option<SessionDuration>,
    issues: seq<Issue>)

  /** A parsed file is kept when it has captures or autofocus entries. */
  predicate HasData(s: SessionData) {
    |s.captures| > 0 || |s.autofocus| > 0
  }

  /** The files with data, each as often as it was listed. */
  function KeepSessions(ss: seq<SessionData>): (r: seq<SessionData>)
    ensures forall i :: 0 <= i < |r| ==> HasData(r[i]) && r[i] in ss
    ensures forall i :: 0 <= i < |ss| && HasData(ss[i]) ==> ss[i] in r
    ensures r == [] <==> forall i :: 0 <= i < |ss| ==> !HasData(ss[i])
    ensures forall s :: multiset(r)[s] == if HasData(s) then multiset(ss)[s] else 0
  {
    KeepCounts(ss, HasData);
    Keep(ss, HasData)
  }

  /** Kept files stay in the order they were listed. */
  lemma KeepSessionsAppend(a: seq<SessionData>, b: seq<SessionData>)
    ensures KeepSessions(a + b) == KeepSessions(a) + KeepSessions(b)
  {
    KeepAppend(a, b, HasData);
  }

  /** The captures of all sessions, one session after another. */
  function AllCaptures(ss: seq<SessionData>): seq<CaptureRecord>
    decreases |ss|
  {
    if |ss| == 0 then [] else ss[0].captures + AllCaptures(ss[1..])
  }

  /** The completed captures of every session, session by session: the
      completed captures of all captures laid end to end. */
  function AllCompleted(ss: seq<SessionData>): (r: seq<CaptureRecord>)
    ensures |r| == CountCompleted(ss)
    ensures r == Completed(AllCaptures(ss))
    decreases |ss|
  {
    if |ss| == 0 then []
    else
      CompletedAppend(ss[0].captures, AllCaptures(ss[1..]));
      Completed(ss[0].captures) + AllCompleted(ss[1..])
  }

  /** Collecting over two lists of sessions is collecting over each in
      turn. */
  lemma AllCompletedAppend(a: seq<SessionData>, b: seq<SessionData>)
    ensures AllCompleted(a + b) == AllCompleted(a) + AllCompleted(b)
  {
    AllCapturesAppend(a, b);
    CompletedAppend(AllCaptures(a), AllCaptures(b));
  }

  lemma {:induction false} AllCapturesAppend(a: seq<SessionData>, b: seq<SessionData>)
    ensures AllCaptures(a + b) == AllCaptures(a) + AllCaptures(b)
    decreases |a|
  {
    if |a| == 0 {
      assert a + b == b;
    } else {
      assert (a + b)[0] == a[0] && (a + b)[1..] == a[1..] + b;
      AllCapturesAppend(a[1..], b);
    }
  }

  function AllTemperatures(ss: seq<SessionData>): seq<TemperatureReading>
    decreases |ss|
  {
    if |ss| == 0 then [] else ss[0].temperatures + AllTemperatures(ss[1..])
  }

  predicate IsCompleteRun(af: AutofocusRecord) {
    af.AfCompleteRecord?
  }

  /** The completed autofocus runs, each as often as it was logged. */
  function CompletedAutofocus(afs: seq<AutofocusRecord>): (r: seq<AutofocusRecord>)
    ensures forall i :: 0 <= i < |r| ==> r[i].AfCompleteRecord?
    ensures forall af :: multiset(r)[af] == if af.AfCompleteRecord? then multiset(afs)[af] else 0
  {
    KeepCounts(afs, IsCompleteRun);
    Keep(afs, IsCompleteRun)
  }

  /** The autofocus runs of all sessions, one session after another. */
  function AutofocusRuns(ss: seq<SessionData>): seq<AutofocusRecord>
    decreases |ss|
  {
    if |ss| == 0 then [] else ss[0].autofocus + AutofocusRuns(ss[1..])
  }

  /** The completed runs of every session, session by session: the
      completed runs of all runs laid end to end. */
  function AllAutofocus(ss: seq<SessionData>): (r: seq<AutofocusRecord>)
    ensures forall i :: 0 <= i < |r| ==> r[i].AfCompleteRecord?
    ensures r == CompletedAutofocus(AutofocusRuns(ss))
    decreases |ss|
  {
    if |ss| == 0 then []
    else
      KeepAppend(ss[0].autofocus, AutofocusRuns(ss[1..]), IsCompleteRun);
      CompletedAutofocus(ss[0].autofocus) + AllAutofocus(ss[1..])
  }

  /** Every completed run of every session is collected. */
  lemma AllAutofocusComplete(ss: seq<SessionData>, k: nat, j: nat)
    requires k < |ss| && j < |ss[k].autofocus| && ss[k].autofocus[j].AfCompleteRecord?
    ensures ss[k].autofocus[j] in AllAutofocus(ss)
  {
    RunsHold(ss, k, j);
    var all := AutofocusRuns(ss);
    assert multiset(AllAutofocus(ss))[ss[k].autofocus[j]] == multiset(all)[ss[k].autofocus[j]];
  }

  lemma {:induction false} RunsHold(ss: seq<SessionData>, k: nat, j: nat)
    requires k < |ss| && j < |ss[k].autofocus|
    ensures ss[k].autofocus[j] in AutofocusRuns(ss)
    decreases |ss|
  {
    if k > 0 {
      RunsHold(ss[1..], k - 1, j);
    }
  }

  function AllGuideStats(ss: seq<SessionData>): seq<GuideStat>
    decreases |ss|
  {
    if |ss| == 0 then [] else ss[0].guideStats + AllGuideStats(ss[1..])
  }

  function AllAlignStates(ss: seq<SessionData>): seq<StateRecord>
    decreases |ss|
  {
    if |ss| == 0 then [] else ss[0].alignStates + AllAlignStates(ss[1..])
  }

  function AllJobs(ss: seq<SessionData>): seq<SchedulerRecord>
    decreases |ss|
  {
    if |ss| == 0 then [] else ss[0].schedulerJobs + AllJobs(ss[1..])
  }

  function AllIssues(ss: seq<SessionData>): seq<Issue>
    decreases |ss|
  {
    if |ss| == 0 then [] else ss[0].issues + AllIssues(ss[1..])
  }

  /** `aggregate_session_data` over the parsed files: `None` (the empty
      dictionary) when no file has captures or autofocus entries. */
  function AggregateSessions(parsed: seq<SessionData>, clock: string -> Option<real>,
                             root: real -> real, now: real): (r: Option<Aggregate>)
    ensures r.None? <==> forall i :: 0 <= i < |parsed| ==> !HasData(parsed[i])
    ensures r.Some? ==> r.value.totalCaptures == GroupSizes(r.value.captureSummary)
    ensures r.Some? ==> r.value.totalCaptures == CountCompleted(r.value.sessions)
    ensures r.Some? ==> GroupsInv(r.value.captureSummary)
    ensures r.Some? ==> forall i :: 0 <= i < |r.value.captureSummary| ==>
              NamedFor(r.value.captureSummary[i], r.value.sessions)
    ensures r.Some? ==> forall k :: 0 <= k < |r.value.sessions| ==> AllFiled(r.value.captureSummary, r.value.sessions[k])
    ensures r.Some? && r.value.guideStats.Some? ==> r.value.guideStats.value.maxDistance <= 10.0
    ensures r.Some? && r.value.alignmentStats.Some? ==>
              0.0 <= r.value.alignmentStats.value.successRate <= 1.0
    ensures r.Some? && r.value.temperatureStats.Some? ==>
              r.value.temperatureStats.value.min <= r.value.temperatureStats.value.avg <=
              r.value.temperatureStats.value.max
    ensures r.Some? ==> "" !in r.value.targetObjects
    ensures r.Some? ==> forall i :: 0 <= i < |parsed| && HasData(parsed[i]) ==> parsed[i] in r.value.sessions
    ensures r.Some? ==> forall k :: 0 <= k < |r.value.sessions| ==>
              HasData(r.value.sessions[k]) && r.value.sessions[k] in parsed
    ensures r.Some? ==> r.value.issues == AllIssues(r.value.sessions)
    ensures r.Some? ==> r.value.sessions == KeepSessions(parsed)
    ensures r.Some? ==> r.value.captureSummary == CaptureSummary([], r.value.sessions)
    ensures r.Some? ==> r.value.temperatureStats == TemperatureStatsOf(AllTemperatures(r.value.sessions))
    ensures r.Some? ==> r.value.autofocusStats == AutofocusStatsOf(AllAutofocus(r.value.sessions))
    ensures r.Some? ==> r.value.guideStats == GuideSummaryOf(AllGuideStats(r.value.sessions), root)
    ensures r.Some? ==> r.value.alignmentStats == AlignmentStatsOf(AllAlignStates(r.value.sessions))
    ensures r.Some? ==> r.value.targetObjects == TargetObjects(AllJobs(r.value.sessions))
    ensures r.Some? ==>
              r.value.sessionDuration == DurationOf(Timings(Timing(None, None), r.value.sessions, clock), AllCompleted(r.value.sessions), now)
  {
    var sessions := KeepSessions(parsed);
    if |sessions| == 0 then None
    else
      var completed := AllCompleted(sessions);
      var summary := CaptureSummary([], sessions);
      var timing := Timings(Timing(None, None), sessions, clock);
      Some(Aggregate(
        sessions,
        |completed|,
        summary,
        TemperatureStatsOf(AllTemperatures(sessions)),
        AutofocusStatsOf(AllAutofocus(sessions)),
        GuideSummaryOf(AllGuideStats(sessions), root),
        AlignmentStatsOf(AllAlignStates(sessions)),
        TargetObjects(AllJobs(sessions)),
        DurationOf(timing, completed, now),
        AllIssues(sessions)))
  }

  /** When no capture offset is negative, the reported duration is never
      negative, whichever way it was obtained. */
  lemma DurationNonNegative(parsed: seq<SessionData>, clock: string -> Option<real>, root: real -> real, now: real)
    requires forall k :: 0 <= k < |parsed| ==> NonNegativeOffsets(parsed[k])
    ensures var r := AggregateSessions(parsed, clock, root, now);
            r.Some? && r.value.sessionDuration.Some? ==> r.value.sessionDuration.value.hours >= 0.0
  {
    var r := AggregateSessions(parsed, clock, root, now);
    if r.Some? {
      SessionsDuration(parsed, r.value, clock, now);
    }
  }

  /** The duration of an aggregate whose sessions come from `parsed`. */
  lemma SessionsDuration(parsed: seq<SessionData>, a: Aggregate, clock: string -> Option<real>, now: real)
    requires forall k :: 0 <= k < |parsed| ==> NonNegativeOffsets(parsed[k])
    requires forall k :: 0 <= k < |a.sessions| ==> a.sessions[k] in parsed
    requires a.sessionDuration ==
               DurationOf(Timings(Timing(None, None), a.sessions, clock), AllCompleted(a.sessions), now)
    ensures a.sessionDuration.Some? ==> a.sessionDuration.value.hours >= 0.0
  {
    forall k | 0 <= k < |a.sessions| ensures NonNegativeOffsets(a.sessions[k]) {
      var j :| 0 <= j < |parsed| && parsed[j] == a.sessions[k];
    }
    OrderedDuration(Timings(Timing(None, None), a.sessions, clock), AllCompleted(a.sessions), now);
  }

  /** An ordered timing gives a duration that is never negative. */
  lemma OrderedDuration(t: Timing, completed: seq<CaptureRecord>, now: real)
    requires Ordered(t)
    ensures var d := DurationOf(t, completed, now);
            d.Some? ==> d.value.hours >= 0.0
  {
  }
}

=== FILE: analyze_files.dfy ===
/** Selection of recent `.analyze` files (`EkosAnalyzer.find_analyze_files`).
    Ekos names each log `ekos-YYYY-MM-DDTHH-MM-SS.analyze`; the file's time
    is read from that name, and the files at or after a cutoff are returned
    in path order.  The directory listing and the current time are inputs. */
module AnalyzeFiles {
  import opened Options
  import opened Text
  import opened Numbers
  import opened Sorting

  datatype DateTime = DateTime(year: nat, month: nat, day: nat, hour: nat, minute: nat, second: nat)

  predicate IsLeapYear(y: nat) {
    y % 4 == 0 && (y % 100 != 0 || y % 400 == 0)
  }

  function DaysInMonth(y: nat, m: nat): (d: nat)
    requires 1 <= m <= 12
    ensures 28 <= d <= 31
  {
    if m == 2 then (if IsLeapYear(y) then 29 else 28)
    else if m == 4 || m == 6 || m == 9 || m == 11 then 30
    else 31
  }

  /** The calendar values `datetime` accepts. */
  predicate ValidDateTime(t: DateTime) {
    && 1 <= t.year && 1 <= t.month <= 12 && 1 <= t.day <= DaysInMonth(t.year, t.month)
    && t.hour < 24 && t.minute < 60 && t.second < 60
  }

  /** Chronological order of date-times. */
  predicate Before(a: DateTime, b: DateTime) {
    if a.year != b.year then a.year < b.year
    else if a.month != b.month then a.month < b.month
    else if a.day != b.day then a.day < b.day
    else if a.hour != b.hour then a.hour < b.hour
    else if a.minute != b.minute then a.minute < b.minute
    else a.second < b.second
  }

  /** `os.path.basename`: the text after the last `/` (all of `path`
      when it has none). */
  function Basename(path: string): (r: string)
    ensures '/' !in r
    ensures |r| <= |path| && r == path[|path| - |r|..]
    ensures |r| < |path| ==> path[|path| - |r| - 1] == '/'
    decreases |path|
  {
    if |path| == 0 || path[|path| - 1] == '/' then ""
    else
      var n := |path| - 1;
      var b := Basename(path[..n]);
      var r := b + [path[n]];
      assert r == path[n - |b|..] by {
        assert path[..n][n - |b|..] == path[n - |b|..n];
        assert path[n - |b|..] == path[n - |b|..n] + [path[n]];
      }
      assert |r| < |path| ==> path[|path| - |r| - 1] == '/' by {
        if |b| < n {
          assert path[..n][n - |b| - 1] == path[n - |b| - 1];
        }
      }
      r
  }

  /** Positions of the digits in `ekos-YYYY-MM-DDTHH-MM-SS.analyze`. */
  predicate DigitsAt(s: string, from: nat, n: nat) {
    from + n <= |s| && AllDigits(s[from..from + n])
  }

  /** `re.match(r'ekos-(\d{4}-\d{2}-\d{2}T\d{2}-\d{2}-\d{2})\.analyze', name)`:
      the name starts with the pattern (anything may follow it). */
  predicate MatchesAnalyzeName(name: string) {
    && |name| >= 32
    && name[..5] == "ekos-"
    && DigitsAt(name, 5, 4) && name[9] == '-'
    && DigitsAt(name, 10, 2) && name[12] == '-'
    && DigitsAt(name, 13, 2) && name[15] == 'T'
    && DigitsAt(name, 16, 2) && name[18] == '-'
    && DigitsAt(name, 19, 2) && name[21] == '-'
    && DigitsAt(name, 22, 2)
    && name[24..32] == ".analyze"
  }

  /** The file time of a log name, or `None` when the name does not match
      or its fields are not a real calendar time (`strptime` fails). */
  function FileTime(name: string): (r: Option<DateTime>)
    ensures r.Some? ==> MatchesAnalyzeName(name) && ValidDateTime(r.value)
    ensures r.Some? ==> r.value.year == DigitsValue(name[5..9]) && r.value.month == DigitsValue(name[10..12]) &&
                        r.value.day == DigitsValue(name[13..15]) && r.value.hour == DigitsValue(name[16..18]) &&
                        r.value.minute == DigitsValue(name[19..21]) && r.value.second == DigitsValue(name[22..24])
    ensures r.None? && MatchesAnalyzeName(name) ==>
              !ValidDateTime(DateTime(DigitsValue(name[5..9]), DigitsValue(name[10..12]), DigitsValue(name[13..15]),
                                      DigitsValue(name[16..18]), DigitsValue(name[19..21]), DigitsValue(name[22..24])))
  {
    if !MatchesAnalyzeName(name) then None
    else
      var t := DateTime(DigitsValue(name[5..9]), DigitsValue(name[10..12]), DigitsValue(name[13..15]),
                        DigitsValue(name[16..18]), DigitsValue(name[19..21]), DigitsValue(name[22..24]));
      if ValidDateTime(t) then Some(t) else None
  }

  /** Whether the listing entry `path` is selected for the cutoff. */
  predicate Selected(path: string, cutoff: DateTime) {
    var t := FileTime(Basename(path));
    t.Some? && !Before(t.value, cutoff)
  }

  function Filter(paths: seq<string>, cutoff: DateTime): (r: seq<string>)
    ensures forall p :: p in r <==> p in paths && Selected(p, cutoff)
    ensures forall p :: multiset(r)[p] == (if Selected(p, cutoff) then multiset(paths)[p] else 0)
    decreases |paths|
  {
    if |paths| == 0 then []
    else
      assert paths == [paths[0]] + paths[1..];
      if Selected(paths[0], cutoff) then [paths[0]] + Filter(paths[1..], cutoff)
      else Filter(paths[1..], cutoff)
  }

  /** `find_analyze_files`: the listed paths whose file time is at or after
      the cutoff, each as often as listed, in code-point order. */
  function FindAnalyzeFiles(paths: seq<string>, cutoff: DateTime): (r: seq<string>)
    ensures SortedStrings(r)
    ensures forall p :: p in r <==> p in paths && Selected(p, cutoff)
    ensures forall p :: p in paths && Selected(p, cutoff) ==> multiset(r)[p] == multiset(paths)[p]
  {
    var f := Filter(paths, cutoff);
    var r := SortStrings(f);
    assert forall p :: p in r <==> p in f by {
      forall p ensures p in r <==> p in f {
        assert p in r <==> p in multiset(r);
        assert p in f <==> p in multiset(f);
      }
    }
    r
  }

  /** `n` written with exactly `w` digits, zero-padded on the left. */
  function PadDigits(n: nat, w: nat): (r: string)
    requires n < Pow10(w)
    ensures |r| == w && AllDigits(r)
    ensures DigitsValue(r) == n
    decreases w
  {
    if w == 0 then ""
    else
      var r := PadDigits(n / 10, w - 1) + [DigitChar(n % 10)];
      assert r[..|r| - 1] == PadDigits(n / 10, w - 1);
      r
  }

  lemma Pow10Facts()
    ensures Pow10(2) == 100 && Pow10(4) == 10000
  {
    assert Pow10(1) == 10;
    assert Pow10(3) == 1000;
  }

  /** The log name with the given date and time fields. */
  function NameOf(y: string, mo: string, d: string, h: string, mi: string, se: string): string {
    "ekos-" + y + "-" + mo + "-" + d + "T" + h + "-" + mi + "-" + se + ".analyze"
  }

  /** The name Ekos gives a log started at `t`. */
  function AnalyzeName(t: DateTime): (name: string)
    requires t.year < 10000 && t.month < 100 && t.day < 100 && t.hour < 100 && t.minute < 100 && t.second < 100
  {
    Pow10Facts();
    NameOf(PadDigits(t.year, 4), PadDigits(t.month, 2), PadDigits(t.day, 2),
           PadDigits(t.hour, 2), PadDigits(t.minute, 2), PadDigits(t.second, 2))
  }

  lemma SliceOfPrefix(s: string, p: string, i: nat, j: nat)
    requires |p| <= |s| && s[..|p|] == p && i <= j <= |p|
    ensures s[i..j] == p[i..j]
  {
    assert forall k :: i <= k < j ==> s[k] == s[..|p|][k];
  }

  /** Appending a separator and a field to `p`: `p` stays a prefix and the
      field sits right after the separator. */
  lemma AppendField(p: string, sep: string, f: string)
    ensures var q := p + sep + f;
            |q| == |p| + |sep| + |f| && q[..|p|] == p && q[|p| + |sep|..] == f
  {
    var q := p + sep + f;
    assert q[..|p|] == p;
    assert q[|p| + |sep|..] == f;
  }

  /** Reading the time back from the name of a log gives the time it was
      named for. */
  lemma FileTimeOfAnalyzeName(t: DateTime)
    requires ValidDateTime(t) && t.year < 10000
    ensures FileTime(AnalyzeName(t)) == Some(t)
  {
    Pow10Facts();
    var y, mo, d := PadDigits(t.year, 4), PadDigits(t.month, 2), PadDigits(t.day, 2);
    var h, mi, se := PadDigits(t.hour, 2), PadDigits(t.minute, 2), PadDigits(t.second, 2);
    NameLayout(y, mo, d, h, mi, se);
  }

  /** Where each field sits in a log name. */
  lemma NameLayout(y: string, mo: string, d: string, h: string, mi: string, se: string)
    requires |y| == 4 && |mo| == 2 && |d| == 2 && |h| == 2 && |mi| == 2 && |se| == 2
    ensures var name := NameOf(y, mo, d, h, mi, se);
            && |name| == 32 && name[..5] == "ekos-" && name[24..32] == ".analyze"
            && name[5..9] == y && name[9] == '-'
            && name[10..12] == mo && name[12] == '-'
            && name[13..15] == d && name[15] == 'T'
            && name[16..18] == h && name[18] == '-'
            && name[19..21] == mi && name[21] == '-'
            && name[22..24] == se
  {
    var name := "ekos-" + y + "-" + mo + "-" + d + "T" + h + "-" + mi + "-" + se + ".analyze";
    var p1 := "ekos-" + y;
    var p2 := p1 + "-" + mo;
    var p3 := p2 + "-" + d;
    var p4 := p3 + "T" + h;
    var p5 := p4 + "-" + mi;
    var p6 := p5 + "-" + se;
    assert name == p6 + ".analyze";
    AppendField("ekos-", "", y);
    assert "ekos-" + "" + y == p1;
    AppendField(p1, "-", mo);
    AppendField(p2, "-", d);
    AppendField(p3, "T", h);
    AppendField(p4, "-", mi);
    AppendField(p5, "-", se);
    AppendField(p6, "", ".analyze");
    assert p6 + "" + ".analyze" == name;
    SliceOfPrefix(name, p6, 22, 24);
    SliceOfPrefix(name, p6, 21, 22);
    SliceOfPrefix(p6, p5, 19, 21);
    SliceOfPrefix(name, p5, 19, 21);
    SliceOfPrefix(p6, p5, 18, 19);
    SliceOfPrefix(name, p5, 18, 19);
    SliceOfPrefix(p5, p4, 16, 18);
    SliceOfPrefix(name, p4, 16, 18);
    SliceOfPrefix(p5, p4, 15, 16);
    SliceOfPrefix(name, p4, 15, 16);
    SliceOfPrefix(p4, p3, 13, 15);
    SliceOfPrefix(name, p3, 13, 15);
    SliceOfPrefix(p4, p3, 12, 13);
    SliceOfPrefix(name, p3, 12, 13);
    SliceOfPrefix(p3, p2, 10, 12);
    SliceOfPrefix(name, p2, 10, 12);
    SliceOfPrefix(p3, p2, 9, 10);
    SliceOfPrefix(name, p2, 9, 10);
    SliceOfPrefix(p2, p1, 5, 9);
    SliceOfPrefix(name, p1, 5, 9);
    SliceOfPrefix(p2, p1, 0, 5);
    SliceOfPrefix(name, p1, 0, 5);
  }

  /** A 29th of February is accepted only in a leap year. */
  lemma LeapDayRule(y: nat)
    requires 1 <= y
    ensures ValidDateTime(DateTime(y, 2, 29, 0, 0, 0)) <==> IsLeapYear(y)
  {
  }
}

=== FILE: batch_parser.dfy ===
/** The batch `.analyze` reader (`EkosAnalyzer.parse_analyze_file`): each
    stripped line is split on commas and appended, by its command word, to
    one of the per-kind record lists of the file's session data.  A
    non-numeric offset skips only its line; a malformed number in any other
    field stops the whole file, keeping the records read so far. */
module BatchParser {
  import opened Options
  import opened Text
  import opened Numbers

  datatype CaptureEvent = Starting | Complete

  /** A `captures` entry.  `Starting` entries carry no HFR or star count. */
  datatype CaptureRecord = CaptureRecord(timestamp: real, event: CaptureEvent, exposure: real,
                                         filter: string, hfr: Option<real>, stars: Option<int>)

  /** An `autofocus_sessions` entry. */
  datatype AutofocusRecord =
    | AfStartRecord(timestamp: real, filter: string, temperature: real, step: int)
    | AfCompleteRecord(timestamp: real, filter: string, temperature: real, step: int,
                       solution: Option<string>, focusPosition: Option<nat>)

  datatype TemperatureReading = TemperatureReading(timestamp: real, temperature: real)

  /** A `mount_states`, `guide_states` or `align_states` entry; the state
      text is kept unstripped, as read. */
  datatype StateRecord = StateRecord(timestamp: real, state: string)

  datatype MountCoord = MountCoord(timestamp: real, ra: real, dec: real, az: real, alt: real)

  datatype GuideStat = GuideStat(timestamp: real, dx: real, dy: real, pulseRa: int, pulseDec: int,
                                 distance: real, rms: real, snr: real)

  datatype SchedulerRecord = SchedulerRecord(timestamp: real, isStart: bool, objectName: string)

  /** An `issues` entry: a capture abort, with its exposure when given. */
  datatype Issue = CaptureAbortedIssue(timestamp: real, exposure: Option<real>)

  datatype SessionData = SessionData(
    filepath: string,
    sessionStart: Option<string>,
    kstarsVersion: Option<string>,
    captures: seq<CaptureRecord>,
    autofocus: seq<AutofocusRecord>,
    temperatures: seq<TemperatureReading>,
    mountCoords: seq<MountCoord>,
    mountStates: seq<StateRecord>,
    guideStats: seq<GuideStat>,
    guideStates: seq<StateRecord>,
    alignStates: seq<StateRecord>,
    schedulerJobs: seq<SchedulerRecord>,
    issues: seq<Issue>)

  function EmptySession(filepath: string): (d: SessionData)
    ensures RecordCount(d) == 0 && d.filepath == filepath
    ensures d.sessionStart.None? && d.kstarsVersion.None?
  {
    SessionData(filepath, None, None, [], [], [], [], [], [], [], [], [], [])
  }

  /** The number of records in all the lists. */
  function RecordCount(d: SessionData): nat {
    |d.captures| + |d.autofocus| + |d.temperatures| + |d.mountCoords| + |d.mountStates| +
    |d.guideStats| + |d.guideStates| + |d.alignStates| + |d.schedulerJobs| + |d.issues|
  }

  /** `e` is `d` with records appended: every list of `d` is a prefix of the
      same list of `e`, and the file path is the same. */
  predicate Extends(d: SessionData, e: SessionData) {
    && e.filepath == d.filepath
    && d.captures <= e.captures && d.autofocus <= e.autofocus
    && d.temperatures <= e.temperatures && d.mountCoords <= e.mountCoords
    && d.mountStates <= e.mountStates && d.guideStats <= e.guideStats
    && d.guideStates <= e.guideStates && d.alignStates <= e.alignStates
    && d.schedulerJobs <= e.schedulerJobs && d.issues <= e.issues
  }

  lemma ExtendsTrans(a: SessionData, b: SessionData, c: SessionData)
    requires Extends(a, b) && Extends(b, c)
    ensures Extends(a, c)
  {
  }

  // --- Header ---

  predicate IsVersionChar(c: char) {
    IsDigit(c) || c == '.'
  }

  /** The leftmost index at or after `from` where `version ` is followed by
      a digit or a dot. */
  function VersionAt(line: string, from: nat): (r: Option<nat>)
    requires from <= |line|
    ensures r.Some? ==> from <= r.value && r.value + 8 < |line| &&
                        OccursAt(line, "version ", r.value) && IsVersionChar(line[r.value + 8])
    ensures forall j :: from <= j && (r.None? || j < r.value) ==>
              !(j + 8 < |line| && OccursAt(line, "version ", j) && IsVersionChar(line[j + 8]))
    decreases |line| - from
  {
    if from + 8 >= |line| then None
    else if OccursAt(line, "version ", from) && IsVersionChar(line[from + 8]) then Some(from)
    else VersionAt(line, from + 1)
  }

  /** `re.search(r'version ([\d.]+)', line).group(1)`: the longest run of
      digits and dots after the leftmost `version ` that has one. */
  function KStarsVersion(line: string): (r: Option<string>)
    ensures r.Some? ==> |r.value| > 0 && (forall i :: 0 <= i < |r.value| ==> IsVersionChar(r.value[i]))
    ensures r.Some? ==> Contains(line, "version " + r.value)
    ensures r.None? ==> forall j :: 0 <= j && j + 8 < |line| && OccursAt(line, "version ", j) ==>
                          !IsVersionChar(line[j + 8])
  {
    match VersionAt(line, 0)
    case None => None
    case Some(i) =>
      var v := TakeWhile(line[i + 8..], IsVersionChar);
      assert line[i..i + 8 + |v|] == "version " + v by {
        assert line[i..i + 8] == "version ";
        assert line[i + 8..i + 8 + |v|] == v;
        assert line[i..i + 8 + |v|] == line[i..i + 8] + line[i + 8..i + 8 + |v|];
      }
      assert OccursAt(line, "version " + v, i);
      Some(v)
  }

  /** `s.split('.')[0]`: the text before the first `.` (all of `s` without one). */
  function BeforeDot(s: string): (r: string)
    ensures '.' !in r
    ensures StartsWith(s, r)
    ensures '.' !in s ==> r == s
    ensures |r| < |s| ==> s[|r|] == '.'
  {
    match DotIndex(s)
    case Some(k) => s[..k]
    case None => s
  }

  // --- Records ---

  /** The command words with a record list. */
  datatype Kind =
    | TemperatureKind | MountStateKind | MountCoordsKind | CaptureStartingKind
    | CaptureCompleteKind | CaptureAbortedKind | AutofocusStartingKind
    | AutofocusCompleteKind | GuideStatsKind | GuideStateKind | AlignStateKind
    | SchedulerJobStartKind | SchedulerJobEndKind | OtherKind

  function KindOf(word: string): Kind {
    if word == "Temperature" then TemperatureKind
    else if word == "MountState" then MountStateKind
    else if word == "MountCoords" then MountCoordsKind
    else if word == "CaptureStarting" then CaptureStartingKind
    else if word == "CaptureComplete" then CaptureCompleteKind
    else if word == "CaptureAborted" then CaptureAbortedKind
    else if word == "AutofocusStarting" then AutofocusStartingKind
    else if word == "AutofocusComplete" then AutofocusCompleteKind
    else if word == "GuideStats" then GuideStatsKind
    else if word == "GuideState" then GuideStateKind
    else if word == "AlignState" then AlignStateKind
    else if word == "SchedulerJobStart" then SchedulerJobStartKind
    else if word == "SchedulerJobEnd" then SchedulerJobEndKind
    else OtherKind
  }

  /** The field count below which a kind's line adds nothing. */
  function MinFields(k: Kind): nat {
    match k
    case MountCoordsKind => 8
    case CaptureStartingKind => 4
    case CaptureCompleteKind => 6
    case CaptureAbortedKind => 2
    case AutofocusStartingKind => 5
    case AutofocusCompleteKind => 6
    case GuideStatsKind => 7
    case _ => 3
  }

  /** What one line does: carry on with the (possibly extended) data, or
      stop the file because a field did not parse. */
  datatype Step = Next(data: SessionData) | Stop

  /** `Solution: ` occurs at `i` and a digit follows it. */
  predicate SolutionStart(s: string, i: int) {
    0 <= i && i + 10 < |s| && OccursAt(s, "Solution: ", i) && IsDigit(s[i + 10])
  }

  /** `re.search(r'Solution: (\d+)', s)`: the digits after the leftmost
      `Solution: ` that is followed by a digit. */
  function SolutionAt(s: string, from: nat): (r: Option<nat>)
    requires from <= |s|
    ensures r.Some? ==> from <= r.value && SolutionStart(s, r.value)
    ensures r.Some? ==> forall j :: from <= j < r.value ==> !SolutionStart(s, j)
    ensures r.None? ==> forall j :: from <= j ==> !SolutionStart(s, j)
    decreases |s| - from
  {
    if from + 10 >= |s| then None
    else if SolutionStart(s, from) then Some(from)
    else SolutionAt(s, from + 1)
  }

  /** The focus position: the decimal value of the whole digit run after the
      leftmost `Solution: ` that a digit follows; none when there is no such
      occurrence. */
  function FocusPosition(solution: string): (r: Option<nat>)
    ensures r.Some? ==> Contains(solution, "Solution: ")
    ensures r.None? <==> forall j :: !SolutionStart(solution, j)
    ensures r.Some? ==>
              exists i :: SolutionStart(solution, i) && (forall j :: 0 <= j < i ==> !SolutionStart(solution, j)) &&
                var digits := TakeWhile(solution[i + 10..], IsDigit);
                |digits| > 0 && ParseNat(digits) == Some(r.value)
  {
    match SolutionAt(solution, 0)
    case None => None
    case Some(i) =>
      var digits := TakeWhile(solution[i + 10..], IsDigit);
      assert OccursAt(solution, "Solution: ", i);
      Some(DigitsValue(digits))
  }

  /** The `CaptureComplete` record of a line with at least six fields:
      `hfr` absent for the literal `-1.000`, `stars` absent when there is
      no seventh field or it is the literal `-1`; `None` when a field that
      is read does not parse. */
  function CaptureCompleteRecord(ts: real, parts: seq<string>): (r: Option<CaptureRecord>)
    requires |parts| >= 6
    ensures r.Some? ==> r.value.event == Complete && r.value.timestamp == ts &&
                        r.value.filter == parts[3] && Some(r.value.exposure) == ParseReal(parts[2])
    ensures r.Some? ==> (r.value.hfr.None? <==> parts[4] == "-1.000")
    ensures r.Some? && r.value.hfr.Some? ==> ParseReal(parts[4]) == r.value.hfr
    ensures r.Some? ==> (r.value.stars.None? <==> |parts| <= 6 || parts[6] == "-1")
    ensures r.Some? && r.value.stars.Some? ==> ParseInt(parts[6]) == r.value.stars
    ensures r.None? <==>
              ParseReal(parts[2]).None? ||
              (parts[4] != "-1.000" && ParseReal(parts[4]).None?) ||
              (|parts| > 6 && parts[6] != "-1" && ParseInt(parts[6]).None?)
  {
    var exposure := ParseReal(parts[2]);
    var hfr := if parts[4] != "-1.000" then ParseReal(parts[4]) else Some(0.0);
    var stars := if |parts| > 6 && parts[6] != "-1" then ParseInt(parts[6]) else Some(0);
    if exposure.None? || hfr.None? || stars.None? then None
    else
      Some(CaptureRecord(ts, Complete, exposure.value, parts[3],
                         if parts[4] != "-1.000" then hfr else None,
                         if |parts| > 6 && parts[6] != "-1" then stars else None))
  }

  /** The record a line contributes, tagged with the list it goes to. */
  datatype Entry =
    | TemperatureEntry(reading: TemperatureReading)
    | MountStateEntry(stateRecord: StateRecord)
    | MountCoordEntry(coord: MountCoord)
    | CaptureEntry(capture: CaptureRecord)
    | IssueEntry(issue: Issue)
    | AutofocusEntry(autofocus: AutofocusRecord)
    | GuideStatEntry(stat: GuideStat)
    | GuideStateEntry(stateRecord: StateRecord)
    | AlignStateEntry(stateRecord: StateRecord)
    | SchedulerEntry(job: SchedulerRecord)
    | NoEntry

  /** Appends an entry to its list. */
  function Append(d: SessionData, e: Entry): (r: SessionData)
    ensures Extends(d, r)
    ensures RecordCount(r) == RecordCount(d) + (if e.NoEntry? then 0 else 1)
    ensures e.NoEntry? ==> r == d
    ensures r.sessionStart == d.sessionStart && r.kstarsVersion == d.kstarsVersion
  {
    match e
    case TemperatureEntry(t) => d.(temperatures := d.temperatures + [t])
    case MountStateEntry(m) => d.(mountStates := d.mountStates + [m])
    case MountCoordEntry(c) => d.(mountCoords := d.mountCoords + [c])
    case CaptureEntry(c) => d.(captures := d.captures + [c])
    case IssueEntry(i) => d.(issues := d.issues + [i])
    case AutofocusEntry(a) => d.(autofocus := d.autofocus + [a])
    case GuideStatEntry(g) => d.(guideStats := d.guideStats + [g])
    case GuideStateEntry(g) => d.(guideStates := d.guideStates + [g])
    case AlignStateEntry(a) => d.(alignStates := d.alignStates + [a])
    case SchedulerEntry(j) => d.(schedulerJobs := d.schedulerJobs + [j])
    case NoEntry => d
  }

  /** The entry of a line of kind `k` with offset `ts` and enough fields,
      or `None` when one of its numeric fields does not parse. */
  function EntryOf(k: Kind, ts: real, parts: seq<string>): (r: Option<Entry>)
    requires |parts| >= MinFields(k)
    ensures k == OtherKind <==> r == Some(NoEntry)
    ensures k == CaptureCompleteKind ==>
              r == (match CaptureCompleteRecord(ts, parts)
                    case Some(c) => Some(CaptureEntry(c))
                    case None => None)
    ensures k == MountStateKind ==> r == Some(MountStateEntry(StateRecord(ts, parts[2])))
    ensures k == GuideStateKind ==> r == Some(GuideStateEntry(StateRecord(ts, parts[2])))
    ensures k == AlignStateKind ==> r == Some(AlignStateEntry(StateRecord(ts, parts[2])))
    ensures k == SchedulerJobStartKind ==> r == Some(SchedulerEntry(SchedulerRecord(ts, true, parts[2])))
    ensures k == SchedulerJobEndKind ==> r == Some(SchedulerEntry(SchedulerRecord(ts, false, parts[2])))
  {
    match k
    case TemperatureKind => TemperatureLine(ts, parts)
    case MountStateKind => Some(MountStateEntry(StateRecord(ts, parts[2])))
    case MountCoordsKind => MountCoordsLine(ts, parts)
    case CaptureStartingKind => CaptureStartingLine(ts, parts)
    case CaptureCompleteKind =>
      (match CaptureCompleteRecord(ts, parts)
       case None => None
       case Some(c) => Some(CaptureEntry(c)))
    case CaptureAbortedKind => CaptureAbortedLine(ts, parts)
    case AutofocusStartingKind => AutofocusStartingLine(ts, parts)
    case AutofocusCompleteKind => AutofocusCompleteLine(ts, parts)
    case GuideStatsKind => GuideStatsLine(ts, parts)
    case GuideStateKind => Some(GuideStateEntry(StateRecord(ts, parts[2])))
    case AlignStateKind => Some(AlignStateEntry(StateRecord(ts, parts[2])))
    case SchedulerJobStartKind => Some(SchedulerEntry(SchedulerRecord(ts, true, parts[2])))
    case SchedulerJobEndKind => Some(SchedulerEntry(SchedulerRecord(ts, false, parts[2])))
    case OtherKind => Some(NoEntry)
  }

  /** `Temperature`: the reading at the line time, when the value parses. */
  function TemperatureLine(ts: real, parts: seq<string>): (r: Option<Entry>)
    requires |parts| >= 3
    ensures r.Some? <==> ParseReal(parts[2]).Some?
    ensures r.Some? ==>
              r.value.TemperatureEntry? && r.value.reading.timestamp == ts &&
              ParseReal(parts[2]) == Some(r.value.reading.temperature)
  {
    match ParseReal(parts[2])
    case None => None
    case Some(t) => Some(TemperatureEntry(TemperatureReading(ts, t)))
  }

  /** `MountCoords`: RA, Dec, azimuth and altitude, all of which must parse. */
  function MountCoordsLine(ts: real, parts: seq<string>): (r: Option<Entry>)
    requires |parts| >= 8
    ensures r.Some? <==>
              (ParseReal(parts[2]).Some? && ParseReal(parts[3]).Some? &&
                ParseReal(parts[4]).Some? && ParseReal(parts[5]).Some?)
    ensures r.Some? ==>
              r.value.MountCoordEntry? && r.value.coord.timestamp == ts &&
              ParseReal(parts[2]) == Some(r.value.coord.ra) &&
              ParseReal(parts[3]) == Some(r.value.coord.dec) &&
              ParseReal(parts[4]) == Some(r.value.coord.az) &&
              ParseReal(parts[5]) == Some(r.value.coord.alt)
  {
    var ra, dec, az, alt := ParseReal(parts[2]), ParseReal(parts[3]), ParseReal(parts[4]), ParseReal(parts[5]);
    if ra.None? || dec.None? || az.None? || alt.None? then None
    else Some(MountCoordEntry(MountCoord(ts, ra.value, dec.value, az.value, alt.value)))
  }

  /** `CaptureStarting`: a starting capture with its exposure and filter. */
  function CaptureStartingLine(ts: real, parts: seq<string>): (r: Option<Entry>)
    requires |parts| >= 4
    ensures r.Some? <==> ParseReal(parts[2]).Some?
    ensures r.Some? ==>
              r.value.CaptureEntry? && r.value.capture.event == Starting &&
              r.value.capture.timestamp == ts && r.value.capture.filter == parts[3] &&
              ParseReal(parts[2]) == Some(r.value.capture.exposure) &&
              r.value.capture.hfr.None? && r.value.capture.stars.None?
  {
    match ParseReal(parts[2])
    case None => None
    case Some(e) => Some(CaptureEntry(CaptureRecord(ts, Starting, e, parts[3], None, None)))
  }

  /** `CaptureAborted`: an issue, with the exposure when a third field is given. */
  function CaptureAbortedLine(ts: real, parts: seq<string>): (r: Option<Entry>)
    requires |parts| >= 2
    ensures r.None? <==> |parts| > 2 && ParseReal(parts[2]).None?
    ensures r.Some? ==>
              r.value.IssueEntry? && r.value.issue.timestamp == ts &&
              (r.value.issue.exposure.None? <==> |parts| <= 2) &&
              (|parts| > 2 ==> ParseReal(parts[2]) == r.value.issue.exposure)
  {
    if |parts| > 2 then
      (match ParseReal(parts[2])
       case None => None
       case Some(e) => Some(IssueEntry(CaptureAbortedIssue(ts, Some(e)))))
    else Some(IssueEntry(CaptureAbortedIssue(ts, None)))
  }

  /** `AutofocusStarting`: the filter, temperature and step of the run. */
  function AutofocusStartingLine(ts: real, parts: seq<string>): (r: Option<Entry>)
    requires |parts| >= 5
    ensures r.Some? <==> ParseReal(parts[3]).Some? && ParseInt(parts[4]).Some?
    ensures r.Some? ==>
              r.value.AutofocusEntry? && r.value.autofocus.AfStartRecord? &&
              r.value.autofocus.timestamp == ts && r.value.autofocus.filter == parts[2] &&
              ParseReal(parts[3]) == Some(r.value.autofocus.temperature) &&
              ParseInt(parts[4]) == Some(r.value.autofocus.step)
  {
    var temp, step := ParseReal(parts[3]), ParseInt(parts[4]);
    if temp.None? || step.None? then None
    else Some(AutofocusEntry(AfStartRecord(ts, parts[2], temp.value, step.value)))
  }

  /** `AutofocusComplete`: temperature, step and filter, the last field as the
      solution text when there are more than six, and its focus position. */
  function AutofocusCompleteLine(ts: real, parts: seq<string>): (r: Option<Entry>)
    requires |parts| >= 6
    ensures r.Some? <==> ParseReal(parts[2]).Some? && ParseInt(parts[3]).Some?
    ensures r.Some? ==>
              r.value.AutofocusEntry? && r.value.autofocus.AfCompleteRecord? &&
              r.value.autofocus.timestamp == ts && r.value.autofocus.filter == parts[5] &&
              ParseReal(parts[2]) == Some(r.value.autofocus.temperature) &&
              ParseInt(parts[3]) == Some(r.value.autofocus.step) &&
              r.value.autofocus.solution == (if |parts| > 6 then Some(parts[|parts| - 1]) else None) &&
              (r.value.autofocus.focusPosition.Some? ==>
                 |parts| > 6 && FocusPosition(parts[|parts| - 1]) == r.value.autofocus.focusPosition) &&
              (|parts| > 6 && parts[|parts| - 1] != "" && FocusPosition(parts[|parts| - 1]).Some? ==>
                 r.value.autofocus.focusPosition.Some?)
  {
    var temp, step := ParseReal(parts[2]), ParseInt(parts[3]);
    if temp.None? || step.None? then None
    else
      var solution := if |parts| > 6 then Some(parts[|parts| - 1]) else None;
      var position := if solution.Some? && solution.value != "" then FocusPosition(solution.value) else None;
      Some(AutofocusEntry(AfCompleteRecord(ts, parts[5], temp.value, step.value, solution, position)))
  }

  /** `GuideStats`: offsets, pulses and distance, with RMS and SNR read as 0 when
      absent. */
  function GuideStatsLine(ts: real, parts: seq<string>): (r: Option<Entry>)
    requires |parts| >= 7
    ensures r.Some? <==>
              (ParseReal(parts[2]).Some? && ParseReal(parts[3]).Some? &&
               ParseInt(parts[4]).Some? && ParseInt(parts[5]).Some? &&
               ParseReal(parts[6]).Some? &&
               (|parts| > 7 ==> ParseReal(parts[7]).Some?) &&
               (|parts| > 8 ==> ParseReal(parts[8]).Some?))
    ensures r.Some? ==>
              r.value.GuideStatEntry? && r.value.stat.timestamp == ts &&
              ParseReal(parts[2]) == Some(r.value.stat.dx) &&
              ParseReal(parts[3]) == Some(r.value.stat.dy) &&
              ParseInt(parts[4]) == Some(r.value.stat.pulseRa) &&
              ParseInt(parts[5]) == Some(r.value.stat.pulseDec) &&
              ParseReal(parts[6]) == Some(r.value.stat.distance) &&
              (if |parts| > 7 then ParseReal(parts[7]) == Some(r.value.stat.rms)
               else r.value.stat.rms == 0.0) &&
              (if |parts| > 8 then ParseReal(parts[8]) == Some(r.value.stat.snr)
               else r.value.stat.snr == 0.0)
  {
    var dx, dy, pra, pdec, dist := ParseReal(parts[2]), ParseReal(parts[3]), ParseInt(parts[4]),
                                  ParseInt(parts[5]), ParseReal(parts[6]);
    var rms := if |parts| > 7 then ParseReal(parts[7]) else Some(0.0);
    var snr := if |parts| > 8 then ParseReal(parts[8]) else Some(0.0);
    if dx.None? || dy.None? || pra.None? || pdec.None? || dist.None? || rms.None? || snr.None? then None
    else Some(GuideStatEntry(GuideStat(ts, dx.value, dy.value, pra.value, pdec.value, dist.value,
                                       rms.value, snr.value)))
  }

  /** Appends the record of a line of kind `k` with offset `ts`. */
  function AddRecord(d: SessionData, k: Kind, ts: real, parts: seq<string>): (r: Step)
    requires |parts| >= 2
    ensures r.Next? ==> Extends(d, r.data) && RecordCount(r.data) <= RecordCount(d) + 1
    ensures r.Next? ==> r.data.sessionStart == d.sessionStart && r.data.kstarsVersion == d.kstarsVersion
    ensures k == OtherKind || |parts| < MinFields(k) ==> r == Next(d)
    ensures |parts| >= MinFields(k) ==>
              (r.Stop? <==> EntryOf(k, ts, parts).None?) &&
              (r.Next? ==> r.data == Append(d, EntryOf(k, ts, parts).value))
  {
    if |parts| < MinFields(k) then Next(d)
    else
      var e := EntryOf(k, ts, parts);
      if e.None? then Stop else Next(Append(d, e.value))
  }

  /** What the stripped, split line is: a blank or `#` line, a session
      start, a line to skip, or a record line with its kind and offset. */
  datatype LineClass =
    | HeaderLine(text: string)
    | StartTimeLine(value: string)
    | SkippedLine
    | RecordLine(kind: Kind, ts: real, parts: seq<string>)

  function ClassifyLine(line: string): (c: LineClass)
    ensures c.RecordLine? ==> |c.parts| >= 2
  {
    var s := Strip(line);
    if s == [] || s[0] == '#' then HeaderLine(s)
    else
      var parts := Split(s, ',');
      if |parts| < 2 then SkippedLine
      else if parts[0] == "AnalyzeStartTime" then StartTimeLine(parts[1])
      else match ParseReal(parts[1])
        case None => SkippedLine
        case Some(ts) => RecordLine(KindOf(parts[0]), ts, parts)
  }

  /** One line of the file loop. */
  function ParseLine(d: SessionData, line: string): (r: Step)
    ensures r.Next? ==> Extends(d, r.data) && RecordCount(r.data) <= RecordCount(d) + 1
  {
    match ClassifyLine(line)
    case HeaderLine(s) =>
      if StartsWith(s, "#KStars version") then
        match KStarsVersion(s)
        case Some(v) => Next(d.(kstarsVersion := Some(v)))
        case None => Next(d)
      else Next(d)
    case StartTimeLine(value) => Next(d.(sessionStart := Some(BeforeDot(value))))
    case SkippedLine => Next(d)
    case RecordLine(k, ts, parts) => AddRecord(d, k, ts, parts)
  }

  /** The result of reading lines: the data gathered and whether a field
      error stopped the reading early. */
  datatype Parsed = Parsed(data: SessionData, stopped: bool)

  /** The file loop from `d` over `lines`; a `Stop` ends it with the data
      gathered before the offending line. */
  function ParseLines(d: SessionData, lines: seq<string>): (r: Parsed)
    ensures Extends(d, r.data)
    ensures RecordCount(r.data) <= RecordCount(d) + |lines|
    decreases |lines|
  {
    if |lines| == 0 then Parsed(d, false)
    else match ParseLine(d, lines[0])
      case Stop => Parsed(d, true)
      case Next(d1) =>
        var r := ParseLines(d1, lines[1..]);
        ExtendsTrans(d, d1, r.data);
        r
  }

  /** `parse_analyze_file` on the lines of the file at `filepath`. */
  function ParseAnalyzeFile(filepath: string, lines: seq<string>): (d: SessionData)
    ensures d.filepath == filepath
    ensures RecordCount(d) <= |lines|
  {
    ParseLines(EmptySession(filepath), lines).data
  }

  // --- Properties ---

  /** Reading `a + b` is reading `a` and, unless that stopped, reading `b`
      from where it left off: nothing after a malformed field is read. */
  lemma {:induction false} ParseLinesAppend(d: SessionData, a: seq<string>, b: seq<string>)
    ensures ParseLines(d, a + b) ==
              var ra := ParseLines(d, a);
              if ra.stopped then ra else ParseLines(ra.data, b)
    decreases |a|
  {
    if |a| == 0 {
      assert a + b == b;
    } else {
      assert (a + b)[0] == a[0];
      assert (a + b)[1..] == a[1..] + b;
      match ParseLine(d, a[0])
      case Stop =>
      case Next(d1) => ParseLinesAppend(d1, a[1..], b);
    }
  }

  /** A line whose numeric field is malformed stops the file: the lines
      after it add nothing, and the records before it are kept. */
  lemma StopKeepsPrefix(d: SessionData, a: seq<string>, bad: string, b: seq<string>)
    requires !ParseLines(d, a).stopped
    requires ParseLine(ParseLines(d, a).data, bad).Stop?
    ensures ParseLines(d, a + [bad] + b) == Parsed(ParseLines(d, a).data, true)
  {
    var ra := ParseLines(d, a);
    assert a + [bad] + b == a + ([bad] + b);
    ParseLinesAppend(d, a, [bad] + b);
    assert ParseLines(ra.data, [bad] + b) == Parsed(ra.data, true) by {
      var rest := [bad] + b;
      assert |rest| > 0 && rest[0] == bad;
      assert ParseLine(ra.data, rest[0]).Stop?;
    }
  }

  /** A blank line and a `#` line other than the version header add nothing. */
  lemma CommentLinesAddNothing(d: SessionData, line: string)
    requires IsBlank(line) || (Strip(line) != [] && Strip(line)[0] == '#' &&
                               !StartsWith(Strip(line), "#KStars version"))
    ensures ParseLine(d, line) == Next(d)
  {
  }

  /** A line with fewer than two fields, or (other than `AnalyzeStartTime`)
      with a non-numeric offset, is skipped without stopping the file. */
  lemma UnreadableOffsetSkipped(d: SessionData, line: string)
    requires Strip(line) != [] && Strip(line)[0] != '#'
    requires var parts := Split(Strip(line), ',');
             |parts| < 2 || (parts[0] != "AnalyzeStartTime" && ParseReal(parts[1]).None?)
    ensures ParseLine(d, line) == Next(d)
  {
    assert ClassifyLine(line) == SkippedLine;
  }

  /** `AnalyzeStartTime` records its second field cut at the first `.`. */
  lemma SessionStartTruncated(d: SessionData, line: string)
    requires Strip(line) != [] && Strip(line)[0] != '#'
    requires var parts := Split(Strip(line), ',');
             |parts| >= 2 && parts[0] == "AnalyzeStartTime"
    ensures var parts := Split(Strip(line), ',');
            ParseLine(d, line) == Next(d.(sessionStart := Some(BeforeDot(parts[1])))) &&
            '.' !in BeforeDot(parts[1]) && StartsWith(parts[1], BeforeDot(parts[1]))
  {
  }

  /** A `CaptureComplete` line with a numeric offset and six or more fields
      appends its record to `captures`, or stops the file when a field that
      is read does not parse. */
  lemma CaptureCompleteLine(d: SessionData, line: string)
    requires Strip(line) != [] && Strip(line)[0] != '#'
    requires var parts := Split(Strip(line), ',');
             |parts| >= 6 && parts[0] == "CaptureComplete" && ParseReal(parts[1]).Some?
    ensures var parts := Split(Strip(line), ',');
            var rec := CaptureCompleteRecord(ParseReal(parts[1]).value, parts);
            ParseLine(d, line) == (if rec.None? then Stop else Next(d.(captures := d.captures + [rec.value])))
  {
    var parts := Split(Strip(line), ',');
    var ts := ParseReal(parts[1]).value;
    ClassifyRecordLine(line);
    KindOfCaptureComplete();
    assert ParseLine(d, line) == AddRecord(d, CaptureCompleteKind, ts, parts);
    AddCaptureComplete(d, ts, parts);
  }

  /** A line whose first field is a command word other than
      `AnalyzeStartTime` and whose offset parses is a record line. */
  lemma ClassifyRecordLine(line: string)
    requires Strip(line) != [] && Strip(line)[0] != '#'
    requires var parts := Split(Strip(line), ',');
             |parts| >= 2 && parts[0] != "AnalyzeStartTime" && ParseReal(parts[1]).Some?
    ensures var parts := Split(Strip(line), ',');
            ClassifyLine(line) == RecordLine(KindOf(parts[0]), ParseReal(parts[1]).value, parts)
  {
  }

  lemma KindOfCaptureComplete()
    ensures KindOf("CaptureComplete") == CaptureCompleteKind
  {
  }

  lemma AddCaptureComplete(d: SessionData, ts: real, parts: seq<string>)
    requires |parts| >= 6
    ensures var rec := CaptureCompleteRecord(ts, parts);
            AddRecord(d, CaptureCompleteKind, ts, parts) ==
              (if rec.None? then Stop else Next(d.(captures := d.captures + [rec.value])))
  {
    var rec := CaptureCompleteRecord(ts, parts);
    if rec.Some? {
      assert EntryOf(CaptureCompleteKind, ts, parts) == Some(CaptureEntry(rec.value));
      assert Append(d, CaptureEntry(rec.value)) == d.(captures := d.captures + [rec.value]);
    }
  }
}

=== FILE: events.dfy ===
/** The typed events the streaming parser emits for one `.analyze` line.
    Each constructor is one `type` of event dictionary; the clock-time
    string the parser attaches to every event is not modelled.  Times are
    offsets in seconds from the file's `AnalyzeStartTime`. */
module Events {

  datatype ParkState = Parking | Parked

  datatype Event =
    | SessionStart(startTime: string, timezone: string)
    | CaptureComplete(time: real, exposure: real, filter: string, hfr: real, filename: string,
                      numStars: int, median: int, eccentricity: real, duration: real,
                      objectName: string)
    | CaptureAborted(time: real, exposure: real, filter: string, objectName: string)
    | AutofocusComplete(time: real, filter: string, temperature: real, duration: real,
                        position: string, rSquared: string, solutionInfo: string)
    | AutofocusAborted(time: real, filter: string, duration: real)
      // The three `guide_problem` subtypes.
    | GuideRecovered(time: real, duration: real)
    | FrequentReacquire(time: real, count: nat, window: real)
    | GuideLost(time: real, duration: real)
    | MountParking(time: real, parkState: ParkState)
    | SchedulerJobStart(time: real, jobName: string)
    | SchedulerJobEnd(time: real, jobName: string, reason: string)
    | AlignComplete(time: real, duration: real)
    | AlignFailed(time: real, duration: real, state: string)
    | MeridianFlip(time: real, state: string)
}

=== FILE: filter_blocks.dfy ===
/** The capture-details part of the Discord report
    (`ekos_discord_formatter.py`): the per-filter analyses are grouped into
    one block per object, objects and the filters inside them are ordered by
    capture count, and the rendered blocks are packed, in order, into
    messages kept under Discord's length limit.  The text inside a block is
    given; only its length matters to the packing. */
module FilterBlocks {
  import opened Options
  import opened Numbers
  import opened Sorting
  import opened Formatter
  import opened Lists

  // --- Grouping by object (`generate_filter_analysis_blocks`) ---

  /** The object taken when a filter's first sub-session names none. */
  const DefaultObject := "NGC 7380"

  /** A `filter_analysis` entry: the filter, its `total_captures`, the
      `object_name` of each sub-session (absent when the key is missing),
      and its `global_guide_stats`. */
  datatype FilterAnalysis = FilterAnalysis(filter: string, totalCaptures: nat,
                                           subSessionObjects: seq<Option<string>>, guide: FilterGuide)

  /** The object a filter's captures are attributed to. */
  function ObjectOf(f: FilterAnalysis): string {
    if |f.subSessionObjects| > 0 && f.subSessionObjects[0].Some? then f.subSessionObjects[0].value
    else DefaultObject
  }

  function Objects(fs: seq<FilterAnalysis>): (r: seq<string>)
    ensures |r| == |fs| && forall j :: 0 <= j < |fs| ==> r[j] == ObjectOf(fs[j])
  {
    seq(|fs|, j requires 0 <= j < |fs| => ObjectOf(fs[j]))
  }

  /** The filters that have captures, in order. */
  function Captured(fs: seq<FilterAnalysis>): (r: seq<FilterAnalysis>)
    ensures forall f :: f in r <==> f in fs && f.totalCaptures > 0
    decreases |fs|
  {
    if |fs| == 0 then []
    else
      var p := fs[..|fs| - 1];
      var f := fs[|fs| - 1];
      assert forall g :: g in fs <==> g in p || g == f;
      Captured(p) + (if f.totalCaptures > 0 then [f] else [])
  }

  /** The filters attributed to object `o`, in order. */
  function WithObject(fs: seq<FilterAnalysis>, o: string): (r: seq<FilterAnalysis>)
    ensures forall f :: f in r ==> f in fs && ObjectOf(f) == o
    decreases |fs|
  {
    if |fs| == 0 then []
    else
      var p := fs[..|fs| - 1];
      var f := fs[|fs| - 1];
      WithObject(p, o) + (if ObjectOf(f) == o then [f] else [])
  }

  /** Each filter with captures is kept as often as it occurs, and no other. */
  lemma {:induction false} CapturedCounts(fs: seq<FilterAnalysis>)
    ensures forall f :: multiset(Captured(fs))[f] == if f.totalCaptures > 0 then multiset(fs)[f] else 0
    decreases |fs|
  {
    if |fs| > 0 {
      var p := fs[..|fs| - 1];
      CapturedCounts(p);
      assert fs == p + [fs[|fs| - 1]];
    }
  }

  /** Filters with captures stay in their input order: selecting from two
      stretches is selecting from each in turn. */
  lemma {:induction false} CapturedAppend(a: seq<FilterAnalysis>, b: seq<FilterAnalysis>)
    ensures Captured(a + b) == Captured(a) + Captured(b)
    decreases |b|
  {
    if |b| == 0 {
      assert a + b == a;
    } else {
      var q := b[..|b| - 1];
      var f := b[|b| - 1];
      var tail := if f.totalCaptures > 0 then [f] else [];
      var ka, kq := Captured(a), Captured(q);
      assert Captured(a + b) == (ka + kq) + tail by {
        SnocSplit(a, b);
        CapturedAppend(a, q);
        CapturedSnoc(a + q, f);
      }
      assert Captured(b) == kq + tail by {
        SnocSplit(a, b);
        CapturedSnoc(q, f);
      }
      assert (ka + kq) + tail == ka + (kq + tail);
    }
  }

  lemma CapturedSnoc(p: seq<FilterAnalysis>, f: FilterAnalysis)
    ensures Captured(p + [f]) == Captured(p) + if f.totalCaptures > 0 then [f] else []
  {
    assert (p + [f])[..|p|] == p;
  }

  /** Each filter of object `o` is kept as often as it occurs, and no other. */
  lemma {:induction false} WithObjectCounts(fs: seq<FilterAnalysis>, o: string)
    ensures forall f :: multiset(WithObject(fs, o))[f] == if ObjectOf(f) == o then multiset(fs)[f] else 0
    ensures forall j :: 0 <= j < |fs| && ObjectOf(fs[j]) == o ==> fs[j] in WithObject(fs, o)
    decreases |fs|
  {
    if |fs| > 0 {
      var p := fs[..|fs| - 1];
      WithObjectCounts(p, o);
      assert fs == p + [fs[|fs| - 1]];
    }
    forall j | 0 <= j < |fs| && ObjectOf(fs[j]) == o ensures fs[j] in WithObject(fs, o) {
      assert fs[j] in multiset(fs);
    }
  }

  /** The filters of an object stay in their input order. */
  lemma {:induction false} WithObjectAppend(a: seq<FilterAnalysis>, b: seq<FilterAnalysis>, o: string)
    ensures WithObject(a + b, o) == WithObject(a, o) + WithObject(b, o)
    decreases |b|
  {
    if |b| == 0 {
      assert a + b == a;
    } else {
      var q := b[..|b| - 1];
      var f := b[|b| - 1];
      var tail := if ObjectOf(f) == o then [f] else [];
      var ka, kq := WithObject(a, o), WithObject(q, o);
      assert WithObject(a + b, o) == (ka + kq) + tail by {
        SnocSplit(a, b);
        WithObjectAppend(a, q, o);
        WithObjectSnoc(a + q, f, o);
      }
      assert WithObject(b, o) == kq + tail by {
        SnocSplit(a, b);
        WithObjectSnoc(q, f, o);
      }
      assert (ka + kq) + tail == ka + (kq + tail);
    }
  }

  lemma {:induction false} WithObjectAbsent(fs: seq<FilterAnalysis>, o: string)
    requires o !in Objects(fs)
    ensures WithObject(fs, o) == []
    decreases |fs|
  {
    if |fs| > 0 {
      var p := fs[..|fs| - 1];
      assert forall j :: 0 <= j < |p| ==> Objects(p)[j] == Objects(fs)[j];
      WithObjectAbsent(p, o);
    }
  }

  lemma {:induction false} WithObjectPresent(fs: seq<FilterAnalysis>, o: string)
    requires o in Objects(fs)
    ensures |WithObject(fs, o)| > 0
    decreases |fs|
  {
    var p := fs[..|fs| - 1];
    if ObjectOf(fs[|fs| - 1]) != o {
      var j :| 0 <= j < |fs| && Objects(fs)[j] == o;
      assert Objects(p)[j] == o;
      WithObjectPresent(p, o);
    }
  }

  datatype ObjectGroup = ObjectGroup(name: string, filters: seq<FilterAnalysis>)

  function Names(gs: seq<ObjectGroup>): (r: seq<string>)
    ensures |r| == |gs| && forall i :: 0 <= i < |gs| ==> r[i] == gs[i].name
  {
    seq(|gs|, i requires 0 <= i < |gs| => gs[i].name)
  }

  predicate DistinctNames(gs: seq<ObjectGroup>) {
    forall i, j :: 0 <= i < j < |gs| ==> gs[i].name != gs[j].name
  }

  predicate NamesSeen(gs: seq<ObjectGroup>, fs: seq<FilterAnalysis>) {
    forall i :: 0 <= i < |gs| ==> gs[i].name in Objects(fs)
  }

  predicate FiltersMatch(gs: seq<ObjectGroup>, fs: seq<FilterAnalysis>) {
    forall i :: 0 <= i < |gs| ==> gs[i].filters == WithObject(fs, gs[i].name) && |gs[i].filters| > 0
  }

  predicate Covers(gs: seq<ObjectGroup>, fs: seq<FilterAnalysis>) {
    forall j :: 0 <= j < |fs| ==> ObjectOf(fs[j]) in Names(gs)
  }

  predicate FirstSeenOrder(gs: seq<ObjectGroup>, fs: seq<FilterAnalysis>)
    requires NamesSeen(gs, fs)
  {
    forall i, j :: 0 <= i < j < |gs| ==> FirstIndex(Objects(fs), gs[i].name) < FirstIndex(Objects(fs), gs[j].name)
  }

  /** `gs` is the grouping of `fs` by object: one group per object, in the
      order the objects are first seen, each holding that object's filters
      in their input order. */
  predicate GroupsFor(gs: seq<ObjectGroup>, fs: seq<FilterAnalysis>) {
    && DistinctNames(gs) && NamesSeen(gs, fs) && FiltersMatch(gs, fs) && Covers(gs, fs)
    && FirstSeenOrder(gs, fs)
  }

  function GroupIndex(gs: seq<ObjectGroup>, o: string): (r: Option<nat>)
    ensures r.Some? ==> r.value < |gs| && gs[r.value].name == o
    ensures r.None? ==> o !in Names(gs)
    decreases |gs|
  {
    if |gs| == 0 then None
    else if gs[0].name == o then Some(0)
    else match GroupIndex(gs[1..], o)
         case None => assert Names(gs) == [gs[0].name] + Names(gs[1..]); None
         case Some(i) => Some(i + 1)
  }

  lemma FirstIndexKept(xs: seq<string>, y: string, o: string)
    requires o in xs
    ensures o in xs + [y] && FirstIndex(xs + [y], o) == FirstIndex(xs, o)
  {
    var k := FirstIndex(xs, o);
    assert (xs + [y])[k] == o;
  }

  lemma ObjectsSnoc(fs: seq<FilterAnalysis>, f: FilterAnalysis)
    ensures Objects(fs + [f]) == Objects(fs) + [ObjectOf(f)]
    ensures forall n :: n in Objects(fs) ==> FirstIndex(Objects(fs + [f]), n) == FirstIndex(Objects(fs), n)
  {
    assert Objects(fs + [f]) == Objects(fs) + [ObjectOf(f)];
    forall n | n in Objects(fs) ensures FirstIndex(Objects(fs + [f]), n) == FirstIndex(Objects(fs), n) {
      FirstIndexKept(Objects(fs), ObjectOf(f), n);
    }
  }

  lemma WithObjectSnoc(fs: seq<FilterAnalysis>, f: FilterAnalysis, n: string)
    ensures WithObject(fs + [f], n) == WithObject(fs, n) + (if ObjectOf(f) == n then [f] else [])
  {
    assert (fs + [f])[..|fs|] == fs;
  }

  function Extend(gs: seq<ObjectGroup>, i: nat, f: FilterAnalysis): (r: seq<ObjectGroup>)
    requires i < |gs|
    ensures |r| == |gs| && Names(r) == Names(gs)
    ensures forall k :: 0 <= k < |gs| ==> r[k].name == gs[k].name
  {
    gs[i := gs[i].(filters := gs[i].filters + [f])]
  }

  lemma CoversSnoc(gs: seq<ObjectGroup>, r: seq<ObjectGroup>, fs: seq<FilterAnalysis>, f: FilterAnalysis)
    requires Covers(gs, fs)
    requires forall n :: n in Names(gs) ==> n in Names(r)
    requires ObjectOf(f) in Names(r)
    ensures Covers(r, fs + [f])
  {
    var all := fs + [f];
    forall j | 0 <= j < |all| ensures ObjectOf(all[j]) in Names(r) {
      if j < |fs| {
        assert all[j] == fs[j];
      }
    }
  }

  lemma NamesSeenSnoc(r: seq<ObjectGroup>, fs: seq<FilterAnalysis>, f: FilterAnalysis)
    requires forall k :: 0 <= k < |r| ==> r[k].name in Objects(fs) || r[k].name == ObjectOf(f)
    ensures NamesSeen(r, fs + [f])
  {
    ObjectsSnoc(fs, f);
  }

  /** Adding a filter of an object that already has a group. */
  lemma AddToExisting(gs: seq<ObjectGroup>, fs: seq<FilterAnalysis>, f: FilterAnalysis, i: nat)
    requires GroupsFor(gs, fs) && i < |gs| && gs[i].name == ObjectOf(f)
    ensures GroupsFor(Extend(gs, i, f), fs + [f])
  {
    ExistingNamesSeen(gs, fs, f, i);
    ExistingFiltersMatch(gs, fs, f, i);
    ExistingCovers(gs, fs, f, i);
    ExistingOrder(gs, fs, f, i);
  }

  lemma ExistingNamesSeen(gs: seq<ObjectGroup>, fs: seq<FilterAnalysis>, f: FilterAnalysis, i: nat)
    requires NamesSeen(gs, fs) && i < |gs|
    ensures NamesSeen(Extend(gs, i, f), fs + [f])
  {
    NamesSeenSnoc(Extend(gs, i, f), fs, f);
  }

  lemma ExistingFiltersMatch(gs: seq<ObjectGroup>, fs: seq<FilterAnalysis>, f: FilterAnalysis, i: nat)
    requires DistinctNames(gs) && FiltersMatch(gs, fs) && i < |gs| && gs[i].name == ObjectOf(f)
    ensures FiltersMatch(Extend(gs, i, f), fs + [f])
  {
    var r := Extend(gs, i, f);
    forall k | 0 <= k < |r| ensures r[k].filters == WithObject(fs + [f], r[k].name) && |r[k].filters| > 0 {
      WithObjectSnoc(fs, f, r[k].name);
    }
  }

  lemma ExistingCovers(gs: seq<ObjectGroup>, fs: seq<FilterAnalysis>, f: FilterAnalysis, i: nat)
    requires Covers(gs, fs) && i < |gs| && gs[i].name == ObjectOf(f)
    ensures Covers(Extend(gs, i, f), fs + [f])
  {
    var r := Extend(gs, i, f);
    assert Names(r)[i] == ObjectOf(f);
    CoversSnoc(gs, r, fs, f);
  }

  lemma ExistingOrder(gs: seq<ObjectGroup>, fs: seq<FilterAnalysis>, f: FilterAnalysis, i: nat)
    requires NamesSeen(gs, fs) && FirstSeenOrder(gs, fs) && i < |gs|
    requires NamesSeen(Extend(gs, i, f), fs + [f])
    ensures FirstSeenOrder(Extend(gs, i, f), fs + [f])
  {
    ObjectsSnoc(fs, f);
  }

  /** Adding a filter of an object seen for the first time. */
  lemma AddNew(gs: seq<ObjectGroup>, fs: seq<FilterAnalysis>, f: FilterAnalysis)
    requires GroupsFor(gs, fs) && ObjectOf(f) !in Names(gs)
    ensures GroupsFor(gs + [ObjectGroup(ObjectOf(f), [f])], fs + [f])
  {
    NewObjectUnseen(gs, fs, f);
    NewDistinct(gs, ObjectOf(f), [f]);
    NewNamesSeen(gs, fs, f);
    NewFiltersMatch(gs, fs, f);
    NewCovers(gs, fs, f);
    NewObjectLast(gs, fs, f);
  }

  lemma NewDistinct(gs: seq<ObjectGroup>, o: string, filters: seq<FilterAnalysis>)
    requires DistinctNames(gs) && o !in Names(gs)
    ensures DistinctNames(gs + [ObjectGroup(o, filters)])
  {
    forall k | 0 <= k < |gs| ensures gs[k].name != o {
      assert Names(gs)[k] == gs[k].name;
    }
  }

  lemma NewNamesSeen(gs: seq<ObjectGroup>, fs: seq<FilterAnalysis>, f: FilterAnalysis)
    requires NamesSeen(gs, fs)
    ensures NamesSeen(gs + [ObjectGroup(ObjectOf(f), [f])], fs + [f])
  {
    NamesSeenSnoc(gs + [ObjectGroup(ObjectOf(f), [f])], fs, f);
  }

  lemma NewFiltersMatch(gs: seq<ObjectGroup>, fs: seq<FilterAnalysis>, f: FilterAnalysis)
    requires FiltersMatch(gs, fs) && ObjectOf(f) !in Names(gs) && ObjectOf(f) !in Objects(fs)
    ensures FiltersMatch(gs + [ObjectGroup(ObjectOf(f), [f])], fs + [f])
  {
    var r := gs + [ObjectGroup(ObjectOf(f), [f])];
    WithObjectAbsent(fs, ObjectOf(f));
    forall k | 0 <= k < |r| ensures r[k].filters == WithObject(fs + [f], r[k].name) && |r[k].filters| > 0 {
      WithObjectSnoc(fs, f, r[k].name);
      if k < |gs| {
        assert Names(gs)[k] == gs[k].name;
      }
    }
  }

  lemma NewCovers(gs: seq<ObjectGroup>, fs: seq<FilterAnalysis>, f: FilterAnalysis)
    requires Covers(gs, fs)
    ensures Covers(gs + [ObjectGroup(ObjectOf(f), [f])], fs + [f])
  {
    var r := gs + [ObjectGroup(ObjectOf(f), [f])];
    assert Names(r) == Names(gs) + [ObjectOf(f)];
    CoversSnoc(gs, r, fs, f);
  }

  lemma NewObjectUnseen(gs: seq<ObjectGroup>, fs: seq<FilterAnalysis>, f: FilterAnalysis)
    requires Covers(gs, fs) && ObjectOf(f) !in Names(gs)
    ensures ObjectOf(f) !in Objects(fs)
  {
  }

  lemma NewObjectLast(gs: seq<ObjectGroup>, fs: seq<FilterAnalysis>, f: FilterAnalysis)
    requires NamesSeen(gs, fs) && FirstSeenOrder(gs, fs) && ObjectOf(f) !in Objects(fs)
    requires NamesSeen(gs + [ObjectGroup(ObjectOf(f), [f])], fs + [f])
    ensures FirstSeenOrder(gs + [ObjectGroup(ObjectOf(f), [f])], fs + [f])
  {
    var o := ObjectOf(f);
    var r := gs + [ObjectGroup(o, [f])];
    var all := fs + [f];
    ObjectsSnoc(fs, f);
    assert FirstIndex(Objects(all), o) == |fs|;
    forall k, l | 0 <= k < l < |r|
      ensures FirstIndex(Objects(all), r[k].name) < FirstIndex(Objects(all), r[l].name)
    {
      assert r[k] == gs[k];
      if l < |gs| {
        assert r[l] == gs[l];
      }
    }
  }

  /** Files the filter after `fs` into the grouping of `fs`. */
  function AddFilter(gs: seq<ObjectGroup>, fs: seq<FilterAnalysis>, f: FilterAnalysis): (r: seq<ObjectGroup>)
    requires GroupsFor(gs, fs)
    ensures GroupsFor(r, fs + [f])
    ensures |r| == |gs| || |r| == |gs| + 1
  {
    match GroupIndex(gs, ObjectOf(f))
    case Some(i) =>
      AddToExisting(gs, fs, f, i);
      Extend(gs, i, f)
    case None =>
      AddNew(gs, fs, f);
      gs + [ObjectGroup(ObjectOf(f), [f])]
  }

  /** `objects_data`: the filters grouped by object. */
  function GroupByObject(fs: seq<FilterAnalysis>): (gs: seq<ObjectGroup>)
    ensures GroupsFor(gs, fs)
    decreases |fs|
  {
    if |fs| == 0 then []
    else
      var p := fs[..|fs| - 1];
      assert fs == p + [fs[|fs| - 1]];
      AddFilter(GroupByObject(p), p, fs[|fs| - 1])
  }

  function SumCaptures(fs: seq<FilterAnalysis>): nat
    decreases |fs|
  {
    if |fs| == 0 then 0 else SumCaptures(fs[..|fs| - 1]) + fs[|fs| - 1].totalCaptures
  }

  lemma {:induction false} SumCapturesPositive(fs: seq<FilterAnalysis>)
    requires |fs| > 0 && forall f :: f in fs ==> f.totalCaptures > 0
    ensures SumCaptures(fs) > 0
  {
    assert fs[|fs| - 1] in fs;
  }

  /** A block before the rendering of its text. */
  datatype Block = Block(objectName: string, filters: seq<FilterAnalysis>, priority: nat, filterCount: nat)

  /** The sort keys: `sorted(..., reverse=True)` is a stable sort on the
      negated count, so equal counts keep their order. */
  function FilterKey(f: FilterAnalysis): real { -(f.totalCaptures as real) }
  function BlockKey(b: Block): real { -(b.priority as real) }

  /** The block of an object: its filters, most captures first, and its
      total number of captures as the block's priority. */
  function BlockOf(g: ObjectGroup): (b: Block)
    ensures b.objectName == g.name && b.priority == SumCaptures(g.filters) && b.filterCount == |g.filters|
    ensures multiset(b.filters) == multiset(g.filters)
    ensures forall i, j :: 0 <= i < j < |b.filters| ==> b.filters[i].totalCaptures >= b.filters[j].totalCaptures
  {
    Block(g.name, SortBy(g.filters, FilterKey), SumCaptures(g.filters), |g.filters|)
  }

  function BlocksOf(gs: seq<ObjectGroup>): (bs: seq<Block>)
    ensures |bs| == |gs| && forall i :: 0 <= i < |gs| ==> bs[i] == BlockOf(gs[i])
  {
    seq(|gs|, i requires 0 <= i < |gs| => BlockOf(gs[i]))
  }

  /** What every block of `fs` satisfies: it holds exactly the captured
      filters of its object, most captures first, and its priority is their
      capture total, which is positive. */
  predicate BlockFor(b: Block, fs: seq<FilterAnalysis>) {
    var mine := WithObject(Captured(fs), b.objectName);
    && b.objectName in Objects(Captured(fs))
    && multiset(b.filters) == multiset(mine)
    && b.priority == SumCaptures(mine) > 0
    && b.filterCount == |mine| > 0
    && forall i, j :: 0 <= i < j < |b.filters| ==> b.filters[i].totalCaptures >= b.filters[j].totalCaptures
  }

  /** The object groups of the filters with captures. */
  function ObjectGroups(fs: seq<FilterAnalysis>): (gs: seq<ObjectGroup>)
    ensures GroupsFor(gs, Captured(fs))
    ensures forall i :: 0 <= i < |gs| ==> BlockFor(BlockOf(gs[i]), fs)
  {
    var gs := GroupByObject(Captured(fs));
    forall i | 0 <= i < |gs| ensures BlockFor(BlockOf(gs[i]), fs) {
      SumCapturesPositive(gs[i].filters);
    }
    gs
  }

  /** `generate_filter_analysis_blocks`: one block per object with
      captures, the objects with the most captures first.  Since every kept
      filter has captures, no object has a zero total and none is skipped. */
  function ObjectBlocks(fs: seq<FilterAnalysis>): (bs: seq<Block>)
    ensures |bs| == |ObjectGroups(fs)|
    ensures multiset(bs) == multiset(BlocksOf(ObjectGroups(fs)))
    ensures forall i :: 0 <= i < |bs| ==> BlockFor(bs[i], fs)
    ensures forall i, j :: 0 <= i < j < |bs| ==> bs[i].priority >= bs[j].priority
  {
    var bs := SortBy(BlocksOf(ObjectGroups(fs)), BlockKey);
    SortedBlocks(fs, bs);
    bs
  }

  /** A reordering of the object blocks sorted by key has one block per
      object group, each satisfying `BlockFor`, highest priority first. */
  lemma SortedBlocks(fs: seq<FilterAnalysis>, bs: seq<Block>)
    requires multiset(bs) == multiset(BlocksOf(ObjectGroups(fs)))
    requires SortedBy(bs, BlockKey)
    ensures |bs| == |ObjectGroups(fs)|
    ensures forall i :: 0 <= i < |bs| ==> BlockFor(bs[i], fs)
    ensures forall i, j :: 0 <= i < j < |bs| ==> bs[i].priority >= bs[j].priority
  {
    var unsorted := BlocksOf(ObjectGroups(fs));
    assert |bs| == |unsorted| by {
      assert |multiset(bs)| == |multiset(unsorted)|;
    }
    PermutedBlocksFor(unsorted, bs, fs);
    ByDescendingPriority(bs);
  }

  /** A reordering of blocks that each satisfy `BlockFor` satisfies it too. */
  lemma PermutedBlocksFor(a: seq<Block>, b: seq<Block>, fs: seq<FilterAnalysis>)
    requires multiset(a) == multiset(b)
    requires forall i :: 0 <= i < |a| ==> BlockFor(a[i], fs)
    ensures forall i :: 0 <= i < |b| ==> BlockFor(b[i], fs)
  {
    forall i | 0 <= i < |b| ensures BlockFor(b[i], fs) {
      assert b[i] in multiset(a);
    }
  }

  /** Blocks sorted by their key run from the highest priority down. */
  lemma ByDescendingPriority(bs: seq<Block>)
    requires SortedBy(bs, BlockKey)
    ensures forall i, j :: 0 <= i < j < |bs| ==> bs[i].priority >= bs[j].priority
  {
    forall i, j | 0 <= i < j < |bs| ensures bs[i].priority >= bs[j].priority {
      assert BlockKey(bs[i]) <= BlockKey(bs[j]);
    }
  }

  /** Every object with a captured filter has a block. */
  lemma BlockNamed(fs: seq<FilterAnalysis>, k: nat) returns (m: nat)
    requires k < |Captured(fs)|
    ensures m < |ObjectBlocks(fs)| && ObjectBlocks(fs)[m].objectName == ObjectOf(Captured(fs)[k])
  {
    var c := Captured(fs);
    var gs := ObjectGroups(fs);
    var bs := ObjectBlocks(fs);
    assert Covers(gs, c);
    var i :| 0 <= i < |gs| && Names(gs)[i] == ObjectOf(c[k]);
    var b := BlocksOf(gs)[i];
    assert b in multiset(BlocksOf(gs));
    assert b in multiset(bs);
    m :| 0 <= m < |bs| && bs[m] == b;
  }

  /** Every filter with captures is in the block of its object. */
  lemma EveryCapturedFilterShown(fs: seq<FilterAnalysis>, j: nat)
    requires j < |fs| && fs[j].totalCaptures > 0
    ensures exists i :: 0 <= i < |ObjectBlocks(fs)| && ObjectBlocks(fs)[i].objectName == ObjectOf(fs[j])
                        && fs[j] in ObjectBlocks(fs)[i].filters
  {
    var c := Captured(fs);
    assert fs[j] in c;
    var k :| 0 <= k < |c| && c[k] == fs[j];
    WithObjectHas(c, k);
    var m := BlockNamed(fs, k);
    var b := ObjectBlocks(fs)[m];
    assert BlockFor(b, fs);
    assert fs[j] in multiset(b.filters);
  }

  lemma {:induction false} WithObjectHas(fs: seq<FilterAnalysis>, k: nat)
    requires k < |fs|
    ensures fs[k] in WithObject(fs, ObjectOf(fs[k]))
    decreases |fs|
  {
    if k < |fs| - 1 {
      var p := fs[..|fs| - 1];
      assert p[k] == fs[k];
      WithObjectHas(p, k);
    }
  }

  /** Objects with equal capture totals keep the order in which they were
      first seen, and filters with equal counts keep their input order. */
  lemma BlocksStable(fs: seq<FilterAnalysis>, k: real)
    ensures WithKey(ObjectBlocks(fs), BlockKey, k) == WithKey(BlocksOf(ObjectGroups(fs)), BlockKey, k)
  {
    SortByStable(BlocksOf(ObjectGroups(fs)), BlockKey, k);
  }

  lemma FiltersStable(g: ObjectGroup, k: real)
    ensures WithKey(BlockOf(g).filters, FilterKey, k) == WithKey(g.filters, FilterKey, k)
  {
    SortByStable(g.filters, FilterKey, k);
  }

  // --- Packing into messages (`split_filter_analysis_intelligently`) ---

  const MessageLimit := 1900
  const NoFilterData := "\n\nNo filter data available."

  /** The title of the message at `index`: the header, numbered from the
      second message on. */
  function Title(header: string, index: nat): string {
    if index == 0 then header else header + " (" + NatToString(index + 1) + ")"
  }

  /** The count the packer keeps for the message at `index` holding
      `blocks`: the title and its blank line, then each block, with
      `spacing` characters for each blank line between two blocks. */
  function RunningCount(header: string, index: nat, blocks: seq<string>, spacing: nat): nat
    decreases |blocks|
  {
    if |blocks| == 0 then |Title(header, index)| + 2
    else if |blocks| == 1 then |Title(header, index)| + 2 + |blocks[0]|
    else RunningCount(header, index, blocks[..|blocks| - 1], spacing) + spacing + |blocks[|blocks| - 1]|
  }

  lemma CountSnoc(header: string, index: nat, c: seq<string>, b: string, spacing: nat)
    requires |c| > 0
    ensures RunningCount(header, index, c + [b], spacing) == RunningCount(header, index, c, spacing) + spacing + |b|
  {
    assert (c + [b])[..|c|] == c;
  }

  /** The blocks of the messages, in order. */
  function Flatten(chunks: seq<seq<string>>): seq<string>
    decreases |chunks|
  {
    if |chunks| == 0 then [] else Flatten(chunks[..|chunks| - 1]) + chunks[|chunks| - 1]
  }

  /** The packer's state: the blocks of each message so far (the last one
      being built) and the running count of the last one. */
  datatype Packing = Packing(chunks: seq<seq<string>>, count: int)

  /** Each block after the first of a message fitted under the limit when
      it was added. */
  predicate Greedy(header: string, spacing: nat, cs: seq<seq<string>>) {
    forall i, k :: 0 <= i < |cs| && 0 < k < |cs[i]| ==>
      RunningCount(header, i, cs[i][..k], spacing) + |cs[i][k]| + 2 <= MessageLimit
  }

  /** A message was closed only when the next block would not fit. */
  predicate ClosedWhenFull(header: string, spacing: nat, cs: seq<seq<string>>) {
    forall i :: 0 < i < |cs| && |cs[i]| > 0 ==>
      RunningCount(header, i - 1, cs[i - 1], spacing) + |cs[i][0]| + 2 > MessageLimit
  }

  /** The invariant of the packer after the blocks `bs`: every block is in
      exactly one message, in order; no message is empty; the count is that
      of the last message; and the packing is greedy. */
  predicate PackedAs(header: string, spacing: nat, bs: seq<string>, st: Packing) {
    && Flatten(st.chunks) == bs
    && (forall i :: 0 <= i < |st.chunks| ==> |st.chunks[i]| > 0)
    && (|bs| == 0 <==> |st.chunks| == 0)
    && (|st.chunks| > 0 ==>
          st.count == RunningCount(header, |st.chunks| - 1, st.chunks[|st.chunks| - 1], spacing))
    && Greedy(header, spacing, st.chunks)
    && ClosedWhenFull(header, spacing, st.chunks)
  }

  lemma StartChunk(header: string, spacing: nat, cs: seq<seq<string>>, b: string)
    requires Greedy(header, spacing, cs) && ClosedWhenFull(header, spacing, cs)
    requires |cs| > 0 && |cs[|cs| - 1]| > 0
    requires RunningCount(header, |cs| - 1, cs[|cs| - 1], spacing) + |b| + 2 > MessageLimit
    ensures Greedy(header, spacing, cs + [[b]]) && ClosedWhenFull(header, spacing, cs + [[b]])
  {
    var r := cs + [[b]];
    assert forall i :: 0 <= i < |cs| ==> r[i] == cs[i];
  }

  lemma ExtendChunk(header: string, spacing: nat, cs: seq<seq<string>>, b: string)
    requires Greedy(header, spacing, cs) && ClosedWhenFull(header, spacing, cs)
    requires |cs| > 0 && |cs[|cs| - 1]| > 0
    requires RunningCount(header, |cs| - 1, cs[|cs| - 1], spacing) + |b| + 2 <= MessageLimit
    ensures var last := cs[|cs| - 1];
            var r := cs[..|cs| - 1] + [last + [b]];
            Greedy(header, spacing, r) && ClosedWhenFull(header, spacing, r)
  {
    var n := |cs|;
    var last := cs[n - 1];
    var r := cs[..n - 1] + [last + [b]];
    assert forall i :: 0 <= i < n - 1 ==> r[i] == cs[i];
    assert r[n - 1] == last + [b];
    forall i, k | 0 <= i < |r| && 0 < k < |r[i]|
      ensures RunningCount(header, i, r[i][..k], spacing) + |r[i][k]| + 2 <= MessageLimit
    {
      if i == n - 1 {
        if k < |last| {
          assert r[i][..k] == last[..k] && r[i][k] == last[k];
        } else {
          assert r[i][..k] == last && r[i][k] == b;
        }
      }
    }
  }

  lemma FlattenSnoc(cs: seq<seq<string>>, c: seq<string>)
    ensures Flatten(cs + [c]) == Flatten(cs) + c
  {
    assert (cs + [c])[..|cs|] == cs;
  }

  /** One turn of the loop: a block that would push the count over the
      limit starts a new message, unless the current message is empty. */
  function Step(header: string, spacing: nat, st: Packing, b: string): Packing {
    var n := |st.chunks|;
    if n == 0 then Packing([[b]], |header| + 2 + |b|)
    else if st.count + |b| + 2 > MessageLimit then Packing(st.chunks + [[b]], |Title(header, n)| + 2 + |b|)
    else Packing(st.chunks[..n - 1] + [st.chunks[n - 1] + [b]], st.count + spacing + |b|)
  }

  lemma FirstPacked(header: string, spacing: nat, b: string)
    ensures PackedAs(header, spacing, [b], Step(header, spacing, Packing([], |header| + 2), b))
  {
    FlattenSnoc([], [b]);
  }

  lemma ClosePacked(header: string, spacing: nat, bs: seq<string>, st: Packing, b: string)
    requires PackedAs(header, spacing, bs, st)
    requires |st.chunks| > 0 && st.count + |b| + 2 > MessageLimit
    ensures PackedAs(header, spacing, bs + [b], Step(header, spacing, st, b))
  {
    var cs := st.chunks + [[b]];
    FlattenSnoc(st.chunks, [b]);
    StartChunk(header, spacing, st.chunks, b);
    assert forall i :: 0 <= i < |st.chunks| ==> cs[i] == st.chunks[i];
  }

  lemma ExtendPacked(header: string, spacing: nat, bs: seq<string>, st: Packing, b: string)
    requires PackedAs(header, spacing, bs, st)
    requires |st.chunks| > 0 && st.count + |b| + 2 <= MessageLimit
    ensures PackedAs(header, spacing, bs + [b], Step(header, spacing, st, b))
  {
    var n := |st.chunks|;
    var pre := st.chunks[..n - 1];
    var last := st.chunks[n - 1];
    var cs := pre + [last + [b]];
    assert pre + [last] == st.chunks;
    FlattenSnoc(pre, last);
    FlattenSnoc(pre, last + [b]);
    assert Flatten(cs) == bs + [b];
    assert forall i :: 0 <= i < n - 1 ==> cs[i] == st.chunks[i];
    CountSnoc(header, n - 1, last, b, spacing);
    ExtendChunk(header, spacing, st.chunks, b);
  }

  /** The loop's turn keeps the packing invariant. */
  lemma StepPacked(header: string, spacing: nat, bs: seq<string>, st: Packing, b: string, next: seq<string>)
    requires PackedAs(header, spacing, bs, st) && next == bs + [b]
    ensures PackedAs(header, spacing, next, Step(header, spacing, st, b))
  {
    if |st.chunks| == 0 {
      assert bs == [] && Step(header, spacing, st, b) == Step(header, spacing, Packing([], |header| + 2), b);
      FirstPacked(header, spacing, b);
    } else if st.count + |b| + 2 > MessageLimit {
      ClosePacked(header, spacing, bs, st, b);
    } else {
      ExtendPacked(header, spacing, bs, st, b);
    }
  }

  /** The packer run over all blocks. */
  function Pack(header: string, spacing: nat, bs: seq<string>): Packing
    decreases |bs|
  {
    if |bs| == 0 then Packing([], |header| + 2)
    else Step(header, spacing, Pack(header, spacing, bs[..|bs| - 1]), bs[|bs| - 1])
  }

  /** After all blocks the packing invariant holds. */
  lemma {:induction false} PackInvariant(header: string, spacing: nat, bs: seq<string>)
    ensures PackedAs(header, spacing, bs, Pack(header, spacing, bs))
    decreases |bs|
  {
    if |bs| > 0 {
      var p := bs[..|bs| - 1];
      var b := bs[|bs| - 1];
      var st := Pack(header, spacing, p);
      assert p + [b] == bs;
      PackInvariant(header, spacing, p);
      StepPacked(header, spacing, p, st, b, bs);
    }
  }

  /** The blocks of a message joined by blank lines. */
  function JoinBlocks(c: seq<string>): string
    decreases |c|
  {
    if |c| == 0 then "" else if |c| == 1 then c[0] else JoinBlocks(c[..|c| - 1]) + "\n\n" + c[|c| - 1]
  }

  /** A message: its title, a blank line, and its blocks separated by blank
      lines (`'\n'.join` of the title, `""` and the blocks with `""`
      between them). */
  function Render(header: string, index: nat, c: seq<string>): string {
    Title(header, index) + "\n\n" + JoinBlocks(c)
  }

  lemma {:induction false} JoinBlocksLength(header: string, index: nat, c: seq<string>)
    requires |c| > 0
    ensures |Title(header, index)| + 2 + |JoinBlocks(c)| == RunningCount(header, index, c, 2)
    decreases |c|
  {
    if |c| > 1 {
      JoinBlocksLength(header, index, c[..|c| - 1]);
    }
  }

  /** With two characters counted per blank line, the running count is the
      length of the message. */
  lemma RenderLength(header: string, index: nat, c: seq<string>)
    requires |c| > 0
    ensures |Render(header, index, c)| == RunningCount(header, index, c, 2)
  {
    JoinBlocksLength(header, index, c);
  }

  /** The messages for the blocks, counting `spacing` characters per blank
      line; a single notice when there are no blocks. */
  function SplitWith(header: string, bs: seq<string>, spacing: nat): (ms: seq<string>)
    ensures |bs| == 0 ==> ms == [header + NoFilterData]
    ensures |bs| > 0 ==> |ms| == |Pack(header, spacing, bs).chunks| > 0
    ensures |bs| > 0 ==> forall i :: 0 <= i < |ms| ==> ms[i] == Render(header, i, Pack(header, spacing, bs).chunks[i])
  {
    if |bs| == 0 then [header + NoFilterData]
    else
      var cs := Pack(header, spacing, bs).chunks;
      seq(|cs|, i requires 0 <= i < |cs| => Render(header, i, cs[i]))
  }

  /** `split_filter_analysis_intelligently` as written: the blank line
      between two blocks adds one to the running count. */
  function SplitIntelligently(header: string, bs: seq<string>): (ms: seq<string>)
    ensures |bs| == 0 ==> ms == [header + NoFilterData]
    ensures |bs| > 0 ==> PackedAs(header, 1, bs, Pack(header, 1, bs))
    ensures |bs| > 0 ==> |ms| == |Pack(header, 1, bs).chunks| > 0
    ensures |bs| > 0 ==> forall i :: 0 <= i < |ms| ==> ms[i] == Render(header, i, Pack(header, 1, bs).chunks[i])
  {
    PackInvariant(header, 1, bs);
    SplitWith(header, bs, 1)
  }

  /** The packing with the blank line counted as the two characters it
      takes. */
  function SplitCorrected(header: string, bs: seq<string>): (ms: seq<string>)
    ensures |bs| == 0 ==> ms == [header + NoFilterData]
    ensures |bs| > 0 ==> PackedAs(header, 2, bs, Pack(header, 2, bs))
    ensures |bs| > 0 ==> |ms| == |Pack(header, 2, bs).chunks| > 0
    ensures |bs| > 0 ==> forall i :: 0 <= i < |ms| ==> ms[i] == Render(header, i, Pack(header, 2, bs).chunks[i])
  {
    PackInvariant(header, 2, bs);
    SplitWith(header, bs, 2)
  }

  /** A greedy message of more than one block keeps its count within the
      limit, up to the gap between the two characters a blank line takes
      and the `spacing` counted for it. */
  lemma GreedyFits(header: string, spacing: nat, cs: seq<seq<string>>, i: nat)
    requires Greedy(header, spacing, cs)
    requires i < |cs| && |cs[i]| > 1
    ensures RunningCount(header, i, cs[i], spacing) + 2 <= MessageLimit + spacing
  {
    var c := cs[i];
    var k := |c| - 1;
    assert c == c[..k] + [c[k]];
    CountSnoc(header, i, c[..k], c[k], spacing);
  }

  /** With the blank lines counted in full, every message holding more than
      one block stays within the limit. */
  lemma CorrectedWithinLimit(header: string, bs: seq<string>, i: nat)
    requires |bs| > 0
    requires i < |SplitCorrected(header, bs)|
    requires |Pack(header, 2, bs).chunks[i]| > 1
    ensures |SplitCorrected(header, bs)[i]| <= MessageLimit
  {
    var cs := Pack(header, 2, bs).chunks;
    GreedyFits(header, 2, cs, i);
    RenderLength(header, i, cs[i]);
  }

  function Fill(n: nat): (s: string)
    ensures |s| == n
  {
    seq(n, _ => 'x')
  }

  /** As written, three blocks of 900, 900 and 94 characters under a
      one-character header pass every check and end up in one message of
      1901 characters. */
  lemma AsWrittenOvershoots()
    ensures var ms := SplitIntelligently("H", [Fill(900), Fill(900), Fill(94)]);
            |ms| == 1 && |ms[0]| == 1901
  {
    var a, b, c := Fill(900), Fill(900), Fill(94);
    OvershootPacked(a, b, c);
    OvershootLength(a, b, c);
  }

  lemma OvershootPacked(a: string, b: string, c: string)
    requires |a| == 900 && |b| == 900 && |c| == 94
    ensures Pack("H", 1, [a, b, c]).chunks == [[a, b, c]]
  {
    OvershootFirst(a);
    OvershootSecond(a, b);
    OvershootThird(a, b, c);
  }

  lemma OvershootThird(a: string, b: string, c: string)
    requires |c| == 94
    requires Pack("H", 1, [a, b]) == Packing([[a, b]], 1804)
    ensures Pack("H", 1, [a, b, c]).chunks == [[a, b, c]]
  {
    var st := Packing([[a, b]], 1804);
    assert Pack("H", 1, [a, b, c]) == Step("H", 1, st, c) by {
      PackSnoc("H", 1, [a, b], c);
      assert [a, b] + [c] == [a, b, c];
    }
    assert [a, b] + [c] == [a, b, c];
    assert st.chunks[..0] + [st.chunks[0] + [c]] == [[a, b, c]];
  }

  lemma OvershootFirst(a: string)
    requires |a| == 900
    ensures Pack("H", 1, [a]) == Packing([[a]], 903)
  {
    assert Pack("H", 1, [a]) == Step("H", 1, Packing([], 3), a) by {
      PackSnoc("H", 1, [], a);
      assert [] + [a] == [a];
    }
  }

  lemma OvershootSecond(a: string, b: string)
    requires |a| == 900 && |b| == 900
    requires Pack("H", 1, [a]) == Packing([[a]], 903)
    ensures Pack("H", 1, [a, b]) == Packing([[a, b]], 1804)
  {
    var st := Packing([[a]], 903);
    assert Pack("H", 1, [a, b]) == Step("H", 1, st, b) by {
      PackSnoc("H", 1, [a], b);
      assert [a] + [b] == [a, b];
    }
    assert [a] + [b] == [a, b];
    assert st.chunks[..0] + [st.chunks[0] + [b]] == [[a, b]];
  }

  lemma OvershootLength(a: string, b: string, c: string)
    requires |a| == 900 && |b| == 900 && |c| == 94
    ensures |Render("H", 0, [a, b, c])| == 1901
  {
    CountSnoc("H", 0, [a], b, 2);
    CountSnoc("H", 0, [a, b], c, 2);
    assert [a] + [b] == [a, b] && [a, b] + [c] == [a, b, c];
    RenderLength("H", 0, [a, b, c]);
  }

  lemma PackSnoc(header: string, spacing: nat, bs: seq<string>, b: string)
    ensures Pack(header, spacing, bs + [b]) == Step(header, spacing, Pack(header, spacing, bs), b)
  {
    assert (bs + [b])[..|bs|] == bs;
  }
}

=== FILE: formatter.dfy ===
/** The decisions the Discord report makes before any text is laid out
    (`ekos_discord_formatter.py`): how a duration is bucketed, when the
    report is only the no-data notice, how temperature stability and mount
    tracking are graded and when they are suppressed, how the guiding
    figures of the filters are combined into one, and how aborted captures
    are attributed to object/filter pairs.  Emoji and the wording of each
    line are not modelled. */
module Formatter {
  import opened Options
  import opened Text
  import opened Numbers
  import opened Stats
  import opened BatchParser
  import opened Aggregator

  // --- Durations (`format_duration`) ---

  /** Python's `int()` on a float: the integer part, truncated toward zero. */
  function Trunc(x: real): (n: int)
    ensures x >= 0.0 ==> n as real <= x < n as real + 1.0
    ensures x < 0.0 ==> n as real - 1.0 < x <= n as real
  {
    if x >= 0.0 then x.Floor else -((-x).Floor)
  }

  /** The integer part of a real is the one integer within 1 below it. */
  lemma FloorUnique(x: real, n: int)
    requires n as real <= x < n as real + 1.0
    ensures x.Floor == n
  {
  }

  /** The fields `format_duration` prints. */
  datatype DurationFields =
    | Minutes(count: int)                      // `{m}m`, under an hour
    | HoursMinutes(hours: nat, minutes: nat)   // `{h}h {m}m`, the minutes only when non-zero
    | DaysHours(days: nat, hours: nat)         // `{d}d {h}h`, the hours only when non-zero

  /** The bucket of a duration in hours and its whole fields: the whole
      minutes under an hour, whole hours and minutes under a day, whole days
      and hours beyond.  No field loses more than the part below its unit. */
  function DurationParts(hours: real): (d: DurationFields)
    ensures d.Minutes? <==> hours < 1.0
    ensures d.HoursMinutes? <==> 1.0 <= hours < 24.0
    ensures d.DaysHours? <==> hours >= 24.0
    ensures d.Minutes? && hours >= 0.0 ==> 0 <= d.count < 60 && d.count == (hours * 60.0).Floor
    ensures d.Minutes? && hours < 0.0 ==> d.count == -((-hours * 60.0).Floor)
    ensures d.HoursMinutes? ==> 1 <= d.hours < 24 && d.minutes < 60
    ensures d.HoursMinutes? ==> 60 * d.hours + d.minutes == (hours * 60.0).Floor
    ensures d.DaysHours? ==> d.days >= 1 && d.hours < 24 && 24 * d.days + d.hours == hours.Floor
  {
    if hours < 1.0 then Minutes(Trunc(hours * 60.0))
    else if hours < 24.0 then
      var h := Trunc(hours);
      var m := Trunc((hours - h as real) * 60.0);
      FloorUnique(hours * 60.0, 60 * h + m);
      HoursMinutes(h, m)
    else
      var days := Trunc(hours / 24.0);
      // Python's `hours % 24` on a float takes the sign of the divisor.
      var rem := hours - 24.0 * (hours / 24.0).Floor as real;
      var h := Trunc(rem);
      FloorUnique(hours, 24 * days + h);
      DaysHours(days, h)
  }

  /** Whether the second field of a duration is printed. */
  predicate SecondFieldShown(d: DurationFields) {
    (d.HoursMinutes? && d.minutes > 0) || (d.DaysHours? && d.hours > 0)
  }

  lemma DigitsHaveNoSpace(s: string)
    requires AllDigits(s)
    ensures ' ' !in s
  {
    forall i | 0 <= i < |s| ensures s[i] != ' ' {
      assert IsDigit(s[i]);
    }
  }

  lemma IntHasNoSpace(i: int)
    ensures ' ' !in IntToString(i)
  {
    if i < 0 {
      DigitsHaveNoSpace(NatToString(-i));
    } else {
      DigitsHaveNoSpace(NatToString(i));
    }
  }

  /** A number followed by its unit letter, as an f-string prints it. */
  function Word(v: int, unit: char): (w: string)
    requires unit != ' '
    ensures |w| >= 2 && w[|w| - 1] == unit && ' ' !in w
  {
    IntHasNoSpace(v);
    IntToString(v) + [unit]
  }

  /** `format_duration`: the fields followed by their unit letters, with a
      zero second field left off. */
  function FormatDuration(hours: real): (s: string)
    ensures |s| >= 2
    ensures ' ' in s <==> SecondFieldShown(DurationParts(hours))
    ensures s[|s| - 1] == (if hours < 1.0 then 'm'
                           else if hours < 24.0 then (if SecondFieldShown(DurationParts(hours)) then 'm' else 'h')
                           else (if SecondFieldShown(DurationParts(hours)) then 'h' else 'd'))
  {
    match DurationParts(hours)
    case Minutes(m) => Word(m, 'm')
    case HoursMinutes(h, m) => if m > 0 then Word(h, 'h') + " " + Word(m, 'm') else Word(h, 'h')
    case DaysHours(d, h) => if h > 0 then Word(d, 'd') + " " + Word(h, 'h') else Word(d, 'd')
  }

  /** A word of a formatted duration: a number followed by its unit letter,
      the number reading back as `v`. */
  predicate ReadsAs(w: string, unit: char, v: int) {
    |w| >= 2 && w[|w| - 1] == unit && ParseInt(w[..|w| - 1]) == Some(v)
  }

  /** A number word reads back as its number and splits to itself. */
  lemma WordReadsBack(v: int, unit: char)
    requires unit != ' '
    ensures ReadsAs(Word(v, unit), unit, v)
    ensures Split(Word(v, unit), ' ') == [Word(v, unit)]
  {
    var w := Word(v, unit);
    assert w[..|w| - 1] == IntToString(v);
    ParseIntRoundTrip(v);
    SplitWithoutSep(w, ' ');
  }

  /** Two words joined by a space split back into the two. */
  lemma TwoWordsSplit(v1: int, u1: char, v2: int, u2: char)
    requires u1 != ' ' && u2 != ' '
    ensures Split(Word(v1, u1) + " " + Word(v2, u2), ' ') == [Word(v1, u1), Word(v2, u2)]
  {
    var w1, w2 := Word(v1, u1), Word(v2, u2);
    assert Split(w1, ' ') == [w1] && Split(w2, ' ') == [w2] by {
      SplitWithoutSep(w1, ' ');
      SplitWithoutSep(w2, ' ');
    }
    SplitAtSep(w1, w2, ' ');
  }

  /** The formatted duration reads back: its space-separated words are the
      fields of `DurationParts` in order, each followed by its unit, with a
      zero second field left out. */
  lemma FormatDurationReadsBack(hours: real)
    ensures var words := Split(FormatDuration(hours), ' ');
            match DurationParts(hours)
            case Minutes(m) => |words| == 1 && ReadsAs(words[0], 'm', m)
            case HoursMinutes(h, m) =>
              && ReadsAs(words[0], 'h', h)
              && (if m > 0 then |words| == 2 && ReadsAs(words[1], 'm', m) else |words| == 1)
            case DaysHours(d, h) =>
              && ReadsAs(words[0], 'd', d)
              && (if h > 0 then |words| == 2 && ReadsAs(words[1], 'h', h) else |words| == 1)
  {
    match DurationParts(hours)
    case Minutes(m) =>
      WordReadsBack(m, 'm');
    case HoursMinutes(h, m) =>
      WordReadsBack(h, 'h');
      WordReadsBack(m, 'm');
      if m > 0 { TwoWordsSplit(h, 'h', m, 'm'); }
    case DaysHours(d, h) =>
      WordReadsBack(d, 'd');
      WordReadsBack(h, 'h');
      if h > 0 { TwoWordsSplit(d, 'd', h, 'h'); }
  }

  // --- The no-data guard (`generate_ekos_discord_summary`) ---

  const NoDataNotice := "No Ekos session data available for this period."

  /** The report is only the notice when there is no aggregate (the empty
      dictionary) or it counts no completed capture. */
  predicate NoSessionData(data: Option<Aggregate>) {
    data.None? || data.value.totalCaptures == 0
  }

  /** The report's messages; `render` stands for the assembly of the
      standard, minimal or detailed report, which is not modelled. */
  function DiscordSummary(data: Option<Aggregate>, render: Aggregate -> seq<string>): (r: seq<string>)
    ensures NoSessionData(data) ==> r == [NoDataNotice]
    ensures !NoSessionData(data) ==> r == render(data.value)
  {
    if NoSessionData(data) then [NoDataNotice] else render(data.value)
  }

  predicate HasCompletedCapture(s: SessionData) {
    exists i :: 0 <= i < |s.captures| && s.captures[i].event == Complete
  }

  lemma CompletedEmpty(cs: seq<CaptureRecord>)
    ensures |Completed(cs)| == 0 <==> forall i :: 0 <= i < |cs| ==> cs[i].event != Complete
  {
    var r := Completed(cs);
    if |r| > 0 {
      assert r[0] in cs;
    }
  }

  lemma {:induction false} CountCompletedZero(ss: seq<SessionData>)
    ensures CountCompleted(ss) == 0 <==> forall k :: 0 <= k < |ss| ==> !HasCompletedCapture(ss[k])
    decreases |ss|
  {
    if |ss| > 0 {
      CountCompletedZero(ss[1..]);
      CompletedEmpty(ss[0].captures);
      assert forall k :: 1 <= k < |ss| ==> ss[k] == ss[1..][k - 1];
    }
  }

  /** The kept sessions hold a completed capture exactly when the parsed
      logs do, since a log with a capture is kept. */
  lemma KeptCompleted(parsed: seq<SessionData>, ss: seq<SessionData>)
    requires forall i :: 0 <= i < |parsed| && HasData(parsed[i]) ==> parsed[i] in ss
    requires forall k :: 0 <= k < |ss| ==> ss[k] in parsed
    ensures (forall k :: 0 <= k < |ss| ==> !HasCompletedCapture(ss[k])) <==>
            (forall i :: 0 <= i < |parsed| ==> !HasCompletedCapture(parsed[i]))
  {
    if exists i :: 0 <= i < |parsed| && HasCompletedCapture(parsed[i]) {
      var i :| 0 <= i < |parsed| && HasCompletedCapture(parsed[i]);
      assert HasData(parsed[i]);
      var k :| 0 <= k < |ss| && ss[k] == parsed[i];
    }
  }

  /** The report of a set of parsed logs is the no-data notice exactly when
      none of them records a completed capture. */
  lemma NoDataIffNoCompletedCapture(parsed: seq<SessionData>, clock: string -> Option<real>,
                                    root: real -> real, now: real)
    ensures NoSessionData(AggregateSessions(parsed, clock, root, now)) <==>
              forall i :: 0 <= i < |parsed| ==> !HasCompletedCapture(parsed[i])
  {
    var r := AggregateSessions(parsed, clock, root, now);
    if r.Some? {
      CountCompletedZero(r.value.sessions);
      KeptCompleted(parsed, r.value.sessions);
    } else {
      forall i | 0 <= i < |parsed| ensures !HasCompletedCapture(parsed[i]) {
        assert !HasData(parsed[i]);
      }
    }
  }

  // --- Conditions (`generate_conditions_summary`, `generate_mount_tracking_summary`) ---

  /** A report section: left out (the empty string), shown, or an
      exception Python would raise while building it. */
  datatype Section<T> = Omitted | Shown(body: T) | Raises

  datatype Stability = Stable | Moderate | Variable

  /** Temperature stability from the spread of the readings. */
  function StabilityOf(spread: real): (s: Stability)
    ensures s == Variable <==> spread > 5.0
    ensures s == Moderate <==> 2.0 < spread <= 5.0
    ensures s == Stable <==> spread <= 2.0
  {
    if spread > 5.0 then Variable else if spread > 2.0 then Moderate else Stable
  }

  /** The `mount_states` of all sessions, in order. */
  function MountStates(ss: seq<SessionData>): (r: seq<StateRecord>)
    ensures |ss| == 0 ==> r == []
    decreases |ss|
  {
    if |ss| == 0 then [] else ss[0].mountStates + MountStates(ss[1..])
  }

  /** One session contributes exactly its own states. */
  lemma MountStatesOne(s: SessionData)
    ensures MountStates([s]) == s.mountStates
  {
    assert [s][1..] == [];
  }

  /** The states of two runs of sessions are those of the first followed by
      those of the second. */
  lemma {:induction false} MountStatesAppend(a: seq<SessionData>, b: seq<SessionData>)
    ensures MountStates(a + b) == MountStates(a) + MountStates(b)
    decreases |a|
  {
    if |a| == 0 {
      assert a + b == b;
    } else {
      assert (a + b)[0] == a[0] && (a + b)[1..] == a[1..] + b;
      MountStatesAppend(a[1..], b);
      assert a[0].mountStates + (MountStates(a[1..]) + MountStates(b))
          == (a[0].mountStates + MountStates(a[1..])) + MountStates(b);
    }
  }

  datatype TrackingLine = TrackingLine(quality: Grade, trackingEvents: nat)

  /** A float comparison of the ratio `t / n` with a constant, as the
      corresponding comparison of `t` with a multiple of `n`. */
  lemma RatioCompare(t: nat, n: nat, c: real)
    requires n > 0
    ensures t as real / n as real > c <==> t as real > c * n as real
    ensures t as real / n as real < c <==> t as real < c * n as real
  {
  }

  /** The grade of a `Tracking` share of `t` in `n` states: above 0.8
      Excellent, above 0.6 Good, above 0.4 Average, and no grade (the line
      is suppressed) otherwise. */
  function TrackingGrade(t: nat, n: nat): (g: Option<Grade>)
    requires n > 0
    ensures g == Some(Excellent) <==> 5 * t > 4 * n
    ensures g == Some(Good) <==> 4 * n >= 5 * t > 3 * n
    ensures g == Some(Average) <==> 3 * n >= 5 * t > 2 * n
    ensures g.None? <==> 2 * n >= 5 * t
  {
    RatioCompare(t, n, 0.8);
    RatioCompare(t, n, 0.6);
    RatioCompare(t, n, 0.4);
    var ratio := t as real / n as real;
    if ratio > 0.8 then Some(Excellent)
    else if ratio > 0.6 then Some(Good)
    else if ratio > 0.4 then Some(Average)
    else None
  }

  /** The mount line: left out with no sessions, no mount states, no
      `Tracking` state, fewer `Tracking` states than half the captures, or a
      `Tracking` share of 0.4 or less; otherwise graded by that share.  A
      missing capture total counts as 1; a zero one raises once a
      `Tracking` state exists. */
  function MountTracking(ss: seq<SessionData>, totalCaptures: Option<nat>): (r: Section<TrackingLine>)
    ensures var states := MountStates(ss);
            var tracking := CountState(states, "Tracking");
            var total := totalCaptures.GetOr(1);
            && (r.Raises? <==> tracking > 0 && total == 0)
            && (r.Shown? <==> tracking > 0 && total > 0 && 2 * tracking >= total && 5 * tracking > 2 * |states|)
            && (r.Shown? ==> r.body.trackingEvents == tracking && Some(r.body.quality) == TrackingGrade(tracking, |states|))
  {
    var states := MountStates(ss);
    if |ss| == 0 then Omitted
    else if |states| == 0 then Omitted
    else
      var tracking := CountState(states, "Tracking");
      var total := totalCaptures.GetOr(1);
      if tracking == 0 then Omitted
      else if total == 0 then Raises
      else
        RatioCompare(tracking, total, 0.5);
        if tracking as real / total as real < 0.5 then Omitted
        else
          match TrackingGrade(tracking, |states|)
          case None => Omitted
          case Some(g) => Shown(TrackingLine(g, tracking))
  }

  datatype Conditions = Conditions(temperature: Option<(Stability, real)>, tracking: Option<TrackingLine>)

  /** The conditions section: the stability line when there are temperature
      statistics, the mount line when it is shown, and nothing when neither
      is. */
  function ConditionsSummary(temps: Option<TemperatureStats>, mount: Section<TrackingLine>): (r: Section<Conditions>)
    ensures r.Raises? <==> mount.Raises?
    ensures r.Omitted? <==> temps.None? && mount.Omitted?
    ensures r.Shown? ==> (r.body.temperature.Some? <==> temps.Some?)
    ensures r.Shown? ==> (r.body.tracking.Some? <==> mount.Shown?)
    ensures r.Shown? && mount.Shown? ==> r.body.tracking.value == mount.body
    ensures r.Shown? && temps.Some? ==>
              var spread := temps.value.max - temps.value.min;
              r.body.temperature.value == (StabilityOf(spread), spread)
  {
    var temperature := if temps.Some? then
                         var spread := temps.value.max - temps.value.min;
                         Some((StabilityOf(spread), spread))
                       else None;
    match mount
    case Raises => Raises
    case Omitted => if temperature.None? then Omitted else Shown(Conditions(temperature, None))
    case Shown(line) => Shown(Conditions(temperature, Some(line)))
  }

  /** On a report past the no-data guard, the conditions section never
      raises, and its temperature spread is never negative. */
  lemma ReportConditionsDefined(a: Aggregate, parsed: seq<SessionData>, clock: string -> Option<real>,
                                root: real -> real, now: real)
    requires AggregateSessions(parsed, clock, root, now) == Some(a)
    requires !NoSessionData(Some(a))
    ensures var r := ConditionsSummary(a.temperatureStats, MountTracking(a.sessions, Some(a.totalCaptures)));
            !r.Raises? && (r.Shown? && r.body.temperature.Some? ==> r.body.temperature.value.1 >= 0.0)
  {
  }

  // --- Guiding over filters (`extract_guide_summary_from_filter_analysis`) ---

  /** A filter's `global_guide_stats`. */
  datatype FilterGuide = FilterGuide(measurements: int, avgDistance: real, quality: string)

  function Repeat(x: real, n: nat): (r: seq<real>)
    ensures |r| == n && forall i :: 0 <= i < n ==> r[i] == x
  {
    seq(n, _ => x)
  }

  lemma {:induction false} SumRepeat(x: real, n: nat)
    ensures Sum(Repeat(x, n)) == n as real * x
    decreases n
  {
    if n > 0 {
      SumRepeat(x, n - 1);
      assert Repeat(x, n)[1..] == Repeat(x, n - 1);
    }
  }

  /** A filter contributes its mean distance when it has measurements and a
      positive distance. */
  predicate Weighted(g: FilterGuide) {
    g.measurements > 0 && g.avgDistance > 0.0
  }

  /** `all_distances`: each contributing filter's mean distance, once per
      measurement. */
  function WeightedDistances(gs: seq<FilterGuide>): seq<real>
    decreases |gs|
  {
    if |gs| == 0 then []
    else (if Weighted(gs[0]) then Repeat(gs[0].avgDistance, gs[0].measurements) else [])
         + WeightedDistances(gs[1..])
  }

  /** The measurements behind the contributing filters. */
  function Weight(gs: seq<FilterGuide>): nat
    decreases |gs|
  {
    if |gs| == 0 then 0 else (if Weighted(gs[0]) then gs[0].measurements else 0) + Weight(gs[1..])
  }

  /** The measurement-weighted sum of the contributing filters' distances. */
  function WeightedSum(gs: seq<FilterGuide>): real
    decreases |gs|
  {
    if |gs| == 0 then 0.0
    else (if Weighted(gs[0]) then gs[0].measurements as real * gs[0].avgDistance else 0.0) + WeightedSum(gs[1..])
  }

  /** The repeated list has one entry per weighting measurement and sums to
      the weighted sum, so its mean is the measurement-weighted mean. */
  lemma {:induction false} WeightedDistancesFacts(gs: seq<FilterGuide>)
    ensures |WeightedDistances(gs)| == Weight(gs)
    ensures Sum(WeightedDistances(gs)) == WeightedSum(gs)
    decreases |gs|
  {
    if |gs| > 0 {
      WeightedDistancesFacts(gs[1..]);
      var head := if Weighted(gs[0]) then Repeat(gs[0].avgDistance, gs[0].measurements) else [];
      SumAppend(head, WeightedDistances(gs[1..]));
      if Weighted(gs[0]) {
        SumRepeat(gs[0].avgDistance, gs[0].measurements);
      }
    }
  }

  /** The measurements of the filters that have any. */
  function TotalMeasurements(gs: seq<FilterGuide>): (n: nat)
    ensures n == 0 <==> forall i :: 0 <= i < |gs| ==> gs[i].measurements <= 0
    decreases |gs|
  {
    if |gs| == 0 then 0
    else
      var rest := TotalMeasurements(gs[1..]);
      assert forall i :: 1 <= i < |gs| ==> gs[i] == gs[1..][i - 1];
      (if gs[0].measurements > 0 then gs[0].measurements else 0) + rest
  }

  /** `all_qualities`: the quality of each filter with measurements. */
  function Qualities(gs: seq<FilterGuide>): (qs: seq<string>)
    ensures |qs| == 0 <==> forall i :: 0 <= i < |gs| ==> gs[i].measurements <= 0
    ensures forall q :: q in qs <==> exists i :: 0 <= i < |gs| && gs[i].measurements > 0 && gs[i].quality == q
    decreases |gs|
  {
    if |gs| == 0 then []
    else
      var rest := Qualities(gs[1..]);
      assert forall i :: 1 <= i < |gs| ==> gs[i] == gs[1..][i - 1];
      (if gs[0].measurements > 0 then [gs[0].quality] else []) + rest
  }

  /** The tie-break rank of a quality label: the worse, the lower; labels
      outside the four grades come last. */
  function Priority(q: string): (p: nat)
    ensures p <= 4
    ensures p == 4 <==> q !in {"Poor", "Average", "Good", "Excellent"}
  {
    if q == "Poor" then 0 else if q == "Average" then 1 else if q == "Good" then 2
    else if q == "Excellent" then 3 else 4
  }

  function Occurrences(qs: seq<string>, q: string): (n: nat)
    ensures n <= |qs|
    ensures n > 0 <==> q in qs
    decreases |qs|
  {
    if |qs| == 0 then 0
    else Occurrences(qs[..|qs| - 1], q) + (if qs[|qs| - 1] == q then 1 else 0)
  }

  /** `a` sorts before `b` under the key `(-count, priority)`. */
  predicate Ahead(qs: seq<string>, a: string, b: string) {
    || Occurrences(qs, a) > Occurrences(qs, b)
    || (Occurrences(qs, a) == Occurrences(qs, b) && Priority(a) < Priority(b))
  }

  function FirstIndex(qs: seq<string>, q: string): (i: nat)
    requires q in qs
    ensures i < |qs| && qs[i] == q
    ensures forall j :: 0 <= j < i ==> qs[j] != q
    decreases |qs|
  {
    if qs[0] == q then 0
    else
      assert q in qs[1..] by {
        var k :| 0 <= k < |qs| && qs[k] == q;
        assert qs[1..][k - 1] == q;
      }
      FirstIndex(qs[1..], q) + 1
  }

  /** `Ahead` is a strict weak order: whoever is ahead of `b` is ahead of
      every label that is not ahead of `b`. */
  lemma AheadPast(qs: seq<string>, a: string, b: string, c: string)
    requires Ahead(qs, a, b) && !Ahead(qs, c, b)
    ensures Ahead(qs, a, c) && !Ahead(qs, c, a)
  {
  }

  /** A label ahead of the leader so far is ahead of every label before it. */
  lemma NewLeader(qs: seq<string>, k: nat, best: nat)
    requires best < k < |qs|
    requires forall j :: 0 <= j < k ==> !Ahead(qs, qs[j], qs[best])
    requires Ahead(qs, qs[k], qs[best])
    ensures forall j :: 0 <= j <= k ==> !Ahead(qs, qs[j], qs[k])
    ensures forall j :: 0 <= j < k ==> Ahead(qs, qs[k], qs[j])
  {
    forall j | 0 <= j < k ensures Ahead(qs, qs[k], qs[j]) && !Ahead(qs, qs[j], qs[k]) {
      AheadPast(qs, qs[k], qs[best], qs[j]);
    }
  }

  /** The scan from position `k`: `best` is the first label nobody before
      `k` is ahead of. */
  function PickFrom(qs: seq<string>, k: nat, best: nat): (r: nat)
    requires best < k <= |qs|
    requires forall j :: 0 <= j < k ==> !Ahead(qs, qs[j], qs[best])
    requires forall j :: 0 <= j < best ==> Ahead(qs, qs[best], qs[j])
    ensures r < |qs|
    ensures forall j :: 0 <= j < |qs| ==> !Ahead(qs, qs[j], qs[r])
    ensures forall j :: 0 <= j < r ==> Ahead(qs, qs[r], qs[j])
    decreases |qs| - k
  {
    if k == |qs| then best
    else if Ahead(qs, qs[k], qs[best]) then
      NewLeader(qs, k, best);
      PickFrom(qs, k + 1, k)
    else PickFrom(qs, k + 1, best)
  }

  /** The overall guide quality: the most frequent label, a tie going to
      the worse grade and then to the label seen first (the dictionary's
      insertion order kept by the stable sort); `Unknown` with no labels. */
  function Vote(qs: seq<string>): (q: string)
    ensures |qs| == 0 ==> q == "Unknown"
    ensures |qs| > 0 ==> q in qs && forall j :: 0 <= j < |qs| ==> !Ahead(qs, qs[j], q)
    ensures |qs| > 0 ==> forall j :: 0 <= j < FirstIndex(qs, q) ==> Ahead(qs, q, qs[j])
  {
    if |qs| == 0 then "Unknown"
    else
      var i := PickFrom(qs, 1, 0);
      assert FirstIndex(qs, qs[i]) == i;
      qs[i]
  }

  /** The contract of `Vote` determines its result: a label nobody is ahead
      of and ahead of every label before its first occurrence is the vote. */
  lemma VoteUnique(qs: seq<string>, q: string)
    requires q in qs
    requires forall j :: 0 <= j < |qs| ==> !Ahead(qs, qs[j], q)
    requires forall j :: 0 <= j < FirstIndex(qs, q) ==> Ahead(qs, q, qs[j])
    ensures Vote(qs) == q
  {
    var v := Vote(qs);
    var i, k := FirstIndex(qs, q), FirstIndex(qs, v);
    assert i == k;
  }

  /** `sum(all_distances) / len(all_distances)`, 0 for an empty list: the
      measurement-weighted mean of the positive distances. */
  function WeightedMean(gs: seq<FilterGuide>): (avg: real)
    ensures avg * Weight(gs) as real == WeightedSum(gs)
    ensures Weight(gs) == 0 ==> avg == 0.0
  {
    var ds := WeightedDistances(gs);
    WeightedDistancesFacts(gs);
    if |ds| > 0 then Sum(ds) / |ds| as real else 0.0
  }

  datatype GuideOverall = GuideOverall(measurements: nat, avgDistance: real, quality: string)

  /** The combined guiding line: absent when no filter has measurements;
      otherwise the measurement total, the measurement-weighted mean of the
      positive distances (0 when there are none) and the voted quality. */
  function GuideFromFilters(gs: seq<FilterGuide>): (r: Option<GuideOverall>)
    ensures r.None? <==> forall i :: 0 <= i < |gs| ==> gs[i].measurements <= 0
    ensures r.Some? ==> r.value.measurements == TotalMeasurements(gs) > 0
    ensures r.Some? ==> r.value.avgDistance * Weight(gs) as real == WeightedSum(gs)
    ensures r.Some? && Weight(gs) == 0 ==> r.value.avgDistance == 0.0
    ensures r.Some? ==> r.value.quality == Vote(Qualities(gs)) && r.value.quality in Qualities(gs)
  {
    var total := TotalMeasurements(gs);
    if total == 0 then None
    else Some(GuideOverall(total, WeightedMean(gs), Vote(Qualities(gs))))
  }

  /** Among equally frequent grades the worse one is reported. */
  lemma TieGoesToWorse()
    ensures Vote(["Good", "Poor"]) == "Poor"
  {
    var qs := ["Good", "Poor"];
    assert Occurrences(qs, "Good") == 1 && Occurrences(qs, "Poor") == 1 by {
      assert qs[..1] == ["Good"];
    }
    assert FirstIndex(qs, "Poor") == 1;
    VoteUnique(qs, "Poor");
  }

  // --- Failures per object and filter (`_calculate_filter_failures`) ---

  /** The capture nearest in time to `t` scanning from `k`, where `best` is
      the first nearest before `k`. */
  function NearestFrom(cs: seq<CaptureRecord>, t: real, k: nat, best: nat): (r: nat)
    requires best < k <= |cs|
    requires forall j :: 0 <= j < k ==> Abs(cs[best].timestamp - t) <= Abs(cs[j].timestamp - t)
    requires forall j :: 0 <= j < best ==> Abs(cs[j].timestamp - t) > Abs(cs[best].timestamp - t)
    ensures r < |cs|
    ensures forall j :: 0 <= j < |cs| ==> Abs(cs[r].timestamp - t) <= Abs(cs[j].timestamp - t)
    ensures forall j :: 0 <= j < r ==> Abs(cs[j].timestamp - t) > Abs(cs[r].timestamp - t)
    decreases |cs| - k
  {
    if k == |cs| then best
    else if Abs(cs[k].timestamp - t) < Abs(cs[best].timestamp - t) then NearestFrom(cs, t, k + 1, k)
    else NearestFrom(cs, t, k + 1, best)
  }

  /** The first capture at the least time distance from `t`; none when there
      are no captures. */
  function Nearest(cs: seq<CaptureRecord>, t: real): (r: Option<nat>)
    ensures r.None? <==> |cs| == 0
    ensures r.Some? ==> r.value < |cs|
    ensures r.Some? ==> forall j :: 0 <= j < |cs| ==> Abs(cs[r.value].timestamp - t) <= Abs(cs[j].timestamp - t)
    ensures r.Some? ==> forall j :: 0 <= j < r.value ==> Abs(cs[j].timestamp - t) > Abs(cs[r.value].timestamp - t)
  {
    if |cs| == 0 then None else Some(NearestFrom(cs, t, 1, 0))
  }

  /** The key an aborted capture is counted under.  Issues carry no object
      or filter, and captures no object, so the object is always `Unknown`
      and the filter is that of the nearest capture of the session. */
  function FailureKey(s: SessionData, issue: Issue): (k: string)
    ensures |k| >= 8 && k[..8] == "Unknown_"
    ensures |s.captures| > 0 ==> k == "Unknown_" + s.captures[Nearest(s.captures, issue.timestamp).value].filter
    ensures |s.captures| == 0 ==> k == "Unknown_Unknown"
  {
    match Nearest(s.captures, issue.timestamp)
    case None => "Unknown_Unknown"
    case Some(i) => "Unknown_" + s.captures[i].filter
  }

  function IssueKeys(s: SessionData, issues: seq<Issue>): (r: seq<string>)
    ensures |r| == |issues|
    decreases |issues|
  {
    if |issues| == 0 then [] else [FailureKey(s, issues[0])] + IssueKeys(s, issues[1..])
  }

  /** One key per aborted capture of every session, in order. */
  function FailureKeys(ss: seq<SessionData>): (r: seq<string>)
    ensures |r| == |AllIssues(ss)|
    decreases |ss|
  {
    if |ss| == 0 then [] else IssueKeys(ss[0], ss[0].issues) + FailureKeys(ss[1..])
  }

  /** The `defaultdict(int)` count of the keys. */
  function Tally(keys: seq<string>): (m: map<string, nat>)
    ensures forall k :: k in m <==> k in keys
    ensures forall k :: k in m ==> m[k] == Occurrences(keys, k)
    decreases |keys|
  {
    if |keys| == 0 then map[]
    else
      var prev := keys[..|keys| - 1];
      var m := Tally(prev);
      var last := keys[|keys| - 1];
      assert keys == prev + [last];
      m[last := (if last in m then m[last] else 0) + 1]
  }

  lemma RealCancel(t: real, x: real, y: real)
    requires t > 0.0 && x * t <= y * t
    ensures x <= y
  {
  }

  lemma RealCancelStrict(t: real, x: real, y: real)
    requires t > 0.0 && x * t < y * t
    ensures x < y
  {
  }

  lemma CastMul(a: int, b: int)
    ensures (a * b) as real == a as real * b as real
  {
  }

  lemma ScaleBack(a: real, s: real, t: real)
    requires t != 0.0
    ensures (a * (s / t)) * t == a * s
  {
  }

  /** Python's `int(aborted * (size / total))`, in exact arithmetic, is the
      integer quotient of `aborted * size` by `total`. */
  lemma ProportionIsQuotient(aborted: nat, size: nat, total: nat)
    requires total > 0
    ensures Trunc(aborted as real * (size as real / total as real)) == (aborted * size) / total
  {
    var x := aborted as real * (size as real / total as real);
    var p := aborted * size;
    assert x * total as real == p as real by {
      ScaleBack(aborted as real, size as real, total as real);
      CastMul(aborted, size);
    }
    var q := p / total;
    assert q * total <= p < (q + 1) * total by {
      QuotientBounds(p, total);
      Distribute(total, q, 1);
    }
    assert q as real <= x by {
      RealLowerBound(x, p, q, total);
    }
    assert x < q as real + 1.0 by {
      RealUpperBound(x, p, q + 1, total);
    }
    FloorUnique(x, q);
  }

  /** An integer lower bound on `p` carries over to `x` with `x * t == p`. */
  lemma RealLowerBound(x: real, p: int, q: int, t: nat)
    requires t > 0 && x * t as real == p as real && q * t <= p
    ensures q as real <= x
  {
    CastMul(q, t);
    RealCancel(t as real, q as real, x);
  }

  /** A strict integer upper bound on `p` carries over to `x` with `x * t == p`. */
  lemma RealUpperBound(x: real, p: int, q: int, t: nat)
    requires t > 0 && x * t as real == p as real && p < q * t
    ensures x < q as real
  {
    CastMul(q, t);
    RealCancelStrict(t as real, x, q as real);
  }

  /** A group's share of the aborts: `int(aborted * len(group) / total)`,
      0 when the total is 0. */
  function Share(aborted: nat, size: nat, total: nat): (n: nat)
    ensures total > 0 ==> n == (aborted * size) / total
    ensures total == 0 ==> n == 0
  {
    if total == 0 then 0
    else
      ProportionIsQuotient(aborted, size, total);
      Trunc(aborted as real * (size as real / total as real))
  }

  /** The fallback's entries, one per capture group, keyed `object_filter`. */
  function Shares(gs: seq<CaptureGroup>, aborted: nat, total: nat): (r: seq<(string, nat)>)
    ensures |r| == |gs|
    ensures forall i :: 0 <= i < |gs| ==>
              r[i] == (gs[i].objectName + "_" + gs[i].filter, Share(aborted, |gs[i].captures|, total))
    decreases |gs|
  {
    if |gs| == 0 then []
    else
      var p := gs[..|gs| - 1];
      var g := gs[|gs| - 1];
      Shares(p, aborted, total) + [(g.objectName + "_" + g.filter, Share(aborted, |g.captures|, total))]
  }

  function SumShares(es: seq<(string, nat)>): nat
    decreases |es|
  {
    if |es| == 0 then 0 else SumShares(es[..|es| - 1]) + es[|es| - 1].1
  }

  lemma QuotientBounds(p: nat, t: nat)
    requires t > 0
    ensures t * (p / t) <= p <= t * (p / t) + (t - 1)
  {
  }

  lemma Distribute(a: int, b: int, c: int)
    ensures a * (b + c) == a * b + a * c
  {
  }

  lemma {:induction false} SharesRemainder(gs: seq<CaptureGroup>, aborted: nat, total: nat)
    requires total > 0
    ensures var s := SumShares(Shares(gs, aborted, total));
            total * s <= aborted * GroupSizes(gs) <= total * s + (total - 1) * |gs|
    decreases |gs|
  {
    if |gs| > 0 {
      var p := gs[..|gs| - 1];
      var c := |gs[|gs| - 1].captures|;
      var sp := SumShares(Shares(p, aborted, total));
      var g := GroupSizes(p);
      var q := (aborted * c) / total;
      assert total * sp <= aborted * g <= total * sp + (total - 1) * |p| by {
        SharesRemainder(p, aborted, total);
      }
      assert total * q <= aborted * c <= total * q + (total - 1) by {
        QuotientBounds(aborted * c, total);
      }
      assert SumShares(Shares(gs, aborted, total)) == sp + q && GroupSizes(gs) == g + c by {
        SharesLast(gs, aborted, total);
      }
      RemainderStep(total, aborted, sp, q, g, c, |p|,
                    SumShares(Shares(gs, aborted, total)), GroupSizes(gs), |gs|);
    }
  }

  lemma SharesLast(gs: seq<CaptureGroup>, aborted: nat, total: nat)
    requires |gs| > 0 && total > 0
    ensures SumShares(Shares(gs, aborted, total)) ==
              SumShares(Shares(gs[..|gs| - 1], aborted, total)) + (aborted * |gs[|gs| - 1].captures|) / total
    ensures GroupSizes(gs) == GroupSizes(gs[..|gs| - 1]) + |gs[|gs| - 1].captures|
  {
    var es := Shares(gs, aborted, total);
    assert es[..|es| - 1] == Shares(gs[..|gs| - 1], aborted, total);
  }

  lemma RemainderStep(t: nat, a: nat, sp: nat, q: nat, g: nat, c: nat, n: nat, s: nat, gs: nat, m: nat)
    requires t > 0
    requires t * sp <= a * g <= t * sp + (t - 1) * n
    requires t * q <= a * c <= t * q + (t - 1)
    requires s == sp + q && gs == g + c && m == n + 1
    ensures t * s <= a * gs <= t * s + (t - 1) * m
  {
    Distribute(a, g, c);
    Distribute(t, sp, q);
    Distribute(t - 1, n, 1);
  }

  lemma MulMonotone(t: nat, x: int, y: int)
    requires x <= y
    ensures t * x <= t * y
  {
    Distribute(t, x, y - x);
  }

  lemma MulCancel(t: nat, x: int, y: int)
    requires t > 0 && t * x <= t * y
    ensures x <= y
  {
    if x > y {
      MulMonotone(t, y + 1, x);
      Distribute(t, y, 1);
    }
  }

  lemma MulCancelStrict(t: nat, x: int, y: int)
    requires t > 0 && t * x < t * y
    ensures x < y
  {
    if x >= y {
      MulMonotone(t, y, x);
    }
  }

  /** The proportional fallback never assigns more aborts than there are,
      and loses fewer than one per group to truncation. */
  lemma SharesBounded(gs: seq<CaptureGroup>, aborted: nat)
    requires GroupSizes(gs) > 0
    ensures var s := SumShares(Shares(gs, aborted, GroupSizes(gs)));
            s <= aborted && aborted < s + |gs|
  {
    var t := GroupSizes(gs);
    SharesRemainder(gs, aborted, t);
    CancelBounds(t, aborted, SumShares(Shares(gs, aborted, t)), |gs|);
  }

  /** Dividing `t * s <= a * t <= t * s + (t - 1) * n` through by `t`. */
  lemma CancelBounds(t: nat, a: nat, s: nat, n: nat)
    requires t > 0 && n > 0
    requires t * s <= a * t <= t * s + (t - 1) * n
    ensures s <= a < s + n
  {
    assert a * t == t * a;
    MulCancel(t, s, a);
    Distribute(t - 1, n, 0);
    assert t * n == (t - 1) * n + n;
    Distribute(t, s, n);
    MulCancelStrict(t, a, s + n);
  }

  function KeysOf(es: seq<(string, nat)>): set<string> {
    set i | 0 <= i < |es| :: es[i].0
  }

  /** The dictionary the entries are stored into, a later key overwriting
      an earlier one. */
  function ToMap(es: seq<(string, nat)>): (m: map<string, nat>)
    ensures m.Keys == KeysOf(es)
    ensures forall k :: k in m ==> exists i :: 0 <= i < |es| && es[i] == (k, m[k])
    decreases |es|
  {
    if |es| == 0 then map[]
    else
      var p := es[..|es| - 1];
      var m := ToMap(p);
      assert KeysOf(es) == KeysOf(p) + {es[|es| - 1].0} by {
        assert forall i :: 0 <= i < |p| ==> p[i] == es[i];
      }
      assert forall k :: k in m ==> exists i :: 0 <= i < |es| && es[i] == (k, m[k]) by {
        forall k | k in m ensures exists i :: 0 <= i < |es| && es[i] == (k, m[k]) {
          var i :| 0 <= i < |p| && p[i] == (k, m[k]);
          assert es[i] == p[i];
        }
      }
      m[es[|es| - 1].0 := es[|es| - 1].1]
  }

  /** `_calculate_filter_failures`: the aborts of the sessions counted per
      key; only when the sessions hold no abort while the issue summary
      does, the aborts of the summary are spread over the capture groups in
      proportion to their sizes.  Every issue is a capture abort. */
  function FilterFailures(ss: seq<SessionData>, issues: seq<Issue>, gs: seq<CaptureGroup>): (m: map<string, nat>)
    ensures |AllIssues(ss)| > 0 ==> m == Tally(FailureKeys(ss))
    ensures |AllIssues(ss)| == 0 && |issues| > 0 && |gs| > 0 ==>
              m == ToMap(Shares(gs, |issues|, GroupSizes(gs)))
    ensures |AllIssues(ss)| == 0 && (|issues| == 0 || |gs| == 0) ==> m == map[]
  {
    var keys := FailureKeys(ss);
    var counted := Tally(keys);
    if |keys| > 0 then
      assert keys[0] in counted;
      counted
    else
      assert counted == map[];
      var aborted := |issues|;
      if aborted > 0 && |gs| > 0 then ToMap(Shares(gs, aborted, GroupSizes(gs))) else counted
  }

  /** On the analyzer's aggregate the issue summary is made of the sessions'
      issues, so the proportional fallback is never taken: every abort is
      counted once, under the filter of its nearest capture. */
  lemma FailuresOfAggregate(parsed: seq<SessionData>, clock: string -> Option<real>,
                            root: real -> real, now: real, a: Aggregate)
    requires AggregateSessions(parsed, clock, root, now) == Some(a)
    ensures var m := FilterFailures(a.sessions, a.issues, a.captureSummary);
            var keys := FailureKeys(a.sessions);
            && |keys| == |a.issues|
            && (forall k :: k in m <==> k in keys)
            && (forall k :: k in m ==> m[k] == Occurrences(keys, k))
  {
  }
}

=== FILE: lists.dfy ===
/** Order-keeping selections over sequences: the list comprehensions with
    an `if` that the analyzer, the metrics and the formatter use to pick
    entries out of a list. */
module Lists {
  import opened Options

  /** The elements of `s` that satisfy `p`, in their order. */
  function Keep<T>(s: seq<T>, p: T -> bool): (r: seq<T>)
    ensures |r| <= |s|
    decreases |s|
  {
    if |s| == 0 then []
    else (if p(s[0]) then [s[0]] else []) + Keep(s[1..], p)
  }

  /** The selection holds each element that satisfies `p` as often as `s`
      does, and nothing else. */
  lemma KeepCounts<T(!new)>(s: seq<T>, p: T -> bool)
    ensures var r := Keep(s, p);
            && (forall x :: multiset(r)[x] == if p(x) then multiset(s)[x] else 0)
            && (forall i :: 0 <= i < |r| ==> p(r[i]) && r[i] in s)
            && (forall i :: 0 <= i < |s| && p(s[i]) ==> s[i] in r)
  {
    var r := Keep(s, p);
    KeepMultiset(s, p);
    forall i | 0 <= i < |r| ensures p(r[i]) && r[i] in s {
      assert r[i] in multiset(r);
    }
    forall i | 0 <= i < |s| && p(s[i]) ensures s[i] in r {
      assert s[i] in multiset(s);
    }
  }

  /** The multiset half of `KeepCounts`, by induction on `s`. */
  lemma {:induction false} KeepMultiset<T(!new)>(s: seq<T>, p: T -> bool)
    ensures forall x :: multiset(Keep(s, p))[x] == if p(x) then multiset(s)[x] else 0
    decreases |s|
  {
    if |s| > 0 {
      KeepMultiset(s[1..], p);
      assert s == [s[0]] + s[1..];
    }
  }

  /** Selecting from two pieces is selecting from each in turn, so the
      selection keeps the order of the input. */
  lemma {:induction false} KeepAppend<T>(a: seq<T>, b: seq<T>, p: T -> bool)
    ensures Keep(a + b, p) == Keep(a, p) + Keep(b, p)
    decreases |a|
  {
    if |a| == 0 {
      assert a + b == b;
    } else {
      var h := if p(a[0]) then [a[0]] else [];
      assert (a + b)[0] == a[0] && (a + b)[1..] == a[1..] + b;
      assert Keep(a + b, p) == h + Keep(a[1..] + b, p);
      KeepAppend(a[1..], b, p);
      assert h + (Keep(a[1..], p) + Keep(b, p)) == (h + Keep(a[1..], p)) + Keep(b, p);
    }
  }

  /** Nothing is kept from a sequence none of whose elements satisfy `p`. */
  lemma {:induction false} KeepNone<T>(t: seq<T>, p: T -> bool)
    requires forall i :: 0 <= i < |t| ==> !p(t[i])
    ensures Keep(t, p) == []
    decreases |t|
  {
    if |t| > 0 {
      assert forall i :: 0 <= i < |t[1..]| ==> t[1..][i] == t[i + 1];
      KeepNone(t[1..], p);
    }
  }

  /** When only the elements at positions `lo` to `hi` can satisfy `p`, at
      most `hi - lo` are kept. */
  lemma KeepWithin<T>(s: seq<T>, p: T -> bool, lo: nat, hi: nat)
    requires lo <= hi <= |s|
    requires forall i :: 0 <= i < |s| && p(s[i]) ==> lo <= i < hi
    ensures |Keep(s, p)| <= hi - lo
  {
    var a, b, c := s[..lo], s[lo..hi], s[hi..];
    assert s == a + b + c;
    KeepAppend(a + b, c, p);
    KeepAppend(a, b, p);
    assert forall i :: 0 <= i < |a| ==> a[i] == s[i];
    assert forall i :: 0 <= i < |c| ==> c[i] == s[hi + i];
    KeepNone(a, p);
    KeepNone(c, p);
  }

  /** Selections from two arrangements of the same elements have the same
      size. */
  lemma KeepSameSize<T(!new)>(a: seq<T>, b: seq<T>, p: T -> bool)
    requires multiset(a) == multiset(b)
    ensures |Keep(a, p)| == |Keep(b, p)|
  {
    KeepMultiset(a, p);
    KeepMultiset(b, p);
    assert multiset(Keep(a, p)) == multiset(Keep(b, p));
    assert |Keep(a, p)| == |multiset(Keep(a, p))| == |multiset(Keep(b, p))| == |Keep(b, p)|;
  }

  /** Splitting the last element off the second of two pieces. */
  lemma SnocSplit<T>(a: seq<T>, b: seq<T>)
    requires |b| > 0
    ensures b == b[..|b| - 1] + [b[|b| - 1]]
    ensures a + b == (a + b[..|b| - 1]) + [b[|b| - 1]]
  {
    assert b == b[..|b| - 1] + [b[|b| - 1]];
  }

  /** A single element is kept exactly when it satisfies `p`. */
  lemma KeepOne<T>(x: T, p: T -> bool)
    ensures Keep([x], p) == if p(x) then [x] else []
  {
    assert [x][1..] == [];
  }

  /** The values of the present entries of `s`, in order. */
  function Present<T>(s: seq<Option<T>>): (r: seq<T>)
    ensures |r| <= |s|
    ensures r == [] <==> forall i :: 0 <= i < |s| ==> s[i].None?
    decreases |s|
  {
    if |s| == 0 then []
    else
      var rest := Present(s[1..]);
      assert forall i :: 1 <= i < |s| ==> s[i] == s[1..][i - 1];
      match s[0]
      case Some(v) => [v] + rest
      case None => rest
  }

  /** The present values, each as often as it occurs in `s`. */
  lemma {:induction false} PresentCounts<T(!new)>(s: seq<Option<T>>)
    ensures forall x :: multiset(Present(s))[x] == multiset(s)[Some(x)]
    decreases |s|
  {
    if |s| > 0 {
      PresentCounts(s[1..]);
      assert s == [s[0]] + s[1..];
      assert multiset(s) == multiset([s[0]]) + multiset(s[1..]);
      assert Present(s) == (if s[0].Some? then [s[0].value] else []) + Present(s[1..]);
    }
  }

  /** Taking the present values of two pieces is taking them from each in
      turn. */
  lemma {:induction false} PresentAppend<T>(a: seq<Option<T>>, b: seq<Option<T>>)
    ensures Present(a + b) == Present(a) + Present(b)
    decreases |a|
  {
    if |a| == 0 {
      assert a + b == b;
    } else {
      var h := if a[0].Some? then [a[0].value] else [];
      assert (a + b)[0] == a[0] && (a + b)[1..] == a[1..] + b;
      assert Present(a + b) == h + Present(a[1..] + b);
      PresentAppend(a[1..], b);
      assert h + (Present(a[1..]) + Present(b)) == (h + Present(a[1..])) + Present(b);
    }
  }
}

=== FILE: metrics.dfy ===
/** The threshold and score rules of `AdvancedMetricsCalculator`: seeing
    and trend classes from HFR, the thermal stability score, the quality
    score, success and productivity rates, session efficiency, and the
    performance alerts, over the capture summary of an aggregate.

    Two numerical routines are parameters: `root` is the square root used
    by the standard deviation, and `slope` is the least-squares slope of a
    series against its indices (`linregress`). */
module Metrics {
  import opened Options
  import opened Stats
  import opened Sorting
  import opened BatchParser
  import opened Lists
  import Aggregator

  // --- Flattening the capture summary ---

  /** A capture with the object and filter of the group it was filed in. */
  datatype FlatCapture = FlatCapture(objectName: string, filter: string, capture: CaptureRecord)

  function Timestamp(c: FlatCapture): real {
    c.capture.timestamp
  }

  /** The captures of one group, in order, each with the group's object
      and filter. */
  function Tagged(g: Aggregator.CaptureGroup): (r: seq<FlatCapture>)
    ensures |r| == |g.captures|
    ensures forall k :: 0 <= k < |r| ==> r[k] == FlatCapture(g.objectName, g.filter, g.captures[k])
  {
    seq(|g.captures|, k requires 0 <= k < |g.captures| => FlatCapture(g.objectName, g.filter, g.captures[k]))
  }

  /** The captures of all groups, group by group. */
  function Flatten(groups: seq<Aggregator.CaptureGroup>): (r: seq<FlatCapture>)
    ensures |r| == Aggregator.GroupSizes(groups)
    ensures forall i :: 0 <= i < |r| ==>
              exists g :: 0 <= g < |groups| && r[i].objectName == groups[g].objectName &&
                          r[i].filter == groups[g].filter && r[i].capture in groups[g].captures
    decreases |groups|
  {
    if |groups| == 0 then []
    else
      var init := groups[..|groups| - 1];
      var last := groups[|groups| - 1];
      var head := Flatten(init);
      var tail := Tagged(last);
      var r := head + tail;
      assert forall i :: 0 <= i < |head| ==> r[i] == head[i];
      assert forall i :: |head| <= i < |r| ==> r[i] == tail[i - |head|];
      assert forall g :: 0 <= g < |init| ==> groups[g] == init[g];
      r
  }

  /** One group flattens to its own captures, tagged. */
  lemma FlattenOne(g: Aggregator.CaptureGroup)
    ensures Flatten([g]) == Tagged(g)
  {
    assert [g][..0] == [];
  }

  /** Flattening two lists of groups is flattening each in turn: every
      capture appears once per filing, in summary order. */
  lemma {:induction false} FlattenAppend(a: seq<Aggregator.CaptureGroup>, b: seq<Aggregator.CaptureGroup>)
    ensures Flatten(a + b) == Flatten(a) + Flatten(b)
    decreases |b|
  {
    if |b| == 0 {
      assert a + b == a;
    } else {
      var b' := b[..|b| - 1];
      var last := b[|b| - 1];
      assert (a + b)[..|a + b| - 1] == a + b' && (a + b)[|a + b| - 1] == last;
      assert Flatten(a + b) == Flatten(a + b') + Tagged(last);
      FlattenAppend(a, b');
      assert Flatten(b) == Flatten(b') + Tagged(last);
    }
  }

  /** `_extract_capture_data`: all filed captures, each with its object and
      filter, sorted by timestamp; captures with equal timestamps keep
      their order in the summary. */
  function ExtractCaptureData(groups: seq<Aggregator.CaptureGroup>): (r: seq<FlatCapture>)
    ensures SortedBy(r, Timestamp)
    ensures multiset(r) == multiset(Flatten(groups))
    ensures |r| == Aggregator.GroupSizes(groups)
  {
    var f := Flatten(groups);
    var r := SortBy(f, Timestamp);
    assert |r| == |multiset(r)| == |multiset(f)| == |f|;
    r
  }

  /** The extraction is stable: captures sharing a timestamp appear in the
      order of the summary. */
  lemma ExtractStable(groups: seq<Aggregator.CaptureGroup>, t: real)
    ensures WithKey(ExtractCaptureData(groups), Timestamp, t) == WithKey(Flatten(groups), Timestamp, t)
  {
    SortByStable(Flatten(groups), Timestamp, t);
  }

  // --- Image quality ---

  datatype Seeing = Excellent | Good | Average | Poor

  /** Seeing conditions from the mean HFR, in pixels. */
  function SeeingOf(meanHfr: real): (s: Seeing)
    ensures s == Excellent <==> meanHfr < 2.0
    ensures s == Good <==> 2.0 <= meanHfr < 3.0
    ensures s == Average <==> 3.0 <= meanHfr < 4.0
    ensures s == Poor <==> 4.0 <= meanHfr
  {
    if meanHfr < 2.0 then Excellent
    else if meanHfr < 3.0 then Good
    else if meanHfr < 4.0 then Average
    else Poor
  }

  datatype Trend = Improving | Degrading | Steady

  /** The trend direction of an HFR slope in pixels per frame. */
  function TrendOf(slope: real): (t: Trend)
    ensures t == Improving <==> slope < -0.01
    ensures t == Degrading <==> slope > 0.01
    ensures t == Steady <==> -0.01 <= slope <= 0.01
  {
    if slope < -0.01 then Improving else if slope > 0.01 then Degrading else Steady
  }

  function SumSquaredDeviations(xs: seq<real>, m: real): (r: real)
    ensures r >= 0.0
    decreases |xs|
  {
    if |xs| == 0 then 0.0
    else
      var d := xs[0] - m;
      assert d * d >= 0.0 by {
        if d < 0.0 { assert d * d == (-d) * (-d); }
      }
      d * d + SumSquaredDeviations(xs[1..], m)
  }

  /** The population variance (`np.std` squared). */
  function Variance(xs: seq<real>): (r: real)
    requires |xs| > 0
    ensures r >= 0.0
  {
    SumSquaredDeviations(xs, Mean(xs)) / |xs| as real
  }

  /** The HFR bonus of the quality score. */
  function HfrPoints(avgHfr: real): (p: int)
    ensures avgHfr < 2.0 ==> p == 30
    ensures 2.0 <= avgHfr < 3.0 ==> p == 20
    ensures 3.0 <= avgHfr < 4.0 ==> p == 10
    ensures 4.0 <= avgHfr ==> p == -10
  {
    if avgHfr < 2.0 then 30 else if avgHfr < 3.0 then 20 else if avgHfr < 4.0 then 10 else -10
  }

  /** The stability bonus of the quality score. */
  function StabilityPoints(stability: real): (p: int)
    ensures stability < 0.1 ==> p == 20
    ensures 0.1 <= stability < 0.2 ==> p == 10
    ensures 0.2 <= stability <= 0.5 ==> p == 0
    ensures 0.5 < stability ==> p == -20
  {
    if stability < 0.1 then 20 else if stability < 0.2 then 10 else if stability > 0.5 then -20 else 0
  }

  /** `_calculate_quality_score`: 50 plus the HFR and stability bonuses,
      clamped to [0, 100]; the bonuses alone keep it within [20, 100], so
      the clamp never applies. */
  function QualityScore(avgHfr: real, stability: real): (s: int)
    ensures 20 <= s <= 100
    ensures s == 50 + HfrPoints(avgHfr) + StabilityPoints(stability)
  {
    var raw := 50 + HfrPoints(avgHfr) + StabilityPoints(stability);
    if raw < 0 then 0 else if raw > 100 then 100 else raw
  }

  /** A lower mean HFR or a lower stability index never lowers the score. */
  lemma QualityScoreMonotone(h1: real, h2: real, s1: real, s2: real)
    requires h1 <= h2 && s1 <= s2
    ensures QualityScore(h1, s1) >= QualityScore(h2, s2)
  {
  }

  datatype HfrStats = HfrStats(mean: real, median: real, std: real, min: real, max: real, range: real)

  /** The middle of the sorted values (the mean of the two middle ones for
      an even count). */
  function Median(xs: seq<real>): (m: real)
    requires |xs| > 0
    ensures Min(xs) <= m <= Max(xs)
  {
    var s := SortBy(xs, Identity);
    MedianFacts(xs, s);
    Middle(s)
  }

  /** The median is an order statistic: at most half of the values (rounded
      down) lie strictly below it, and at most half strictly above it. */
  lemma MedianRanks(xs: seq<real>)
    requires |xs| > 0
    ensures |Keep(xs, Below(Median(xs)))| <= |xs| / 2 && |Keep(xs, Above(Median(xs)))| <= |xs| / 2
  {
    MedianFacts(xs, SortBy(xs, Identity));
  }

  function Identity(x: real): real {
    x
  }

  /** The middle value of a list, or the mean of the two middle ones. */
  function Middle(s: seq<real>): real
    requires |s| > 0
  {
    var n := |s|;
    if n % 2 == 1 then s[n / 2] else (s[n / 2 - 1] + s[n / 2]) / 2.0
  }

  /** The middle of a sorted arrangement of `xs` lies between its extremes
      and has at most half of `xs` strictly on either side. */
  lemma MedianFacts(xs: seq<real>, s: seq<real>)
    requires |xs| > 0 && multiset(s) == multiset(xs) && SortedBy(s, Identity)
    ensures |s| > 0
    ensures Min(xs) <= Middle(s) <= Max(xs)
    ensures |Keep(xs, Below(Middle(s)))| <= |xs| / 2 && |Keep(xs, Above(Middle(s)))| <= |xs| / 2
  {
    assert |s| == |multiset(s)| == |xs|;
    forall i | 0 <= i < |s| ensures Min(xs) <= s[i] <= Max(xs) {
      assert s[i] in multiset(s);
      assert s[i] in xs;
    }
    assert forall i, j :: 0 <= i < j < |s| ==> s[i] <= s[j] by {
      forall i, j | 0 <= i < j < |s| ensures s[i] <= s[j] {
        assert Identity(s[i]) <= Identity(s[j]);
      }
    }
    var m := Middle(s);
    MiddleRanks(s, m);
    KeepSameSize(s, xs, Below(m));
    KeepSameSize(s, xs, Above(m));
  }

  /** The values strictly below `c`. */
  function Below(c: real): real -> bool {
    x => x < c
  }

  /** The values strictly above `c`. */
  function Above(c: real): real -> bool {
    x => x > c
  }

  /** In a sorted list, at most half the values lie strictly below its
      middle, and at most half strictly above. */
  lemma MiddleRanks(s: seq<real>, m: real)
    requires |s| > 0 && forall i, j :: 0 <= i < j < |s| ==> s[i] <= s[j]
    requires m == if |s| % 2 == 1 then s[|s| / 2] else (s[|s| / 2 - 1] + s[|s| / 2]) / 2.0
    ensures |Keep(s, Below(m))| <= |s| / 2 && |Keep(s, Above(m))| <= |s| / 2
  {
    var n := |s|;
    var h := n / 2;
    assert m <= s[h];
    assert forall i :: h <= i < n ==> m <= s[i] by {
      forall i | h <= i < n ensures m <= s[i] {
        assert s[h] <= s[i];
      }
    }
    KeepWithin(s, Below(m), 0, h);
    var lo := if n % 2 == 1 then h + 1 else h;
    assert lo > 0 ==> s[lo - 1] <= m;
    assert forall i :: 0 <= i < lo ==> s[i] <= m by {
      forall i | 0 <= i < lo ensures s[i] <= m {
        assert s[i] <= s[lo - 1];
      }
    }
    KeepWithin(s, Above(m), lo, n);
  }

  datatype TrendInfo = TrendInfo(slope: real, direction: Trend)

  datatype StarStats = StarStats(mean: real, std: real, consistency: real)

  datatype QualityAnalysis = QualityAnalysis(
    hfrStats: HfrStats,
    stabilityIndex: Option<real>,
    seeing: Seeing,
    trend: Option<TrendInfo>,
    stars: Option<StarStats>,
    qualityScore: int)

  /** The HFR field of every capture, present or not, in order. */
  function HfrFields(cs: seq<FlatCapture>): (r: seq<Option<real>>)
    ensures |r| == |cs| && forall i :: 0 <= i < |cs| ==> r[i] == cs[i].capture.hfr
  {
    seq(|cs|, i requires 0 <= i < |cs| => cs[i].capture.hfr)
  }

  /** The HFR values that are present, in capture order. */
  function HfrValues(cs: seq<FlatCapture>): (r: seq<real>)
    ensures |r| <= |cs|
    ensures r == [] <==> forall i :: 0 <= i < |cs| ==> cs[i].capture.hfr.None?
  {
    Present(HfrFields(cs))
  }

  /** Each present HFR value is kept as often as it was measured. */
  lemma HfrValuesCounts(cs: seq<FlatCapture>)
    ensures forall h :: multiset(HfrValues(cs))[h] == multiset(HfrFields(cs))[Some(h)]
  {
    PresentCounts(HfrFields(cs));
  }

  /** HFR values come out in capture order. */
  lemma HfrValuesAppend(a: seq<FlatCapture>, b: seq<FlatCapture>)
    ensures HfrValues(a + b) == HfrValues(a) + HfrValues(b)
  {
    assert HfrFields(a + b) == HfrFields(a) + HfrFields(b);
    PresentAppend(HfrFields(a), HfrFields(b));
  }

  function StarValues(cs: seq<FlatCapture>): (r: seq<real>)
    decreases |cs|
  {
    if |cs| == 0 then []
    else match cs[0].capture.stars
      case Some(n) => [n as real] + StarValues(cs[1..])
      case None => StarValues(cs[1..])
  }

  function MaxReal(a: real, b: real): real {
    if a >= b then a else b
  }

  /** `st` holds the mean, median, minimum, maximum and range of `hfr`. */
  predicate Summarises(st: HfrStats, hfr: seq<real>) {
    && |hfr| > 0
    && IsMean(st.mean, hfr) && st.median == Median(hfr)
    && IsMin(st.min, hfr) && IsMax(st.max, hfr)
    && st.range == st.max - st.min
  }

  /** The `hfr_stats` entry: mean, median, population deviation through
      `root`, minimum, maximum and range. */
  function HfrStatsOf(hfr: seq<real>, root: real -> real): (st: HfrStats)
    requires |hfr| > 0
    ensures Summarises(st, hfr) && st.mean == Mean(hfr)
    ensures st.min <= st.mean <= st.max && st.min <= st.median <= st.max && st.range >= 0.0
  {
    MeanBetweenMinMax(hfr);
    MeanTimesCount(hfr);
    HfrStats(Mean(hfr), Median(hfr), root(Variance(hfr)), Min(hfr), Max(hfr), Max(hfr) - Min(hfr))
  }

  /** `analyze_image_quality`: absent without HFR values; otherwise the HFR
      statistics, seeing from the mean, a trend from more than three values,
      the star statistics and the quality score. */
  function AnalyzeImageQuality(cs: seq<FlatCapture>, root: real -> real, slope: seq<real> -> real): (r: Option<QualityAnalysis>)
    ensures r.None? <==> forall i :: 0 <= i < |cs| ==> cs[i].capture.hfr.None?
    ensures r.Some? ==> var hfr := HfrValues(cs);
              && r.value.seeing == SeeingOf(Mean(hfr))
              && r.value.seeing == SeeingOf(r.value.hfrStats.mean)
              && Summarises(r.value.hfrStats, hfr)
              && r.value.hfrStats.min <= r.value.hfrStats.mean <= r.value.hfrStats.max
              && r.value.hfrStats.min <= r.value.hfrStats.median <= r.value.hfrStats.max
              && r.value.hfrStats.range >= 0.0
              && (r.value.trend.Some? <==> |hfr| > 3)
              && (r.value.trend.Some? ==> r.value.trend.value.direction == TrendOf(slope(hfr)))
              && (r.value.stabilityIndex.Some? <==> r.value.hfrStats.mean > 0.0)
              && r.value.qualityScore == QualityScore(r.value.hfrStats.mean, r.value.stabilityIndex.GetOr(1.0))
  {
    var hfr := HfrValues(cs);
    if |hfr| == 0 then None
    else
      var stats := HfrStatsOf(hfr, root);
      var mean := stats.mean;
      var std := stats.std;
      var stability := if mean > 0.0 then Some(std / mean) else None;
      var trend := if |hfr| > 3 then Some(TrendInfo(slope(hfr), TrendOf(slope(hfr)))) else None;
      var starData := StarValues(cs);
      var stars := if |starData| > 0 then
                     var sm := Mean(starData);
                     var sd := root(Variance(starData));
                     Some(StarStats(sm, sd, 1.0 - sd / MaxReal(sm, 1.0)))
                   else None;
      Some(QualityAnalysis(stats, stability, SeeingOf(mean), trend, stars,
                           QualityScore(mean, stability.GetOr(1.0))))
  }

  // --- Temperature ---

  /** The thermal stability score of a temperature range in degrees. */
  function ThermalScore(range: real): (s: real)
    ensures 0.2 <= s <= 1.0
    ensures range < 1.0 ==> s == 1.0
    ensures 1.0 <= range < 3.0 ==> s == 0.8
    ensures 3.0 <= range < 5.0 ==> s == 0.6
    ensures 5.0 <= range ==> s == MaxReal(0.2, 1.0 - range / 20.0)
  {
    if range < 1.0 then 1.0
    else if range < 3.0 then 0.8
    else if range < 5.0 then 0.6
    else MaxReal(0.2, 1.0 - range / 20.0)
  }

  /** The score is not monotone: a range of 5 degrees scores better than a
      slightly smaller one. */
  lemma ThermalScoreJumpAtFive()
    ensures ThermalScore(4.5) == 0.6 && ThermalScore(5.0) == 0.75
  {
  }

  /** Beyond 5 degrees the score falls with the range until it reaches its
      floor at 16 degrees. */
  lemma ThermalScoreFalls(a: real, b: real)
    requires 5.0 <= a <= b
    ensures ThermalScore(b) <= ThermalScore(a)
    ensures b >= 16.0 ==> ThermalScore(b) == 0.2
  {
  }

  datatype TemperatureAnalysis = TemperatureAnalysis(min: real, max: real, mean: real, std: real,
                                                     range: real, thermalStability: real)

  /** `analyze_temperature_effects`, without the HFR correlation. */
  function AnalyzeTemperature(cs: seq<FlatCapture>, readings: seq<TemperatureReading>, root: real -> real): (r: Option<TemperatureAnalysis>)
    ensures r.None? <==> |readings| == 0 || |cs| == 0
    ensures r.Some? ==> r.value.range == r.value.max - r.value.min >= 0.0
    ensures r.Some? ==> r.value.thermalStability == ThermalScore(r.value.range)
    ensures r.Some? ==> r.value.min <= r.value.mean <= r.value.max
    ensures r.Some? ==> var temps := Aggregator.Temperatures(readings);
              IsMin(r.value.min, temps) && IsMax(r.value.max, temps) && IsMean(r.value.mean, temps)
  {
    if |readings| == 0 || |cs| == 0 then None
    else
      var temps := Aggregator.Temperatures(readings);
      MeanBetweenMinMax(temps);
      MeanTimesCount(temps);
      var range := Max(temps) - Min(temps);
      Some(TemperatureAnalysis(Min(temps), Max(temps), Mean(temps), root(Variance(temps)),
                               range, ThermalScore(range)))
  }

  // --- Session performance ---

  /** Completed over attempted captures, with at least one attempt. */
  function SuccessRate(total: nat, aborted: nat): (r: real)
    ensures 0.0 <= r <= 1.0
    ensures r == 1.0 <==> total > 0 && aborted == 0
    ensures r == 0.0 <==> total == 0
    ensures Aggregator.IsShare(r, total, total + aborted)
  {
    var r := Aggregator.SuccessShare(total, total + aborted);
    var d := Aggregator.AtLeastOne(total + aborted) as real;
    assert r * d == total as real;
    assert r == 1.0 ==> total > 0 && aborted == 0 by {
      if r == 1.0 {
        assert d == total as real;
      }
    }
    assert total > 0 && aborted == 0 ==> r == 1.0 by {
      if total > 0 && aborted == 0 {
        assert d == total as real;
        assert (r - 1.0) * d == 0.0;
      }
    }
    r
  }

  /** More completed captures never lower the rate, and more aborted ones
      never raise it. */
  lemma SuccessRateMonotone(t1: nat, t2: nat, a1: nat, a2: nat)
    requires t1 <= t2 && a2 <= a1
    ensures SuccessRate(t1, a1) <= SuccessRate(t2, a2)
  {
    var r1, r2 := SuccessRate(t1, a1), SuccessRate(t2, a2);
    if t1 > 0 {
      var x1, x2, y1, y2 := t1 as real, t2 as real, a1 as real, a2 as real;
      assert Aggregator.AtLeastOne(t1 + a1) == t1 + a1 && Aggregator.AtLeastOne(t2 + a2) == t2 + a2;
      assert r1 * (x1 + y1) == x1 && r2 * (x2 + y2) == x2;
      CrossLe(x1, x2, y1, y2);
      ShareLe(x1, x2, x1 + y1, x2 + y2, r1, r2);
    }
  }

  /** With `x1 <= x2` and `y2 <= y1`: `x1 * (x2 + y2) <= x2 * (x1 + y1)`. */
  lemma CrossLe(x1: real, x2: real, y1: real, y2: real)
    requires 0.0 <= x1 <= x2 && 0.0 <= y2 <= y1
    ensures x1 * (x2 + y2) <= x2 * (x1 + y1)
  {
    assert (y1 - y2) * x1 >= 0.0;
    assert (x2 - x1) * y1 >= 0.0;
  }

  /** Quotients compare as their cross products do. */
  lemma ShareLe(x1: real, x2: real, d1: real, d2: real, q1: real, q2: real)
    requires d1 > 0.0 && d2 > 0.0 && q1 * d1 == x1 && q2 * d2 == x2
    requires x1 * d2 <= x2 * d1
    ensures q1 <= q2
  {
    var k := d1 * d2;
    assert q1 * k == x1 * d2;
    assert q2 * k == x2 * d1;
    assert (q2 - q1) * k >= 0.0;
  }

  function MinReal(a: real, b: real): real {
    if a <= b then a else b
  }

  /** The productivity score: the success rate as a percentage, scaled
      down for sessions of fewer than ten captures. */
  function Productivity(total: nat, successRate: real): (p: real)
    requires 0.0 <= successRate <= 1.0
    ensures 0.0 <= p <= 100.0
    ensures total >= 10 ==> p == successRate * 100.0
    ensures total < 10 ==> p == successRate * 100.0 * (total as real / 10.0)
  {
    var d := if total > 10 then total else 10;
    DivBetween(total as real, d as real, 0.0, 1.0);
    var share := total as real / d as real;
    assert successRate * 100.0 * share <= 100.0 by {
      assert successRate * share <= 1.0 * 1.0;
    }
    MinReal(100.0, successRate * 100.0 * share)
  }

  datatype FilterPerformance = FilterPerformance(count: nat, avgHfr: real, hfrConsistency: real)

  /** The HFR field of every capture of a group, in order. */
  function GroupHfrFields(cs: seq<CaptureRecord>): (r: seq<Option<real>>)
    ensures |r| == |cs| && forall i :: 0 <= i < |cs| ==> r[i] == cs[i].hfr
  {
    seq(|cs|, i requires 0 <= i < |cs| => cs[i].hfr)
  }

  /** The truthy HFR values of a group's captures (zero counts as absent),
      in capture order. */
  function TruthyHfr(cs: seq<CaptureRecord>): (r: seq<real>)
    ensures forall i :: 0 <= i < |r| ==> r[i] != 0.0
    decreases |cs|
  {
    if |cs| == 0 then []
    else if cs[0].hfr.Some? && cs[0].hfr.value != 0.0 then [cs[0].hfr.value] + TruthyHfr(cs[1..])
    else TruthyHfr(cs[1..])
  }

  /** Every truthy HFR value is kept, as often as it was measured. */
  lemma {:induction false} TruthyHfrCounts(cs: seq<CaptureRecord>)
    ensures forall h :: multiset(TruthyHfr(cs))[h] == if h != 0.0 then multiset(GroupHfrFields(cs))[Some(h)] else 0
    ensures forall i :: 0 <= i < |cs| && cs[i].hfr.Some? && cs[i].hfr.value != 0.0 ==> cs[i].hfr.value in TruthyHfr(cs)
    decreases |cs|
  {
    if |cs| > 0 {
      TruthyHfrCounts(cs[1..]);
      assert GroupHfrFields(cs) == [cs[0].hfr] + GroupHfrFields(cs[1..]);
    }
    var r := TruthyHfr(cs);
    forall i | 0 <= i < |cs| && cs[i].hfr.Some? && cs[i].hfr.value != 0.0 ensures cs[i].hfr.value in r {
      assert GroupHfrFields(cs)[i] == Some(cs[i].hfr.value);
      assert multiset(r)[cs[i].hfr.value] > 0;
    }
  }

  /** Truthy HFR values come out in capture order. */
  lemma {:induction false} TruthyHfrAppend(a: seq<CaptureRecord>, b: seq<CaptureRecord>)
    ensures TruthyHfr(a + b) == TruthyHfr(a) + TruthyHfr(b)
    decreases |a|
  {
    if |a| == 0 {
      assert a + b == b;
    } else {
      assert (a + b)[0] == a[0] && (a + b)[1..] == a[1..] + b;
      TruthyHfrAppend(a[1..], b);
      var h := if a[0].hfr.Some? && a[0].hfr.value != 0.0 then [a[0].hfr.value] else [];
      assert TruthyHfr(a + b) == h + TruthyHfr(a[1..] + b);
      assert h + (TruthyHfr(a[1..]) + TruthyHfr(b)) == (h + TruthyHfr(a[1..])) + TruthyHfr(b);
    }
  }

  /** Per-filter performance: each group with truthy HFR values writes the
      entry of its filter, so a later group of the same filter replaces an
      earlier one. */
  function FilterPerformanceOf(groups: seq<Aggregator.CaptureGroup>, root: real -> real): (r: map<string, FilterPerformance>)
    ensures forall f :: f in r <==> exists g :: 0 <= g < |groups| && groups[g].filter == f && |TruthyHfr(groups[g].captures)| > 0
    ensures forall f :: f in r ==> r[f] == GroupPerformance(groups[LastWithHfr(groups, f).value], root)
    decreases |groups|
  {
    if |groups| == 0 then map[]
    else
      var init := groups[..|groups| - 1];
      var last := groups[|groups| - 1];
      var r0 := FilterPerformanceOf(init, root);
      assert forall g :: 0 <= g < |init| ==> groups[g] == init[g];
      if |TruthyHfr(last.captures)| > 0 then r0[last.filter := GroupPerformance(last, root)] else r0
  }

  /** The last group of filter `f` with HFR values. */
  function LastWithHfr(groups: seq<Aggregator.CaptureGroup>, f: string): (r: Option<nat>)
    ensures r.Some? ==> r.value < |groups| && groups[r.value].filter == f && |TruthyHfr(groups[r.value].captures)| > 0
    ensures r.Some? ==> forall g :: r.value < g < |groups| ==> !(groups[g].filter == f && |TruthyHfr(groups[g].captures)| > 0)
    ensures r.None? <==> forall g :: 0 <= g < |groups| ==> !(groups[g].filter == f && |TruthyHfr(groups[g].captures)| > 0)
    decreases |groups|
  {
    if |groups| == 0 then None
    else
      var last := groups[|groups| - 1];
      if last.filter == f && |TruthyHfr(last.captures)| > 0 then Some(|groups| - 1)
      else
        var r := LastWithHfr(groups[..|groups| - 1], f);
        assert forall g :: 0 <= g < |groups| - 1 ==> groups[g] == groups[..|groups| - 1][g];
        r
  }

  function GroupPerformance(g: Aggregator.CaptureGroup, root: real -> real): FilterPerformance
    requires |TruthyHfr(g.captures)| > 0
  {
    var h := TruthyHfr(g.captures);
    FilterPerformance(|g.captures|, Mean(h), 1.0 - root(Variance(h)) / MaxReal(Mean(h), 1.0))
  }

  datatype PerformanceAnalysis = PerformanceAnalysis(successRate: real, totalAttempts: nat, failedCaptures: nat,
                                                     filterPerformance: map<string, FilterPerformance>,
                                                     productivity: real)

  /** `analyze_session_performance` over the capture summary, the issues
      (every one a capture abort) and the completed-capture count. */
  function AnalyzePerformance(groups: seq<Aggregator.CaptureGroup>, issues: seq<Issue>, totalCaptures: nat,
                              root: real -> real): (r: PerformanceAnalysis)
    ensures r.failedCaptures == |issues| && r.totalAttempts == totalCaptures + |issues|
    ensures r.successRate == SuccessRate(totalCaptures, |issues|) && 0.0 <= r.successRate <= 1.0
    ensures 0.0 <= r.productivity <= 100.0
    ensures r.productivity == Productivity(totalCaptures, r.successRate)
    ensures r.filterPerformance == FilterPerformanceOf(groups, root)
  {
    var sr := SuccessRate(totalCaptures, |issues|);
    PerformanceAnalysis(sr, totalCaptures + |issues|, |issues|, FilterPerformanceOf(groups, root),
                        Productivity(totalCaptures, sr))
  }

  // --- Efficiency ---

  datatype Efficiency = Efficiency(totalHours: real, imagingHours: real, imagingEfficiency: real,
                                   avgSecondsPerFrame: real, downtimeHours: real, downtimePercentage: real)

  function TotalExposure(cs: seq<FlatCapture>): (r: real)
    ensures (forall i :: 0 <= i < |cs| ==> cs[i].capture.exposure >= 0.0) ==> r >= 0.0
    decreases |cs|
  {
    if |cs| == 0 then 0.0 else cs[0].capture.exposure + TotalExposure(cs[1..])
  }

  /** `calculate_session_efficiency`: absent without a duration or without
      captures; the divisors are at least 0.1 hour and one frame. */
  function SessionEfficiency(duration: Option<Aggregator.SessionDuration>, groups: seq<Aggregator.CaptureGroup>): (r: Option<Efficiency>)
    ensures r.None? <==> duration.None? || Aggregator.GroupSizes(groups) == 0
    ensures r.Some? ==> r.value.totalHours == duration.value.hours && Balanced(r.value)
    ensures r.Some? ==> r.value.imagingHours * 3600.0 == TotalExposure(ExtractCaptureData(groups))
    ensures r.Some? ==>
              r.value.avgSecondsPerFrame == duration.value.hours * 3600.0 / Aggregator.GroupSizes(groups) as real
  {
    if duration.None? then None
    else
      var cs := ExtractCaptureData(groups);
      var n := Aggregator.GroupSizes(groups);
      assert |cs| == n;
      if n == 0 then None
      else
        var e := EfficiencyOf(duration.value.hours, TotalExposure(cs), n);
        Some(e)
  }

  /** The figures of an efficiency agree with each other: the efficiency is
      the share of the (at least 0.1 hour) session spent imaging, the
      downtime is the rest, and in a session of at least 0.1 hour the
      imaging and downtime shares make up the whole. */
  predicate Balanced(e: Efficiency) {
    && e.imagingEfficiency * MaxReal(e.totalHours, 0.1) == e.imagingHours
    && e.downtimeHours == e.totalHours - e.imagingHours
    && (e.totalHours >= 0.1 ==> e.imagingEfficiency + e.downtimePercentage / 100.0 == 1.0)
  }

  /** The efficiency figures of `count` frames with `exposure` seconds of
      light in a session of `hours`. */
  function EfficiencyOf(hours: real, exposure: real, count: nat): (e: Efficiency)
    requires count > 0
    ensures e.totalHours == hours && e.imagingHours * 3600.0 == exposure
    ensures e.avgSecondsPerFrame == hours * 3600.0 / count as real
    ensures Balanced(e)
  {
    var imaging := exposure / 3600.0;
    var d := MaxReal(hours, 0.1);
    var downtime := hours - imaging;
    var efficiency := Ratio(imaging, d);
    var downShare := Ratio(downtime, d);
    assert hours >= 0.1 ==> efficiency + downShare == 1.0 by {
      if hours >= 0.1 {
        SharesOfWhole(efficiency, downShare, d, imaging, downtime);
      }
    }
    Efficiency(hours, imaging, efficiency, hours * 3600.0 / count as real, downtime, downShare * 100.0)
  }

  /** Two shares of a positive whole that add back up to it sum to one. */
  lemma SharesOfWhole(a: real, b: real, d: real, x: real, y: real)
    requires d > 0.0 && a * d == x && b * d == y && x + y == d
    ensures a + b == 1.0
  {
    assert (a + b) * d == 1.0 * d;
  }

  // --- Alerts ---

  /** The configurable alert thresholds and their defaults. */
  datatype Thresholds = Thresholds(hfrDriftWarning: real, temperatureSwingWarning: real, successRateWarning: real)

  const DefaultThresholds := Thresholds(0.5, 5.0, 0.8)

  datatype AlertKind = HfrDrift | HighHfr | TemperatureSwing | LowSuccessRate
  datatype Severity = Warning | Error

  datatype Alert = Alert(kind: AlertKind, severity: Severity, value: real)

  /** The figures the alerts look at; an absent figure reads as its
      default (slope 0, maximum HFR 0, range 0, success rate 1). */
  datatype AlertInputs = AlertInputs(slope: Option<real>, maxHfr: Option<real>, tempRange: Option<real>,
                                     successRate: Option<real>)

  /** The alert `al` when `c` holds, nothing otherwise. */
  function AlertIf(c: bool, al: Alert): (r: seq<Alert>)
    ensures forall x :: x in r <==> c && x == al
  {
    if c then [al] else []
  }

  /** `generate_performance_alerts`: drift, high HFR, temperature swing and
      low success rate, in that order, each raised by a strict comparison;
      only a high HFR of 5 or more is an error besides a low success rate. */
  function PerformanceAlerts(t: Thresholds, a: AlertInputs): (r: seq<Alert>)
    ensures Raises(r, HfrDrift) <==> a.slope.GetOr(0.0) > t.hfrDriftWarning
    ensures Raises(r, HighHfr) <==> a.maxHfr.GetOr(0.0) > 4.0
    ensures Raises(r, TemperatureSwing) <==> a.tempRange.GetOr(0.0) > t.temperatureSwingWarning
    ensures Raises(r, LowSuccessRate) <==> a.successRate.GetOr(1.0) < t.successRateWarning
    ensures forall al :: al in r ==> RightSeverity(al)
  {
    var slope := a.slope.GetOr(0.0);
    var maxHfr := a.maxHfr.GetOr(0.0);
    var range := a.tempRange.GetOr(0.0);
    var rate := a.successRate.GetOr(1.0);
    var d := Alert(HfrDrift, Warning, slope);
    var h := Alert(HighHfr, if maxHfr < 5.0 then Warning else Error, maxHfr);
    var s := Alert(TemperatureSwing, Warning, range);
    var l := Alert(LowSuccessRate, Error, rate);
    var r := AlertIf(slope > t.hfrDriftWarning, d) + AlertIf(maxHfr > 4.0, h)
           + AlertIf(range > t.temperatureSwingWarning, s) + AlertIf(rate < t.successRateWarning, l);
    assert slope > t.hfrDriftWarning ==> d in r;
    assert maxHfr > 4.0 ==> h in r;
    assert range > t.temperatureSwingWarning ==> s in r;
    assert rate < t.successRateWarning ==> l in r;
    r
  }

  /** Some alert of kind `k` is raised. */
  predicate Raises(r: seq<Alert>, k: AlertKind) {
    exists al :: al in r && al.kind == k
  }

  /** Only a low success rate, and a high HFR of 5 or more, are errors. */
  predicate RightSeverity(al: Alert) {
    al.severity == Error <==> al.kind == LowSuccessRate || (al.kind == HighHfr && al.value >= 5.0)
  }

  // --- All metrics ---

  datatype AdvancedMetrics = AdvancedMetrics(
    quality: Option<QualityAnalysis>,
    temperature: Option<TemperatureAnalysis>,
    performance: PerformanceAnalysis,
    efficiency: Option<Efficiency>,
    alerts: seq<Alert>)

  /** `calculate_all_advanced_metrics` (without the autofocus and temporal
      analyses): absent when the summary holds no capture. */
  function AllMetrics(t: Thresholds, groups: seq<Aggregator.CaptureGroup>, readings: seq<TemperatureReading>,
                      issues: seq<Issue>, totalCaptures: nat, duration: Option<Aggregator.SessionDuration>,
                      root: real -> real, slope: seq<real> -> real): (r: Option<AdvancedMetrics>)
    ensures r.None? <==> Aggregator.GroupSizes(groups) == 0
    ensures r.Some? ==> r.value.performance.successRate == SuccessRate(totalCaptures, |issues|)
    ensures r.Some? ==> r.value.alerts == PerformanceAlerts(t, AlertInputsOf(r.value))
    ensures r.Some? ==> r.value.quality == AnalyzeImageQuality(ExtractCaptureData(groups), root, slope)
    ensures r.Some? ==> r.value.temperature == AnalyzeTemperature(ExtractCaptureData(groups), readings, root)
    ensures r.Some? ==> r.value.performance == AnalyzePerformance(groups, issues, totalCaptures, root)
    ensures r.Some? ==> r.value.efficiency == SessionEfficiency(duration, groups)
  {
    var cs := ExtractCaptureData(groups);
    if |cs| == 0 then None
    else
      var q := AnalyzeImageQuality(cs, root, slope);
      var temp := AnalyzeTemperature(cs, readings, root);
      var perf := AnalyzePerformance(groups, issues, totalCaptures, root);
      var eff := SessionEfficiency(duration, groups);
      var m := AdvancedMetrics(q, temp, perf, eff, []);
      Some(m.(alerts := PerformanceAlerts(t, AlertInputsOf(m))))
  }

  /** The metrics of an aggregate, the only input the report passes.  An
      aggregate has no list of temperature readings, so the readings read
      as empty: there is no temperature analysis, and the swing alert is
      raised only by a threshold below zero (never by the default). */
  function MetricsOfAggregate(t: Thresholds, agg: Aggregator.Aggregate, root: real -> real,
                              slope: seq<real> -> real): (r: Option<AdvancedMetrics>)
    ensures r.None? <==> Aggregator.GroupSizes(agg.captureSummary) == 0
    ensures r.Some? ==> r.value.temperature.None?
    ensures r.Some? ==> (Raises(r.value.alerts, TemperatureSwing) <==> t.temperatureSwingWarning < 0.0)
    ensures r.Some? && t == DefaultThresholds ==> !Raises(r.value.alerts, TemperatureSwing)
  {
    AllMetrics(t, agg.captureSummary, [], agg.issues, agg.totalCaptures, agg.sessionDuration, root, slope)
  }

  /** The figures the alerts read from the other analyses. */
  function AlertInputsOf(m: AdvancedMetrics): AlertInputs {
    AlertInputs(
      if m.quality.Some? && m.quality.value.trend.Some? then Some(m.quality.value.trend.value.slope) else None,
      if m.quality.Some? then Some(m.quality.value.hfrStats.max) else None,
      if m.temperature.Some? then Some(m.temperature.value.range) else None,
      Some(m.performance.successRate))
  }
}

=== FILE: monitor.dfy ===
/** The real-time monitor's bookkeeping (`RealtimeMonitor`) and the file
    tailing it relies on (`AnalyzeFileWatcher`).  Notifications are values
    the model returns instead of messages it sends; the current time, the
    newest file in the directory and the files' contents are inputs. */
module Monitor {
  import opened Options
  import opened Text
  import opened Events
  import opened Lists
  import Parser = RealtimeParser

  // --- Session bookkeeping ---

  /** The per-session counters.  The two alignment counters are absent
      until the first alignment event of a session. */
  datatype SessionStats = SessionStats(
    capturesComplete: nat,
    capturesAborted: nat,
    autofocusSuccess: nat,
    autofocusFailed: nat,
    schedulerJobs: seq<string>,
    sessionStart: Option<string>,
    alignSuccess: Option<nat>,
    alignFailed: Option<nat>)

  /** `_reset_session_stats`: every counter zero, no job, no start. */
  const FreshStats := SessionStats(0, 0, 0, 0, [], None, None, None)

  datatype MonitorState = MonitorState(sessionActive: bool, lastEventTime: Option<real>, stats: SessionStats)

  const InitialMonitor := MonitorState(false, None, FreshStats)

  /** What the monitor asks the notifier to send. */
  datatype Notice =
    | SessionStartNotice(startTime: string, timezone: string)
    | SessionEndNotice(stats: SessionStats)
    | CaptureCompleteNotice(event: Event, count: nat)
    | CaptureAbortedNotice(event: Event, count: nat)
    | EventNotice(event: Event)

  datatype Step = Step(state: MonitorState, notices: seq<Notice>)

  /** `_start_session`: the session becomes active with fresh counters that
      remember the start string. */
  function StartSession(m: MonitorState, startTime: string, timezone: string, now: real): (r: Step)
    ensures r.state.sessionActive && r.state.lastEventTime == Some(now)
    ensures r.state.stats == FreshStats.(sessionStart := Some(startTime))
    ensures r.notices == [SessionStartNotice(startTime, timezone)]
  {
    Step(MonitorState(true, Some(now), FreshStats.(sessionStart := Some(startTime))),
         [SessionStartNotice(startTime, timezone)])
  }

  /** `_end_session`: nothing when no session is active; otherwise the
      summary of the counters is sent and the counters are reset. */
  function EndSession(m: MonitorState): (r: Step)
    ensures !m.sessionActive ==> r == Step(m, [])
    ensures m.sessionActive ==> && !r.state.sessionActive && r.state.stats == FreshStats
                                && r.state.lastEventTime == m.lastEventTime
                                && r.notices == [SessionEndNotice(m.stats)]
  {
    if !m.sessionActive then Step(m, [])
    else Step(m.(sessionActive := false, stats := FreshStats), [SessionEndNotice(m.stats)])
  }

  /** Ending twice sends one summary. */
  lemma EndSessionIdempotent(m: MonitorState)
    ensures var r := EndSession(m); EndSession(r.state) == Step(r.state, [])
  {
  }

  predicate NoDuplicates(s: seq<string>) {
    forall i, j :: 0 <= i < j < |s| ==> s[i] != s[j]
  }

  /** Records a job name unless it is already listed. */
  function AddJob(jobs: seq<string>, name: string): (r: seq<string>)
    ensures NoDuplicates(jobs) ==> NoDuplicates(r)
    ensures jobs <= r
    ensures forall n :: n in r <==> n in jobs || n == name
  {
    if name in jobs then jobs else jobs + [name]
  }

  function Inc(n: Option<nat>): (r: Option<nat>)
    ensures r.Some? && r.value == n.GetOr(0) + 1
  {
    Some(n.GetOr(0) + 1)
  }

  /** Whether the notifier call for `e` raises.  The notifier class in
      realtime_notifier.py defines no method for the two alignment
      events, so their handler fails right after updating its counter. */
  predicate NotifierLacks(e: Event) {
    e.AlignComplete? || e.AlignFailed?
  }

  /** One event of `_process_events`: the last-event time becomes `now`, a
      session start restarts the counters, each counted event increments
      its own counter, and everything but a parking event or an alignment
      event (whose notification raises) is passed on. */
  function ProcessEvent(m: MonitorState, e: Event, now: real): (r: Step)
    ensures r.state.lastEventTime == Some(now)
    ensures e.SessionStart? ==> r == StartSession(m, e.startTime, e.timezone, now)
    ensures !e.SessionStart? ==> r.state.sessionActive == m.sessionActive
    ensures !e.SessionStart? ==> Counted(m.stats, r.state.stats, e)
    ensures !e.SessionStart? ==> r.state.stats.sessionStart == m.stats.sessionStart
    ensures NoDuplicates(m.stats.schedulerJobs) ==> NoDuplicates(r.state.stats.schedulerJobs)
    ensures |r.notices| <= 1 && (r.notices == [] <==> e.MountParking? || NotifierLacks(e))
    ensures e.CaptureComplete? ==> r.notices == [CaptureCompleteNotice(e, m.stats.capturesComplete + 1)]
    ensures e.CaptureAborted? ==> r.notices == [CaptureAbortedNotice(e, m.stats.capturesAborted + 1)]
    ensures (!e.SessionStart? && !e.CaptureComplete? && !e.CaptureAborted? &&
             !e.MountParking? && !NotifierLacks(e)) ==> r.notices == [EventNotice(e)]
    ensures r.notices != [] ==> Announces(r.notices[0], e)
  {
    var m1 := m.(lastEventTime := Some(now));
    var st := m.stats;
    match e
    case SessionStart(startTime, timezone) => StartSession(m1, startTime, timezone, now)
    case CaptureComplete(_, _, _, _, _, _, _, _, _, _) =>
      var c := st.capturesComplete + 1;
      Step(m1.(stats := st.(capturesComplete := c)), [CaptureCompleteNotice(e, c)])
    case CaptureAborted(_, _, _, _) =>
      var c := st.capturesAborted + 1;
      Step(m1.(stats := st.(capturesAborted := c)), [CaptureAbortedNotice(e, c)])
    case AutofocusComplete(_, _, _, _, _, _, _) =>
      Step(m1.(stats := st.(autofocusSuccess := st.autofocusSuccess + 1)), [EventNotice(e)])
    case AutofocusAborted(_, _, _) =>
      Step(m1.(stats := st.(autofocusFailed := st.autofocusFailed + 1)), [EventNotice(e)])
    case SchedulerJobStart(_, jobName) =>
      Step(m1.(stats := st.(schedulerJobs := AddJob(st.schedulerJobs, jobName))), [EventNotice(e)])
    case AlignComplete(_, _) =>
      Step(m1.(stats := st.(alignSuccess := Inc(st.alignSuccess))), [])
    case AlignFailed(_, _, _) =>
      Step(m1.(stats := st.(alignFailed := Inc(st.alignFailed))), [])
    case MountParking(_, _) => Step(m1, [])
    case _ => Step(m1, [EventNotice(e)])
  }

  /** `n` is the notification the monitor sends for `e`: the start time
      and zone for a session start, the event and its running count for a
      capture, and the event itself for everything else. */
  predicate Announces(n: Notice, e: Event) {
    if e.SessionStart? then n == SessionStartNotice(e.startTime, e.timezone)
    else if e.CaptureComplete? then n.CaptureCompleteNotice? && n.event == e
    else if e.CaptureAborted? then n.CaptureAbortedNotice? && n.event == e
    else n == EventNotice(e)
  }

  /** The events that the intended handler announces. */
  function Sent(): Event -> bool {
    (e: Event) => !e.MountParking?
  }

  /** The handler as evidently intended: an alignment event is passed on
      like the other events, with the same counters. */
  function ProcessEventIntended(m: MonitorState, e: Event, now: real): (r: Step)
    ensures r.state == ProcessEvent(m, e, now).state
    ensures |r.notices| <= 1 && (r.notices == [] <==> e.MountParking?)
    ensures !NotifierLacks(e) ==> r == ProcessEvent(m, e, now)
    ensures r.notices != [] ==> Announces(r.notices[0], e)
  {
    var s := ProcessEvent(m, e, now);
    if NotifierLacks(e) then Step(s.state, [EventNotice(e)]) else s
  }

  /** A handler of one event, as a function of the state and the event. */
  type Handler = (MonitorState, Event) -> Step

  /** `_process_events`' handler at time `now`. */
  function EventStep(now: real): Handler {
    (s, e) => ProcessEvent(s, e, now)
  }

  /** `step`, but also announcing each alignment event. */
  function Announcing(step: Handler): Handler {
    (s, e) => if NotifierLacks(e) then Step(step(s, e).state, step(s, e).notices + [EventNotice(e)]) else step(s, e)
  }

  /** The counters after `e` are those before it, plus one on the counter
      that `e` is counted by (if any); the job list only changes on a job
      start, and then only by adding its name. */
  ghost predicate Counted(before: SessionStats, after: SessionStats, e: Event) {
    && after.capturesComplete == before.capturesComplete + (if e.CaptureComplete? then 1 else 0)
    && after.capturesAborted == before.capturesAborted + (if e.CaptureAborted? then 1 else 0)
    && after.autofocusSuccess == before.autofocusSuccess + (if e.AutofocusComplete? then 1 else 0)
    && after.autofocusFailed == before.autofocusFailed + (if e.AutofocusAborted? then 1 else 0)
    && after.alignSuccess == (if e.AlignComplete? then Some(before.alignSuccess.GetOr(0) + 1) else before.alignSuccess)
    && after.alignFailed == (if e.AlignFailed? then Some(before.alignFailed.GetOr(0) + 1) else before.alignFailed)
    && before.schedulerJobs <= after.schedulerJobs
    && (forall n :: n in after.schedulerJobs <==>
          n in before.schedulerJobs || (e.SchedulerJobStart? && n == e.jobName))
  }

  /** The outcome of a batch; `raised` when handling stopped at an event
      whose notification raised. */
  datatype Handled = Handled(state: MonitorState, notices: seq<Notice>, raised: bool)

  /** Some event of the batch has no notifier method. */
  predicate AnyLacks(events: seq<Event>) {
    exists i :: 0 <= i < |events| && NotifierLacks(events[i])
  }

  lemma AnyLacksCons(events: seq<Event>)
    requires |events| > 0
    ensures AnyLacks(events) <==> NotifierLacks(events[0]) || AnyLacks(events[1..])
  {
    if AnyLacks(events[1..]) {
      var i :| 0 <= i < |events[1..]| && NotifierLacks(events[1..][i]);
      assert events[i + 1] == events[1..][i];
    }
    if AnyLacks(events) && !NotifierLacks(events[0]) {
      var i :| 0 <= i < |events| && NotifierLacks(events[i]);
      assert events[1..][i - 1] == events[i];
    }
  }

  /** The events `_process_events` gets through: all of them, or those up
      to and including the first one whose notification raises. */
  function HandledPrefix(events: seq<Event>): (r: seq<Event>)
    ensures r <= events
    ensures forall i :: 0 <= i < |r| - 1 ==> !NotifierLacks(r[i])
    ensures !AnyLacks(events) ==> r == events
    ensures AnyLacks(events) ==> |r| > 0 && NotifierLacks(r[|r| - 1])
    decreases |events|
  {
    if |events| == 0 then []
    else if NotifierLacks(events[0]) then [events[0]]
    else
      var rest := HandledPrefix(events[1..]);
      AnyLacksCons(events);
      assert forall i :: 1 <= i < |rest| ==> ([events[0]] + rest)[i] == rest[i - 1];
      [events[0]] + rest
  }

  /** Applies `step` to each event in turn, collecting the notices, and
      stops after the first event whose notification raises. */
  function Run(step: Handler, m: MonitorState, events: seq<Event>): (r: Handled)
    ensures |events| == 0 ==> r == Handled(m, [], false)
    ensures r.raised <==> AnyLacks(events)
    decreases |events|
  {
    if |events| == 0 then Handled(m, [], false)
    else
      var s1 := step(m, events[0]);
      AnyLacksCons(events);
      if NotifierLacks(events[0]) then Handled(s1.state, s1.notices, true)
      else
        var r2 := Run(step, s1.state, events[1..]);
        Handled(r2.state, s1.notices + r2.notices, r2.raised)
  }

  /** Applies `step` to each event in turn, collecting the notices. */
  function Fold(step: Handler, m: MonitorState, events: seq<Event>): (r: Step)
    decreases |events|
  {
    if |events| == 0 then Step(m, [])
    else
      var s1 := step(m, events[0]);
      var s2 := Fold(step, s1.state, events[1..]);
      Step(s2.state, s1.notices + s2.notices)
  }

  /** `_process_events` over a batch handled at time `now`.  Handling stops
      at the first event whose notification raises: the exception leaves
      the method, so the events after it are neither counted nor passed
      on. */
  function ProcessEvents(m: MonitorState, events: seq<Event>, now: real): (r: Handled)
    ensures |events| == 0 ==> r == Handled(m, [], false)
    ensures r.raised <==> AnyLacks(events)
  {
    Run(EventStep(now), m, events)
  }

  /** A non-empty batch stamps the event time, keeps the job list free of
      duplicates and sends at most one notice per event. */
  lemma {:induction false} BatchFacts(m: MonitorState, events: seq<Event>, now: real)
    ensures var r := ProcessEvents(m, events, now);
            && (|events| > 0 ==> r.state.lastEventTime == Some(now))
            && (NoDuplicates(m.stats.schedulerJobs) ==> NoDuplicates(r.state.stats.schedulerJobs))
            && |r.notices| <= |events|
    decreases |events|
  {
    if |events| > 0 {
      var s1 := ProcessEvent(m, events[0], now);
      assert EventStep(now)(m, events[0]) == s1;
      if !NotifierLacks(events[0]) {
        BatchFacts(s1.state, events[1..], now);
      }
    }
  }

  /** The batch handling as evidently intended: every event is handled and
      each alignment event is passed on. */
  function ProcessEventsIntended(m: MonitorState, events: seq<Event>, now: real): (r: Step)
    ensures |events| == 0 ==> r == Step(m, [])
  {
    Fold(Announcing(EventStep(now)), m, events)
  }

  /** As intended, every event but a parking one sends exactly one notice,
      the one that announces it, in the order of the events. */
  lemma {:induction false} IntendedNotices(m: MonitorState, events: seq<Event>, now: real)
    ensures |ProcessEventsIntended(m, events, now).notices| ==
              |events| - CountWhere(events, (e: Event) => e.MountParking?)
    ensures AnnouncesAll(ProcessEventsIntended(m, events, now).notices, Keep(events, Sent()))
    decreases |events|
  {
    if |events| > 0 {
      var s1 := ProcessEventIntended(m, events[0], now);
      IntendedNotices(s1.state, events[1..], now);
      IntendedAnnounces(m, events, now);
    }
  }

  /** Each notice announces the event at the same place among the events
      that are announced. */
  ghost predicate AnnouncesAll(ns: seq<Notice>, es: seq<Event>) {
    |ns| == |es| && forall i :: 0 <= i < |ns| ==> Announces(ns[i], es[i])
  }

  lemma AnnouncesConcat(a: seq<Notice>, b: seq<Notice>, x: seq<Event>, y: seq<Event>)
    requires AnnouncesAll(a, x) && AnnouncesAll(b, y)
    ensures AnnouncesAll(a + b, x + y)
  {
    assert forall i :: |a| <= i < |a + b| ==> (a + b)[i] == b[i - |a|] && (x + y)[i] == y[i - |a|];
  }

  /** The notices of the intended batch announce the non-parking events,
      in order. */
  lemma {:induction false} IntendedAnnounces(m: MonitorState, events: seq<Event>, now: real)
    ensures AnnouncesAll(ProcessEventsIntended(m, events, now).notices, Keep(events, Sent()))
    decreases |events|
  {
    if |events| > 0 {
      var e := events[0];
      var s1 := ProcessEventIntended(m, e, now);
      IntendedAnnounces(s1.state, events[1..], now);
      var rest := ProcessEventsIntended(s1.state, events[1..], now).notices;
      assert Announcing(EventStep(now))(m, e) == s1;
      assert ProcessEventsIntended(m, events, now).notices == s1.notices + rest;
      var h := if Sent()(e) then [e] else [];
      assert Keep(events, Sent()) == h + Keep(events[1..], Sent());
      assert AnnouncesAll(s1.notices, h);
      AnnouncesConcat(s1.notices, rest, h, Keep(events[1..], Sent()));
    }
  }

  /** The program's handling of a batch is the intended handling of the
      events it gets through, minus the notice of the alignment event it
      stops at. */
  lemma HandlesPrefix(m: MonitorState, events: seq<Event>, now: real)
    ensures var r := ProcessEvents(m, events, now);
            var h := HandledPrefix(events);
            var f := ProcessEventsIntended(m, h, now);
            && r.state == f.state
            && (r.raised ==> |h| > 0 && f.notices == r.notices + [EventNotice(h[|h| - 1])])
            && (!r.raised ==> f.notices == r.notices && h == events)
  {
    RunPrefix(EventStep(now), m, events);
  }

  /** `Run` and `Fold` over the events `Run` gets through. */
  ghost predicate AgreesOnPrefix(step: Handler, m: MonitorState, events: seq<Event>) {
    var r := Run(step, m, events);
    var h := HandledPrefix(events);
    var f := Fold(Announcing(step), m, h);
    && r.state == f.state
    && (r.raised ==> |h| > 0 && f.notices == r.notices + [EventNotice(h[|h| - 1])])
    && (!r.raised ==> f.notices == r.notices && h == events)
  }

  lemma {:induction false} RunPrefix(step: Handler, m: MonitorState, events: seq<Event>)
    ensures AgreesOnPrefix(step, m, events)
    decreases |events|
  {
    if |events| > 0 {
      var e := events[0];
      var s1 := step(m, e);
      AnyLacksCons(events);
      if NotifierLacks(e) {
        assert HandledPrefix(events) == [e] && [e][1..] == [];
        assert Announcing(step)(m, e) == Step(s1.state, s1.notices + [EventNotice(e)]);
      } else {
        assert Announcing(step)(m, e) == s1;
        RunPrefix(step, s1.state, events[1..]);
        var rest := HandledPrefix(events[1..]);
        var h := [e] + rest;
        assert HandledPrefix(events) == h;
        assert h[0] == e && h[1..] == rest;
        if |rest| > 0 {
          assert h[|h| - 1] == rest[|rest| - 1];
        }
        assert events == [e] + events[1..];
      }
    }
  }

  /** An alignment event cuts the batch short: its counter moves, but it
      sends nothing and the events after it are lost, where the intended
      handling passes it on and goes on with the rest. */
  lemma AlignDropsRest(m: MonitorState, e: Event, rest: seq<Event>, now: real)
    requires NotifierLacks(e)
    ensures var s := ProcessEvent(m, e, now).state;
            && ProcessEvents(m, [e] + rest, now) == Handled(s, [], true)
            && ProcessEventsIntended(m, [e] + rest, now).notices ==
                 [EventNotice(e)] + ProcessEventsIntended(s, rest, now).notices
  {
    var s1 := ProcessEvent(m, e, now);
    assert ([e] + rest)[0] == e && ([e] + rest)[1..] == rest;
    assert EventStep(now)(m, e) == s1;
    assert Announcing(EventStep(now))(m, e) == Step(s1.state, s1.notices + [EventNotice(e)]);
  }

  /** The smallest input that shows it: after a plate solve, a capture in
      the same batch is neither counted nor announced. */
  lemma AlignHidesCapture(m: MonitorState, c: Event, now: real)
    requires c.CaptureComplete?
    ensures var batch := [AlignComplete(0.0, 0.0), c];
            && ProcessEvents(m, batch, now).notices == []
            && ProcessEvents(m, batch, now).state.stats.capturesComplete == m.stats.capturesComplete
            && |ProcessEventsIntended(m, batch, now).notices| == 2
            && ProcessEventsIntended(m, batch, now).state.stats.capturesComplete == m.stats.capturesComplete + 1
  {
    var a := AlignComplete(0.0, 0.0);
    AlignDropsRest(m, a, [c], now);
    assert [a] + [c] == [a, c];
    var s := ProcessEvent(m, a, now).state;
    assert [c][1..] == [];
    var s2 := ProcessEvent(s, c, now);
    assert Announcing(EventStep(now))(s, c) == s2;
    var A := Announcing(EventStep(now));
    assert Fold(A, s2.state, []) == Step(s2.state, []);
    assert Fold(A, s, [c]) == Step(s2.state, s2.notices + []);
  }

  /** Handling two batches in turn is handling them together, unless the
      first one raises, in which case the second is never reached. */
  lemma ProcessEventsAppend(m: MonitorState, a: seq<Event>, b: seq<Event>, now: real)
    ensures !AnyLacks(a) ==>
              var r1 := ProcessEvents(m, a, now);
              var r2 := ProcessEvents(r1.state, b, now);
              ProcessEvents(m, a + b, now) == Handled(r2.state, r1.notices + r2.notices, r2.raised)
    ensures AnyLacks(a) ==> ProcessEvents(m, a + b, now) == ProcessEvents(m, a, now)
  {
    RunAppend(EventStep(now), m, a, b);
  }

  /** Running `a + b` is running `a`, then `b` unless `a` raised. */
  ghost predicate Sequenced(step: Handler, m: MonitorState, a: seq<Event>, b: seq<Event>) {
    var r1 := Run(step, m, a);
    var r2 := Run(step, r1.state, b);
    Run(step, m, a + b) == if r1.raised then r1 else Handled(r2.state, r1.notices + r2.notices, r2.raised)
  }

  lemma {:induction false} RunAppend(step: Handler, m: MonitorState, a: seq<Event>, b: seq<Event>)
    ensures Sequenced(step, m, a, b)
    decreases |a|
  {
    if |a| == 0 {
      assert a + b == b;
    } else {
      var s1 := step(m, a[0]);
      assert (a + b)[0] == a[0] && (a + b)[1..] == a[1..] + b;
      if !NotifierLacks(a[0]) {
        RunAppend(step, s1.state, a[1..], b);
        var t := Run(step, s1.state, a[1..]);
        if !t.raised {
          var v := Run(step, t.state, b);
          assert s1.notices + (t.notices + v.notices) == (s1.notices + t.notices) + v.notices;
        }
      }
    }
  }

  /** Handling two batches in turn as intended is handling them together. */
  lemma ProcessEventsIntendedAppend(m: MonitorState, a: seq<Event>, b: seq<Event>, now: real)
    ensures var r1 := ProcessEventsIntended(m, a, now);
            var r2 := ProcessEventsIntended(r1.state, b, now);
            ProcessEventsIntended(m, a + b, now) == Step(r2.state, r1.notices + r2.notices)
  {
    FoldAppend(Announcing(EventStep(now)), m, a, b);
  }

  lemma {:induction false} FoldAppend(step: Handler, m: MonitorState, a: seq<Event>, b: seq<Event>)
    ensures var r1 := Fold(step, m, a);
            var r2 := Fold(step, r1.state, b);
            Fold(step, m, a + b) == Step(r2.state, r1.notices + r2.notices)
    decreases |a|
  {
    if |a| == 0 {
      assert a + b == b;
    } else {
      assert (a + b)[0] == a[0] && (a + b)[1..] == a[1..] + b;
      FoldAppend(step, step(m, a[0]).state, a[1..], b);
    }
  }

  /** How many events of the batch satisfy `p`. */
  function CountWhere(events: seq<Event>, p: Event -> bool): (n: nat)
    ensures n <= |events|
    decreases |events|
  {
    if |events| == 0 then 0 else (if p(events[0]) then 1 else 0) + CountWhere(events[1..], p)
  }

  predicate NoSessionStart(events: seq<Event>) {
    forall i :: 0 <= i < |events| ==> !events[i].SessionStart?
  }

  /** An optional counter after `n` increments. */
  function AddCount(c: Option<nat>, n: nat): Option<nat> {
    if n == 0 then c else Some(c.GetOr(0) + n)
  }

  /** Within a session, each counter grows by exactly the number of events
      of its kind among those handled, and the session's start and
      activity are untouched. */
  lemma {:induction false} CountersMatchEvents(m: MonitorState, events: seq<Event>, now: real)
    requires NoSessionStart(HandledPrefix(events))
    ensures var st := ProcessEvents(m, events, now).state;
            var h := HandledPrefix(events);
            && st.sessionActive == m.sessionActive
            && st.stats.sessionStart == m.stats.sessionStart
            && st.stats.capturesComplete == m.stats.capturesComplete + CountWhere(h, (e: Event) => e.CaptureComplete?)
            && st.stats.capturesAborted == m.stats.capturesAborted + CountWhere(h, (e: Event) => e.CaptureAborted?)
            && st.stats.autofocusSuccess == m.stats.autofocusSuccess + CountWhere(h, (e: Event) => e.AutofocusComplete?)
            && st.stats.autofocusFailed == m.stats.autofocusFailed + CountWhere(h, (e: Event) => e.AutofocusAborted?)
            && st.stats.alignSuccess == AddCount(m.stats.alignSuccess, CountWhere(h, (e: Event) => e.AlignComplete?))
            && st.stats.alignFailed == AddCount(m.stats.alignFailed, CountWhere(h, (e: Event) => e.AlignFailed?))
    decreases |events|
  {
    CountsOfHandled(m, events, now);
  }

  /** The counters after the handled events of a batch, as in
      `CountersMatchEvents`. */
  ghost predicate CountsHandled(m: MonitorState, events: seq<Event>, now: real) {
    CountsMatch(m, ProcessEvents(m, events, now).state, HandledPrefix(events))
  }

  /** `st` is `m` after the events `h`, none of them a session start. */
  ghost predicate CountsMatch(m: MonitorState, st: MonitorState, h: seq<Event>) {
    && st.sessionActive == m.sessionActive
    && st.stats.sessionStart == m.stats.sessionStart
    && st.stats.capturesComplete == m.stats.capturesComplete + CountWhere(h, (e: Event) => e.CaptureComplete?)
    && st.stats.capturesAborted == m.stats.capturesAborted + CountWhere(h, (e: Event) => e.CaptureAborted?)
    && st.stats.autofocusSuccess == m.stats.autofocusSuccess + CountWhere(h, (e: Event) => e.AutofocusComplete?)
    && st.stats.autofocusFailed == m.stats.autofocusFailed + CountWhere(h, (e: Event) => e.AutofocusAborted?)
    && st.stats.alignSuccess == AddCount(m.stats.alignSuccess, CountWhere(h, (e: Event) => e.AlignComplete?))
    && st.stats.alignFailed == AddCount(m.stats.alignFailed, CountWhere(h, (e: Event) => e.AlignFailed?))
  }

  lemma {:induction false} CountsOfHandled(m: MonitorState, events: seq<Event>, now: real)
    requires NoSessionStart(HandledPrefix(events))
    ensures CountsHandled(m, events, now)
    decreases |events|
  {
    if |events| > 0 {
      var e := events[0];
      var h := HandledPrefix(events);
      assert h[0] == e;
      if NotifierLacks(e) {
        CountsAtAlign(m, events, now);
      } else {
        var rest := HandledPrefix(events[1..]);
        assert h == [e] + rest;
        assert NoSessionStart(rest) by {
          forall i | 0 <= i < |rest| ensures !rest[i].SessionStart? {
            assert rest[i] == h[i + 1];
          }
        }
        CountsOfHandled(ProcessEvent(m, e, now).state, events[1..], now);
        CountsStep(m, events, now);
      }
    }
  }

  lemma CountsAtAlign(m: MonitorState, events: seq<Event>, now: real)
    requires |events| > 0 && NotifierLacks(events[0])
    ensures CountsHandled(m, events, now)
  {
    var e := events[0];
    var s1 := ProcessEvent(m, e, now);
    assert HandledPrefix(events) == [e];
    assert ProcessEvents(m, events, now).state == s1.state;
    CountsOne(m, s1.state, e);
  }

  /** One counted event that is not a session start. */
  lemma CountsOne(m: MonitorState, st: MonitorState, e: Event)
    requires st.sessionActive == m.sessionActive && st.stats.sessionStart == m.stats.sessionStart
    requires Counted(m.stats, st.stats, e)
    ensures CountsMatch(m, st, [e])
  {
    assert [e][1..] == [];
  }

  lemma CountsStep(m: MonitorState, events: seq<Event>, now: real)
    requires |events| > 0 && !NotifierLacks(events[0]) && !events[0].SessionStart?
    requires CountsHandled(ProcessEvent(m, events[0], now).state, events[1..], now)
    ensures CountsHandled(m, events, now)
  {
    var e := events[0];
    var s1 := ProcessEvent(m, e, now);
    var rest := HandledPrefix(events[1..]);
    var h := [e] + rest;
    assert HandledPrefix(events) == h;
    assert h[0] == e && h[1..] == rest;
    var r2 := ProcessEvents(s1.state, events[1..], now);
    assert ProcessEvents(m, events, now).state == r2.state;
  }

  /** Some event of the batch starts the job `n`. */
  predicate StartsJob(events: seq<Event>, n: string) {
    exists i :: 0 <= i < |events| && events[i].SchedulerJobStart? && events[i].jobName == n
  }

  lemma StartsJobCons(events: seq<Event>, n: string)
    requires |events| > 0
    ensures StartsJob(events, n) <==>
              (events[0].SchedulerJobStart? && events[0].jobName == n) || StartsJob(events[1..], n)
  {
    if StartsJob(events[1..], n) {
      var i :| 0 <= i < |events[1..]| && events[1..][i].SchedulerJobStart? && events[1..][i].jobName == n;
      assert events[i + 1] == events[1..][i];
    }
    if StartsJob(events, n) && !(events[0].SchedulerJobStart? && events[0].jobName == n) {
      var i :| 0 <= i < |events| && events[i].SchedulerJobStart? && events[i].jobName == n;
      assert events[1..][i - 1] == events[i];
    }
  }

  /** Within a session, the job list keeps its entries in place and gains
      exactly the names of the handled job starts it did not yet hold. */
  lemma {:induction false} JobsFirstSeen(m: MonitorState, events: seq<Event>, now: real)
    requires NoSessionStart(HandledPrefix(events))
    ensures var jobs := ProcessEvents(m, events, now).state.stats.schedulerJobs;
            && m.stats.schedulerJobs <= jobs
            && (forall n :: n in jobs <==> (n in m.stats.schedulerJobs || StartsJob(HandledPrefix(events), n)))
    decreases |events|
  {
    if |events| > 0 {
      var e := events[0];
      var s1 := ProcessEvent(m, e, now);
      var h := HandledPrefix(events);
      assert h[0] == e && !e.SessionStart?;
      if NotifierLacks(e) {
        assert h == [e];
        forall n ensures StartsJob(h, n) <==> false {
          StartsJobCons(h, n);
          assert h[1..] == [];
        }
      } else {
        var rest := HandledPrefix(events[1..]);
        assert h == [e] + rest && h[1..] == rest;
        assert NoSessionStart(rest) by {
          forall i | 0 <= i < |rest| ensures !rest[i].SessionStart? {
            assert rest[i] == h[i + 1];
          }
        }
        JobsFirstSeen(s1.state, events[1..], now);
        forall n ensures StartsJob(h, n) <==> (e.SchedulerJobStart? && e.jobName == n) || StartsJob(rest, n) {
          StartsJobCons(h, n);
        }
      }
    }
  }

  /** A session start wipes what came before it: the state after
      `a + [start] + b` depends only on the start and on `b`, provided the
      start is reached at all. */
  lemma SessionStartResets(m: MonitorState, a: seq<Event>, start: string, tz: string, b: seq<Event>, now: real)
    ensures !AnyLacks(a) ==>
              ProcessEvents(m, a + [SessionStart(start, tz)] + b, now).state ==
              ProcessEvents(InitialMonitor, [SessionStart(start, tz)] + b, now).state
    ensures AnyLacks(a) ==>
              ProcessEvents(m, a + [SessionStart(start, tz)] + b, now) == ProcessEvents(m, a, now)
  {
    var e := SessionStart(start, tz);
    assert a + [e] + b == a + ([e] + b);
    ProcessEventsAppend(m, a, [e] + b, now);
    assert ([e] + b)[0] == e && ([e] + b)[1..] == b;
    AnyLacksCons([e] + b);
  }

  /** `_check_session_timeout`, with the timeout in minutes: the session is
      ended only when it is active and strictly more than the timeout has
      passed since the last event. */
  function CheckSessionTimeout(m: MonitorState, now: real, timeoutMinutes: real): (r: Step)
    ensures TimedOut(m, now, timeoutMinutes) ==> r == EndSession(m) && r.notices == [SessionEndNotice(m.stats)]
    ensures !TimedOut(m, now, timeoutMinutes) ==> r == Step(m, [])
  {
    if !m.sessionActive || m.lastEventTime.None? then Step(m, [])
    else if now - m.lastEventTime.value > timeoutMinutes * 60.0 then EndSession(m)
    else Step(m, [])
  }

  predicate TimedOut(m: MonitorState, now: real, timeoutMinutes: real) {
    m.sessionActive && m.lastEventTime.Some? && now - m.lastEventTime.value > timeoutMinutes * 60.0
  }

  /** A session that has timed out stays timed out as time goes on, and
      exactly at the timeout it has not. */
  lemma TimeoutMonotone(m: MonitorState, now: real, later: real, timeoutMinutes: real)
    requires now <= later
    ensures CheckSessionTimeout(m, now, timeoutMinutes).notices != [] ==>
              CheckSessionTimeout(m, later, timeoutMinutes).notices != []
    ensures m.lastEventTime.Some? ==>
              CheckSessionTimeout(m, m.lastEventTime.value + timeoutMinutes * 60.0, timeoutMinutes).notices == []
  {
  }

  // --- File tailing ---

  /** The watched file and the read position in it. */
  datatype Watcher = Watcher(currentFile: Option<string>, position: nat)

  const InitialWatcher := Watcher(None, 0)

  /** `check_for_new_file`, given the newest file of the directory: it is
      reported only when it differs from the watched one. */
  function CheckForNewFile(w: Watcher, latest: Option<string>): (r: Option<string>)
    ensures r.Some? <==> latest.Some? && latest.value != "" && w.currentFile != latest
    ensures r.Some? ==> r == latest
  {
    if latest.Some? && latest.value != "" && w.currentFile != latest then latest else None
  }

  /** `switch_to_file`: watches `path` from its start, or from its current
      end (`size`, absent when the size cannot be read, which also means
      the start).  Also returns the previously watched file. */
  function SwitchToFile(w: Watcher, path: string, fromBeginning: bool, size: Option<nat>): (r: (Watcher, Option<string>))
    ensures r.0.currentFile == Some(path) && r.1 == w.currentFile
    ensures r.0.position == 0 <==> fromBeginning || size.None? || size == Some(0)
    ensures !fromBeginning && size.Some? ==> r.0.position == size.value
  {
    var pos := if fromBeginning then 0 else size.GetOr(0);
    (Watcher(Some(path), pos), w.currentFile)
  }

  /** After switching to a file, the same newest file is not new. */
  lemma SwitchedFileNotNew(w: Watcher, path: string, fromBeginning: bool, size: Option<nat>)
    ensures CheckForNewFile(SwitchToFile(w, path, fromBeginning, size).0, Some(path)).None?
  {
  }

  predicate NotBlank(line: string) {
    !IsBlank(line)
  }

  /** The non-blank lines of a chunk of text, in order. */
  function NonBlankLines(pieces: seq<string>): (r: seq<string>)
    ensures |r| <= |pieces|
    ensures forall i :: 0 <= i < |r| ==> !IsBlank(r[i]) && r[i] in pieces
    ensures forall i :: 0 <= i < |pieces| && !IsBlank(pieces[i]) ==> pieces[i] in r
  {
    KeepCounts(pieces, NotBlank);
    Keep(pieces, NotBlank)
  }

  /** Each non-blank line is kept as often as it occurs. */
  lemma NonBlankLinesCounts(pieces: seq<string>)
    ensures forall x :: multiset(NonBlankLines(pieces))[x] == if IsBlank(x) then 0 else multiset(pieces)[x]
  {
    KeepCounts(pieces, NotBlank);
  }

  /** A single line is kept exactly when it is not blank. */
  lemma NonBlankLine(x: string)
    ensures NonBlankLines([x]) == if IsBlank(x) then [] else [x]
  {
    KeepOne(x, NotBlank);
  }

  /** Dropping blank lines keeps the order of the others. */
  lemma NonBlankLinesAppend(a: seq<string>, b: seq<string>)
    ensures NonBlankLines(a + b) == NonBlankLines(a) + NonBlankLines(b)
  {
    KeepAppend(a, b, NotBlank);
  }

  /** `read_new_lines` over the watched file's text (`None` when it does not
      exist or cannot be read): the non-blank `\n`-separated pieces after
      the position, after which the position is the end of the text.  A
      position past the end reads nothing and stays where it is. */
  function ReadNewLines(w: Watcher, content: Option<string>): (r: (Watcher, seq<string>))
    ensures w.currentFile.None? || w.currentFile == Some("") || content.None? ==> r == (w, [])
    ensures r.0.currentFile == w.currentFile
    ensures content.Some? && w.currentFile.Some? && w.currentFile != Some("") ==>
              r.0.position == (if w.position <= |content.value| then |content.value| else w.position)
    ensures forall i :: 0 <= i < |r.1| ==> !IsBlank(r.1[i]) && '\n' !in r.1[i]
    ensures content.Some? && w.currentFile.Some? && w.currentFile != Some("") && w.position <= |content.value| ==>
              Join(r.1, '\n') == Join(NonBlankLines(Split(content.value[w.position..], '\n')), '\n')
  {
    if w.currentFile.None? || w.currentFile == Some("") || content.None? then (w, [])
    else
      var text := content.value;
      var data := if w.position <= |text| then text[w.position..] else "";
      var w1 := w.(position := if w.position <= |text| then |text| else w.position);
      if data == "" then (w1, [])
      else
        var pieces := Split(data, '\n');
        var lines := NonBlankLines(pieces);
        assert forall i :: 0 <= i < |lines| ==> '\n' !in lines[i] by {
          forall i | 0 <= i < |lines| ensures '\n' !in lines[i] {
            var k :| 0 <= k < |pieces| && pieces[k] == lines[i];
          }
        }
        (w1, lines)
  }

  /** Reading a watched file from a position within it. */
  lemma ReadWithin(w: Watcher, text: string)
    requires w.currentFile.Some? && w.currentFile != Some("") && w.position <= |text|
    ensures ReadNewLines(w, Some(text)) ==
              (w.(position := |text|), NonBlankLines(Split(text[w.position..], '\n')))
  {
    if text[w.position..] == "" {
      assert NonBlankLines(Split("", '\n')) == [] by {
        assert Split("", '\n') == [""];
        assert IsBlank("");
      }
    }
  }

  /** The lines of a text that ends in a line break, followed by more
      text, are the lines of each part. */
  lemma LinesOfChunks(first: string, more: string)
    requires |first| > 0 && first[|first| - 1] == '\n'
    ensures NonBlankLines(Split(first + more, '\n')) ==
              NonBlankLines(Split(first, '\n')) + NonBlankLines(Split(more, '\n'))
  {
    var head := first[..|first| - 1];
    var empty: string := [];
    var a, b := Split(head, '\n'), Split(more, '\n');
    assert Split(first, '\n') == a + [empty] by {
      assert first == head + ['\n'] + empty;
      SplitAtSep(head, empty, '\n');
      assert Split(empty, '\n') == [empty];
    }
    assert Split(first + more, '\n') == a + b by {
      assert first + more == head + ['\n'] + more;
      SplitAtSep(head, more, '\n');
    }
    assert NonBlankLines([empty]) == [] by {
      assert IsBlank(empty);
      NonBlankLine(empty);
    }
    assert NonBlankLines(Split(first, '\n')) == NonBlankLines(a) by {
      NonBlankLinesAppend(a, [empty]);
      assert NonBlankLines(a) + [] == NonBlankLines(a);
    }
    assert NonBlankLines(Split(first + more, '\n')) == NonBlankLines(a) + NonBlankLines(b) by {
      NonBlankLinesAppend(a, b);
    }
  }

  /** Reading a file in two goes, the first ending at a line break, gives
      the same lines as reading it in one go once it has grown. */
  lemma ChunkedReads(w: Watcher, first: string, more: string)
    requires w.currentFile.Some? && w.currentFile != Some("")
    requires w.position < |first| && first[|first| - 1] == '\n'
    ensures var r1 := ReadNewLines(w, Some(first));
            var r2 := ReadNewLines(r1.0, Some(first + more));
            var r3 := ReadNewLines(w, Some(first + more));
            r2.0 == r3.0 && r1.1 + r2.1 == r3.1
  {
    var whole := first + more;
    ReadWithin(w, first);
    var w1 := w.(position := |first|);
    ReadWithin(w1, whole);
    ReadWithin(w, whole);
    assert whole[w.position..] == first[w.position..] + more;
    assert whole[|first|..] == more;
    LinesOfChunks(first[w.position..], more);
  }

  /** Partial lines are not buffered: a line whose end arrives after the
      first read comes out as two fragments. */
  lemma PartialLineSplit(w: Watcher)
    requires w.currentFile.Some? && w.currentFile != Some("") && w.position == 0
    ensures var r1 := ReadNewLines(w, Some("ab"));
            var r2 := ReadNewLines(r1.0, Some("abc"));
            r1.1 + r2.1 == ["ab", "c"] && ReadNewLines(w, Some("abc")).1 == ["abc"]
  {
    ReadWithin(w, "ab");
    ReadWithin(w.(position := 2), "abc");
    ReadWithin(w, "abc");
    assert "abc"[2..] == "c";
    SplitWithoutSep("c", '\n');
    SplitWithoutSep("ab", '\n');
    SplitWithoutSep("abc", '\n');
    assert !IsBlank("ab") && !IsBlank("c") && !IsBlank("abc") by {
      assert !IsSpace("ab"[0]) && !IsSpace("c"[0]) && !IsSpace("abc"[0]);
    }
    NonBlankLine("ab");
    NonBlankLine("c");
    NonBlankLine("abc");
  }

  // --- One turn of the monitor loop ---

  /** Everything the daemon keeps between polls. */
  datatype Daemon = Daemon(monitor: MonitorState, watcher: Watcher, parser: Parser.ParserState)

  /** Attaching at start-up to the newest file, from its current end. */
  function Attach(w: Watcher, latest: Option<string>, size: Option<nat>): (r: Watcher)
    ensures latest.Some? && latest.value != "" ==> r.currentFile == latest
    ensures !(latest.Some? && latest.value != "") ==> r == w
  {
    if latest.Some? && latest.value != "" then SwitchToFile(w, latest.value, false, size).0 else w
  }

  /** The state of the daemon after the new-file check of one turn: on a
      new file an active session is ended, the new file is watched from
      its beginning and the parser starts afresh. */
  function OnNewFile(d: Daemon, latest: Option<string>): (r: (Daemon, seq<Notice>))
    ensures CheckForNewFile(d.watcher, latest).None? ==> r == (d, [])
    ensures CheckForNewFile(d.watcher, latest).Some? ==>
              && r.0.watcher == Watcher(latest, 0)
              && r.0.parser == Parser.Reset()
              && !r.0.monitor.sessionActive
              && (d.monitor.sessionActive <==> r.1 == [SessionEndNotice(d.monitor.stats)])
              && (!d.monitor.sessionActive <==> r.1 == [])
  {
    match CheckForNewFile(d.watcher, latest)
    case None => (d, [])
    case Some(path) =>
      var ended := EndSession(d.monitor);
      (Daemon(ended.state, SwitchToFile(d.watcher, path, true, None).0, Parser.Reset()), ended.notices)
  }

  /** One turn of `run` at time `now`: the new-file check, reading and
      parsing the new lines, handling their events, then the timeout.  When
      handling raises, the loop's catch-all takes over and the timeout is
      not checked in that turn; the lines read and the parser's progress
      are kept. */
  function Poll(cfg: Parser.Config, d: Daemon, latest: Option<string>, files: string -> Option<string>,
                now: real, timeoutMinutes: real): (r: (Daemon, seq<Notice>))
    ensures var (d1, n1) := OnNewFile(d, latest);
            var content := if d1.watcher.currentFile.Some? then files(d1.watcher.currentFile.value) else None;
            var (w2, lines) := ReadNewLines(d1.watcher, content);
            var out := Parser.ProcessLines(cfg, d1.parser, lines);
            var h := ProcessEvents(d1.monitor, out.events, now);
            var ends := !h.raised && TimedOut(h.state, now, timeoutMinutes);
            && r.0.watcher == w2 && r.0.parser == out.state
            && r.1 == n1 + h.notices + (if ends then [SessionEndNotice(h.state.stats)] else [])
            && (ends ==> !r.0.monitor.sessionActive && r.0.monitor.stats == FreshStats)
            && (!ends ==> r.0.monitor == h.state)
  {
    var (d1, n1) := OnNewFile(d, latest);
    var content := if d1.watcher.currentFile.Some? then files(d1.watcher.currentFile.value) else None;
    var (w2, lines) := ReadNewLines(d1.watcher, content);
    var out := Parser.ProcessLines(cfg, d1.parser, lines);
    var handled := ProcessEvents(d1.monitor, out.events, now);
    var timeout := if handled.raised then Step(handled.state, [])
                   else CheckSessionTimeout(handled.state, now, timeoutMinutes);
    (Daemon(timeout.state, w2, out.state), n1 + handled.notices + timeout.notices)
  }

  /** The turn as evidently intended: every event of the batch is handled
      and the timeout is always checked. */
  function PollIntended(cfg: Parser.Config, d: Daemon, latest: Option<string>, files: string -> Option<string>,
                        now: real, timeoutMinutes: real): (r: (Daemon, seq<Notice>))
    ensures var (d1, n1) := OnNewFile(d, latest);
            var content := if d1.watcher.currentFile.Some? then files(d1.watcher.currentFile.value) else None;
            var (w2, lines) := ReadNewLines(d1.watcher, content);
            var out := Parser.ProcessLines(cfg, d1.parser, lines);
            var h := ProcessEventsIntended(d1.monitor, out.events, now);
            var ends := TimedOut(h.state, now, timeoutMinutes);
            && r.0.watcher == w2 && r.0.parser == out.state
            && r.1 == n1 + h.notices + (if ends then [SessionEndNotice(h.state.stats)] else [])
            && (!ends ==> r.0.monitor == h.state)
            && (!AnyLacks(out.events) ==> r == Poll(cfg, d, latest, files, now, timeoutMinutes))
  {
    var (d1, n1) := OnNewFile(d, latest);
    var content := if d1.watcher.currentFile.Some? then files(d1.watcher.currentFile.value) else None;
    var (w2, lines) := ReadNewLines(d1.watcher, content);
    var out := Parser.ProcessLines(cfg, d1.parser, lines);
    var handled := ProcessEventsIntended(d1.monitor, out.events, now);
    var timeout := CheckSessionTimeout(handled.state, now, timeoutMinutes);
    HandlesPrefix(d1.monitor, out.events, now);
    (Daemon(timeout.state, w2, out.state), n1 + handled.notices + timeout.notices)
  }

  /** On a new file, the turn parses the whole of it from a fresh parser. */
  lemma NewFileReadFromStart(cfg: Parser.Config, d: Daemon, latest: Option<string>,
                             files: string -> Option<string>, now: real, timeoutMinutes: real)
    requires CheckForNewFile(d.watcher, latest).Some?
    requires files(latest.value).Some?
    ensures var text := files(latest.value).value;
            var r := Poll(cfg, d, latest, files, now, timeoutMinutes);
            && r.0.watcher == Watcher(latest, |text|)
            && r.0.parser == Parser.ProcessLines(cfg, Parser.Reset(), ReadNewLines(Watcher(latest, 0), Some(text)).1).state
  {
  }
}

=== FILE: numbers.dfy ===
/** Numeric field parsing.  The analyzer converts comma-separated fields with
    Python's `float()` and `int()`; both ignore surrounding whitespace, accept
    an optional sign and fail with `ValueError` on anything else.  These are
    modelled as partial functions returning `None` where Python raises.  The
    decimal forms are modelled (`12`, `-3.5`, `.5`, `7.`); exponents, `inf`,
    `nan` and digit-group underscores are not. */
module Numbers {
  import opened Options
  import opened Text

  predicate AllDigits(s: string) {
    forall i :: 0 <= i < |s| ==> IsDigit(s[i])
  }

  function DigitValue(c: char): (d: nat)
    requires IsDigit(c)
    ensures d < 10
  {
    (c as int - '0' as int) as nat
  }

  function Pow10(k: nat): (p: nat)
    ensures p >= 1
  {
    if k == 0 then 1 else 10 * Pow10(k - 1)
  }

  /** The value of a string of decimal digits, most significant first. */
  function DigitsValue(s: string): (v: nat)
    requires AllDigits(s)
    ensures v < Pow10(|s|)
    decreases |s|
  {
    if |s| == 0 then 0
    else 10 * DigitsValue(s[..|s| - 1]) + DigitValue(s[|s| - 1])
  }

  function DigitChar(d: nat): (c: char)
    requires d < 10
    ensures IsDigit(c) && DigitValue(c) == d
  {
    ('0' as int + d) as char
  }

  /** The decimal spelling of `n`, as `str(n)` prints it. */
  function NatToString(n: nat): (s: string)
    ensures |s| >= 1 && AllDigits(s)
    ensures |s| > 1 ==> s[0] != '0'
    decreases n
  {
    if n < 10 then [DigitChar(n)]
    else NatToString(n / 10) + [DigitChar(n % 10)]
  }

  /** The decimal spelling of an integer, with a leading `-` when negative. */
  function IntToString(i: int): (s: string)
    ensures |s| >= 1
  {
    if i < 0 then "-" + NatToString(-i) else NatToString(i)
  }

  /** A non-empty run of digits, read as a natural number. */
  function ParseNat(s: string): (r: Option<nat>)
    ensures r.Some? <==> |s| > 0 && AllDigits(s)
  {
    if |s| > 0 && AllDigits(s) then Some(DigitsValue(s)) else None
  }

  /** Splits an optional leading sign off `s`: the sign factor and the rest. */
  function SignOf(s: string): (r: (int, string))
    ensures r.0 == 1 || r.0 == -1
    ensures |r.1| <= |s| && r.1 == s[|s| - |r.1|..]
  {
    if |s| > 0 && s[0] == '-' then (-1, s[1..])
    else if |s| > 0 && s[0] == '+' then (1, s[1..])
    else (1, s)
  }

  /** Python's `int(s)` on decimal text. */
  function ParseInt(s: string): (r: Option<int>)
  {
    var (sign, body) := SignOf(Strip(s));
    match ParseNat(body)
    case Some(n) => Some(sign * n)
    case None => None
  }

  /** The position of the first `.` in `s`, if any. */
  function DotIndex(s: string): (r: Option<nat>)
    ensures r.Some? ==> r.value < |s| && s[r.value] == '.' && '.' !in s[..r.value]
    ensures r.None? ==> '.' !in s
    decreases |s|
  {
    if |s| == 0 then None
    else if s[0] == '.' then Some(0)
    else match DotIndex(s[1..])
      case Some(k) =>
        assert s[..k + 1] == [s[0]] + s[1..][..k];
        Some(k + 1)
      case None => None
  }

  /** The value of the digits after a decimal point: `0.d1d2…`, read from
      the last digit back. */
  function FracValue(s: string): (v: real)
    requires AllDigits(s)
    ensures 0.0 <= v
    decreases |s|
  {
    if |s| == 0 then 0.0 else (DigitValue(s[0]) as real + FracValue(s[1..])) / 10.0
  }

  /** An unsigned decimal: digits, optionally a `.` and more digits, with at
      least one digit overall. */
  function ParseUnsignedDecimal(s: string): (r: Option<real>)
    ensures r.Some? ==> r.value >= 0.0
  {
    match DotIndex(s)
    case None =>
      if |s| > 0 && AllDigits(s) then Some(DigitsValue(s) as real) else None
    case Some(k) =>
      var whole := s[..k];
      var frac := s[k + 1..];
      if |whole| + |frac| > 0 && AllDigits(whole) && AllDigits(frac) then
        Some(DigitsValue(whole) as real + FracValue(frac))
      else None
  }

  /** Python's `float(s)` on decimal text. */
  function ParseReal(s: string): (r: Option<real>)
  {
    var (sign, body) := SignOf(Strip(s));
    match ParseUnsignedDecimal(body)
    case Some(v) => Some(sign as real * v)
    case None => None
  }

  lemma {:induction false} DigitsValueOfNatToString(n: nat)
    ensures DigitsValue(NatToString(n)) == n
    decreases n
  {
    var s := NatToString(n);
    if n >= 10 {
      DigitsValueOfNatToString(n / 10);
      assert s[..|s| - 1] == NatToString(n / 10);
    }
  }

  /** Reading back the printed form of a natural number gives the number. */
  lemma ParseNatRoundTrip(n: nat)
    ensures ParseNat(NatToString(n)) == Some(n)
  {
    DigitsValueOfNatToString(n);
  }

  lemma DigitIsNotMark(c: char)
    requires IsDigit(c)
    ensures c != '-' && c != '+' && c != '.' && !IsSpace(c)
  {
  }

  lemma StripUnpadded(s: string)
    requires |s| > 0 && !IsSpace(s[0]) && !IsSpace(s[|s| - 1])
    ensures Strip(s) == s
  {
    assert StripLeft(s) == s;
    assert StripRight(s) == s;
  }

  lemma StripOfDigits(s: string)
    requires |s| > 0 && AllDigits(s)
    ensures Strip(s) == s
  {
    StripUnpadded(s);
  }

  /** `int()` reads back what `str()` prints, for every integer. */
  lemma ParseIntRoundTrip(i: int)
    ensures ParseInt(IntToString(i)) == Some(i)
  {
    if i < 0 {
      var n: nat := -i;
      assert IntToString(i) == "-" + NatToString(n);
      ParseNegativeRoundTrip(n);
    } else {
      var n: nat := i;
      assert IntToString(i) == NatToString(n);
      ParseNonNegativeRoundTrip(n);
    }
  }

  lemma ParseNegativeRoundTrip(n: nat)
    requires n > 0
    ensures ParseInt("-" + NatToString(n)) == Some(-(n as int))
  {
    var d := NatToString(n);
    MinusDigits(d);
    ParseNatRoundTrip(n);
    ParseIntOfSigned("-" + d, -1, d, n);
    assert -1 * n == -(n as int);
  }

  /** `int()` of unpadded text whose sign splits off to leave digits. */
  lemma ParseIntOfSigned(s: string, sign: int, d: string, n: nat)
    requires Strip(s) == s && SignOf(s) == (sign, d) && ParseNat(d) == Some(n)
    ensures ParseInt(s) == Some(sign * n)
  {
  }

  /** A minus sign followed by digits has no padding to strip, and its sign
      splits off to leave the digits. */
  lemma MinusDigits(d: string)
    requires |d| > 0 && AllDigits(d)
    ensures Strip("-" + d) == "-" + d && SignOf("-" + d) == (-1, d)
  {
    var s := "-" + d;
    var last := d[|d| - 1];
    assert s[|s| - 1] == last;
    DigitIsNotMark(last);
    StripUnpadded(s);
    assert s[1..] == d;
  }

  lemma ParseNonNegativeRoundTrip(n: nat)
    ensures ParseInt(NatToString(n)) == Some(n)
  {
    var d := NatToString(n);
    assert SignOf(d) == (1, d) by {
      DigitIsNotMark(d[0]);
    }
    StripOfDigits(d);
    ParseNatRoundTrip(n);
    ParseIntOfSigned(d, 1, d, n);
  }

  /** `float()` reads a plain integer spelling as that integer. */
  lemma ParseRealOfNat(n: nat)
    ensures ParseReal(NatToString(n)) == Some(n as real)
  {
    var d := NatToString(n);
    StripOfDigits(d);
    DigitsValueOfNatToString(n);
    DigitIsNotMark(d[0]);
    assert SignOf(d) == (1, d);
    assert DotIndex(d).None? by {
      forall i | 0 <= i < |d| ensures d[i] != '.' {
        DigitIsNotMark(d[i]);
      }
    }
    assert ParseUnsignedDecimal(d) == Some(n as real);
  }
}

=== FILE: options.dfy ===
/** The optional value used across the model wherever the analyzer stores
    `None` in a record field or returns `None` from a helper. */
module Options {

  datatype Option<+T> = None | Some(value: T) {

    /** The wrapped value, or `default` when there is none. */
    function GetOr(default: T): T {
      match this
      case Some(v) => v
      case None => default
    }
  }
}

=== FILE: realtime_parser.dfy ===
/** The streaming `.analyze` line decoder (`RealtimeAnalyzeParser`).
    It is a state machine `(state, line) -> (state, events)`: it remembers the
    pending capture and autofocus starts, the current scheduler job, the guide
    state machine (lost episode, recovery, frequent reacquiring), the
    mount-parking flag and the align-in-progress flag, and turns each
    comma-separated line into at most one typed event. */
module RealtimeParser {
  import opened Options
  import opened Text
  import opened Numbers
  import opened Events
  import opened Lists

  /** The three guide-alert thresholds of the constructor. */
  datatype Config = Config(guideLostThreshold: real, reacquireAlertCount: int,
                           reacquireAlertWindow: real)

  /** The constructor's default thresholds. */
  const DefaultConfig := Config(30.0, 5, 300.0)

  datatype ParserState = ParserState(
    sessionStartTime: Option<string>,
    sessionTimezone: string,
    // Capture state
    captureStartedTime: Option<real>,
    captureStartedFilter: string,
    captureStartedExposure: real,
    // Autofocus state
    afStartedTime: Option<real>,
    afStartedFilter: string,
    afStartedTemp: real,
    // Guide state
    lastGuideState: string,
    lastGuideStateTime: real,
    guidingActive: bool,
    guideLostTime: Option<real>,
    guideLostAlerted: bool,
    reacquireTimes: seq<real>,
    reacquireAlertedAt: real,
    // Align state
    alignInProgress: bool,
    alignStartedTime: Option<real>,
    // Mount and scheduler state
    mountParking: bool,
    currentJob: string)

  /** What one step of the parser produces: the next state and the events. */
  datatype Output = Output(state: ParserState, events: seq<Event>)

  /** `reset()`: every field back to its initial value. */
  function Reset(): (st: ParserState)
    ensures st.captureStartedTime.None? && st.afStartedTime.None?
    ensures st.guideLostTime.None? && !st.guideLostAlerted && !st.guidingActive
    ensures st.reacquireTimes == [] && st.reacquireAlertedAt == 0.0
    ensures !st.alignInProgress && !st.mountParking && st.currentJob == ""
  {
    ParserState(None, "", None, "", 0.0, None, "", 0.0, "", 0.0, false, None, false, [], 0.0,
                false, None, false, "")
  }

  /** Python truthiness of an optional offset: a start recorded at offset
      `0.0` counts as absent. */
  predicate Truthy(o: Option<real>) {
    o.Some? && o.value != 0.0
  }

  /** The state fields owned by the guide state machine are the only ones
      that differ between `a` and `b`. */
  predicate SameOutsideGuide(a: ParserState, b: ParserState) {
    a.(lastGuideState := b.lastGuideState, lastGuideStateTime := b.lastGuideStateTime,
       guidingActive := b.guidingActive, guideLostTime := b.guideLostTime,
       guideLostAlerted := b.guideLostAlerted, reacquireTimes := b.reacquireTimes,
       reacquireAlertedAt := b.reacquireAlertedAt) == b
  }

  /** The guide state machine's invariant: an active guiding run has no lost
      episode open, and a `lost` alert belongs to an open episode. */
  predicate GuideInv(st: ParserState) {
    (st.guidingActive ==> st.guideLostTime.None?) &&
    (st.guideLostAlerted ==> st.guideLostTime.Some?)
  }

  predicate IsGuideProblem(e: Event) {
    e.GuideRecovered? || e.FrequentReacquire? || e.GuideLost?
  }

  /** The guide state machine's own fields. */
  function GuideView(st: ParserState): (bool, Option<real>, bool, seq<real>, real) {
    (st.guidingActive, st.guideLostTime, st.guideLostAlerted, st.reacquireTimes, st.reacquireAlertedAt)
  }

  /** `r` emits at most one event, which is not a guide problem, and leaves
      the guide state machine's fields as in `st`. */
  predicate KeepsGuide(st: ParserState, r: Output) {
    && |r.events| <= 1
    && (|r.events| == 1 ==> !IsGuideProblem(r.events[0]))
    && GuideView(r.state) == GuideView(st)
  }

  // --- Session ---

  function HandleSessionStart(st: ParserState, timeStr: string, timezone: string): (r: Output)
    ensures r.events == [SessionStart(timeStr, timezone)]
    ensures r.state == st.(sessionStartTime := Some(timeStr), sessionTimezone := timezone)
  {
    Output(st.(sessionStartTime := Some(timeStr), sessionTimezone := timezone),
           [SessionStart(timeStr, timezone)])
  }

  // --- Captures ---

  /** `CaptureStarting`: records the start offset first, then the exposure
      and filter; a bad exposure leaves the filter as it was. */
  function HandleCaptureStarting(st: ParserState, time: real, parts: seq<string>): (r: Output)
    requires |parts| >= 4
    ensures r.events == []
    ensures r.state.captureStartedTime == Some(time)
    ensures r.state.(captureStartedTime := st.captureStartedTime,
                     captureStartedExposure := st.captureStartedExposure,
                     captureStartedFilter := st.captureStartedFilter) == st
  {
    var st1 := st.(captureStartedTime := Some(time));
    match ParseReal(parts[2])
    case None => Output(st1, [])
    case Some(e) => Output(st1.(captureStartedExposure := e, captureStartedFilter := Strip(parts[3])), [])
  }

  /** The optional trailing integer and real fields of `CaptureComplete`,
      with the defaults used when the field is missing. */
  function OptionalInt(parts: seq<string>, i: nat): Option<int> {
    if |parts| > i then ParseInt(parts[i]) else Some(0)
  }

  function OptionalReal(parts: seq<string>, i: nat): Option<real> {
    if |parts| > i then ParseReal(parts[i]) else Some(0.0)
  }

  /** `CaptureComplete`: every numeric field must parse, otherwise the line
      yields nothing and the state is untouched. */
  function HandleCaptureComplete(st: ParserState, time: real, parts: seq<string>): (r: Output)
    requires |parts| >= 6
    ensures |r.events| <= 1
    ensures r.events == [] ==> r.state == st
    ensures r.events != [] ==>
              && r.events[0].CaptureComplete?
              && r.events[0].time == time
              && r.state == st.(captureStartedTime := None)
              && ParseReal(parts[2]) == Some(r.events[0].exposure)
              && ParseReal(parts[4]) == Some(r.events[0].hfr)
              && r.events[0].duration ==
                   (if Truthy(st.captureStartedTime) then time - st.captureStartedTime.value
                    else r.events[0].exposure)
    ensures r.events != [] ==>
              var named := ExtractObjectFromFilename(Strip(parts[5]));
              && r.events[0].filter == Strip(parts[3])
              && r.events[0].filename == Strip(parts[5])
              && OptionalInt(parts, 6) == Some(r.events[0].numStars)
              && OptionalInt(parts, 7) == Some(r.events[0].median)
              && OptionalReal(parts, 8) == Some(r.events[0].eccentricity)
              && r.events[0].objectName == (if named == "" then st.currentJob else named)
    ensures (ParseReal(parts[2]).Some? && ParseReal(parts[4]).Some? &&
             OptionalInt(parts, 6).Some? && OptionalInt(parts, 7).Some? &&
             OptionalReal(parts, 8).Some?) <==> r.events != []
  {
    var exposure := ParseReal(parts[2]);
    var hfr := ParseReal(parts[4]);
    var stars := OptionalInt(parts, 6);
    var median := OptionalInt(parts, 7);
    var ecc := OptionalReal(parts, 8);
    if exposure.None? || hfr.None? || stars.None? || median.None? || ecc.None? then
      Output(st, [])
    else
      Output(st.(captureStartedTime := None),
             [CompletionEvent(st, time, parts, exposure.value, hfr.value, stars.value, median.value, ecc.value)])
  }

  /** The event of a `CaptureComplete` line whose numeric fields parsed. */
  function CompletionEvent(st: ParserState, time: real, parts: seq<string>, exposure: real, hfr: real,
                           stars: int, median: int, ecc: real): (e: Event)
    requires |parts| >= 6
    ensures e.CaptureComplete? && e.time == time && e.exposure == exposure && e.hfr == hfr
    ensures e.duration == (if Truthy(st.captureStartedTime) then time - st.captureStartedTime.value else exposure)
  {
    var filename := Strip(parts[5]);
    var duration := if Truthy(st.captureStartedTime) then time - st.captureStartedTime.value
                    else exposure;
    var objectName := ExtractObjectFromFilename(filename);
    CaptureComplete(time, exposure, Strip(parts[3]), hfr, filename, stars, median, ecc, duration,
                    if objectName == "" then st.currentJob else objectName)
  }

  function HandleCaptureAborted(st: ParserState, time: real, parts: seq<string>): (r: Output)
    requires |parts| >= 3
    ensures |r.events| <= 1
    ensures r.events == [] <==> ParseReal(parts[2]).None?
    ensures r.events == [] ==> r.state == st
    ensures r.events != [] ==>
              && r.state == st.(captureStartedTime := None)
              && r.events[0] == CaptureAborted(time, ParseReal(parts[2]).value,
                                               st.captureStartedFilter, st.currentJob)
  {
    match ParseReal(parts[2])
    case None => Output(st, [])
    case Some(e) =>
      Output(st.(captureStartedTime := None),
             [CaptureAborted(time, e, st.captureStartedFilter, st.currentJob)])
  }

  // --- Autofocus ---

  /** `AutofocusStarting`: records the start offset and filter, then the
      temperature; a bad temperature keeps the previous one. */
  function HandleAfStarting(st: ParserState, time: real, parts: seq<string>): (r: Output)
    requires |parts| >= 4
    ensures r.events == []
    ensures r.state.afStartedTime == Some(time)
    ensures r.state.afStartedFilter == Strip(parts[2])
    ensures r.state.(afStartedTime := st.afStartedTime, afStartedFilter := st.afStartedFilter,
                     afStartedTemp := st.afStartedTemp) == st
  {
    var st1 := st.(afStartedTime := Some(time), afStartedFilter := Strip(parts[2]));
    match ParseReal(parts[3])
    case None => Output(st1, [])
    case Some(v) => Output(st1.(afStartedTemp := v), [])
  }

  /** The solution text of an `AutofocusComplete` line: the focuser position
      (first token after the last `Solution:`), the text after the last
      `R²=`, and the whole stripped solution text.  All three are empty when
      the line has no `Solution:` or nothing follows it. */
  function SolutionInfo(fullLine: string): (r: (string, string, string))
    ensures !Contains(fullLine, "Solution:") ==> r == ("", "", "")
    ensures r.0 == "" <==> r.2 == ""
    ensures r.0 != "" ==> Contains(r.2, r.0) && Contains(fullLine, r.2)
    ensures r.1 != "" ==> r.0 != ""
  {
    if !Contains(fullLine, "Solution:") then ("", "", "")
    else
      var tail := AfterLast(fullLine, "Solution:");
      var r := SolutionFields(Strip(tail));
      assert r.0 != "" ==> Contains(fullLine, r.2) by {
        if r.0 != "" {
          SuffixContained(fullLine, tail);
          ContainsTrans(fullLine, tail, r.2);
        }
      }
      r
  }

  /** With `Solution:` in the line, the position is the first
      whitespace-separated token of the stripped text after its last
      occurrence, R² is the stripped text after the last `R²=` in that part,
      and all three are empty when that part is blank. */
  lemma SolutionInfoFields(fullLine: string)
    requires Contains(fullLine, "Solution:")
    ensures var r := SolutionInfo(fullLine);
            var sol := Strip(AfterLast(fullLine, "Solution:"));
            && (FirstToken(sol).None? ==> r == ("", "", ""))
            && (FirstToken(sol).Some? ==>
                  && r.0 == FirstToken(sol).value
                  && r.1 == (if Contains(sol, "R²=") then Strip(AfterLast(sol, "R²=")) else "")
                  && r.2 == sol)
  {
  }

  /** The fields of a stripped solution text: its first token, the text
      after its last `R²=`, and the text itself; all empty when the text
      has no token. */
  function SolutionFields(solPart: string): (r: (string, string, string))
    ensures r.0 == "" <==> r.2 == ""
    ensures r.0 != "" ==> Contains(r.2, r.0) && r.2 == solPart
    ensures r.1 != "" ==> r.0 != ""
    ensures FirstToken(solPart).None? ==> r == ("", "", "")
    ensures FirstToken(solPart).Some? ==>
              && r.0 == FirstToken(solPart).value
              && r.1 == (if Contains(solPart, "R²=") then Strip(AfterLast(solPart, "R²=")) else "")
              && r.2 == solPart
  {
    match FirstToken(solPart)
    case None => ("", "", "")
    case Some(position) =>
      var rSquared := if Contains(solPart, "R²=") then Strip(AfterLast(solPart, "R²=")) else "";
      (position, rSquared, solPart)
  }

  /** `AutofocusComplete`: nothing without a pending start; otherwise an
      event whose duration is measured from that start, and the start is
      consumed. */
  function HandleAfComplete(st: ParserState, time: real, parts: seq<string>): (r: Output)
    requires |parts| >= 4
    ensures |r.events| <= 1
    ensures st.afStartedTime.None? <==> r.events == []
    ensures r.events == [] ==> r.state == st
    ensures r.events != [] ==>
              && r.state == st.(afStartedTime := None)
              && r.events[0].AutofocusComplete?
              && r.events[0].time == time
              && r.events[0].filter == st.afStartedFilter
              && r.events[0].duration == time - st.afStartedTime.value
              && r.events[0].temperature == ParseReal(parts[2]).GetOr(st.afStartedTemp)
              && (r.events[0].position, r.events[0].rSquared, r.events[0].solutionInfo)
                 == SolutionInfo(Join(parts, ','))
  {
    if st.afStartedTime.None? then Output(st, [])
    else
      var (position, rSquared, solution) := SolutionInfo(Join(parts, ','));
      var temperature := match ParseReal(parts[2]) case Some(v) => v case None => st.afStartedTemp;
      Output(st.(afStartedTime := None),
             [AutofocusComplete(time, st.afStartedFilter, temperature, time - st.afStartedTime.value,
                                position, rSquared, solution)])
  }

  /** `AutofocusAborted`: always one event; its duration is zero when no
      (truthy) start is pending. */
  function HandleAfAborted(st: ParserState, time: real): (r: Output)
    ensures |r.events| == 1 && r.events[0].AutofocusAborted?
    ensures r.state == st.(afStartedTime := None)
    ensures !Truthy(st.afStartedTime) ==> r.events[0].duration == 0.0
    ensures Truthy(st.afStartedTime) ==> r.events[0].duration == time - st.afStartedTime.value
  {
    var duration := if Truthy(st.afStartedTime) then time - st.afStartedTime.value else 0.0;
    Output(st.(afStartedTime := None), [AutofocusAborted(time, st.afStartedFilter, duration)])
  }

  // --- Guide state ---

  /** Whether a reacquire time is strictly after `cutoff`. */
  function After(cutoff: real): real -> bool {
    t => t > cutoff
  }

  /** The reacquire times strictly after `cutoff`, in order, each as often
      as it was recorded. */
  function KeepAfter(ts: seq<real>, cutoff: real): (r: seq<real>)
    ensures |r| <= |ts|
    ensures forall t :: multiset(r)[t] == if t > cutoff then multiset(ts)[t] else 0
    ensures forall i :: 0 <= i < |r| ==> r[i] > cutoff && r[i] in ts
    ensures forall i :: 0 <= i < |ts| && ts[i] > cutoff ==> ts[i] in r
  {
    KeepCounts(ts, After(cutoff));
    Keep(ts, After(cutoff))
  }

  /** The kept times keep their recorded order. */
  lemma KeepAfterAppend(a: seq<real>, b: seq<real>, cutoff: real)
    ensures KeepAfter(a + b, cutoff) == KeepAfter(a, cutoff) + KeepAfter(b, cutoff)
  {
    KeepAppend(a, b, After(cutoff));
  }

  /** `Guiding`: closes any lost episode, reporting `recovered` when the
      episode had been alerted. */
  function OnGuiding(st: ParserState, time: real): (r: Output)
    ensures r.state == st.(guidingActive := true, guideLostTime := None, guideLostAlerted := false)
    ensures r.events != [] <==> st.guideLostTime.Some? && st.guideLostAlerted
    ensures r.events != [] ==> r.events == [GuideRecovered(time, time - st.guideLostTime.value)]
  {
    var events := if st.guideLostTime.Some? && st.guideLostAlerted
                  then [GuideRecovered(time, time - st.guideLostTime.value)] else [];
    Output(st.(guidingActive := true, guideLostTime := None, guideLostAlerted := false), events)
  }

  /** `Reacquiring`: records the time, keeps only those inside the window,
      and alerts when enough remain and a full window has passed since the
      previous alert. */
  function OnReacquiring(cfg: Config, st: ParserState, time: real): (r: Output)
    ensures r.state == st.(reacquireTimes := r.state.reacquireTimes,
                           reacquireAlertedAt := r.state.reacquireAlertedAt)
    ensures forall i :: 0 <= i < |r.state.reacquireTimes| ==>
              r.state.reacquireTimes[i] > time - cfg.reacquireAlertWindow &&
              r.state.reacquireTimes[i] in st.reacquireTimes + [time]
    ensures cfg.reacquireAlertWindow > 0.0 ==> time in r.state.reacquireTimes
    ensures |r.state.reacquireTimes| <= |st.reacquireTimes| + 1
    ensures r.events != [] <==>
              |r.state.reacquireTimes| >= cfg.reacquireAlertCount &&
              time - st.reacquireAlertedAt > cfg.reacquireAlertWindow
    ensures r.events != [] ==>
              r.events == [FrequentReacquire(time, |r.state.reacquireTimes|, cfg.reacquireAlertWindow)] &&
              r.state.reacquireAlertedAt == time
    ensures r.events == [] ==> r.state.reacquireAlertedAt == st.reacquireAlertedAt
    ensures r.state.reacquireTimes == KeepAfter(st.reacquireTimes + [time], time - cfg.reacquireAlertWindow)
  {
    var all := st.reacquireTimes + [time];
    var kept := KeepAfter(all, time - cfg.reacquireAlertWindow);
    assert all[|st.reacquireTimes|] == time;
    if |kept| >= cfg.reacquireAlertCount && time - st.reacquireAlertedAt > cfg.reacquireAlertWindow then
      Output(st.(reacquireTimes := kept, reacquireAlertedAt := time),
             [FrequentReacquire(time, |kept|, cfg.reacquireAlertWindow)])
    else
      Output(st.(reacquireTimes := kept), [])
  }

  /** `Aborted` or `Idle`: opens a lost episode if guiding was active, then
      alerts `lost` once the episode has lasted the threshold. */
  function OnStopped(cfg: Config, st: ParserState, time: real): (r: Output)
    ensures r.state == st.(guidingActive := r.state.guidingActive, guideLostTime := r.state.guideLostTime,
                           guideLostAlerted := r.state.guideLostAlerted)
    ensures GuideInv(st) ==> !r.state.guidingActive
    ensures st.guideLostTime.Some? ==> r.state.guideLostTime == st.guideLostTime
    ensures st.guideLostTime.None? ==>
              (r.state.guideLostTime.Some? <==> st.guidingActive) &&
              (st.guidingActive ==> r.state.guideLostTime == Some(time))
    ensures !st.guidingActive ==> r.state.guidingActive == st.guidingActive
    ensures st.guideLostAlerted ==> r.events == [] && r.state.guideLostAlerted
    ensures r.events != [] <==>
              !st.guideLostAlerted && r.state.guideLostTime.Some? &&
              time - r.state.guideLostTime.value >= cfg.guideLostThreshold
    ensures r.events != [] ==>
              r.state.guideLostAlerted &&
              r.events == [GuideLost(time, time - r.state.guideLostTime.value)]
    ensures r.events == [] ==> r.state.guideLostAlerted == st.guideLostAlerted
  {
    var st1 := if st.guidingActive && st.guideLostTime.None?
               then st.(guideLostTime := Some(time), guidingActive := false) else st;
    if st1.guideLostTime.Some? && !st1.guideLostAlerted &&
       time - st1.guideLostTime.value >= cfg.guideLostThreshold then
      Output(st1.(guideLostAlerted := true), [GuideLost(time, time - st1.guideLostTime.value)])
    else
      Output(st1, [])
  }

  /** `_handle_guide_state`: records the state, then runs the branch for it;
      Dithering, Calibrating, Looping, Selecting star and any other state
      change nothing else. */
  function HandleGuideState(cfg: Config, st: ParserState, time: real, state: string): (r: Output)
    ensures |r.events| <= 1
    ensures SameOutsideGuide(st, r.state)
    ensures r.state.lastGuideState == state && r.state.lastGuideStateTime == time
    ensures GuideInv(st) ==> GuideInv(r.state)
    ensures state == "Guiding" ==>
              r.state.guidingActive && r.state.guideLostTime.None? && !r.state.guideLostAlerted
    ensures state !in {"Guiding", "Reacquiring", "Aborted", "Idle"} ==>
              r.events == [] && r.state == st.(lastGuideState := state, lastGuideStateTime := time)
    ensures r.events != [] && r.events[0].GuideRecovered? ==> state == "Guiding"
    ensures r.events != [] && r.events[0].FrequentReacquire? ==> state == "Reacquiring"
    ensures r.events != [] && r.events[0].GuideLost? ==> state == "Aborted" || state == "Idle"
  {
    var st1 := st.(lastGuideState := state, lastGuideStateTime := time);
    if state == "Guiding" then OnGuiding(st1, time)
    else if state == "Reacquiring" then OnReacquiring(cfg, st1, time)
    else if state == "Aborted" || state == "Idle" then OnStopped(cfg, st1, time)
    else Output(st1, [])
  }

  // --- Mount state ---

  function HandleMountState(st: ParserState, time: real, state: string): (r: Output)
    ensures |r.events| <= 1
    ensures r.state == st.(mountParking := r.state.mountParking)
    ensures r.state.mountParking <==> state == "Parking"
    ensures r.events != [] && r.events[0] == MountParking(time, Parking) <==>
              state == "Parking" && !st.mountParking
    ensures r.events != [] && r.events[0] == MountParking(time, Parked) <==>
              state == "Parked" && st.mountParking
    ensures r.events != [] ==> r.events[0].MountParking? && r.events[0].time == time
  {
    if state == "Parking" then
      if !st.mountParking then
        Output(st.(mountParking := true), [MountParking(time, Parking)])
      else Output(st, [])
    else if state == "Parked" || state == "Idle" then
      if st.mountParking then
        Output(st.(mountParking := false),
               if state == "Parked" then [MountParking(time, Parked)] else [])
      else Output(st, [])
    else
      // Slewing, Tracking and any other state.
      Output(st.(mountParking := false), [])
  }

  // --- Scheduler ---

  function HandleSchedulerStart(st: ParserState, time: real, jobName: string): (r: Output)
    ensures r.state == st.(currentJob := jobName)
    ensures r.events == [SchedulerJobStart(time, jobName)]
  {
    Output(st.(currentJob := jobName), [SchedulerJobStart(time, jobName)])
  }

  function HandleSchedulerEnd(st: ParserState, time: real, jobName: string, reason: string): (r: Output)
    ensures r.state == st.(currentJob := "")
    ensures r.events == [SchedulerJobEnd(time, jobName, reason)]
  {
    Output(st.(currentJob := ""), [SchedulerJobEnd(time, jobName, reason)])
  }

  // --- Align state ---

  function AlignDuration(st: ParserState, time: real): real {
    if Truthy(st.alignStartedTime) then time - st.alignStartedTime.value else 0.0
  }

  function HandleAlignState(st: ParserState, time: real, state: string): (r: Output)
    ensures |r.events| <= 1
    ensures r.state == st.(alignInProgress := r.state.alignInProgress,
                           alignStartedTime := r.state.alignStartedTime)
    ensures state == "In Progress" ==>
              r.events == [] && r.state.alignInProgress &&
              (!st.alignInProgress ==> r.state.alignStartedTime == Some(time)) &&
              (st.alignInProgress ==> r.state == st)
    ensures r.events != [] <==>
              st.alignInProgress && (state == "Complete" || state == "Failed" || state == "Aborted")
    ensures r.events != [] ==>
              !r.state.alignInProgress && r.state.alignStartedTime.None? &&
              (r.events[0].AlignComplete? || r.events[0].AlignFailed?) &&
              (r.events[0].AlignComplete? <==> state == "Complete") &&
              (r.events[0].AlignFailed? ==> r.events[0].state == state) &&
              (Truthy(st.alignStartedTime) ==> r.events[0].duration == time - st.alignStartedTime.value) &&
              (!Truthy(st.alignStartedTime) ==> r.events[0].duration == 0.0)
    ensures state !in {"In Progress", "Complete", "Failed", "Aborted"} ==> r.state == st
  {
    if state == "In Progress" then
      if !st.alignInProgress then
        Output(st.(alignInProgress := true, alignStartedTime := Some(time)), [])
      else Output(st, [])
    else if state == "Complete" then
      if st.alignInProgress then
        Output(st.(alignInProgress := false, alignStartedTime := None),
               [AlignComplete(time, AlignDuration(st, time))])
      else Output(st, [])
    else if state == "Failed" || state == "Aborted" then
      if st.alignInProgress then
        Output(st.(alignInProgress := false, alignStartedTime := None),
               [AlignFailed(time, AlignDuration(st, time), state)])
      else Output(st, [])
    else Output(st, [])
  }

  // --- Meridian flip ---

  function HandleMeridianFlip(time: real, state: string): (r: seq<Event>)
    ensures |r| <= 1
    ensures r != [] <==> state in {"MOUNT_FLIP_RUNNING", "MOUNT_FLIP_COMPLETED", "MOUNT_FLIP_ERROR"}
    ensures r != [] ==> r[0] == MeridianFlip(time, state)
  {
    if state in {"MOUNT_FLIP_RUNNING", "MOUNT_FLIP_COMPLETED", "MOUNT_FLIP_ERROR"} then
      [MeridianFlip(time, state)]
    else []
  }

  // --- Object name from a capture file path ---

  /** The first index `i` with `parts[i] == "Pictures"` that has a
      following component. */
  function PicturesIndex(parts: seq<string>, from: nat): (r: Option<nat>)
    requires from <= |parts|
    ensures r.Some? ==> from <= r.value && r.value + 1 < |parts| && parts[r.value] == "Pictures"
    ensures r.Some? ==> forall j :: from <= j < r.value ==> !(parts[j] == "Pictures" && j + 1 < |parts|)
    ensures r.None? ==> forall j :: from <= j < |parts| ==> !(parts[j] == "Pictures" && j + 1 < |parts|)
    decreases |parts| - from
  {
    if from == |parts| then None
    else if parts[from] == "Pictures" && from + 1 < |parts| then Some(from)
    else PicturesIndex(parts, from + 1)
  }

  predicate IsDateToken(p: string) {
    StartsWith(p, "20") || StartsWith(p, "19")
  }

  /** The loop over the `_`-separated file-name tokens: skip up to and
      including the first date-like token, then collect until `Light`. */
  function ObjectTokens(tokens: seq<string>, foundDate: bool): (r: seq<string>)
    ensures |r| <= |tokens|
    ensures forall i :: 0 <= i < |r| ==> r[i] in tokens && r[i] != "Light"
    decreases |tokens|
  {
    if |tokens| == 0 then []
    else
      var p := tokens[0];
      if !foundDate && IsDateToken(p) then ObjectTokens(tokens[1..], true)
      else if foundDate && p == "Light" then []
      else if foundDate then [p] + ObjectTokens(tokens[1..], true)
      else ObjectTokens(tokens[1..], false)
  }

  /** The tokens before the first `Light`. */
  function TakeUntilLight(tokens: seq<string>): (r: seq<string>)
    ensures |r| <= |tokens| && r == tokens[..|r|]
    ensures forall i :: 0 <= i < |r| ==> r[i] != "Light"
    ensures |r| < |tokens| ==> tokens[|r|] == "Light"
    decreases |tokens|
  {
    if |tokens| == 0 || tokens[0] == "Light" then [] else [tokens[0]] + TakeUntilLight(tokens[1..])
  }

  /** The first date-like token at or after `from`, if any. */
  function FirstDateToken(tokens: seq<string>, from: nat): (r: Option<nat>)
    requires from <= |tokens|
    ensures r.Some? ==> from <= r.value < |tokens| && IsDateToken(tokens[r.value])
    ensures r.Some? ==> forall j :: from <= j < r.value ==> !IsDateToken(tokens[j])
    ensures r.None? ==> forall j :: from <= j < |tokens| ==> !IsDateToken(tokens[j])
    decreases |tokens| - from
  {
    if from == |tokens| then None
    else if IsDateToken(tokens[from]) then Some(from)
    else FirstDateToken(tokens, from + 1)
  }

  /** The token loop collects exactly the tokens strictly between the first
      date-like token and the next `Light` (none when there is no date). */
  lemma {:induction false} ObjectTokensBetweenDateAndLight(tokens: seq<string>)
    ensures ObjectTokens(tokens, false) ==
              match FirstDateToken(tokens, 0)
              case Some(d) => TakeUntilLight(tokens[d + 1..])
              case None => []
    decreases |tokens|
  {
    if |tokens| > 0 {
      FoundDateTakesUntilLight(tokens[1..]);
      if !IsDateToken(tokens[0]) {
        ObjectTokensBetweenDateAndLight(tokens[1..]);
        ShiftFirstDate(tokens, 1);
        match FirstDateToken(tokens[1..], 0)
        case Some(d) => assert tokens[1..][d + 1..] == tokens[d + 2..];
        case None =>
      } else {
        assert FirstDateToken(tokens, 0) == Some(0);
      }
    }
  }

  lemma {:induction false} FoundDateTakesUntilLight(tokens: seq<string>)
    ensures ObjectTokens(tokens, true) == TakeUntilLight(tokens)
    decreases |tokens|
  {
    if |tokens| > 0 {
      FoundDateTakesUntilLight(tokens[1..]);
    }
  }

  /** Searching from `from >= 1` in `tokens` is searching from `from - 1`
      in `tokens[1..]`, shifted by one. */
  lemma {:induction false} ShiftFirstDate(tokens: seq<string>, from: nat)
    requires 1 <= from <= |tokens|
    ensures FirstDateToken(tokens, from) ==
              match FirstDateToken(tokens[1..], from - 1)
              case Some(d) => Some(d + 1)
              case None => None
    decreases |tokens| - from
  {
    if from < |tokens| {
      assert tokens[1..][from - 1] == tokens[from];
      if !IsDateToken(tokens[from]) {
        ShiftFirstDate(tokens, from + 1);
      }
    }
  }

  /** `_extract_object_from_filename`: the component after `Pictures` in the
      path (underscores read as spaces); otherwise the file-name tokens
      between the date and `Light`, joined with spaces; otherwise empty. */
  function ExtractObjectFromFilename(filename: string): (r: string)
    ensures filename == "" ==> r == ""
    ensures '_' !in r && '/' !in r && '\\' !in r
  {
    if filename == "" then ""
    else
      var parts := Split(ReplaceChar(filename, '\\', '/'), '/');
      match PicturesIndex(parts, 0)
      case Some(i) =>
        var r := ReplaceChar(parts[i + 1], '_', ' ');
        assert '/' !in parts[i + 1];
        assert '\\' !in parts[i + 1] by { BackslashGone(filename, parts, i + 1); }
        r
      case None =>
        var nameParts := Split(parts[|parts| - 1], '_');
        if |nameParts| > 2 then
          var obj := ObjectTokens(nameParts, false);
          if obj != [] then
            var r := Join(obj, ' ');
            forall c | c in r ensures c != '_' && c != '/' && c != '\\' {
              JoinChars(obj, ' ', c);
              if c != ' ' {
                var k :| 0 <= k < |obj| && c in obj[k];
                var j :| 0 <= j < |nameParts| && nameParts[j] == obj[k];
                TokenChars(filename, parts, nameParts, j, c);
              }
            }
            r
          else ""
        else ""
  }

  /** The tokens strictly between the first date-like token and the next
      `Light`, or none when no token is date-like. */
  function DateToLight(tokens: seq<string>): (r: seq<string>)
    ensures forall i :: 0 <= i < |r| ==> r[i] != "Light"
  {
    match FirstDateToken(tokens, 0)
    case Some(d) => TakeUntilLight(tokens[d + 1..])
    case None => []
  }

  /** The object-name rules of a non-empty capture path: the component after
      the first `Pictures` that has one, with `_` read as a space; failing
      that, the base name's tokens from the date to `Light` joined with
      spaces, when the base name has more than two tokens and that run is
      not empty; failing both, the empty name. */
  lemma ObjectNameRules(filename: string)
    requires filename != ""
    ensures var parts := Split(ReplaceChar(filename, '\\', '/'), '/');
            var r := ExtractObjectFromFilename(filename);
            match PicturesIndex(parts, 0)
            case Some(i) => r == ReplaceChar(parts[i + 1], '_', ' ')
            case None =>
              var tokens := Split(parts[|parts| - 1], '_');
              r == if |tokens| > 2 && DateToLight(tokens) != [] then Join(DateToLight(tokens), ' ') else ""
  {
    var parts := Split(ReplaceChar(filename, '\\', '/'), '/');
    match PicturesIndex(parts, 0)
    case Some(i) => NameFromPictures(filename, parts, i);
    case None => NameFromBaseName(filename, parts);
  }

  /** With a `Pictures` component the name is the component after it. */
  lemma NameFromPictures(filename: string, parts: seq<string>, i: nat)
    requires filename != "" && parts == Split(ReplaceChar(filename, '\\', '/'), '/')
    requires PicturesIndex(parts, 0) == Some(i)
    ensures ExtractObjectFromFilename(filename) == ReplaceChar(parts[i + 1], '_', ' ')
  {
  }

  /** Without a `Pictures` component the name comes from the base name's
      tokens. */
  lemma NameFromBaseName(filename: string, parts: seq<string>)
    requires filename != "" && parts == Split(ReplaceChar(filename, '\\', '/'), '/')
    requires PicturesIndex(parts, 0).None?
    ensures var tokens := Split(parts[|parts| - 1], '_');
            ExtractObjectFromFilename(filename) ==
              if |tokens| > 2 && DateToLight(tokens) != [] then Join(DateToLight(tokens), ' ') else ""
  {
    var tokens := Split(parts[|parts| - 1], '_');
    ObjectTokensBetweenDateAndLight(tokens);
    assert ObjectTokens(tokens, false) == DateToLight(tokens);
  }

  /** No piece of the `/`-split of the backslash-normalised path holds a
      backslash. */
  lemma BackslashGone(filename: string, parts: seq<string>, k: nat)
    requires parts == Split(ReplaceChar(filename, '\\', '/'), '/') && k < |parts|
    ensures '\\' !in parts[k]
  {
    var n := ReplaceChar(filename, '\\', '/');
    assert '\\' !in n;
    JoinSplit(n, '/');
    if '\\' in parts[k] {
      JoinHolds(parts, '/', k, '\\');
    }
  }

  /** A character of a piece is a character of the join. */
  lemma {:induction false} JoinHolds(parts: seq<string>, sep: char, k: nat, c: char)
    requires k < |parts| && c in parts[k]
    ensures c in Join(parts, sep)
    decreases k
  {
    if k > 0 {
      JoinHolds(parts[1..], sep, k - 1, c);
    }
  }

  /** A token of the base name holds neither `_` nor a path separator. */
  lemma TokenChars(filename: string, parts: seq<string>, nameParts: seq<string>, j: nat, c: char)
    requires parts == Split(ReplaceChar(filename, '\\', '/'), '/')
    requires nameParts == Split(parts[|parts| - 1], '_') && j < |nameParts| && c in nameParts[j]
    ensures c != '_' && c != '/' && c != '\\'
  {
    var base := parts[|parts| - 1];
    JoinSplit(base, '_');
    JoinHolds(nameParts, '_', j, c);
    assert '/' !in base;
    BackslashGone(filename, parts, |parts| - 1);
  }

  // --- One line ---

  /** The command words the parser reacts to; `OtherCmd` for the rest. */
  datatype Command =
    | CaptureStartingCmd | CaptureCompleteCmd | CaptureAbortedCmd
    | AutofocusStartingCmd | AutofocusCompleteCmd | AutofocusAbortedCmd
    | GuideStateCmd | MountStateCmd | SchedulerJobStartCmd | SchedulerJobEndCmd
    | AlignStateCmd | MeridianFlipStateCmd | OtherCmd

  function CommandOf(word: string): Command {
    if word == "CaptureStarting" then CaptureStartingCmd
    else if word == "CaptureComplete" then CaptureCompleteCmd
    else if word == "CaptureAborted" then CaptureAbortedCmd
    else if word == "AutofocusStarting" then AutofocusStartingCmd
    else if word == "AutofocusComplete" then AutofocusCompleteCmd
    else if word == "AutofocusAborted" then AutofocusAbortedCmd
    else if word == "GuideState" then GuideStateCmd
    else if word == "MountState" then MountStateCmd
    else if word == "SchedulerJobStart" then SchedulerJobStartCmd
    else if word == "SchedulerJobEnd" then SchedulerJobEndCmd
    else if word == "AlignState" then AlignStateCmd
    else if word == "MeridianFlipState" then MeridianFlipStateCmd
    else OtherCmd
  }

  /** The field count below which a command's line is ignored. */
  function MinFields(cmd: Command): nat {
    match cmd
    case CaptureStartingCmd => 4
    case CaptureCompleteCmd => 6
    case AutofocusStartingCmd => 4
    case AutofocusCompleteCmd => 4
    case AutofocusAbortedCmd => 4
    case SchedulerJobEndCmd => 4
    case _ => 3
  }

  /** The handler chosen by the command word and the field count, once the
      offset field has parsed. */
  function Dispatch(cfg: Config, st: ParserState, cmd: Command, time: real, parts: seq<string>): (r: Output)
    requires |parts| >= 2
    ensures |r.events| <= 1
    ensures cmd == OtherCmd || |parts| < MinFields(cmd) ==> r == Output(st, [])
    ensures !(cmd == GuideStateCmd && |parts| >= 3) ==> KeepsGuide(st, r)
  {
    if |parts| < MinFields(cmd) then Output(st, [])
    else if cmd == GuideStateCmd then HandleGuideState(cfg, st, time, Strip(parts[2]))
    else if cmd.CaptureStartingCmd? || cmd.CaptureCompleteCmd? || cmd.CaptureAbortedCmd? then
      DispatchCapture(st, cmd, time, parts)
    else if cmd.AutofocusStartingCmd? || cmd.AutofocusCompleteCmd? || cmd.AutofocusAbortedCmd? then
      DispatchAutofocus(st, cmd, time, parts)
    else DispatchDevice(st, cmd, time, parts)
  }

  /** The capture commands' handlers. */
  function DispatchCapture(st: ParserState, cmd: Command, time: real, parts: seq<string>): (r: Output)
    requires |parts| >= MinFields(cmd)
    ensures KeepsGuide(st, r)
  {
    match cmd
    case CaptureStartingCmd => CaptureStartingKeepsGuide(st, time, parts); HandleCaptureStarting(st, time, parts)
    case CaptureCompleteCmd => CaptureCompleteKeepsGuide(st, time, parts); HandleCaptureComplete(st, time, parts)
    case CaptureAbortedCmd => CaptureAbortedKeepsGuide(st, time, parts); HandleCaptureAborted(st, time, parts)
    case _ => Output(st, [])
  }

  /** The autofocus commands' handlers. */
  function DispatchAutofocus(st: ParserState, cmd: Command, time: real, parts: seq<string>): (r: Output)
    requires |parts| >= MinFields(cmd)
    ensures KeepsGuide(st, r)
  {
    match cmd
    case AutofocusStartingCmd => AfStartingKeepsGuide(st, time, parts); HandleAfStarting(st, time, parts)
    case AutofocusCompleteCmd => AfCompleteKeepsGuide(st, time, parts); HandleAfComplete(st, time, parts)
    case AutofocusAbortedCmd => AfAbortedKeepsGuide(st, time); HandleAfAborted(st, time)
    case _ => Output(st, [])
  }

  /** The mount, scheduler, alignment and meridian-flip handlers. */
  function DispatchDevice(st: ParserState, cmd: Command, time: real, parts: seq<string>): (r: Output)
    requires |parts| >= MinFields(cmd) && |parts| >= 3
    ensures cmd == OtherCmd ==> r == Output(st, [])
    ensures KeepsGuide(st, r)
  {
    var state := Strip(parts[2]);
    match cmd
    case MountStateCmd => MountStateKeepsGuide(st, time, state); HandleMountState(st, time, state)
    case SchedulerJobStartCmd => SchedulerStartKeepsGuide(st, time, state); HandleSchedulerStart(st, time, state)
    case SchedulerJobEndCmd =>
      SchedulerEndKeepsGuide(st, time, state, Strip(parts[3]));
      HandleSchedulerEnd(st, time, state, Strip(parts[3]))
    case AlignStateCmd => AlignStateKeepsGuide(st, time, state); HandleAlignState(st, time, state)
    case MeridianFlipStateCmd => MeridianFlipKeepsGuide(st, time, state); Output(st, HandleMeridianFlip(time, state))
    case _ => Output(st, [])
  }

  /** Each handler but the guide-state one keeps the guide fields. */
  lemma CaptureStartingKeepsGuide(st: ParserState, time: real, parts: seq<string>)
    requires |parts| >= 4
    ensures KeepsGuide(st, HandleCaptureStarting(st, time, parts))
  {
  }

  lemma CaptureCompleteKeepsGuide(st: ParserState, time: real, parts: seq<string>)
    requires |parts| >= 6
    ensures KeepsGuide(st, HandleCaptureComplete(st, time, parts))
  {
    var r := HandleCaptureComplete(st, time, parts);
    CaptureOutputKeepsGuide(st, r);
  }

  /** An output that is either nothing or one capture completion clearing
      the capture start keeps the guide fields. */
  lemma CaptureOutputKeepsGuide(st: ParserState, r: Output)
    requires |r.events| <= 1
    requires r.events == [] ==> r.state == st
    requires r.events != [] ==> r.events[0].CaptureComplete? && r.state == st.(captureStartedTime := None)
    ensures KeepsGuide(st, r)
  {
  }

  lemma CaptureAbortedKeepsGuide(st: ParserState, time: real, parts: seq<string>)
    requires |parts| >= 3
    ensures KeepsGuide(st, HandleCaptureAborted(st, time, parts))
  {
  }

  lemma AfStartingKeepsGuide(st: ParserState, time: real, parts: seq<string>)
    requires |parts| >= 4
    ensures KeepsGuide(st, HandleAfStarting(st, time, parts))
  {
    var r := HandleAfStarting(st, time, parts);
    var back := r.state.(afStartedTime := st.afStartedTime, afStartedFilter := st.afStartedFilter,
                         afStartedTemp := st.afStartedTemp);
    assert GuideView(back) == GuideView(r.state);
  }

  lemma AfCompleteKeepsGuide(st: ParserState, time: real, parts: seq<string>)
    requires |parts| >= 4
    ensures KeepsGuide(st, HandleAfComplete(st, time, parts))
  {
    var r := HandleAfComplete(st, time, parts);
    if st.afStartedTime.Some? {
      assert r.events[0].AutofocusComplete? && r.state == st.(afStartedTime := None);
    }
  }

  lemma AfAbortedKeepsGuide(st: ParserState, time: real)
    ensures KeepsGuide(st, HandleAfAborted(st, time))
  {
  }

  lemma MountStateKeepsGuide(st: ParserState, time: real, state: string)
    ensures KeepsGuide(st, HandleMountState(st, time, state))
  {
  }

  lemma SchedulerStartKeepsGuide(st: ParserState, time: real, state: string)
    ensures KeepsGuide(st, HandleSchedulerStart(st, time, state))
  {
  }

  lemma SchedulerEndKeepsGuide(st: ParserState, time: real, state: string, reason: string)
    ensures KeepsGuide(st, HandleSchedulerEnd(st, time, state, reason))
  {
  }

  lemma AlignStateKeepsGuide(st: ParserState, time: real, state: string)
    ensures KeepsGuide(st, HandleAlignState(st, time, state))
  {
  }

  lemma MeridianFlipKeepsGuide(st: ParserState, time: real, state: string)
    ensures KeepsGuide(st, Output(st, HandleMeridianFlip(time, state)))
  {
  }

  /** A line that is blank or a `#` comment once stripped. */
  predicate IsBlankOrComment(line: string) {
    var s := Strip(line);
    s == [] || s[0] == '#'
  }

  /** A line that is not blank or a comment but cannot be dated: it has
      fewer than two comma fields, or it is not a three-field session start
      and its second field is not a number. */
  predicate IsUndated(line: string) {
    var parts := Split(Strip(line), ',');
    |parts| < 2 || (!(parts[0] == "AnalyzeStartTime" && |parts| >= 3) && ParseReal(parts[1]).None?)
  }

  /** What the first fields of a line select: nothing, a session start,
      or a command with a parsed offset. */
  datatype LineKind =
    | Skip
    | StartLine(timeStr: string, timezone: string)
    | Timed(cmd: Command, time: real, parts: seq<string>)

  /** Strips and splits a line and reads its command word and offset. */
  function Classify(line: string): (k: LineKind)
    ensures k.Timed? ==> |k.parts| >= 2
    ensures IsBlankOrComment(line) ==> k == Skip
    ensures IsUndated(line) ==> k == Skip
    ensures k == Skip ==> IsBlankOrComment(line) || IsUndated(line)
  {
    var s := Strip(line);
    if s == [] || s[0] == '#' then Skip
    else
      var parts := Split(s, ',');
      if |parts| < 2 then Skip
      else if parts[0] == "AnalyzeStartTime" && |parts| >= 3 then
        StartLine(Strip(parts[1]), Strip(parts[2]))
      else match ParseReal(parts[1])
        case None => Skip
        case Some(time) => Timed(CommandOf(parts[0]), time, parts)
  }

  /** `_process_line`. */
  function ProcessLine(cfg: Config, st: ParserState, line: string): (r: Output)
    ensures |r.events| <= 1
    ensures IsBlankOrComment(line) ==> r == Output(st, [])
    ensures IsUndated(line) ==> r == Output(st, [])
  {
    match Classify(line)
    case Skip => Output(st, [])
    case StartLine(timeStr, timezone) => HandleSessionStart(st, timeStr, timezone)
    case Timed(cmd, time, parts) => Dispatch(cfg, st, cmd, time, parts)
  }

  /** Drives a line-at-a-time step over `lines` in order, each line seeing
      the state the previous one left, and concatenates the events. */
  function Run(step: (ParserState, string) -> Output, st: ParserState, lines: seq<string>): (r: Output)
    decreases |lines|
  {
    if |lines| == 0 then Output(st, [])
    else
      var first := step(st, lines[0]);
      var rest := Run(step, first.state, lines[1..]);
      Output(rest.state, first.events + rest.events)
  }

  /** `process_lines`. */
  function ProcessLines(cfg: Config, st: ParserState, lines: seq<string>): Output {
    Run((s, l) => ProcessLine(cfg, s, l), st, lines)
  }

  /** Running over `a + b` is running over `a`, then over `b` from where
      `a` left off. */
  lemma {:induction false} RunAppend(step: (ParserState, string) -> Output, st: ParserState,
                                     a: seq<string>, b: seq<string>)
    ensures Run(step, st, a + b) ==
              var r1 := Run(step, st, a);
              var r2 := Run(step, r1.state, b);
              Output(r2.state, r1.events + r2.events)
    decreases |a|
  {
    if |a| == 0 {
      assert a + b == b;
    } else {
      var first := step(st, a[0]);
      RunAppend(step, first.state, a[1..], b);
      assert (a + b)[1..] == a[1..] + b;
      assert (a + b)[0] == a[0];
    }
  }

  // --- Properties across lines ---

  /** Feeding the lines in two chunks gives the same state and the same
      events as feeding them at once, which is what lets the monitor feed
      the parser whatever was appended since its last read. */
  lemma ProcessLinesAppend(cfg: Config, st: ParserState, a: seq<string>, b: seq<string>)
    ensures ProcessLines(cfg, st, a + b) ==
              var r1 := ProcessLines(cfg, st, a);
              var r2 := ProcessLines(cfg, r1.state, b);
              Output(r2.state, r1.events + r2.events)
  {
    RunAppend((s, l) => ProcessLine(cfg, s, l), st, a, b);
  }

  /** Blank and comment lines leave the state and the events untouched
      wherever they appear. */
  lemma {:induction false} IgnoredLinesChangeNothing(cfg: Config, st: ParserState, lines: seq<string>)
    requires forall i :: 0 <= i < |lines| ==> IsBlankOrComment(lines[i])
    ensures ProcessLines(cfg, st, lines) == Output(st, [])
    decreases |lines|
  {
    if |lines| > 0 {
      IgnoredLinesChangeNothing(cfg, st, lines[1..]);
    }
  }

  /** The offset and state word of a line that reaches the guide-state
      handler. */
  function GuideLine(line: string): (r: Option<(real, string)>)
    ensures r.Some? ==> !IsBlankOrComment(line)
  {
    match Classify(line)
    case Timed(GuideStateCmd, time, parts) =>
      if |parts| >= 3 then Some((time, Strip(parts[2]))) else None
    case _ => None
  }

  /** Only `GuideState` lines reach the guide state machine: every other line
      leaves its fields alone and reports no guide problem. */
  lemma ProcessLineGuide(cfg: Config, st: ParserState, line: string)
    ensures GuideLine(line).Some? ==>
              ProcessLine(cfg, st, line) ==
                HandleGuideState(cfg, st, GuideLine(line).value.0, GuideLine(line).value.1)
    ensures GuideLine(line).None? ==> KeepsGuide(st, ProcessLine(cfg, st, line))
  {
    match Classify(line)
    case Timed(cmd, time, parts) =>
      if cmd == GuideStateCmd && |parts| >= 3 {
        TimedGuideLine(cfg, st, line);
      } else {
        TimedOtherLine(cfg, st, line);
      }
    case StartLine(timeStr, timezone) =>
      assert ProcessLine(cfg, st, line) == HandleSessionStart(st, timeStr, timezone);
    case Skip =>
  }

  lemma TimedGuideLine(cfg: Config, st: ParserState, line: string)
    requires Classify(line).Timed? && Classify(line).cmd == GuideStateCmd && |Classify(line).parts| >= 3
    ensures GuideLine(line).Some?
    ensures ProcessLine(cfg, st, line) ==
              HandleGuideState(cfg, st, GuideLine(line).value.0, GuideLine(line).value.1)
  {
  }

  lemma TimedOtherLine(cfg: Config, st: ParserState, line: string)
    requires Classify(line).Timed? && !(Classify(line).cmd == GuideStateCmd && |Classify(line).parts| >= 3)
    ensures GuideLine(line).None?
    ensures KeepsGuide(st, ProcessLine(cfg, st, line))
  {
  }

  /** Follows the guide-lost and recovered alerts through `events`, starting
      with `alerted` telling whether a `lost` alert is outstanding: `None`
      when a `lost` comes while one is outstanding or a `recovered` comes
      while none is, otherwise whether one is outstanding at the end. */
  function LostAlerts(events: seq<Event>, alerted: bool): Option<bool>
    decreases |events|
  {
    if |events| == 0 then Some(alerted)
    else if events[0].GuideLost? then
      if alerted then None else LostAlerts(events[1..], true)
    else if events[0].GuideRecovered? then
      if !alerted then None else LostAlerts(events[1..], false)
    else LostAlerts(events[1..], alerted)
  }

  lemma {:induction false} LostAlertsAppend(a: seq<Event>, b: seq<Event>, alerted: bool)
    ensures LostAlerts(a + b, alerted) ==
              match LostAlerts(a, alerted)
              case Some(x) => LostAlerts(b, x)
              case None => None
    decreases |a|
  {
    if |a| == 0 {
      assert a + b == b;
    } else {
      assert (a + b)[1..] == a[1..] + b;
      assert (a + b)[0] == a[0];
      if a[0].GuideLost? {
        if !alerted { LostAlertsAppend(a[1..], b, true); }
      } else if a[0].GuideRecovered? {
        if alerted { LostAlertsAppend(a[1..], b, false); }
      } else {
        LostAlertsAppend(a[1..], b, alerted);
      }
    }
  }

  lemma ProcessLineLost(cfg: Config, st: ParserState, line: string)
    requires GuideInv(st)
    ensures GuideInv(ProcessLine(cfg, st, line).state)
    ensures LostAlerts(ProcessLine(cfg, st, line).events, st.guideLostAlerted) ==
              Some(ProcessLine(cfg, st, line).state.guideLostAlerted)
  {
    ProcessLineGuide(cfg, st, line);
    if GuideLine(line).None? {
      KeptGuideLost(st, ProcessLine(cfg, st, line));
    } else {
      var (t, g) := GuideLine(line).value;
      GuideStateLost(cfg, st, t, g);
    }
  }

  /** A step that leaves the guide fields alone keeps the invariant and the
      alert count. */
  lemma KeptGuideLost(st: ParserState, r: Output)
    requires GuideInv(st) && |r.events| <= 1 && KeepsGuide(st, r)
    ensures GuideInv(r.state)
    ensures LostAlerts(r.events, st.guideLostAlerted) == Some(r.state.guideLostAlerted)
  {
    if |r.events| == 1 {
      assert !IsGuideProblem(r.events[0]);
      assert r.events[1..] == [];
    }
  }

  lemma GuideStateLost(cfg: Config, st: ParserState, time: real, state: string)
    requires GuideInv(st)
    ensures GuideInv(HandleGuideState(cfg, st, time, state).state)
    ensures LostAlerts(HandleGuideState(cfg, st, time, state).events, st.guideLostAlerted) ==
              Some(HandleGuideState(cfg, st, time, state).state.guideLostAlerted)
  {
    var r := HandleGuideState(cfg, st, time, state);
    if |r.events| == 1 {
      assert r.events[1..] == [];
    }
  }

  /** Over any run of lines from a state that keeps the guide invariant,
      `lost` and `recovered` alerts alternate: a lost episode is alerted at
      most once, and `recovered` only follows an alerted episode. */
  lemma {:induction false} LostAlertsAlternate(cfg: Config, st: ParserState, lines: seq<string>)
    requires GuideInv(st)
    ensures GuideInv(ProcessLines(cfg, st, lines).state)
    ensures LostAlerts(ProcessLines(cfg, st, lines).events, st.guideLostAlerted) ==
              Some(ProcessLines(cfg, st, lines).state.guideLostAlerted)
    decreases |lines|
  {
    if |lines| > 0 {
      var first := ProcessLine(cfg, st, lines[0]);
      ProcessLineLost(cfg, st, lines[0]);
      LostAlertsAlternate(cfg, first.state, lines[1..]);
      var rest := ProcessLines(cfg, first.state, lines[1..]);
      LostAlertsAppend(first.events, rest.events, st.guideLostAlerted);
    }
  }

  /** Follows the frequent-reacquire alerts through `events`, starting from
      the time of the previous alert: `None` when an alert comes no more
      than `window` seconds after the previous one, otherwise the time of
      the last alert. */
  function ReacquireAlerts(events: seq<Event>, window: real, last: real): Option<real>
    decreases |events|
  {
    if |events| == 0 then Some(last)
    else if events[0].FrequentReacquire? then
      if events[0].time - last > window then ReacquireAlerts(events[1..], window, events[0].time)
      else None
    else ReacquireAlerts(events[1..], window, last)
  }

  lemma {:induction false} ReacquireAlertsAppend(a: seq<Event>, b: seq<Event>, window: real, last: real)
    ensures ReacquireAlerts(a + b, window, last) ==
              match ReacquireAlerts(a, window, last)
              case Some(x) => ReacquireAlerts(b, window, x)
              case None => None
    decreases |a|
  {
    if |a| == 0 {
      assert a + b == b;
    } else {
      assert (a + b)[1..] == a[1..] + b;
      assert (a + b)[0] == a[0];
      if a[0].FrequentReacquire? {
        if a[0].time - last > window { ReacquireAlertsAppend(a[1..], b, window, a[0].time); }
      } else {
        ReacquireAlertsAppend(a[1..], b, window, last);
      }
    }
  }

  lemma ProcessLineReacquire(cfg: Config, st: ParserState, line: string)
    ensures ReacquireAlerts(ProcessLine(cfg, st, line).events, cfg.reacquireAlertWindow,
                            st.reacquireAlertedAt) ==
              Some(ProcessLine(cfg, st, line).state.reacquireAlertedAt)
  {
    ProcessLineGuide(cfg, st, line);
    var r := ProcessLine(cfg, st, line);
    if GuideLine(line).Some? {
      var (t, g) := GuideLine(line).value;
      GuideStateReacquire(cfg, st, t, g);
    } else if |r.events| == 1 {
      assert r.events[1..] == [];
      assert !IsGuideProblem(r.events[0]);
    }
  }

  lemma GuideStateReacquire(cfg: Config, st: ParserState, time: real, state: string)
    ensures ReacquireAlerts(HandleGuideState(cfg, st, time, state).events, cfg.reacquireAlertWindow,
                            st.reacquireAlertedAt) ==
              Some(HandleGuideState(cfg, st, time, state).state.reacquireAlertedAt)
  {
    var r := HandleGuideState(cfg, st, time, state);
    if |r.events| == 1 {
      assert r.events[1..] == [];
    }
  }

  /** Over any run of lines, successive frequent-reacquire alerts are more
      than a window apart, and the first is more than a window after the
      state's previous alert.  From `Reset()` that previous alert is at
      offset 0, so no alert comes before the window has elapsed. */
  lemma {:induction false} ReacquireAlertsSpaced(cfg: Config, st: ParserState, lines: seq<string>)
    ensures ReacquireAlerts(ProcessLines(cfg, st, lines).events, cfg.reacquireAlertWindow,
                            st.reacquireAlertedAt) ==
              Some(ProcessLines(cfg, st, lines).state.reacquireAlertedAt)
    decreases |lines|
  {
    if |lines| > 0 {
      var first := ProcessLine(cfg, st, lines[0]);
      ProcessLineReacquire(cfg, st, lines[0]);
      ReacquireAlertsSpaced(cfg, first.state, lines[1..]);
      var rest := ProcessLines(cfg, first.state, lines[1..]);
      ReacquireAlertsAppend(first.events, rest.events, cfg.reacquireAlertWindow, st.reacquireAlertedAt);
    }
  }

  /** A completed capture measures its duration from the `CaptureStarting`
      offset that preceded it (when that offset is not zero), and the
      pending start is consumed. */
  lemma CaptureDurationFromStart(st: ParserState, t0: real, p0: seq<string>, t: real, p: seq<string>)
    requires |p0| >= 4 && |p| >= 6 && t0 != 0.0
    ensures var r := HandleCaptureComplete(HandleCaptureStarting(st, t0, p0).state, t, p);
            r.events != [] ==> r.events[0].duration == t - t0 && r.state.captureStartedTime.None?
  {
  }

  /** An `AutofocusComplete` consumes the pending start, so a second one
      right after it reports nothing. */
  lemma AutofocusCompleteOnce(st: ParserState, t1: real, p1: seq<string>, t2: real, p2: seq<string>)
    requires |p1| >= 4 && |p2| >= 4
    ensures HandleAfComplete(HandleAfComplete(st, t1, p1).state, t2, p2).events == []
  {
  }
}

=== FILE: sorting.dfy ===
/** The two sorts the analyzer relies on: Python's `sorted()` of file
    paths (code-point lexicographic order) and `sorted(records, key=...)` by
    a real-valued key, which is stable: records with equal keys keep their
    input order.  Both are modelled as insertion sorts. */
module Sorting {

  // --- Strings in code-point order ---

  /** `a <= b` for Python strings: lexicographic on code points, a proper
      prefix coming first. */
  predicate LexLe(a: string, b: string)
    decreases |a|
  {
    |a| == 0 || (|b| > 0 && (a[0] < b[0] || (a[0] == b[0] && LexLe(a[1..], b[1..]))))
  }

  lemma {:induction false} LexLeTotal(a: string, b: string)
    ensures LexLe(a, b) || LexLe(b, a)
    decreases |a|
  {
    if |a| > 0 && |b| > 0 && a[0] == b[0] {
      LexLeTotal(a[1..], b[1..]);
    }
  }

  lemma {:induction false} LexLeTrans(a: string, b: string, c: string)
    requires LexLe(a, b) && LexLe(b, c)
    ensures LexLe(a, c)
    decreases |a|
  {
    if |a| > 0 && a[0] == b[0] && b[0] == c[0] {
      LexLeTrans(a[1..], b[1..], c[1..]);
    }
  }

  predicate SortedStrings(s: seq<string>) {
    forall i, j :: 0 <= i < j < |s| ==> LexLe(s[i], s[j])
  }

  function InsertString(x: string, s: seq<string>): (r: seq<string>)
    requires SortedStrings(s)
    ensures SortedStrings(r)
    ensures multiset(r) == multiset(s) + multiset{x}
    decreases |s|
  {
    if |s| == 0 then [x]
    else if LexLe(x, s[0]) then
      assert forall j :: 0 < j < |s| ==> LexLe(x, s[j]) by {
        forall j | 0 < j < |s| ensures LexLe(x, s[j]) {
          LexLeTrans(x, s[0], s[j]);
        }
      }
      [x] + s
    else
      LexLeTotal(x, s[0]);
      var rest := InsertString(x, s[1..]);
      assert multiset(rest) == multiset(s[1..]) + multiset{x};
      assert forall j :: 0 <= j < |rest| ==> LexLe(s[0], rest[j]) by {
        forall j | 0 <= j < |rest| ensures LexLe(s[0], rest[j]) {
          assert rest[j] in multiset(rest);
          if rest[j] != x {
            assert rest[j] in multiset(s[1..]);
            var k :| 0 <= k < |s[1..]| && s[1..][k] == rest[j];
            assert s[k + 1] == rest[j];
          }
        }
      }
      assert s == [s[0]] + s[1..];
      [s[0]] + rest
  }

  /** `sorted(paths)`: the same strings, in code-point order. */
  function SortStrings(s: seq<string>): (r: seq<string>)
    ensures SortedStrings(r)
    ensures multiset(r) == multiset(s)
    decreases |s|
  {
    if |s| == 0 then []
    else
      assert s == [s[0]] + s[1..];
      InsertString(s[0], SortStrings(s[1..]))
  }

  // --- Stable sort by a real key ---

  predicate SortedBy<T>(s: seq<T>, key: T -> real) {
    forall i, j :: 0 <= i < j < |s| ==> key(s[i]) <= key(s[j])
  }

  /** The elements of `s` whose key is `k`, in order. */
  function WithKey<T>(s: seq<T>, key: T -> real, k: real): (r: seq<T>)
    decreases |s|
  {
    if |s| == 0 then []
    else if key(s[0]) == k then [s[0]] + WithKey(s[1..], key, k)
    else WithKey(s[1..], key, k)
  }

  /** Inserts `x` before the first element whose key is at least its own. */
  function InsertBy<T>(x: T, s: seq<T>, key: T -> real): (r: seq<T>)
    requires SortedBy(s, key)
    ensures SortedBy(r, key)
    ensures multiset(r) == multiset(s) + multiset{x}
    decreases |s|
  {
    if |s| == 0 then [x]
    else if key(x) <= key(s[0]) then [x] + s
    else
      var rest := InsertBy(x, s[1..], key);
      assert forall j :: 0 <= j < |rest| ==> key(s[0]) <= key(rest[j]) by {
        forall j | 0 <= j < |rest| ensures key(s[0]) <= key(rest[j]) {
          assert rest[j] in multiset(rest);
          if rest[j] != x {
            assert rest[j] in multiset(s[1..]);
            var k :| 0 <= k < |s[1..]| && s[1..][k] == rest[j];
            assert s[k + 1] == rest[j];
          }
        }
      }
      assert s == [s[0]] + s[1..];
      [s[0]] + rest
  }

  /** `sorted(s, key=key)`: a permutation of `s`, ordered by key. */
  function SortBy<T>(s: seq<T>, key: T -> real): (r: seq<T>)
    ensures SortedBy(r, key)
    ensures multiset(r) == multiset(s)
    decreases |s|
  {
    if |s| == 0 then []
    else
      assert s == [s[0]] + s[1..];
      InsertBy(s[0], SortBy(s[1..], key), key)
  }

  lemma {:induction false} InsertByWithKey<T>(x: T, s: seq<T>, key: T -> real, k: real)
    requires SortedBy(s, key)
    ensures WithKey(InsertBy(x, s, key), key, k) ==
              (if key(x) == k then [x] + WithKey(s, key, k) else WithKey(s, key, k))
    decreases |s|
  {
    if |s| > 0 && key(x) > key(s[0]) {
      InsertByWithKey(x, s[1..], key, k);
      var rest := InsertBy(x, s[1..], key);
      assert ([s[0]] + rest)[1..] == rest;
      if key(x) == k {
        assert key(s[0]) != k;
      }
    }
  }

  /** The sort is stable: for every key value, the elements with that key
      appear in the result in the same order as in the input. */
  lemma {:induction false} SortByStable<T>(s: seq<T>, key: T -> real, k: real)
    ensures WithKey(SortBy(s, key), key, k) == WithKey(s, key, k)
    decreases |s|
  {
    if |s| > 0 {
      SortByStable(s[1..], key, k);
      InsertByWithKey(s[0], SortBy(s[1..], key), key, k);
    }
  }
}

=== FILE: stats.dfy ===
/** Sums, extrema and averages over sequences of readings, as the analyzer
    computes them with Python's `sum`, `min`, `max` and `len`. */
module Stats {

  function Sum(xs: seq<real>): real
    decreases |xs|
  {
    if |xs| == 0 then 0.0 else xs[0] + Sum(xs[1..])
  }

  function SumNat(xs: seq<nat>): nat
    decreases |xs|
  {
    if |xs| == 0 then 0 else xs[0] + SumNat(xs[1..])
  }

  /** `max(xs)`: the largest element of a non-empty sequence. */
  function Max(xs: seq<real>): (m: real)
    requires |xs| > 0
    ensures m in xs
    ensures forall i :: 0 <= i < |xs| ==> xs[i] <= m
    decreases |xs|
  {
    if |xs| == 1 then xs[0]
    else
      var m := Max(xs[1..]);
      assert m in xs by { assert m in xs[1..]; }
      if xs[0] >= m then xs[0] else m
  }

  /** `min(xs)`: the smallest element of a non-empty sequence. */
  function Min(xs: seq<real>): (m: real)
    requires |xs| > 0
    ensures m in xs
    ensures forall i :: 0 <= i < |xs| ==> m <= xs[i]
    decreases |xs|
  {
    if |xs| == 1 then xs[0]
    else
      var m := Min(xs[1..]);
      assert m in xs by { assert m in xs[1..]; }
      if xs[0] <= m then xs[0] else m
  }

  /** `sum(xs) / len(xs)` for a non-empty sequence. */
  function Mean(xs: seq<real>): real
    requires |xs| > 0
  {
    Sum(xs) / |xs| as real
  }

  /** `m` is the smallest of `xs`: one of them, and no larger than any. */
  predicate IsMin(m: real, xs: seq<real>) {
    m in xs && forall i :: 0 <= i < |xs| ==> m <= xs[i]
  }

  /** `m` is the largest of `xs`: one of them, and no smaller than any. */
  predicate IsMax(m: real, xs: seq<real>) {
    m in xs && forall i :: 0 <= i < |xs| ==> xs[i] <= m
  }

  /** `a` is the mean of the non-empty `xs`: `a` times their count is
      their sum. */
  predicate IsMean(a: real, xs: seq<real>) {
    |xs| > 0 && a * |xs| as real == Sum(xs)
  }

  /** `a` is the mean of `xs`, or 0 when there are none (the analyzer's
      `sum(xs) / len(xs) if xs else 0`). */
  predicate IsMeanOr0(a: real, xs: seq<real>) {
    (|xs| == 0 && a == 0.0) || IsMean(a, xs)
  }

  /** `x / d` for a positive `d`: the quotient that gives back `x`. */
  function Ratio(x: real, d: real): (q: real)
    requires d > 0.0
    ensures q * d == x
  {
    x / d
  }

  /** The mean times the count is the sum. */
  lemma MeanTimesCount(xs: seq<real>)
    requires |xs| > 0
    ensures IsMean(Mean(xs), xs)
  {
    var n := |xs| as real;
    assert Mean(xs) * n == Sum(xs) by {
      assert Mean(xs) == Sum(xs) / n;
    }
  }

  lemma {:induction false} SumAppend(xs: seq<real>, ys: seq<real>)
    ensures Sum(xs + ys) == Sum(xs) + Sum(ys)
    decreases |xs|
  {
    if |xs| == 0 {
      assert xs + ys == ys;
    } else {
      SumAppend(xs[1..], ys);
      assert (xs + ys)[1..] == xs[1..] + ys;
    }
  }

  lemma {:induction false} SumNatAppend(xs: seq<nat>, ys: seq<nat>)
    ensures SumNat(xs + ys) == SumNat(xs) + SumNat(ys)
    decreases |xs|
  {
    if |xs| == 0 {
      assert xs + ys == ys;
    } else {
      SumNatAppend(xs[1..], ys);
      assert (xs + ys)[1..] == xs[1..] + ys;
    }
  }

  /** Every element bounded by `lo` and `hi` bounds the sum by `n*lo` and `n*hi`. */
  lemma {:induction false} SumBetween(xs: seq<real>, lo: real, hi: real)
    requires forall i :: 0 <= i < |xs| ==> lo <= xs[i] <= hi
    ensures |xs| as real * lo <= Sum(xs) <= |xs| as real * hi
    decreases |xs|
  {
    if |xs| > 0 {
      SumBetween(xs[1..], lo, hi);
      assert lo <= xs[0] <= hi;
    }
  }

  lemma DivBetween(a: real, n: real, lo: real, hi: real)
    requires n > 0.0 && n * lo <= a <= n * hi
    ensures lo <= a / n <= hi
  {
    var q := a / n;
    assert a == q * n;
    assert (q - lo) * n >= 0.0;
    assert (hi - q) * n >= 0.0;
  }

  /** Bounds on every element are bounds on the mean. */
  lemma MeanBetween(xs: seq<real>, lo: real, hi: real)
    requires |xs| > 0
    requires forall i :: 0 <= i < |xs| ==> lo <= xs[i] <= hi
    ensures lo <= Mean(xs) <= hi
  {
    SumBetween(xs, lo, hi);
    DivBetween(Sum(xs), |xs| as real, lo, hi);
  }

  /** The mean of a non-empty sequence lies between its minimum and maximum. */
  lemma MeanBetweenMinMax(xs: seq<real>)
    requires |xs| > 0
    ensures Min(xs) <= Mean(xs) <= Max(xs)
  {
    var lo, hi := Min(xs), Max(xs);
    MeanBetween(xs, lo, hi);
  }
}

=== FILE: text.dfy ===
/** The string operations the analyzer applies to log lines: whitespace
    stripping, splitting on a separator character, joining, prefix and
    substring tests, and the "text after the last occurrence" idiom
    `s.split(pat)[-1]`.  Strings are sequences of characters; the
    whitespace class is the ASCII part of Python's `str.isspace`, which is
    what `str.strip` removes from an ASCII line. */
module Text {
  import opened Options

  /** The ASCII whitespace of Python's `str.isspace`: tab to carriage
      return, and the four information separators up to the space. */
  predicate IsSpace(c: char) {
    ('\t' <= c <= '\r') || ('\U{001C}' <= c <= ' ')
  }

  predicate IsDigit(c: char) {
    '0' <= c <= '9'
  }

  predicate IsBlank(s: string) {
    forall i :: 0 <= i < |s| ==> IsSpace(s[i])
  }

  /** `s.lstrip()`: the suffix of `s` left after dropping leading whitespace. */
  function StripLeft(s: string): (r: string)
    ensures |r| <= |s| && r == s[|s| - |r|..]
    ensures IsBlank(s[..|s| - |r|])
    ensures r == [] || !IsSpace(r[0])
    decreases |s|
  {
    if |s| > 0 && IsSpace(s[0]) then
      var r := StripLeft(s[1..]);
      assert s[1..][..|s[1..]| - |r|] == s[1..|s| - |r|];
      r
    else s
  }

  /** `s.rstrip()`: the prefix of `s` left after dropping trailing whitespace. */
  function StripRight(s: string): (r: string)
    ensures |r| <= |s| && r == s[..|r|]
    ensures IsBlank(s[|r|..])
    ensures r == [] || !IsSpace(r[|r| - 1])
    decreases |s|
  {
    if |s| > 0 && IsSpace(s[|s| - 1]) then
      var r := StripRight(s[..|s| - 1]);
      assert s[|r|..] == s[..|s| - 1][|r|..] + [s[|s| - 1]];
      r
    else s
  }

  /** `s.strip()`: the slice of `s` between its leading and trailing whitespace. */
  function Strip(s: string): (r: string)
    ensures Contains(s, r)
    ensures r == [] || (!IsSpace(r[0]) && !IsSpace(r[|r| - 1]))
    ensures r == [] <==> IsBlank(s)
  {
    var l := StripLeft(s);
    var r := StripRight(l);
    assert r == s[|s| - |l|..|s| - |l| + |r|];
    assert OccursAt(s, r, |s| - |l|);
    if r == [] then
      assert l[|r|..] == l;
      assert IsBlank(l);
      assert s[..|s| - |l|] == s;
      r
    else
      assert !IsBlank(s) by {
        assert l[0] == s[|s| - |l|];
      }
      r
  }

  /** What `strip` drops is whitespace on both sides: `s` is a blank
      prefix, the stripped text, and a blank suffix. */
  lemma StripTrims(s: string)
    ensures var r, i := Strip(s), |s| - |StripLeft(s)|;
            && i + |r| <= |s| && r == s[i..i + |r|]
            && IsBlank(s[..i]) && IsBlank(s[i + |r|..])
  {
    var l := StripLeft(s);
    var r := StripRight(l);
    var i := |s| - |l|;
    assert Strip(s) == r;
    assert r == s[i..i + |r|] by {
      SlicesOfSuffix(s, i, |r|);
    }
    assert IsBlank(s[i + |r|..]) by {
      SlicesOfSuffix(s, i, |r|);
    }
  }

  /** Slices of the suffix `s[i..]` are slices of `s`. */
  lemma SlicesOfSuffix<T>(s: seq<T>, i: nat, k: nat)
    requires i + k <= |s|
    ensures s[i..][..k] == s[i..i + k] && s[i..][k..] == s[i + k..]
  {
  }

  predicate StartsWith(s: string, prefix: string) {
    |prefix| <= |s| && s[..|prefix|] == prefix
  }

  /** `pat` occurs in `s` at index `i`. */
  predicate OccursAt(s: string, pat: string, i: int) {
    0 <= i && i + |pat| <= |s| && s[i..i + |pat|] == pat
  }

  /** Python's `pat in s`. */
  predicate Contains(s: string, pat: string) {
    exists i :: 0 <= i <= |s| - |pat| && OccursAt(s, pat, i)
  }

  /** The last index at or below `hi` where `pat` occurs in `s`, if any. */
  function LastIndexFrom(s: string, pat: string, hi: int): (r: Option<nat>)
    ensures r.Some? ==> r.value <= hi && OccursAt(s, pat, r.value)
    ensures r.Some? ==> forall j :: r.value < j <= hi ==> !OccursAt(s, pat, j)
    ensures r.None? ==> forall j :: j <= hi ==> !OccursAt(s, pat, j)
    decreases hi + 1
  {
    if hi < 0 then None
    else if OccursAt(s, pat, hi) then Some(hi)
    else LastIndexFrom(s, pat, hi - 1)
  }

  /** The last index where `pat` occurs in `s`, if any. */
  function LastIndexOf(s: string, pat: string): (r: Option<nat>)
    ensures r.Some? ==> OccursAt(s, pat, r.value)
    ensures r.Some? ==> forall j :: r.value < j ==> !OccursAt(s, pat, j)
    ensures r.None? <==> !Contains(s, pat)
  {
    LastIndexFrom(s, pat, |s| - |pat|)
  }

  /** `s.split(pat)[-1]` for a separator that cannot overlap itself: the
      text after the last occurrence of `pat`, or all of `s` when `pat`
      does not occur. */
  function AfterLast(s: string, pat: string): (r: string)
    ensures |r| <= |s| && r == s[|s| - |r|..]
    ensures Contains(s, pat) ==> |pat| <= |s| - |r| && OccursAt(s, pat, |s| - |r| - |pat|)
    ensures Contains(s, pat) ==> forall j :: |s| - |r| - |pat| < j ==> !OccursAt(s, pat, j)
    ensures !Contains(s, pat) ==> r == s
  {
    match LastIndexOf(s, pat)
    case Some(i) => s[i + |pat|..]
    case None => s
  }

  /** Containment is transitive. */
  lemma ContainsTrans(s: string, t: string, u: string)
    requires Contains(s, t) && Contains(t, u)
    ensures Contains(s, u)
  {
    var i :| 0 <= i <= |s| - |t| && OccursAt(s, t, i);
    var j :| 0 <= j <= |t| - |u| && OccursAt(t, u, j);
    assert forall k :: 0 <= k < |u| ==> s[i + j + k] == t[j + k] == u[k];
    assert s[i + j..i + j + |u|] == u;
    assert OccursAt(s, u, i + j);
  }

  /** A suffix of `s` occurs in `s`. */
  lemma SuffixContained(s: string, t: string)
    requires |t| <= |s| && t == s[|s| - |t|..]
    ensures Contains(s, t)
  {
    assert OccursAt(s, t, |s| - |t|);
  }

  /** Python's `sep.join(parts)` for a one-character separator. */
  function Join(parts: seq<string>, sep: char): string
  {
    if |parts| == 0 then ""
    else if |parts| == 1 then parts[0]
    else parts[0] + [sep] + Join(parts[1..], sep)
  }

  /** Every character of a join is the separator or comes from a piece. */
  lemma {:induction false} JoinChars(parts: seq<string>, sep: char, c: char)
    requires c in Join(parts, sep)
    ensures c == sep || exists i :: 0 <= i < |parts| && c in parts[i]
    decreases |parts|
  {
    if |parts| > 1 {
      var rest := Join(parts[1..], sep);
      assert Join(parts, sep) == parts[0] + [sep] + rest;
      if c in rest {
        JoinChars(parts[1..], sep, c);
        if c != sep {
          var i :| 0 <= i < |parts[1..]| && c in parts[1..][i];
          assert parts[i + 1] == parts[1..][i];
        }
      } else if c in parts[0] {
        assert 0 <= 0 < |parts| && c in parts[0];
      }
    } else if |parts| == 1 {
      assert c in parts[0];
    }
  }

  /** Python's `s.split(sep)` for a one-character separator: the maximal
      pieces of `s` between occurrences of `sep`, empty pieces included. */
  function Split(s: string, sep: char): (r: seq<string>)
    ensures |r| >= 1
    ensures forall i :: 0 <= i < |r| ==> sep !in r[i]
    decreases |s|
  {
    if |s| == 0 then [""]
    else if s[0] == sep then [""] + Split(s[1..], sep)
    else
      var rest := Split(s[1..], sep);
      [[s[0]] + rest[0]] + rest[1..]
  }

  /** Splitting and joining again gives back the original string. */
  lemma {:induction false} JoinSplit(s: string, sep: char)
    ensures Join(Split(s, sep), sep) == s
    decreases |s|
  {
    if |s| == 0 {
    } else if s[0] == sep {
      JoinSplit(s[1..], sep);
      var rest := Split(s[1..], sep);
      assert Split(s, sep) == [""] + rest;
      assert Join([""] + rest, sep) == "" + [sep] + Join(rest, sep);
      assert s == [s[0]] + s[1..];
    } else {
      JoinSplit(s[1..], sep);
      var rest := Split(s[1..], sep);
      var r := Split(s, sep);
      assert r == [[s[0]] + rest[0]] + rest[1..];
      if |rest| == 1 {
        assert Join(r, sep) == [s[0]] + rest[0];
      } else {
        assert r[1..] == rest[1..];
        assert Join(r, sep) == [s[0]] + rest[0] + [sep] + Join(rest[1..], sep);
        assert Join(rest, sep) == rest[0] + [sep] + Join(rest[1..], sep);
      }
      assert s == [s[0]] + s[1..];
    }
  }

  /** Joining pieces that do not contain the separator and splitting again
      gives back the pieces. */
  lemma {:induction false} SplitJoin(parts: seq<string>, sep: char)
    requires |parts| >= 1
    requires forall i :: 0 <= i < |parts| ==> sep !in parts[i]
    ensures Split(Join(parts, sep), sep) == parts
    decreases |parts|, |parts[0]|
  {
    var p := parts[0];
    if |p| == 0 {
      if |parts| == 1 {
      } else {
        var j := Join(parts, sep);
        assert j == [sep] + Join(parts[1..], sep);
        assert j[1..] == Join(parts[1..], sep);
        SplitJoin(parts[1..], sep);
        assert parts == [""] + parts[1..];
      }
    } else {
      var parts' := [p[1..]] + parts[1..];
      assert p[1..] == parts'[0];
      forall i | 0 <= i < |parts'| ensures sep !in parts'[i] {
        if i == 0 {
          assert forall k :: 0 <= k < |p[1..]| ==> p[1..][k] == p[k + 1];
        } else {
          assert parts'[i] == parts[i];
        }
      }
      SplitJoin(parts', sep);
      var j := Join(parts, sep);
      var j' := Join(parts', sep);
      if |parts| == 1 {
        assert j == p && j' == p[1..];
      } else {
        assert parts'[1..] == parts[1..];
        assert j == p + [sep] + Join(parts[1..], sep);
        assert j' == p[1..] + [sep] + Join(parts[1..], sep);
      }
      assert j[0] == p[0] && j[1..] == j';
      assert p[0] != sep by { assert p[0] == parts[0][0]; }
      var rest := Split(j', sep);
      assert Split(j, sep) == [[p[0]] + rest[0]] + rest[1..];
      assert [p[0]] + p[1..] == p;
      assert parts == [p] + parts'[1..];
    }
  }

  /** A string without the separator is a single piece. */
  lemma {:induction false} SplitWithoutSep(s: string, sep: char)
    requires sep !in s
    ensures Split(s, sep) == [s]
    decreases |s|
  {
    if |s| > 0 {
      assert sep !in s[1..] by { assert forall k :: 0 <= k < |s[1..]| ==> s[1..][k] == s[k + 1]; }
      SplitWithoutSep(s[1..], sep);
      assert [s[0]] + s[1..] == s;
    }
  }

  /** Splitting at a separator occurrence splits the two sides apart. */
  lemma {:induction false} SplitAtSep(a: string, b: string, sep: char)
    ensures Split(a + [sep] + b, sep) == Split(a, sep) + Split(b, sep)
    decreases |a|
  {
    var s := a + [sep] + b;
    if |a| == 0 {
      assert s == [sep] + b && s[1..] == b;
    } else {
      assert s[0] == a[0] && s[1..] == a[1..] + [sep] + b;
      SplitAtSep(a[1..], b, sep);
    }
  }

  /** Python's `s.replace(a, b)` for single characters. */
  function ReplaceChar(s: string, a: char, b: char): (r: string)
    ensures |r| == |s|
    ensures forall i :: 0 <= i < |s| ==> r[i] == (if s[i] == a then b else s[i])
  {
    seq(|s|, i requires 0 <= i < |s| => if s[i] == a then b else s[i])
  }

  /** The first whitespace-delimited token of `s.split()`, or `None` when
      `s` has no non-blank character (the source's `IndexError`). */
  function FirstToken(s: string): (r: Option<string>)
    ensures r.None? <==> IsBlank(s)
    ensures r.Some? ==> |r.value| > 0 && (forall i :: 0 <= i < |r.value| ==> !IsSpace(r.value[i]))
    ensures r.Some? ==> Contains(s, r.value)
    ensures r.Some? ==>
              var i := |s| - |StripLeft(s)|;
              IsBlank(s[..i]) && OccursAt(s, r.value, i) &&
              (i + |r.value| == |s| || IsSpace(s[i + |r.value|]))
  {
    var t := StripLeft(s);
    if t == [] then None
    else
      var w := TakeNonSpace(t);
      var i := |s| - |t|;
      assert s[i..i + |w|] == w;
      assert OccursAt(s, w, i);
      Some(w)
  }

  function TakeNonSpace(s: string): (r: string)
    ensures |r| <= |s| && r == s[..|r|]
    ensures forall i :: 0 <= i < |r| ==> !IsSpace(r[i])
    ensures |r| < |s| ==> IsSpace(s[|r|])
    decreases |s|
  {
    if |s| == 0 || IsSpace(s[0]) then ""
    else [s[0]] + TakeNonSpace(s[1..])
  }

  /** The longest prefix of `s` whose characters all satisfy `p`. */
  function TakeWhile(s: string, p: char -> bool): (r: string)
    ensures |r| <= |s| && r == s[..|r|]
    ensures forall i :: 0 <= i < |r| ==> p(r[i])
    ensures |r| < |s| ==> !p(s[|r|])
    decreases |s|
  {
    if |s| == 0 || !p(s[0]) then ""
    else [s[0]] + TakeWhile(s[1..], p)
  }
}
